=== FILE: README.md ===
# La Posada accommodation backend, in Dafny

This project models the PHP backend of La Posada, an accommodation catalogue with user
bookmarks and an admin area. It also models two pieces of its Next.js frontend: amenity
normalisation and the form handling of the admin "create accommodation" action. Every
layer is a pure function over immutable data:

- **Requests and replies** (`Http`, `PhpValues`, `PhpText`). A request is a record of
  method, URI, headers, query and decoded body. PHP arrays are ordered key/value lists.
  The PHP built-ins the code leans on are written out: `trim`, `empty`, truthiness, the
  casts, loose comparison against a word, `strtoupper` and `strpos`.
- **Dispatch** (`Routing`, `App`). The router normalises the request path. It finds a
  route by exact key first, then by `{name}` pattern in registration order. It runs the
  global middleware, then the route's named middleware, and the first non-null result
  wins. It turns a handler's result or exception into a status and a body. `App` is
  `index.php`: the development CORS configuration as the one global middleware, the
  `auth`/`admin`/`user` middleware names, and the route table.
- **Authentication and CORS** (`AuthMiddleware`, `Cors`). The middleware reads the
  bearer token from the header or the `token` query parameter. It refuses with one of
  three 401s and publishes the stored user's identity. It also models the role gates.
  `Cors` covers the preflight short-circuit, the origin check, the headers a response
  gets, and the de-duplicating configuration lists.
- **Entities** (`UserRoles`, `Users`, `Accommodations`, `Passwords`). These are the
  field validators, construction, partial update, the amenity list without repeats,
  and the five accumulating password-strength rules.
- **Factories** (`UserFactories`, `AccommodationFactories`). These cover the role-specific
  constructors, the fail-fast plain-password check, the amenity presets and categories,
  and the validation and reading of database rows.
- **Services over a store** (`Store`, `Tables`, `AccommodationServices`, `UserServices`,
  `AuthServices`). The two repositories are tables with unique keys, plus a set of
  (user, accommodation) bookmark pairs. Every service operation is a state transition
  that reports its ordered error conditions.
- **Controllers** (`AuthControllers`, `UserControllers`, `AccommodationControllers`).
  These cover input validation, bearer parsing, and the mapping from exceptions to
  400/401/403/404/500 replies.
- **Frontend** (`AmenityHelpers`, `JsText`, `AdminActions`). `normalizeAmenities` and
  `hasAmenities` are modelled over JavaScript values. The admin action is modelled
  from its cookie check up to the request it would send.

What the code calls but does not implement is passed in as a parameter:

- `Builtins` carries the `filter_var` e-mail and URL checks, `is_numeric` and the
  numeric casts of strings, `json_decode`, and `new DateTime`.
- `Bcrypt` carries `password_hash`/`password_verify`.
- `Jwt` carries the token codec.
- The clock is a number `now`.
- `$GLOBALS['authenticated_user']` is an explicit identity value threaded through the
  middleware and the handlers.

Contracts about hashing and tokens assume only what those libraries guarantee, stated
as `Platform.BcryptSound` and `Platform.JwtSound`. Bcrypt is trusted only at the costs
it accepts, 4 to 31; at any other cost `password_hash` raises a `ValueError`, and the
model returns that error. A token is trusted to decode only from its `iat` until
before its `exp`.

Two behaviours of the code as written stand out:

- No route is registered for `OPTIONS`, and the router answers 404 before any middleware
  runs. A CORS preflight therefore never reaches the CORS middleware's short-circuit
  (`App.PreflightNotFound`).
- The admin form accepts a price of 0 (`AdminActions.ZeroPricePasses`). The server's
  create endpoint reads `"0"` as a missing field
  (`AccommodationControllers.ZeroPriceIsMissing`).

## Model

| member | source | states |
|---|---|---|
| UserRoles.AllRoles | backend/src/Shared/Enums/UserRole.php:18-21 | the role values are exactly `user` and `admin`, in declaration order |
| UserRoles.IsValidExactly | backend/src/Shared/Enums/UserRole.php:29-32 | a text is a valid role exactly when it is `user` or `admin` (strict comparison, no case folding) |
| UserRoles.From | backend/src/Shared/Enums/UserRole.php:8-11 | `UserRole::from`: succeeds exactly on valid role texts, and the role it returns has that text as its value |
| UserRoles.FromValue | backend/src/Shared/Enums/UserRole.php:8-11 | reading a role's own value back gives the same role (round trip) |
| UserRoles.Default | backend/src/Shared/Enums/UserRole.php:39-42 | the default role for new users is `user` |
| UserRoles.ExactlyOneKind | backend/src/Shared/Enums/UserRole.php:49-62 | every role is exactly one of admin and user, and admin is the role whose value is `admin` |
| Users.GoodUsernameNotBlank | backend/src/UserManagement/Entities/User.php:179-196 | a username that passes every check is not blank, so the first check is implied by the pattern check |
| Users.ValidateUsername | backend/src/UserManagement/Entities/User.php:179-196 | passes exactly for 3 to 50 letters, digits, `_` and `-`, optionally followed by one line feed that PCRE's `$` lets through; blank, too short and too long are reported with their own messages, in that order |
| Users.TrailingLineFeedAccepted | backend/src/UserManagement/Entities/User.php:193 | the pattern `^[a-zA-Z0-9_-]+$` without the `D` modifier accepts `abc` followed by one line feed, but not two line feeds or a line feed inside the name |
| Users.TrimmedGoodUsername | backend/src/Authentication/Controllers/AuthController.php:416-422 | a name that passes the check and is its own trim holds only letters, digits, `_` and `-`, so the registration endpoint never lets the line feed through |
| Users.ValidateEmail | backend/src/UserManagement/Entities/User.php:198-211 | passes exactly for a non-blank address `filter_var` accepts of at most 100 bytes; each failure carries its own message |
| Users.ValidatePasswordHash | backend/src/UserManagement/Entities/User.php:213-222 | passes exactly for a non-blank hash of at least 60 bytes, with the two failure messages |
| Users.LongHashAccepted | backend/src/UserManagement/Entities/User.php:213-222 | any hash of 60 or more non-space bytes (every bcrypt hash) is accepted |
| Users.New | backend/src/UserManagement/Entities/User.php:33-53 | the constructor succeeds exactly when all three checks pass, then holds its arguments unchanged and is valid; the username error wins over the email error |
| Users.Create | backend/src/UserManagement/Entities/User.php:64-83 | `create` gives id 0, both timestamps `now`, the given role or `user`, and fails exactly when the constructor would |
| Users.UpdateInfo | backend/src/UserManagement/Entities/User.php:138-151 | completes exactly when each given field passes its check; then sets the given fields and the timestamp and nothing else; a bad username throws before anything changes |
| Users.UpdatePassword | backend/src/UserManagement/Entities/User.php:159-164 | succeeds exactly for a hash that passes the check, changing only the hash and the timestamp; otherwise reports the check's message |
| Users.ChangeRole | backend/src/UserManagement/Entities/User.php:172-176 | sets the role and the timestamp, and undoing those two fields gives back the old user |
| Users.MutatorsPreserveValid | backend/src/UserManagement/Entities/User.php:138-176 | every mutator of a valid user that completes leaves a valid user |
| Users.ToArray | backend/src/UserManagement/Entities/User.php:230-246 | the array has a `password_hash` key exactly when asked for |
| Users.ToArrayPublic | backend/src/UserManagement/Entities/User.php:230-246 | id, username, email and role value are always in the array, whether or not the hash is included |
| Accommodations.CheckText | backend/src/AccommodationManagement/Entities/Accommodation.php:256-310 | the shared shape of the text checks: passes exactly when the text is not blank and its byte length is within the bounds; blank, too short and too long are reported in that order |
| Accommodations.ValidateTitle | backend/src/AccommodationManagement/Entities/Accommodation.php:256-269 | a title passes exactly when it is not blank and has 3 to 200 bytes |
| Accommodations.ValidateDescription | backend/src/AccommodationManagement/Entities/Accommodation.php:271-284 | a description passes exactly when it is not blank and has 10 to 2000 bytes |
| Accommodations.ValidatePrice | backend/src/AccommodationManagement/Entities/Accommodation.php:286-295 | a price passes exactly when it lies in [0, 999999.99]; below and above are reported with their own messages |
| Accommodations.ValidateLocation | backend/src/AccommodationManagement/Entities/Accommodation.php:297-310 | a location passes exactly when it is not blank and has 2 to 100 bytes |
| Accommodations.ValidateImageUrl | backend/src/AccommodationManagement/Entities/Accommodation.php:312-329 | no image always passes; a given one passes exactly when it is not blank, has at most 500 bytes and `filter_var` accepts it as a URL |
| Accommodations.AsTexts | backend/src/AccommodationManagement/Entities/Accommodation.php:333-336 | a list is read as texts exactly when every element is a string, element by element |
| Accommodations.Texts | backend/src/AccommodationManagement/Entities/Accommodation.php:364 | writing texts as a list and reading them back gives the same texts |
| Accommodations.TextsOfAsTexts | backend/src/AccommodationManagement/Entities/Accommodation.php:331-351 | reading a list as texts and writing it back gives the same list (the other half of the round trip) |
| Accommodations.ElementError | backend/src/AccommodationManagement/Entities/Accommodation.php:333-345 | the element loop finds nothing exactly when every element is a non-blank string of at most 100 bytes |
| Accommodations.ValidateAmenities | backend/src/AccommodationManagement/Entities/Accommodation.php:331-351 | a list passes exactly when all its elements are good strings without repeats; good elements with a repeat give the duplicates message |
| Accommodations.New | backend/src/AccommodationManagement/Entities/Accommodation.php:36-63 | the constructor succeeds exactly when all six checks pass, and then holds its arguments unchanged and is valid; a bad title is the error reported first |
| Accommodations.NewOfValid | backend/src/AccommodationManagement/Entities/Accommodation.php:36-63 | the constructor accepts every valid record given its own fields and builds that same record |
| Accommodations.Create | backend/src/AccommodationManagement/Entities/Accommodation.php:76-97 | `create` gives id 0 and both timestamps `now`, keeps the arguments, and fails exactly when the constructor would |
| Accommodations.Step | backend/src/AccommodationManagement/Entities/Accommodation.php:166-194 | one guarded assignment of `updateInfo`: a null argument is skipped, a given one is checked and then assigned or thrown, and after a throw nothing more happens |
| Accommodations.StepsDone | backend/src/AccommodationManagement/Entities/Accommodation.php:158-197 | the assignments complete exactly when every given argument passes; then they have all been applied, and after a throw the timestamp is untouched |
| Accommodations.UpdateInfo | backend/src/AccommodationManagement/Entities/Accommodation.php:158-197 | `updateInfo` completes exactly when every given argument passes its check, applies them in order and then stamps `now`; a throw leaves the old timestamp |
| Accommodations.UpdateInfoFields | backend/src/AccommodationManagement/Entities/Accommodation.php:158-197 | after a completed update each field is the given argument, or the old value when it was null; id and creation time never change |
| Accommodations.EmptyUpdateTouchesOnly | backend/src/AccommodationManagement/Entities/Accommodation.php:158-197 | an update with every argument null changes only the timestamp |
| Accommodations.UpdatePreservesValid | backend/src/AccommodationManagement/Entities/Accommodation.php:158-197 | a completed update of a valid accommodation leaves it valid |
| Accommodations.UpdateKeepsImage | backend/src/AccommodationManagement/Entities/Accommodation.php:186-189 | `updateInfo` can set an image but never remove one: a record with an image keeps one |
| Accommodations.AddAmenity | backend/src/AccommodationManagement/Entities/Accommodation.php:205-215 | fails exactly for a blank amenity; an amenity already present changes nothing, not even the timestamp; a new one is appended and stamps `now` |
| Accommodations.Search | backend/src/AccommodationManagement/Entities/Accommodation.php:225 | `array_search` with strict comparison: absent exactly when the text is not in the list, and otherwise the first position holding it |
| Accommodations.RemoveAmenity | backend/src/AccommodationManagement/Entities/Accommodation.php:223-231 | an absent amenity changes nothing; a present one is removed at its first position, the rest re-indexed in order, and the timestamp set |
| Accommodations.AddAmenityThenHas | backend/src/AccommodationManagement/Entities/Accommodation.php:205-242 | after adding a non-blank amenity, `hasAmenity` holds for it and for everything held before, and a list without repeats keeps none |
| Accommodations.RemoveAmenityThenAbsent | backend/src/AccommodationManagement/Entities/Accommodation.php:223-242 | in a list without repeats, removal makes `hasAmenity` false for that amenity only, and keeps the list free of repeats |
| Accommodations.AddThenRemove | backend/src/AccommodationManagement/Entities/Accommodation.php:205-231 | adding a new amenity and then removing it gives back the original list |
| Accommodations.AddAmenitySkipsLengthLimit | backend/src/AccommodationManagement/Entities/Accommodation.php:205-215 | `addAmenity` does not apply the 100-byte limit of the constructor, so it can make a valid accommodation invalid |
| Accommodations.LongAmenityRebuilt | backend/src/AccommodationManagement/Entities/Accommodation.php:331-350 | rebuilding a record that is valid except for one over-long amenity at the end of its list fails with "Amenity cannot exceed 100 characters" |
| Accommodations.RemoveAmenityKeepsValid | backend/src/AccommodationManagement/Entities/Accommodation.php:223-231 | removing an amenity from a valid record leaves a valid record |
| Accommodations.ToArray | backend/src/AccommodationManagement/Entities/Accommodation.php:358-371 | the array carries the id, the image URL (null when absent) and the amenities as a list of strings |
| Accommodations.ToArrays | backend/src/AccommodationManagement/Controllers/AccommodationController.php:143-145 | every accommodation as its array, in the same order |
| Platform.GenerateToken | backend/src/Shared/Security/JWTTokenManager.php:40-56 | a token issued at `now` carries the user's id, email and role, `iat = now` and `exp = now + 3600`, and decodes to exactly those claims |
| Platform.FreshTokenValid | backend/src/Shared/Security/JWTTokenManager.php:40-75 | a token is accepted at every instant of its hour and names the user it was issued for |
| Passwords.Hash | backend/src/Shared/Security/PasswordHasher.php:20-29 | fails exactly for a cost outside 4..31, with a PHP `ValueError` that no `catch (Exception)` stops; otherwise the digest verifies against the password it was made from and is a 60-byte non-blank text (so it passes the user's hash check) |
| Passwords.SetCost | backend/src/Shared/Security/PasswordHasher.php:98-104 | a cost is accepted exactly in 4..31 and then becomes the hasher's cost; otherwise the range message is thrown |
| Passwords.Broken | backend/src/Shared/Security/PasswordHasher.php:50-73 | the rules a password breaks are exactly the listed rules it does not meet, in rule order |
| Passwords.StrengthErrors | backend/src/Shared/Security/PasswordHasher.php:50-73 | one message per broken rule, in the order the checks run, so at most five |
| Passwords.StrengthValidIff | backend/src/Shared/Security/PasswordHasher.php:74-77 | `valid` is true exactly when the password has 8 or more bytes, an upper-case letter, a lower-case letter, a digit and a byte outside `[A-Za-z0-9]` |
| Passwords.MessageReportedIff | backend/src/Shared/Security/PasswordHasher.php:50-73 | a rule's message is among the errors exactly when the password breaks that rule |
| Passwords.MessageInjective | backend/src/Shared/Security/PasswordHasher.php:55-71 | no two rules share a message, so the errors name the broken rules unambiguously |
| Passwords.GenerateSecurePassword | backend/src/Shared/Security/PasswordHasher.php:83-93 | the password has the requested length (none for a negative one) and each byte is the alphabet byte the random draw picked |
| Passwords.GeneratedMayBeWeak | backend/src/Shared/Security/PasswordHasher.php:83-93 | a generated password need not pass the strength check: twelve draws of the first letter give a weak password |
| UserFactories.ValidatePlainPassword | backend/src/UserManagement/Factories/UserFactory.php:128-161 | a plain password passes exactly when it is not blank, has 8 to 255 bytes and holds an upper-case letter, a lower-case letter, a digit and a special character; otherwise the first failing rule's message, in that order |
| UserFactories.PlainAcceptedEverywhere | backend/src/UserManagement/Factories/UserFactory.php:128-161 | a password the factory accepts is also accepted by the user service's rule and by the hasher's strength check |
| UserFactories.BackslashesNotSpecial | backend/src/UserManagement/Factories/UserFactory.php:155-157 | a backslash is not one of the factory's special characters: a password whose only punctuation is backslashes has none |
| UserFactories.BackslashOnlyRefused | backend/src/UserManagement/Factories/UserFactory.php:128-161 | a password the hasher's strength check accepts can still be refused by the factory when its only non-alphanumeric characters are backslashes |
| UserFactories.BackslashIsNotSpecial | backend/src/UserManagement/Factories/UserFactory.php:155-157 | the concrete password `Abcdefg1\` passes the hasher's strength check but is refused by the factory for want of a special character |
| UserFactories.CreateUserWithRole | backend/src/UserManagement/Factories/UserFactory.php:67-77 | a refused plain password is reported before anything else; a hasher cost outside 4..31 then raises a PHP `ValueError`; creation succeeds exactly when the password, username, e-mail, the cost and the produced hash all pass, and the user then has the requested role, id 0, the given names and the hash of the password |
| UserFactories.CreateUser | backend/src/UserManagement/Factories/UserFactory.php:32-38 | a created user has the plain user role, and whether creation succeeds does not depend on the role asked for |
| UserFactories.CreateAdmin | backend/src/UserManagement/Factories/UserFactory.php:49-55 | a created user has the admin role, and whether creation succeeds does not depend on the role asked for |
| UserFactories.RefusedNeverHashed | backend/src/UserManagement/Factories/UserFactory.php:67-77 | the outcome does not depend on which bcrypt implementation is used when the plain password is refused, since hashing comes after validation; with the same bcrypt it is the same either way |
| UserFactories.CreatedPasswordVerifies | backend/src/UserManagement/Factories/UserFactory.php:67-77 | the hash stored in a created user verifies against the plain password it was made from |
| UserFactories.RoleText | backend/src/UserManagement/Factories/UserFactory.php:184-185 | the role column is read as a string when it is a scalar; null and arrays raise a PHP error (string conversion of the enum argument) |
| UserFactories.ValidateRow | backend/src/UserManagement/Factories/UserFactory.php:170-195 | a row is refused for the first missing required column, then for a non-numeric or non-positive id, then for a role column that cannot be text (a `TypeError`), then for an unknown role, then for an unreadable `created_at`, then `updated_at`, each with its own error; a row passes exactly when none of these applies |
| UserFactories.CreateFromRow | backend/src/UserManagement/Factories/UserFactory.php:86-103 | a refused row gives the validation error; a built user is valid, carries the row's positive id and the row's role |
| UserFactories.CreateFromRows | backend/src/UserManagement/Factories/UserFactory.php:112-119 | the rows build exactly when each row builds, and the users are the rows' users in order |
| UserFactories.RowComplete | backend/src/UserManagement/Factories/UserFactory.php:172-178 | a row holding a user's fields has every column the factory requires |
| UserFactories.RowAccepted | backend/src/UserManagement/Factories/UserFactory.php:170-195 | a row written from a valid saved user passes the factory's row check |
| UserFactories.RowColumns | backend/src/UserManagement/Factories/UserFactory.php:86-103 | each column of a row written from a user reads back as that user's field |
| UserFactories.RowRoundTrip | backend/src/UserManagement/Factories/UserFactory.php:86-103 | reading back the row written from a valid saved user gives that user |
| AccommodationFactories.TidyAccepted | backend/src/AccommodationManagement/Factories/AccommodationFactory.php:74-134 | distinct literal names of 2 to 100 bytes with no trimmable edge form an amenity list the entity accepts |
| AccommodationFactories.PresetsAccepted | backend/src/AccommodationManagement/Factories/AccommodationFactory.php:74-134 | the premium and budget preset lists are amenity lists the entity accepts |
| AccommodationFactories.CreateWithList | backend/src/AccommodationManagement/Factories/AccommodationFactory.php:26-42 | creation with an acceptable amenity list succeeds exactly when the other fields pass, and keeps the list as given |
| AccommodationFactories.CreateBasic | backend/src/AccommodationManagement/Factories/AccommodationFactory.php:54-61 | a basic accommodation is created exactly when the four base fields pass, with no amenities, no image and id 0 |
| AccommodationFactories.CreatePremium | backend/src/AccommodationManagement/Factories/AccommodationFactory.php:74-100 | a premium accommodation is created exactly when the base fields pass, and carries the eight premium amenities |
| AccommodationFactories.CreateBudget | backend/src/AccommodationManagement/Factories/AccommodationFactory.php:113-134 | a budget accommodation is created exactly when the base fields pass, and carries the three budget amenities |
| AccommodationFactories.CategoriesAccepted | backend/src/AccommodationManagement/Factories/AccommodationFactory.php:208-215 | every known category lists distinct amenities the entity accepts |
| AccommodationFactories.Gather | backend/src/AccommodationManagement/Factories/AccommodationFactory.php:217-222 | merging the lists of the named categories only ever yields amenities the entity accepts |
| AccommodationFactories.GatherSkipsUnknown | backend/src/AccommodationManagement/Factories/AccommodationFactory.php:218-222 | an unknown category name contributes nothing |
| AccommodationFactories.GatherAppend | backend/src/AccommodationManagement/Factories/AccommodationFactory.php:217-222 | the merge of two name lists is the merge of the first followed by the merge of the second |
| AccommodationFactories.Unique | backend/src/AccommodationManagement/Factories/AccommodationFactory.php:224-225 | removing repeats leaves distinct values, all taken from the input, none of the input's values lost, never longer |
| AccommodationFactories.UniqueOfDistinct | backend/src/AccommodationManagement/Factories/AccommodationFactory.php:224-225 | a list without repeats is left unchanged |
| AccommodationFactories.UniqueKeepsFirst | backend/src/AccommodationManagement/Factories/AccommodationFactory.php:224-225 | removing repeats keeps first occurrences in order: the result for a prefix is a prefix of the result for the whole |
| AccommodationFactories.UniqueAbsorbs | backend/src/AccommodationManagement/Factories/AccommodationFactory.php:224-225 | appending values already present changes nothing once repeats are removed |
| AccommodationFactories.CategoryAmenities | backend/src/AccommodationManagement/Factories/AccommodationFactory.php:216-225 | whatever category names are given, the merged list without repeats is one the entity accepts |
| AccommodationFactories.CreateWithCategories | backend/src/AccommodationManagement/Factories/AccommodationFactory.php:200-235 | creation from categories succeeds exactly when the base fields pass, whatever the names, and the amenities are the merged lists with repeats removed |
| AccommodationFactories.RepeatedCategoryOnce | backend/src/AccommodationManagement/Factories/AccommodationFactory.php:216-225 | naming a category twice gives its list once |
| AccommodationFactories.ValidateRow | backend/src/AccommodationManagement/Factories/AccommodationFactory.php:244-281 | a row is refused for the first missing required column, then a bad id, a bad price, an unreadable `created_at`, then `updated_at`, then amenities text that is not JSON, then non-empty amenities that are neither text nor an array, each with its own error; a row passes exactly when none of these applies |
| AccommodationFactories.RowAmenities | backend/src/AccommodationManagement/Factories/AccommodationFactory.php:147-154 | an empty amenities column reads as no amenities, an array column as its values; failures are PHP errors |
| AccommodationFactories.RowImage | backend/src/AccommodationManagement/Factories/AccommodationFactory.php:163 | the image is absent exactly when the image column is empty |
| AccommodationFactories.CreateFromRow | backend/src/AccommodationManagement/Factories/AccommodationFactory.php:143-170 | a refused row gives the validation error; a built accommodation is valid, carries the row's positive id and the row's image |
| AccommodationFactories.CreateFromRows | backend/src/AccommodationManagement/Factories/AccommodationFactory.php:179-186 | the rows build exactly when each row builds, and the accommodations are the rows' accommodations in order |
| AccommodationFactories.RowComplete | backend/src/AccommodationManagement/Factories/AccommodationFactory.php:246-252 | a row holding an accommodation's fields has every column the factory requires |
| AccommodationFactories.RowAccepted | backend/src/AccommodationManagement/Factories/AccommodationFactory.php:244-281 | a row written from a valid saved accommodation passes the factory's row check |
| AccommodationFactories.RowDates | backend/src/AccommodationManagement/Factories/AccommodationFactory.php:156-157 | the date columns of a written row read back as the accommodation's dates |
| AccommodationFactories.RowExtras | backend/src/AccommodationManagement/Factories/AccommodationFactory.php:147-163 | the amenities and image columns of a written row read back as the accommodation's |
| AccommodationFactories.RowColumns | backend/src/AccommodationManagement/Factories/AccommodationFactory.php:143-170 | the id, price and text columns of a written row read back as the accommodation's fields |
| AccommodationFactories.RowRoundTrip | backend/src/AccommodationManagement/Factories/AccommodationFactory.php:143-170 | reading back the row written from a valid saved accommodation gives that accommodation |
| Store.FindAccommodation | backend/src/AccommodationManagement/Repositories/AccommodationRepository.php:33-44 | `findById`: a found row is in the table and has the id; nothing is found exactly when no row has it |
| Store.SaveAccommodation | backend/src/AccommodationManagement/Repositories/AccommodationRepository.php:198-271 | id 0 inserts under the next auto-increment id; another id updates exactly when that row exists, keeping its stored creation time; a missing row comes back as null with nothing changed; users and bookmarks are untouched; the row returned is the one written, before `Store.ReadBack` rebuilds it |
| Store.ReadBack | backend/src/AccommodationManagement/Repositories/AccommodationRepository.php:33-44 | a stored row is read back exactly when it passes the constructor's checks (`mapToEntity`, lines 339-357), and then unchanged; otherwise the check's message is thrown |
| Store.SaveAccommodationEffect | backend/src/AccommodationManagement/Repositories/AccommodationRepository.php:198-271 | saving keeps the store's integrity, the saved row is then found under its id, every other id finds what it found before, and an insert uses an id no row had |
| Store.DeleteAccommodation | backend/src/AccommodationManagement/Repositories/AccommodationRepository.php:279-289 | reports a deletion exactly when the id existed, then the table has one row fewer; otherwise nothing changes |
| Store.DeleteAccommodationEffect | backend/src/AccommodationManagement/Repositories/AccommodationRepository.php:279-289 | after a delete the id is gone, every other id finds what it found before, and integrity holds |
| Store.SearchAccommodations | backend/src/AccommodationManagement/Repositories/AccommodationRepository.php:132-149 | `search`: exactly the rows whose title or description contains the term (`LIKE %term%`) |
| Store.AccommodationsAt | backend/src/AccommodationManagement/Repositories/AccommodationRepository.php:70-81 | `findByLocation`: exactly the rows whose location contains the text |
| Store.AccommodationsPriced | backend/src/AccommodationManagement/Repositories/AccommodationRepository.php:90-105 | `findByPriceRange`: exactly the rows whose price lies between the bounds, both included |
| Store.AccommodationsWith | backend/src/AccommodationManagement/Repositories/AccommodationRepository.php:113-124 | `findByAmenity`: exactly the rows whose amenity list holds the amenity |
| Store.AccommodationUsers | backend/src/AccommodationManagement/Repositories/AccommodationRepository.php:315-331 | exactly the users who bookmarked the accommodation |
| Store.FindUser | backend/src/UserManagement/Repositories/UserRepository.php:34-45 | `findById`: a found user is in the table with the id; nothing is found exactly when no user has it |
| Store.FindUserByEmail | backend/src/UserManagement/Repositories/UserRepository.php:72-83 | a found user has the address; nothing is found exactly when no user has it |
| Store.FindUserByUsername | backend/src/UserManagement/Repositories/UserRepository.php:53-64 | a found user has the name; nothing is found exactly when no user has it |
| Store.FindInsertedByEmail | backend/src/UserManagement/Repositories/UserRepository.php:72-165 | a user inserted under an unused address is then found by that address, with its new id |
| Store.SaveUser | backend/src/UserManagement/Repositories/UserRepository.php:128-196 | id 0 inserts under the next id; another id updates exactly when that user exists, keeping its stored creation time; accommodations and bookmarks are untouched |
| Store.SaveUserEffect | backend/src/UserManagement/Repositories/UserRepository.php:128-196 | saving keeps integrity, the saved user is found under its id, other ids are unaffected, and an insert uses a fresh id |
| Store.DeleteUser | backend/src/UserManagement/Repositories/UserRepository.php:204-214 | reports a deletion exactly when the id existed; otherwise nothing changes |
| Store.DeleteUserEffect | backend/src/UserManagement/Repositories/UserRepository.php:204-214 | after a delete the id is gone, other ids are unaffected and integrity holds |
| Store.UserAccommodations | backend/src/UserManagement/Repositories/UserRepository.php:292-308 | exactly the accommodations the user bookmarked |
| Store.AddBookmark | backend/src/UserManagement/Repositories/UserRepository.php:317-339 | the pair is in the relation afterwards; the result is false exactly when it already was (the duplicate-key case) |
| Store.RemoveBookmark | backend/src/UserManagement/Repositories/UserRepository.php:348-365 | the pair is gone afterwards; the result is true exactly when it was there |
| Store.AddThenRemoveBookmark | backend/src/UserManagement/Repositories/UserRepository.php:317-365 | adding a new bookmark and removing it restores the store |
| AccommodationServices.AmenityElementError | backend/src/AccommodationManagement/Services/AccommodationService.php:390-398 | the service's element loop finds nothing exactly when every element is a non-blank string; it reports only its two messages |
| AccommodationServices.ValidateAccommodationData | backend/src/AccommodationManagement/Services/AccommodationService.php:360-403 | passes exactly for non-blank title, description and location, a non-negative price, an image that is absent, blank or a URL, and non-blank string amenities without repeats; the first four failures carry their messages in source order |
| AccommodationServices.EntityChecksImplyServiceChecks | backend/src/AccommodationManagement/Services/AccommodationService.php:37-58 | whatever the entity's constructor accepts, the service's own validation accepts too, so on creation the entity decides |
| AccommodationServices.ServiceAcceptsShortTitle | backend/src/AccommodationManagement/Services/AccommodationService.php:37-58 | the service's validation checks no lengths: a two-byte title passes it and is refused by the entity with the entity's message |
| AccommodationServices.Paginate | backend/src/AccommodationManagement/Services/AccommodationService.php:88-99 | refuses a limit of 0 or less, then a negative offset; otherwise the window of at most `limit` rows from `offset`, full when the table is long enough |
| AccommodationServices.SearchByTerm | backend/src/AccommodationManagement/Services/AccommodationService.php:107-118 | refuses a blank term, then one shorter than 2 bytes; otherwise exactly the rows whose title or description contains it |
| AccommodationServices.ByLocation | backend/src/AccommodationManagement/Services/AccommodationService.php:126-133 | refuses exactly a blank location; otherwise exactly the rows whose location contains it |
| AccommodationServices.ByPriceRange | backend/src/AccommodationManagement/Services/AccommodationService.php:142-157 | refuses a negative minimum, a negative maximum and an inverted range, in that order; otherwise exactly the rows priced between the bounds |
| AccommodationServices.ByAmenity | backend/src/AccommodationManagement/Services/AccommodationService.php:165-172 | refuses exactly a blank amenity; otherwise exactly the rows that list it |
| AccommodationServices.UsersOf | backend/src/AccommodationManagement/Services/AccommodationService.php:255-262 | refuses exactly an unknown accommodation; otherwise exactly the users who bookmarked it |
| AccommodationServices.CreateAccommodation | backend/src/AccommodationManagement/Services/AccommodationService.php:37-58 | a service validation failure is reported as is; creation succeeds exactly when both the service and the entity accept, and the record is inserted under the next id |
| AccommodationServices.CreateThenFind | backend/src/AccommodationManagement/Services/AccommodationService.php:37-58 | a created accommodation is valid, stamped `now` twice, found under a fresh id afterwards, and no other id changes |
| AccommodationServices.UpdateAccommodation | backend/src/AccommodationManagement/Services/AccommodationService.php:188-224 | an unknown id is refused first; when something is given the merged record must pass the service's validation; success needs that and every given field passing the entity's checks |
| AccommodationServices.UpdateThenFind | backend/src/AccommodationManagement/Services/AccommodationService.php:188-224 | after an update the stored record has each given field or its old value, its id and creation time, the new timestamp, and is what the id finds; other ids are unaffected |
| AccommodationServices.EmptyUpdateOnlyStamps | backend/src/AccommodationManagement/Services/AccommodationService.php:198-215 | with nothing given the validation is skipped and only the timestamp changes |
| AccommodationServices.DeleteById | backend/src/AccommodationManagement/Services/AccommodationService.php:234-246 | refuses exactly an unknown id; otherwise one row fewer, users and bookmarks untouched |
| AccommodationServices.DeleteThenAbsent | backend/src/AccommodationManagement/Services/AccommodationService.php:234-246 | after a delete the id is gone, others are unaffected and integrity holds |
| AccommodationServices.AddAmenityTo | backend/src/AccommodationManagement/Services/AccommodationService.php:294-315 | refuses an unknown id, then a stored row the constructor refuses on read, then a blank amenity; otherwise writes the row and succeeds exactly when the new amenity was already there or fits in 100 bytes; an over-long new amenity is refused with "Amenity cannot exceed 100 characters" by the read-back after the save; a success is valid, has the amenity and keeps every old one |
| AccommodationServices.RemoveAmenityFrom | backend/src/AccommodationManagement/Services/AccommodationService.php:326-347 | refuses an unknown id, then a stored row the constructor refuses on read, then a blank amenity; otherwise succeeds, and the saved record is valid, lacks the amenity and keeps exactly the other amenities |
| AccommodationServices.AddThenRemoveThroughService | backend/src/AccommodationManagement/Services/AccommodationService.php:294-347 | from a valid stored row, adding a new amenity always writes it; when it fits in 100 bytes the add and a later removal succeed and the original list comes back; when longer, both the add and the removal are refused, because the row left behind fails the constructor on every read |
| UserServices.ValidatePassword | backend/src/UserManagement/Services/UserService.php:368-396 | passes exactly for a password of 8 to 255 bytes with an upper-case letter, a lower-case letter and a digit; `""` and `"0"` count as missing; each failure carries its message in source order |
| UserServices.StrongPasswordAccepted | backend/src/UserManagement/Services/UserService.php:368-396 | every password that passes the hasher's strength rules and has at most 255 bytes passes the service's check |
| UserServices.NoSpecialCharacterNeeded | backend/src/UserManagement/Services/UserService.php:368-396 | the service's check is weaker than the hasher's rules: `Abcdefg1` passes it without a special character |
| UserServices.ValidateRegistration | backend/src/UserManagement/Services/UserService.php:345-360 | passes exactly for a non-blank username, a non-blank address `filter_var` accepts and an acceptable password; username, email and format failures come first, in that order |
| UserServices.RegisterUser | backend/src/UserManagement/Services/UserService.php:45-73 | validation failures, then a taken username, then a taken address are refused in that order, and a hasher cost outside 4..31 then raises a PHP `ValueError`; a new user gets the next id, the given name, address and role (`user` by default) and the bcrypt digest of the password |
| UserServices.RegisteredPasswordVerifies | backend/src/UserManagement/Services/UserService.php:45-73 | the stored digest of a registered user verifies against the password given at registration |
| UserServices.RegisterUserOk | backend/src/UserManagement/Services/UserService.php:45-73 | registration with valid, unused data and a hasher cost in 4..31 succeeds, keeps integrity and the new user is found under a fresh id, others unaffected |
| UserServices.UpdateUser | backend/src/UserManagement/Services/UserService.php:129-156 | refuses an unknown id, then a username or address another user holds; succeeds exactly when those pass and the entity accepts the fields, which then hold the given or old values and the new timestamp |
| UserServices.UpdateUserKeepsNamesUnique | backend/src/UserManagement/Services/UserService.php:129-156 | after an update no other user shares the updated user's new username or address, and other users are unchanged |
| UserServices.ChangePassword | backend/src/UserManagement/Services/UserService.php:168-196 | refuses an unknown id, then a current password that does not verify, then a new password the check refuses, then a hasher cost outside 4..31 (a PHP `ValueError`); on success the new digest is stored and verifies against the new password |
| UserServices.ChangePasswordSucceeds | backend/src/UserManagement/Services/UserService.php:168-196 | with a known user, the right current password, an acceptable new one and a hasher cost in 4..31, the change succeeds |
| UserServices.DeleteUserById | backend/src/UserManagement/Services/UserService.php:323-335 | refuses exactly an unknown id; accommodations and bookmarks are untouched |
| UserServices.DeleteUserThenAbsent | backend/src/UserManagement/Services/UserService.php:323-335 | after a delete the user is gone, other users are unaffected and integrity holds |
| UserServices.BookmarksOf | backend/src/UserManagement/Services/UserService.php:205-212 | refuses exactly an unknown user; otherwise exactly the accommodations the user bookmarked |
| UserServices.AddBookmarkFor | backend/src/UserManagement/Services/UserService.php:223-247 | refuses an unknown user, an unknown accommodation and an existing bookmark in that order; otherwise adds exactly that pair |
| UserServices.RemoveBookmarkFor | backend/src/UserManagement/Services/UserService.php:258-282 | refuses an unknown user, an unknown accommodation and a missing bookmark in that order; otherwise removes exactly that pair |
| UserServices.HasBookmarkFor | backend/src/UserManagement/Services/UserService.php:292-303 | refuses an unknown user or accommodation; otherwise answers whether the pair is bookmarked |
| UserServices.BookmarkRoundTrip | backend/src/UserManagement/Services/UserService.php:223-303 | after adding a bookmark it is reported present, adding it again is refused, and removing it restores the store |
| UserServices.RemoveThenAbsent | backend/src/UserManagement/Services/UserService.php:258-303 | after removing a bookmark it is reported absent and removing it again is refused |
| AuthServices.SessionFor | backend/src/Authentication/Services/AuthenticationService.php:54-64 | the session's token decodes to the user's id, email and role with a one-hour expiry, `expires_in` is 3600, and the user array carries no password hash |
| AuthServices.Login | backend/src/Authentication/Services/AuthenticationService.php:35-65 | a blank email or password is refused first; login succeeds exactly when a user has the email and the password verifies against its digest, and then yields that user's session; every other failure is `Invalid credentials` |
| AuthServices.LoginHidesCause | backend/src/Authentication/Services/AuthenticationService.php:43-51 | an unknown email and a wrong password give the same answer, so a caller cannot tell which it was |
| AuthServices.ValidateRegistrationInput | backend/src/Authentication/Services/AuthenticationService.php:236-253 | passes exactly for non-blank username, email and password and an email `filter_var` accepts; the three missing-field messages come first, in that order |
| AuthServices.RegistrationRole | backend/src/Authentication/Services/AuthenticationService.php:94 | no role, `""` or `"0"` give the default `user`; any other text must be a valid role value, and an unknown one is a PHP `ValueError`, not an `InvalidArgumentException` |
| AuthServices.Register | backend/src/Authentication/Services/AuthenticationService.php:70-114 | input failures, a taken email, a taken username and a weak password are refused in that order, the last with the strength messages joined; then a hasher cost outside 4..31 raises the PHP `ValueError` of `password_hash`, and only after it an unknown role the `ValueError` of `UserRole::from`; registration succeeds exactly when every check passes and the username and address also pass the entity's checks; the new account is appended under the next id with the given names, role, digest and timestamps, and the session returned is the one for that account |
| AuthServices.RegisterSucceeds | backend/src/Authentication/Services/AuthenticationService.php:70-114 | with sound bcrypt and a consistent store, a registration that passes every check succeeds, keeps the store consistent, finds the new account under a fresh id, leaves every other id as it was, and returns that account's session |
| AuthServices.UnknownRoleIsAnError | backend/src/Authentication/Services/AuthenticationService.php:94 | an otherwise acceptable registration with role `root` fails with a PHP error that the controllers' `catch (Exception)` does not catch |
| AuthServices.RegisterThenLogin | backend/src/Authentication/Services/AuthenticationService.php:35-114 | a user who has just registered can log in with the same email and password |
| AuthServices.ValidateToken | backend/src/Authentication/Services/AuthenticationService.php:119-140 | a token is accepted exactly when it decodes and its subject is a stored user; the answer carries that user's current id, email, username and role and the payload |
| AuthServices.RefreshToken | backend/src/Authentication/Services/AuthenticationService.php:145-171 | a refresh succeeds exactly when validation does, and issues a new session for the token's user |
| AuthServices.LoginTokenValidates | backend/src/Authentication/Services/AuthenticationService.php:35-140 | a token returned by login validates within its hour and names the user who logged in |
| AuthServices.UserByToken | backend/src/Authentication/Services/AuthenticationService.php:258-267 | a token with a non-zero subject finds that stored user; a found user has the token's subject as id |
| AuthServices.UserHasRole | backend/src/Authentication/Services/AuthenticationService.php:272-286 | true exactly when the token decodes with a non-empty role that is `admin` or the required one |
| AuthServices.IssuedRoleDecides | backend/src/Authentication/Services/AuthenticationService.php:272-286 | for a token the server issued, an admin has every role, and a plain user only the role `user` |
| AuthServices.ChangePassword | backend/src/Authentication/Services/AuthenticationService.php:176-205 | refuses an unknown user, a wrong current password and a weak new password in that order, the last with the strength messages joined by `, `, then a hasher cost outside 4..31 with a PHP `ValueError` |
| AuthServices.ChangedPasswordVerifies | backend/src/Authentication/Services/AuthenticationService.php:176-205 | after a change the stored digest verifies against the new password |
| AuthServices.ResetPassword | backend/src/Authentication/Services/AuthenticationService.php:210-231 | refuses an unknown user, then a hasher cost outside 4..31 with a PHP `ValueError`; otherwise returns a 12-byte password drawn from the alphabet whose digest is now stored for that user |
| AuthMiddleware.BearerFrom | backend/src/Authentication/Middleware/AuthenticationMiddleware.php:137-138 | the text captured after a `Bearer` match never holds a line feed and never starts with white space, since the `\s+` before it is greedy |
| AuthMiddleware.BearerToken | backend/src/Authentication/Middleware/AuthenticationMiddleware.php:137-138 | the captured token, when the pattern matches anywhere in the header, holds no line feed |
| AuthMiddleware.BearerAtStart | backend/src/Authentication/Middleware/AuthenticationMiddleware.php:137-138 | for a header that starts with the word, the token is the rest of the first line after the white space run |
| AuthMiddleware.BearerReadsToken | backend/src/Authentication/Middleware/AuthenticationMiddleware.php:137-138 | a header made of any case-spelling of `bearer`, one space and a token without a line feed or leading white space yields that token |
| AuthMiddleware.BearerCapitalised | backend/src/Authentication/Middleware/AuthenticationMiddleware.php:137-138 | the usual `Bearer <token>` header yields the token |
| AuthMiddleware.ExtractToken | backend/src/Authentication/Middleware/AuthenticationMiddleware.php:130-143 | a non-empty Authorization header (either spelling) that matches gives its token; otherwise the `token` query parameter, or null |
| AuthMiddleware.Refusal | backend/src/Authentication/Middleware/AuthenticationMiddleware.php:31-35 | a refusal carries the status and an error body with the message |
| AuthMiddleware.Handle | backend/src/Authentication/Middleware/AuthenticationMiddleware.php:27-67 | no truthy token is a 401 "Authentication token required"; an array token is a PHP error; any other truthy token is turned into text and its examination is the outcome; an admitted identity belongs to a stored user with the same username |
| AuthMiddleware.Examine | backend/src/Authentication/Middleware/AuthenticationMiddleware.php:38-66 | a token admits exactly when it decodes and its subject is a stored user, whose fields then form the identity; otherwise a 401 naming the cause, expiry before a missing user |
| AuthMiddleware.ValidateTokenOnly | backend/src/Authentication/Middleware/AuthenticationMiddleware.php:192-213 | gives an identity exactly when the full check would admit the token, and the same identity |
| AuthMiddleware.ValidateTokenOnlyAgrees | backend/src/Authentication/Services/AuthenticationService.php:119-140 | the middleware's token-only check and the authentication service's token check accept the same tokens and report the same user |
| AuthMiddleware.IssuedTokenAdmits | backend/src/Authentication/Middleware/AuthenticationMiddleware.php:27-67 | a token issued for a stored user is admitted while it is valid, with the user's role |
| AuthMiddleware.RequireRole | backend/src/Authentication/Middleware/AuthenticationMiddleware.php:72-98 | passes exactly for an identity that is admin or has the required role; no identity is a 401, a wrong role a 403 |
| AuthMiddleware.RequireAdmin | backend/src/Authentication/Middleware/AuthenticationMiddleware.php:103-106 | passes exactly for an admin identity |
| AuthMiddleware.RequireAuth | backend/src/Authentication/Middleware/AuthenticationMiddleware.php:111-125 | passes exactly when there is an identity; otherwise a 401 |
| AuthMiddleware.HasRoleIffPasses | backend/src/Authentication/Middleware/AuthenticationMiddleware.php:156-170 | the role query on the current user agrees with the role middleware: true exactly when the middleware lets the request through |
| AuthMiddleware.AdminPassesAll | backend/src/Authentication/Middleware/AuthenticationMiddleware.php:175-178 | an admin passes every role requirement, and the admin query agrees with the admin middleware |
| AuthMiddleware.CurrentUserId | backend/src/Authentication/Middleware/AuthenticationMiddleware.php:183-187 | there is a current user id exactly when the authentication requirement passes, and it is the identity's id |
| Cors.Default | backend/src/Shared/Http/Middleware/CorsMiddleware.php:16-28 | the constructor's defaults allow any origin, send credentials and cache preflights for a day |
| Cors.ForDevelopment | backend/src/Shared/Http/Middleware/CorsMiddleware.php:103-126 | the development preset lists the local origins, not the wildcard, with credentials and an hour of caching |
| Cors.ForProduction | backend/src/Shared/Http/Middleware/CorsMiddleware.php:131-144 | the production preset allows exactly the given origins, with credentials and a day of caching |
| Cors.Strict | backend/src/Shared/Http/Middleware/CorsMiddleware.php:149-158 | the strict preset allows exactly the given origins, only GET and POST, without credentials |
| Cors.AllowOrigin | backend/src/Shared/Http/Middleware/CorsMiddleware.php:58-63 | the Allow-Origin header is sent exactly when the origin is allowed or the wildcard is configured; an allowed origin is echoed, otherwise the value is `*` |
| Cors.HeaderValueAppend | backend/src/Shared/Http/Middleware/CorsMiddleware.php:56-82 | looking up a header in two batches of sent headers finds the first batch's value first |
| Cors.OriginHeaderSent | backend/src/Shared/Http/Middleware/CorsMiddleware.php:58-63 | among all the headers sent, Allow-Origin carries the value the origin choice gives, or is absent |
| Cors.ListHeadersSent | backend/src/Shared/Http/Middleware/CorsMiddleware.php:65-69 | the methods and request headers are sent comma-separated |
| Cors.CredentialsHeaderSent | backend/src/Shared/Http/Middleware/CorsMiddleware.php:71-74 | the credentials header is sent, as `true`, exactly when credentials are allowed |
| Cors.HeadersSent | backend/src/Shared/Http/Middleware/CorsMiddleware.php:56-82 | the four negotiated headers are sent with the values the configuration decides |
| Cors.DevelopmentOrigins | backend/src/Shared/Http/Middleware/CorsMiddleware.php:87-98 | under the development preset an origin is echoed exactly when it is one of the listed local origins, and nothing is sent otherwise |
| Cors.StrictWithoutCredentials | backend/src/Shared/Http/Middleware/CorsMiddleware.php:149-158 | the strict preset never sends the credentials header |
| Cors.Handle | backend/src/Shared/Http/Middleware/CorsMiddleware.php:33-51 | the headers for the request's origin (empty when unset) are always set; the request stops with a 200 and an empty body exactly when the method is OPTIONS |
| Cors.AddOnce | backend/src/Shared/Http/Middleware/CorsMiddleware.php:163-169 | the list gains the entry exactly when it was missing, at the end, and a list without repeats keeps none |
| Cors.AddOnceIdempotent | backend/src/Shared/Http/Middleware/CorsMiddleware.php:163-169 | adding the same entry twice is adding it once |
| Cors.AddOrigin | backend/src/Shared/Http/Middleware/CorsMiddleware.php:163-169 | the origins gain the new one and nothing else, without creating a repeat; an origin already listed changes nothing; the rest of the configuration is unchanged |
| Cors.AddMethod | backend/src/Shared/Http/Middleware/CorsMiddleware.php:174-181 | the methods afterwards are exactly the old ones plus the upper-cased method, and an already listed method changes nothing; upper-case and repeat-free method lists stay so; the rest of the configuration is unchanged |
| Cors.AddHeader | backend/src/Shared/Http/Middleware/CorsMiddleware.php:186-192 | the request headers gain the new one and nothing else, without creating a repeat; a header already listed changes nothing; the rest of the configuration is unchanged |
| Cors.SetMethods | backend/src/Shared/Http/Middleware/CorsMiddleware.php:206-210 | the stored methods are the given ones upper-cased, position by position, and nothing else changes |
| Cors.AddSetMethod | backend/src/Shared/Http/Middleware/CorsMiddleware.php:174-181 | after the methods are set, adding any of them again in any case changes nothing |
| Cors.Configuration | backend/src/Shared/Http/Middleware/CorsMiddleware.php:242-251 | the configuration report carries the origins, methods, headers, credentials flag and cache lifetime |
| Routing.StripQuery | backend/src/Shared/Http/Router.php:236-239 | the path keeps what comes before the first `?`, and is unchanged when there is none |
| Routing.RequestPath | backend/src/Shared/Http/Router.php:232-263 | the normalised path never holds a `?`, and a request without a URI is routed as `/` |
| Routing.PlainPathRoutesAsItself | backend/src/Shared/Http/Router.php:232-263 | an ordinary path outside `/backend/`, with or without one trailing slash, is routed as itself |
| Routing.QueryIgnored | backend/src/Shared/Http/Router.php:236-239 | a query string does not change the route |
| Routing.IndexScriptIgnored | backend/src/Shared/Http/Router.php:241-247 | a `/backend/index.php` prefix does not change the route |
| Routing.BackendDirIgnored | backend/src/Shared/Http/Router.php:249-255 | a `/backend` directory prefix does not change the route |
| Routing.PlaceholderEnd | backend/src/Shared/Http/Router.php:168 | a placeholder `{name}` ends at the first closing brace after at least one name character; without such a brace there is none |
| Routing.Parts | backend/src/Shared/Http/Router.php:168 | a route pattern reads as literal characters and named placeholders, every name non-empty and free of `}` |
| Routing.RenderParts | backend/src/Shared/Http/Router.php:168 | reading a pattern into parts loses nothing: printing the parts gives the pattern back |
| Routing.SegmentLength | backend/src/Shared/Http/Router.php:168 | the longest run without a slash, which is what `([^/]+)` can take at most |
| Routing.MatchSound | backend/src/Shared/Http/Router.php:165-187 | a successful match captures one non-empty slash-free text per placeholder, and filling the pattern with them gives the path |
| Routing.MatchComplete | backend/src/Shared/Http/Router.php:165-187 | every path obtained by filling the placeholders with non-empty slash-free texts is matched |
| Routing.MatchSegments | backend/src/Shared/Http/Router.php:165-187 | when each placeholder is a whole segment, matching a filled pattern gives back exactly the texts filled in |
| Routing.LiteralMatch | backend/src/Shared/Http/Router.php:165-187 | a pattern without placeholders matches exactly its own text |
| Routing.LiteralRoute | backend/src/Shared/Http/Router.php:165-187 | a route written without braces matches exactly the same path |
| Routing.TrailingPlaceholder | backend/src/Shared/Http/Router.php:165-187 | a route ending in one placeholder matches its prefix followed by any segment, and the parameters bind the placeholder's name to that segment |
| Routing.Put | backend/src/Shared/Http/Router.php:179-181 | assigning a key makes it give the value and leaves every other key as it was |
| Routing.BindFinds | backend/src/Shared/Http/Router.php:178-181 | a parameter name not repeated later is bound to its own capture |
| Routing.BindLacks | backend/src/Shared/Http/Router.php:178-181 | a name that is not a placeholder is not bound |
| Routing.RouteIndex | backend/src/Shared/Http/Router.php:146-147 | finds the first route registered for the method and path, and only when there is one |
| Routing.MethodPaths | backend/src/Shared/Http/Router.php:91 | the paths listed for a method are exactly those with an exact route for it, none when the method has no routes |
| Routing.NewRouter | backend/src/Shared/Http/Router.php:10-12 | a new router has no routes, no global and no named middleware |
| Routing.AddRoute | backend/src/Shared/Http/Router.php:49-55 | registering a route leaves the middleware alone and adds at most one route |
| Routing.AddRouteStores | backend/src/Shared/Http/Router.php:49-55 | after registering, the method and path lead to the new route, replacing an earlier one with the same key, and every other method and path to what they led to before |
| Routing.AddRouteKeepsDistinct | backend/src/Shared/Http/Router.php:49-55 | registration never leaves two routes with the same method and path |
| Routing.AddGlobal | backend/src/Shared/Http/Router.php:60-63 | the global middleware list gains the new one at the end; routes and named middleware are unchanged |
| Routing.AddNamed | backend/src/Shared/Http/Router.php:68-71 | the name then refers to the new middleware and every other name is unchanged |
| Routing.FirstMatch | backend/src/Shared/Http/Router.php:151-157 | finds the first route of the method whose pattern matches, with the parameters that pattern gives, and only when there is one |
| Routing.FindRoute | backend/src/Shared/Http/Router.php:139-160 | an exact route wins with no parameters; otherwise the first matching pattern of that method, with its parameters; nothing when neither exists |
| Routing.Execute | backend/src/Shared/Http/Router.php:192-203 | an object without `handle` is a pass; a middleware returning something that is neither null nor an array is a TypeError; otherwise its own outcome |
| Routing.RunChain | backend/src/Shared/Http/Router.php:99-120 | a chain of middleware stops with an array or passes; an empty chain passes and changes nothing |
| Routing.RunChainAppend | backend/src/Shared/Http/Router.php:99-120 | running two chains in a row is running the second only when the first passes |
| Routing.RunChainPasses | backend/src/Shared/Http/Router.php:99-120 | a chain whose members all pass without effect passes without effect |
| Routing.Resolve | backend/src/Shared/Http/Router.php:112-114 | unknown names are skipped; when all names are registered the chain is the registered middleware in order |
| Routing.StatusCode | backend/src/Shared/Http/Router.php:268 | the status coerced to the `int` parameter: integers as they are, numeric values, booleans and leading-numeric strings such as "200abc" cast, other strings, null and arrays refused |
| Routing.Emit | backend/src/Shared/Http/Router.php:268-273 | a response is sent exactly when the status coerces to an integer and the body is an array |
| Routing.LeadingNumericStatusSent | backend/src/Shared/Http/Router.php:268-273 | a handler status such as "200abc" is sent as its leading number with the body unchanged, not refused |
| Routing.HandlerResponse | backend/src/Shared/Http/Router.php:123-129 | a non-array result is wrapped as `data` with status 200; an array without status or data is sent as it is |
| Routing.ReplyDelivered | backend/src/Shared/Http/Router.php:125-126 | a controller's status-and-data reply is sent with that status and data |
| Routing.Caught | backend/src/Shared/Http/Router.php:130-133 | exceptions become a 500 with an internal error body; PHP errors pass through; responses are unchanged |
| Routing.Stopped | backend/src/Shared/Http/Router.php:101-117 | a middleware stop keeps its state and sends an array body, or lets a PHP error through |
| Routing.Invoke | backend/src/Shared/Http/Router.php:208-227 | an invalid handler is a 500; a handler's result is sent as the handler response, its exceptions as a 500 |
| Routing.NotFoundBody | backend/src/Shared/Http/Router.php:86-92 | the 404 body names the method, the path, the original URI (or N/A) and the paths of that method |
| Routing.Dispatch | backend/src/Shared/Http/Router.php:97-133 | every response sent has an array body, and only PHP errors escape |
| Routing.HandleRequest | backend/src/Shared/Http/Router.php:76-134 | every response sent has an array body, and only PHP errors escape |
| Routing.RequestRouted | backend/src/Shared/Http/Router.php:76-96 | a path no route of the method registers or matches is answered 404 with the debug body listing that method's paths and no state change; a registered path runs its route with no parameters; otherwise the first matching pattern's route runs with its captures |
| Routing.UnroutedIsNotFound | backend/src/Shared/Http/Router.php:82-95 | a request whose method has no routes changes nothing and is answered 404 |
| Routing.DispatchIsOneChain | backend/src/Shared/Http/Router.php:97-120 | the global and route middleware act as one chain, globals first: the first to stop decides, and the handler runs only when all pass, on the state they leave |
| App.CorsStep | backend/index.php:30-31 | the development CORS middleware adds its headers for the request's origin to what is sent, changes nothing else, and stops the request exactly when it is a preflight |
| App.AuthStep | backend/index.php:52-55 | the `auth` middleware changes at most the published identity; it lets the request through exactly when the token admits a user, publishing that user, and otherwise stops it with the refusal |
| App.HandlersWired | backend/index.php:60-93 | the routes are wired to the listing, lookup, creation and bookmark controllers in the order registered |
| App.Routes | backend/index.php:59-93 | the route table has one route per registration, with its method, path, handler and middleware names |
| App.TableDistinct | backend/index.php:59-93 | no method and path is registered twice |
| App.Registered | backend/index.php:59-93 | every registered method and path finds its own route, with no parameters |
| App.CorsPasses | backend/index.php:30-31 | for anything but a preflight the CORS middleware only adds its headers and lets the request through |
| App.PreflightNotFound | backend/index.php:59-96 | a preflight `OPTIONS` request is answered 404 with nothing changed and no CORS headers sent, because no route is registered for OPTIONS and the router looks for a route before running any middleware |
| App.NoPreflightRoute | backend/index.php:59-93 | no route is registered for the OPTIONS method |
| App.BehindCors | backend/index.php:30-31 | behind the CORS middleware a routed request runs its own middleware on the state with the CORS headers sent |
| App.Routed | backend/index.php:59-96 | a request for a registered method and path runs that route's middleware and then its handler |
| App.PublicEntries | backend/index.php:60-61 | the listing and the lookup are registered without middleware |
| App.AdminEntry | backend/index.php:64 | creation is registered behind `auth` and `admin` |
| App.Guarded | backend/index.php:55-69 | the protected routes run the authentication middleware and then their role gate |
| App.RefusalSent | backend/index.php:64-69 | on a protected route a refused token is answered 401 with its message and only the CORS headers are sent |
| App.AuthStops | backend/index.php:55 | a refusal by the authentication middleware keeps the role gate from running |
| App.RefusalResponse | backend/index.php:55 | the middleware's refusal is sent with its status and error body |
| App.TokenRequired | backend/index.php:64-69 | a protected route without a token is answered 401 "Authentication token required" |
| App.AuthPublishes | backend/index.php:55 | an admitted token publishes its user before the role gate runs |
| App.AdminGateDecides | backend/index.php:56 | the admin gate lets an admin through and refuses anyone else with a 403 |
| App.UserGatePasses | backend/index.php:57 | the user gate lets any authenticated user through |
| App.AdminOnly | backend/index.php:64 | an authenticated non-admin asking to create an accommodation is answered 403 and nothing is stored |
| App.Admitted | backend/index.php:64-69 | a protected route with an admitted token, and an admin for creation, reaches its handler with the user published |
| App.ListingServed | backend/index.php:60 | `GET /api/accommodations` is answered with the listing controller's reply for the query, after the CORS headers |
| App.CreateInvoked | backend/index.php:64 | the creation handler stores what the controller creates and sends its reply |
| App.AdminCreates | backend/index.php:64 | an admin's creation request reaches the controller, and its outcome is what is stored and sent |
| App.ItemPattern | backend/index.php:61 | the lookup route is a literal prefix followed by the `id` placeholder |
| App.ItemNotRegistered | backend/index.php:59-93 | no route is registered for a concrete accommodation path |
| App.ItemParams | backend/index.php:61 | the parameters of a concrete lookup path bind `id` to the segment |
| App.ItemNotExact | backend/index.php:59-93 | a concrete lookup path has no exact route |
| App.ItemMatches | backend/index.php:60-61 | a concrete lookup path is not the listing but matches the lookup pattern |
| App.ItemFound | backend/index.php:61 | a concrete lookup path finds the lookup route with its id segment as the parameter |
| App.GetInvoked | backend/index.php:61 | the lookup handler sends the lookup controller's reply and changes nothing |
| App.ItemServed | backend/index.php:61 | `GET /api/accommodations/<id>` is answered with the lookup controller's reply for that id, after the CORS headers |
| App.PatternPathRefused | backend/index.php:61 | the literal path `/api/accommodations/{id}` finds the route exactly, with no parameters, and is answered 400 |
| App.UserEntries | backend/index.php:67 | the bookmark listing is registered behind `auth` and `user` |
| App.BookmarksInvoked | backend/index.php:67 | the bookmark listing handler sends the controller's reply and changes nothing |
| App.BookmarksServed | backend/index.php:67 | an authenticated bookmark listing is answered with the controller's reply for the published user |
| AuthControllers.Filled | backend/src/Authentication/Controllers/AuthController.php:386 | a field counts as given exactly when PHP's `empty` lets it through and its trimmed text is not empty, and then it is that trimmed text; an array there is a PHP error from `trim` |
| AuthControllers.EmailError | backend/src/Authentication/Controllers/AuthController.php:426-432 | an e-mail passes exactly when it is given, valid and, where capped, at most 100 bytes; missing and malformed are reported in that order |
| AuthControllers.UsernameError | backend/src/Authentication/Controllers/AuthController.php:416-424 | a username passes exactly when it is given and is 3 to 50 bytes of letters, digits, `_` and `-`; missing, too short and too long are reported first |
| AuthControllers.LoginErrors | backend/src/Authentication/Controllers/AuthController.php:381-406 | the login input has no errors exactly when it is valid; errors name only the e-mail and the password, the password last; an array e-mail is a PHP error |
| AuthControllers.EmptyLoginBody | backend/src/Authentication/Controllers/AuthController.php:396-404 | an empty body is refused with both fields reported in one message, e-mail first |
| AuthControllers.RoleWords | backend/src/Authentication/Controllers/AuthController.php:440-441 | the two allowed roles are words, so the loose role comparison only accepts those two texts |
| AuthControllers.RegistrationErrors | backend/src/Authentication/Controllers/AuthController.php:411-455 | the registration input has no errors exactly when it is valid; at most four fields are reported, the role last |
| AuthControllers.SessionReply | backend/src/Authentication/Controllers/AuthController.php:70-79 | a session reply carries the status, the token, the user and the lifetime |
| AuthControllers.Caught | backend/src/Authentication/Controllers/AuthController.php:80-99 | an invalid-argument exception becomes a 400 with its message, any other exception a 500 with the endpoint's fixed message; PHP errors are not caught |
| AuthControllers.LoginAttempt | backend/src/Authentication/Controllers/AuthController.php:61-65 | credentials are tried exactly when the body parses and the input is valid, with the trimmed e-mail and the password as given |
| AuthControllers.Login | backend/src/Authentication/Controllers/AuthController.php:54-100 | invalid input is a 400 listing the errors; the reply is 200 exactly when the service logs the credentials in, and then carries its session; a refused login is a 400 with the service's message |
| AuthControllers.LoginRepliesHideCause | backend/src/Authentication/Controllers/AuthController.php:54-100 | a refused login reads the same whatever the stored users are: always "Invalid credentials" |
| AuthControllers.RegistrationAttempt | backend/src/Authentication/Controllers/AuthController.php:168-172 | the registration read from a valid body has the trimmed username and e-mail, the password as given and the role only when one is sent; an array password or role is a PHP error |
| AuthControllers.RegistrationChecksAgree | backend/src/Authentication/Controllers/AuthController.php:411-455 | once the controller's checks pass, the service's own checks pass exactly when the password is not blank |
| AuthControllers.RegisterBody | backend/src/Authentication/Controllers/AuthController.php:159-207 | invalid input is a 400 listing the errors and stores nothing; a 201 means the service registered the user, and carries its session and new store |
| AuthControllers.Registered | backend/src/Authentication/Controllers/AuthController.php:174-206 | a 201 is sent exactly when the service registers the user; nothing is stored otherwise |
| AuthControllers.Register | backend/src/Authentication/Controllers/AuthController.php:159-207 | an unreadable body is a PHP error; otherwise the registration of the body |
| AuthControllers.BearerSuffix | backend/src/Authentication/Controllers/AuthController.php:236-250 | a token is read exactly when the Authorization header starts with `Bearer `, and it is the rest of the header |
| AuthControllers.BearerHeader | backend/src/Authentication/Controllers/AuthController.php:236-250 | a `Bearer <token>` header gives the token to refresh and validate, whatever the token holds |
| AuthControllers.ParsersAgree | backend/src/Authentication/Controllers/AuthController.php:236-250 | the controller and the middleware read the same token from a `Bearer <token>` header |
| AuthControllers.ParsersDifferOnCase | backend/src/Authentication/Controllers/AuthController.php:238 | a lower-case `bearer` header is accepted by the middleware but refused by the controller |
| AuthControllers.Refresh | backend/src/Authentication/Controllers/AuthController.php:231-287 | a missing or malformed header is a 401 missing token, an invalid token a 401 invalid token; the reply is 200 exactly when the token validates, and then carries the refreshed session |
| AuthControllers.UserSummary | backend/src/Authentication/Controllers/AuthController.php:357-363 | the user summary carries the token's user id and role |
| AuthControllers.Validate | backend/src/Authentication/Controllers/AuthController.php:317-376 | a missing or malformed header is a 401 missing token, an invalid token a 401 invalid token; the reply is 200 exactly when the token validates, and then carries the user it names |
| AuthControllers.RefreshValidateAgree | backend/src/Authentication/Controllers/AuthController.php:231-376 | refresh and validate accept the same requests and refuse the others with the same reply |
| AuthControllers.LoginThenValidate | backend/src/Authentication/Controllers/AuthController.php:54-376 | the token a successful login returns validates later through a `Bearer` header |
| UserControllers.AddInputError | backend/src/UserManagement/Controllers/UserController.php:356-377 | the id passes exactly when PHP's `empty` lets it through, it is numeric and it casts to a positive integer; an empty id is reported as required, a bad one as not a positive integer |
| UserControllers.Pair | backend/src/UserManagement/Controllers/UserController.php:113-116 | the reply data names the user and the accommodation |
| UserControllers.Success | backend/src/UserManagement/Controllers/UserController.php:108-118 | a success reply carries the status and the data |
| UserControllers.AddFor | backend/src/UserManagement/Controllers/UserController.php:95-127 | invalid input is a 400 and stores nothing; a 201 is sent exactly when the service adds the bookmark, which then exists, and names the pair; any refusal is a 400 with the service's message and stores nothing |
| UserControllers.AddAccommodation | backend/src/UserManagement/Controllers/UserController.php:79-139 | without an identity the reply is 401 before the body is read; an unreadable body is a PHP error; otherwise the addition for the identity's user |
| UserControllers.RemoveAccommodation | backend/src/UserManagement/Controllers/UserController.php:191-257 | without an identity a 401; a missing or zero id a 400; a 200 exactly when the service removes the bookmark, which is then gone; nothing changes otherwise |
| UserControllers.Listing | backend/src/UserManagement/Controllers/UserController.php:325-328 | the listing carries the accommodations |
| UserControllers.GetUserAccommodations | backend/src/UserManagement/Controllers/UserController.php:299-351 | without an identity a 401; a 200 exactly when the identity's user is stored, with the user's bookmarked accommodations; a user no longer stored is a 400 |
| UserControllers.AddListRemove | backend/src/UserManagement/Controllers/UserController.php:79-351 | a bookmark added through the endpoint is listed, and removing it by the same id restores the store as it was |
| UserControllers.AnonymousRefused | backend/src/UserManagement/Controllers/UserController.php:83-93 | without an identity all three endpoints answer 401 and change nothing, whatever the input |
| AccommodationControllers.Problem | backend/src/AccommodationManagement/Controllers/AccommodationController.php:174-180 | an error reply carries the status, the error and the message |
| AccommodationControllers.Raised | backend/src/AccommodationManagement/Controllers/AccommodationController.php:173-180 | a service refusal reaches the controller as an invalid-argument exception with the same message, and a result as that result |
| AccommodationControllers.StrictText | backend/src/AccommodationManagement/Controllers/AccommodationController.php:128-135 | only a string query value can be handed to a service parameter declared `string`; anything else is a PHP type error |
| AccommodationControllers.Query | backend/src/AccommodationManagement/Controllers/AccommodationController.php:117-123 | a query parameter counts as set exactly when it is present and not null, and is then its value |
| AccommodationControllers.Choose | backend/src/AccommodationManagement/Controllers/AccommodationController.php:128-140 | the filter applied is one the parameters ask for, and the first in the order search, location, price range, amenity, page, everything |
| AccommodationControllers.Run | backend/src/AccommodationManagement/Controllers/AccommodationController.php:128-140 | every filter returns only stored accommodations, and the absence of a filter returns the whole store; a text filter given something other than a string is a PHP error; a service refusal is an invalid-argument exception |
| AccommodationControllers.Echo | backend/src/AccommodationManagement/Controllers/AccommodationController.php:162-170 | the parameters echoed back form an array |
| AccommodationControllers.Catalogue | backend/src/AccommodationManagement/Controllers/AccommodationController.php:157-172 | the listing carries the accommodations in export form and their count |
| AccommodationControllers.ListAccommodations | backend/src/AccommodationManagement/Controllers/AccommodationController.php:113-202 | the reply is 200 exactly when the chosen query succeeds, with the rows and their count; a service refusal is a 400 with its message; only PHP errors escape |
| AccommodationControllers.TotalCountsRows | backend/src/AccommodationManagement/Controllers/AccommodationController.php:160-161 | the total reported is the number of rows listed |
| AccommodationControllers.EmptyQueryListsAll | backend/src/AccommodationManagement/Controllers/AccommodationController.php:138-139 | without parameters every stored accommodation is listed |
| AccommodationControllers.SearchOutranks | backend/src/AccommodationManagement/Controllers/AccommodationController.php:128-129 | a truthy search term decides the listing whatever else is asked, and every row listed matches the term in its title or description |
| AccommodationControllers.LoneMinPriceIgnored | backend/src/AccommodationManagement/Controllers/AccommodationController.php:132-133 | a minimum price without a maximum filters nothing |
| AccommodationControllers.ArraySearchEscapes | backend/src/AccommodationManagement/Controllers/AccommodationController.php:128-129 | a search term sent as an array is not caught by the controller |
| AccommodationControllers.LimitPagesFromStart | backend/src/AccommodationManagement/Controllers/AccommodationController.php:136-137 | a limit without an offset pages from the first row |
| AccommodationControllers.MissingAmong | backend/src/AccommodationManagement/Controllers/AccommodationController.php:314-318 | the fields reported missing are exactly the listed ones that are unset or blank once cast and trimmed |
| AccommodationControllers.MissingFields | backend/src/AccommodationManagement/Controllers/AccommodationController.php:311-318 | the missing fields are exactly the required ones that are unset or blank |
| AccommodationControllers.ReadDraft | backend/src/AccommodationManagement/Controllers/AccommodationController.php:332-339 | the image is read exactly when it is set; the amenities are the array's values when an array is sent and none otherwise; the keys of a keyed array are dropped (admitted under Left out) |
| AccommodationControllers.MissingReply | backend/src/AccommodationManagement/Controllers/AccommodationController.php:320-328 | a missing-field reply is a 400 naming the missing fields |
| AccommodationControllers.Created | backend/src/AccommodationManagement/Controllers/AccommodationController.php:363-383 | the creation reply carries the new accommodation in export form |
| AccommodationControllers.CreateDraft | backend/src/AccommodationManagement/Controllers/AccommodationController.php:342-391 | a negative price is a 400 before the service is called; a 201 is sent exactly when the service creates the accommodation, with its new store and the accommodation; refusals store nothing |
| AccommodationControllers.CreateFor | backend/src/AccommodationManagement/Controllers/AccommodationController.php:307-391 | missing fields are reported before anything else, and nothing is created then |
| AccommodationControllers.CreateAccommodation | backend/src/AccommodationManagement/Controllers/AccommodationController.php:292-411 | anyone but an admin gets a 403 and nothing changes; only an admin can create; an unreadable body is a PHP error |
| AccommodationControllers.ZeroPriceIsMissing | backend/src/AccommodationManagement/Controllers/AccommodationController.php:315 | a price sent as the text `"0"` counts as missing, because PHP's `empty` treats `"0"` as empty (`"0.0"` is not empty and passes) |
| AccommodationControllers.GetAccommodation | backend/src/AccommodationManagement/Controllers/AccommodationController.php:447-500 | a zero or missing id is a 400, an id with nothing stored a 404, and otherwise a 200 with the stored accommodation |
| AccommodationControllers.GetReadsOnlyFind | backend/src/AccommodationManagement/Controllers/AccommodationController.php:462 | the lookup depends only on what is stored under the id |
| AccommodationControllers.LookupCreated | backend/src/AccommodationManagement/Controllers/AccommodationController.php:447-500 | the accommodation the service just created is found under its new id |
| AccommodationControllers.LookupOthers | backend/src/AccommodationManagement/Controllers/AccommodationController.php:447-500 | creating an accommodation changes no lookup of another id |
| AccommodationControllers.CreateThenGet | backend/src/AccommodationManagement/Controllers/AccommodationController.php:292-500 | an accommodation created through the endpoint is then served by the lookup endpoint as it was reported, and other lookups are unchanged |
| AmenityHelpers.NormalizeAmenities | frontend/src/features/accommodation-management/utils/accommodation-helpers.ts:9-28 | an array is kept as it is; any non-empty result comes either from an array or from a string that parses to that array |
| AmenityHelpers.TextWithoutArray | frontend/src/features/accommodation-management/utils/accommodation-helpers.ts:9-28 | a string that does not parse to an array gives no amenities |
| AmenityHelpers.OtherValuesEmpty | frontend/src/features/accommodation-management/utils/accommodation-helpers.ts:9-28 | anything but an array or a string gives no amenities |
| AmenityHelpers.NormalizeIdempotent | frontend/src/features/accommodation-management/utils/accommodation-helpers.ts:9-28 | normalising a normalised list changes nothing |
| AmenityHelpers.JsonRoundTrip | frontend/src/features/accommodation-management/utils/accommodation-helpers.ts:9-36 | a list serialised as JSON normalises back to itself, and has amenities exactly when it is non-empty |
| AmenityHelpers.HasAmenitiesExactly | frontend/src/features/accommodation-management/utils/accommodation-helpers.ts:33-36 | an array has amenities exactly when it is non-empty, a string exactly when it parses to a non-empty array |
| JsText.RunsApart | frontend/src/features/administration/actions/admin-actions.ts:35 | in a text with something other than white space, the leading and trailing white space runs do not meet |
| JsText.Trim | frontend/src/features/administration/actions/admin-actions.ts:35 | trimming never lengthens a text, and what is left neither starts nor ends with white space |
| JsText.BlankIsAllSpace | frontend/src/features/administration/actions/admin-actions.ts:41 | a text trims to nothing exactly when it is all white space |
| JsText.TrimWithout | frontend/src/features/administration/actions/admin-actions.ts:35 | trimming adds no character that was not there |
| JsText.TrimOfTrimmed | frontend/src/features/administration/actions/admin-actions.ts:35 | a text without white space at either end trims to itself |
| JsText.TrimTwice | frontend/src/features/administration/actions/admin-actions.ts:35 | trimming twice is trimming once |
| JsText.TrimUnderSpace | frontend/src/features/administration/actions/admin-actions.ts:35 | white space in front of a text does not change what it trims to |
| JsText.Split | frontend/src/features/administration/actions/admin-actions.ts:35 | splitting gives at least one piece, and no piece holds the separator |
| JsText.SplitAfter | frontend/src/features/administration/actions/admin-actions.ts:35 | splitting a piece without the separator, the separator and the rest gives that piece followed by the pieces of the rest |
| JsText.SplitWithout | frontend/src/features/administration/actions/admin-actions.ts:35 | a text without the separator splits into itself alone |
| JsText.SplitUnder | frontend/src/features/administration/actions/admin-actions.ts:35 | a character other than the separator in front of a text extends its first piece |
| AdminActions.Piece | frontend/src/features/administration/actions/admin-actions.ts:35 | a piece survives exactly when it is not blank, and then as its trimmed text, which is already trimmed and gains no comma |
| AdminActions.Clean | frontend/src/features/administration/actions/admin-actions.ts:35 | the cleaned list is never longer than the pieces |
| AdminActions.TrimmedAmenity | frontend/src/features/administration/actions/admin-actions.ts:35 | a non-empty trimmed text is an amenity as the action sends it |
| AdminActions.CleanGivesAmenities | frontend/src/features/administration/actions/admin-actions.ts:35 | every entry of the cleaned list is non-empty and trimmed |
| AdminActions.CleanFirst | frontend/src/features/administration/actions/admin-actions.ts:35 | the cleaned list of a piece followed by others is the first piece's survivor followed by the others cleaned |
| AdminActions.ParseAmenities | frontend/src/features/administration/actions/admin-actions.ts:33-36 | the amenities read from the form are non-empty trimmed texts, none when the field is absent or empty |
| AdminActions.CleanUnderSpace | frontend/src/features/administration/actions/admin-actions.ts:35 | a space in front of the text changes no cleaned piece |
| AdminActions.CleanJoinStep | frontend/src/features/administration/actions/admin-actions.ts:35 | a comma-and-space list starting with an amenity cleans to that amenity followed by the rest cleaned |
| AdminActions.CleanSplitOne | frontend/src/features/administration/actions/admin-actions.ts:35 | a single amenity without commas cleans to itself |
| AdminActions.CleanSplitJoin | frontend/src/features/administration/actions/admin-actions.ts:35 | amenities without commas, joined with `, `, split and clean back to the same list |
| AdminActions.AmenitiesRoundTrip | frontend/src/features/administration/actions/admin-actions.ts:33-36 | amenities written into the form as a comma-and-space list are read back as the same list |
| AdminActions.MessagesAppend | frontend/src/features/administration/actions/admin-actions.ts:39-55 | looking up a field's messages in two batches of errors finds the first batch's first |
| AdminActions.MessagesOfCheck | frontend/src/features/administration/actions/admin-actions.ts:39-55 | a failed check reports its one message under its own field and nothing under any other |
| AdminActions.ChecksFound | frontend/src/features/administration/actions/admin-actions.ts:39-55 | there are no errors exactly when no check fails, and each field carries its own message exactly when its check fails |
| AdminActions.Validate | frontend/src/features/administration/actions/admin-actions.ts:39-55 | the form is valid exactly when title, description and location are given and not blank and the price is a non-negative number; each field reports its own message exactly when it is wrong |
| AdminActions.ImageUrl | frontend/src/features/administration/actions/admin-actions.ts:70 | the image is sent exactly when it is given and not blank, and then trimmed |
| AdminActions.Prepare | frontend/src/features/administration/actions/admin-actions.ts:14-72 | no cookie is refused before the form is read; invalid fields are reported; otherwise the request is posted with the cookie's token and the trimmed, checked fields |
| AdminActions.CreateAccommodationAction | frontend/src/features/administration/actions/admin-actions.ts:13-106 | success exactly when the request was posted and the server answered ok; field errors exactly when the form was invalid; a refused request and an unreachable server each report their own error |
| AdminActions.CookieFirst | frontend/src/features/administration/actions/admin-actions.ts:15-23 | without the cookie the outcome is the same whatever the form and the server |
| AdminActions.ZeroPricePasses | frontend/src/features/administration/actions/admin-actions.ts:49-51 | a price of 0 passes the form check and is sent as 0 |
| Http.ReplyValue | backend/src/Authentication/Controllers/AuthController.php:70-79 | a reply as the router reads it carries the status and, when there is one, the data |
| Http.ErrorBody | backend/src/Authentication/Middleware/AuthenticationMiddleware.php:31-34 | an error body is an array naming the error |
| Http.PathId | backend/src/AccommodationManagement/Controllers/AccommodationController.php:450 | a missing path parameter reads as 0, a present one is cast to an integer |
| Http.RequestBody | backend/src/Shared/Http/Router.php:286-292 | the body is usable exactly when it decodes to an array or to nothing, which reads as an empty array; any other JSON value breaks the declared array return type with a PHP error |
| Http.Authorization | backend/src/Authentication/Middleware/AuthenticationMiddleware.php:135 | the `Authorization` header is read under that spelling first, then under `authorization` |
| Http.Failure | backend/src/Authentication/Controllers/AuthController.php:80-88 | a failure reply carries the status, `success` false, the error code and the message |
| Http.Details | backend/src/Authentication/Controllers/AuthController.php:399-401 | one `field - message` line per reported field, in order |
| Http.OneFieldMessage | backend/src/Authentication/Controllers/AuthController.php:396-404 | one reported field gives `Validation failed: field - message` |
| Http.TwoFieldMessage | backend/src/Authentication/Controllers/AuthController.php:396-404 | two reported fields are joined with `; `, in order |
| PhpText.LeadingTrim | backend/src/UserManagement/Entities/User.php:181 | the characters `trim` removes at the front: all of them trimmable, and the next one not |
| PhpText.TrailingTrim | backend/src/UserManagement/Entities/User.php:181 | the characters `trim` removes at the back: all of them trimmable, and the one before not |
| PhpText.TrimOfUntrimmable | backend/src/UserManagement/Entities/User.php:181 | a text that starts and ends with characters `trim` keeps is its own trim |
| PhpText.UntrimmableNotBlank | backend/src/UserManagement/Entities/User.php:181 | such a text is not blank for `empty(trim(...))` |
| PhpText.EmptyIsBlank | backend/src/UserManagement/Entities/User.php:181 | a text of trimmable characters only is blank for `empty(trim(...))` |
| PhpText.TrimTwice | backend/src/UserManagement/Entities/User.php:181 | trimming twice is trimming once |
| PhpText.TrimIsInfix | backend/src/UserManagement/Entities/User.php:181 | the trim of a text is a contiguous part of it |
| PhpText.ToUpper | backend/src/Shared/Http/Middleware/CorsMiddleware.php:176 | `strtoupper` keeps the length and upper-cases each ASCII letter |
| PhpText.IndexOf | backend/src/Shared/Http/Router.php:237 | `strpos` of a character finds its first occurrence, and nothing exactly when it is absent |
| PhpValues.FirstMissing | backend/src/UserManagement/Factories/UserFactory.php:174-178 | the first required key absent from the array, every earlier one present; none exactly when all are present |
| PhpValues.CoerceText | backend/src/UserManagement/Factories/UserFactory.php:184-185 | a scalar converts to text, an array does not |
| PhpValues.ReadDate | backend/src/UserManagement/Factories/UserFactory.php:188-194 | a date column reads exactly when its text is a date the clock library accepts, giving that instant; an array is a PHP error |
| Tables.Locate | backend/src/UserManagement/Repositories/UserRepository.php:34-45 | finds the first row with the key, and nothing exactly when no row has it |
| Tables.Lookup | backend/src/UserManagement/Repositories/UserRepository.php:34-45 | a found row is in the table with the key; nothing is found exactly when no row has it |
| Tables.LookupAt | backend/src/UserManagement/Repositories/UserRepository.php:34-45 | in a table with unique keys each row is found under its own key |
| Tables.RemoveAt | backend/src/UserManagement/Repositories/UserRepository.php:204-214 | removing a row keeps every other row in order |
| Tables.ReplaceKeepsKeys | backend/src/UserManagement/Repositories/UserRepository.php:173-196 | replacing a row by one with the same key keeps keys unique, finds the new row under its key and changes no other lookup |
| Tables.AppendKeepsKeys | backend/src/UserManagement/Repositories/UserRepository.php:143-165 | appending a row under a fresh key keeps keys unique, finds it under its key and changes no other lookup |
| Tables.RemoveKeepsKeys | backend/src/UserManagement/Repositories/UserRepository.php:204-214 | removing a row keeps keys unique, loses its key and changes no other lookup |
| Tables.Where | backend/src/AccommodationManagement/Repositories/AccommodationRepository.php:70-81 | a filter keeps only rows that satisfy it and keeps all of them |
| Tables.Page | backend/src/AccommodationManagement/Repositories/AccommodationRepository.php:158-173 | a page holds the consecutive rows from `offset`: `limit` of them when the table is long enough, the remaining rows when it is not, none past its end |
| Store.DeleteAccommodationGood | backend/src/AccommodationManagement/Repositories/AccommodationRepository.php:279-289 | deleting an accommodation keeps the store well formed |
| Store.DeleteAccommodationLookups | backend/src/AccommodationManagement/Repositories/AccommodationRepository.php:279-289 | after a delete the id is gone and every other id is found as before |
| Store.DeleteUserGood | backend/src/UserManagement/Repositories/UserRepository.php:204-214 | deleting a user keeps the store well formed |
| Store.DeleteUserLookups | backend/src/UserManagement/Repositories/UserRepository.php:204-214 | after a delete the id is gone and every other id is found as before |
| Store.FirstUser | backend/src/UserManagement/Repositories/UserRepository.php:53-83 | a found user has the value in the field; nothing is found exactly when no user has it |
| Store.FirstUserAppended | backend/src/UserManagement/Repositories/UserRepository.php:53-165 | a user appended with a value no one had is found by it |
| Passwords.NothingBroken | backend/src/Shared/Security/PasswordHasher.php:50-78 | a password that meets every rule breaks none |
| Passwords.BrokenRuleReported | backend/src/Shared/Security/PasswordHasher.php:50-78 | every rule the password breaks is reported with its message |
| Passwords.ReportedRuleBroken | backend/src/Shared/Security/PasswordHasher.php:50-78 | every message reported names a rule the password breaks |
| Wrappers.MapAll | backend/src/UserManagement/Factories/UserFactory.php:112-119 | converting each element succeeds exactly when every element converts, in order; otherwise the first failure is reported |
| Users.PublicFieldsFirst | backend/src/UserManagement/Entities/User.php:230-246 | the export names the user's id, username, e-mail and role value before anything added after them |

## Left out

- Database access: PDO, connection retries, transactions and SQL. The repositories are in-memory tables whose lookups compare text exactly. Database exceptions and the 500 replies they cause are not modelled.
- Store.FindUserByEmail: compares addresses exactly and case-sensitively. The connection sets the `utf8mb4_unicode_ci` collation (backend/src/Shared/Database/DatabaseConnection.php:103), under which MySQL also finds `Alice@X.com` for `alice@x.com`.
- Store.FindUserByUsername: compares names exactly and case-sensitively, where the `_ci` collation ignores case, so the model's "taken" checks can miss a name that differs only in case.
- Store.SearchAccommodations: is a case-sensitive substring test. The SQL `LIKE` ignores case under the `_ci` collation, and `%` or `_` inside the term act as wildcards there.
- Store.AccommodationsAt: is a case-sensitive substring test, where `LIKE` ignores case and treats `%` and `_` in the location as wildcards.
- AccommodationServices.SearchByTerm: inherits the exact, case-sensitive matching of `Store.SearchAccommodations`.
- AccommodationServices.ByLocation: inherits the exact, case-sensitive matching of `Store.AccommodationsAt`.
- AccommodationFactories.CreateWithCategories: the model's amenities are a list. PHP's `array_unique` keeps the original keys, so after a removed repeat the `json_encode` on saving (backend/src/AccommodationManagement/Repositories/AccommodationRepository.php:225) writes an object keyed by position rather than a list.
- AccommodationControllers.ReadDraft: amenities sent as a keyed array, such as the JSON object `{"a": "wifi"}`, are modelled as the list of their values. PHP keeps the keys (backend/src/AccommodationManagement/Controllers/AccommodationController.php:337-338), so `json_encode` on saving (backend/src/AccommodationManagement/Repositories/AccommodationRepository.php:225) writes an object, the reply carries an object, and `JSON_CONTAINS` in `findByAmenity` (AccommodationRepository.php:115) does not find the amenity in it, where `Store.AccommodationsWith` does.
- The `RuntimeException` "Failed to hash password" (backend/src/Shared/Security/PasswordHasher.php:24-26) cannot be reached in PHP 8, where `password_hash` never returns `false`. A bad cost is the `ValueError` modelled in `Passwords.Hash`.
- The "Failed to save/update" `RuntimeException` branches of the services cannot be reached: `save` either returns the row it reads back or throws, never null.
- Store.FindAccommodation: returns a stored row as it is, while `findById` rebuilds it through the constructor (backend/src/AccommodationManagement/Repositories/AccommodationRepository.php:339-357) and throws for a row that fails. Only `AccommodationServices.AddAmenityTo` can store such a row. It and `AccommodationServices.RemoveAmenityFrom` model the rebuild with `Store.ReadBack`; the listings, the other services and the controllers read rows without it.
- Result order: the SQL `ORDER BY` clauses are not modelled. Listings come in table order, and pagination pages through that order.
- The bookmark listing returns raw joined rows ordered by selection time. The model returns the bookmarked accommodations' arrays from the set of pairs.
- Whether deleting a user or an accommodation cascades to its bookmarks depends on the database schema, which is not part of this model. Deletes leave pairs behind, and every join filters them out.
- Bcrypt, `random_int` and the JWT library are parameters. `needsRehash` is left out with them: it is a direct call into `password_needs_rehash`.
- `generateSecurePassword` is modelled by its shape: the length and the alphabet of the result. The values `random_int` returns are a parameter.
- The `filter_var` e-mail and URL syntax checks, `is_numeric`, the string-to-number casts, JSON decoding and date parsing are parameters, not definitions.
- Float arithmetic: prices are reals with no rounding. `getFormattedPrice` (`number_format`) and the date formats in `toArray` are left out.
- Timestamps are readings of an abstract clock.
- The entity getters, `findUserById`/`findUserByUsername`/`findUserByEmail`, `findAccommodationById`, `getAllAccommodations`, `getAccommodationCount` and `accommodationExists` are direct store reads with no logic of their own. They appear as the `Store` lookups.
- `findUserByUsernameOrEmail` and `getAllUsers` have no caller in the core and are left out.
- `Router.get/post/put/delete` are `addRoute` with a fixed method; `Routing.AddRoute` models them. `getRoutes` is a getter.
- Route patterns: regex metacharacters in literal route text are treated as plain characters. Placeholder names are taken as written and always bound under a string key; in PHP a purely numeric name such as `{5}` becomes the integer key 5 of the parameters array.
- Output: `http_response_code`, `header()` and JSON pretty-printing are not modelled. A response is a status and a PHP array, and CORS headers are a list of name/value pairs.
- The stray `echo` after a global middleware stops the request (backend/src/Shared/Http/Router.php:103-106) is not modelled.
- Headers containing line breaks are not modelled.
- The `/docs` route is modelled for an installation without `docs/index.html`, where it answers 404. Serving the installed file is output.
- `index.php`: environment loading and the top-level `catch` that answers 500 on a startup failure are left out.
- `Cors.OriginAllowed`: it compares origins by string equality. PHP's loose `in_array` also equates two different numeric strings (`"1e1"` and `"10"`), and origins are never numeric in practice.
- Cors: `setAllowedOrigins`, `setAllowedHeaders`, `setAllowCredentials` and `setMaxAge` are plain field assignments on `Cors.Config`, written as Dafny record updates with no function of their own.
- Frontend: `FormData` entries that are files, `fetch`, `revalidatePath` and `console` output are not modelled. The server's answer is a parameter of `AdminActions.CreateAccommodationAction`. The `parseFloat` of the price text is a parameter.
- Frontend pages, components, hooks, the API client, zod schemas and the OpenAPI annotation classes are outside the modelled core.

=== FILE: accommodation.dfy ===
/** The `Accommodation` entity: its validators, construction and amenity list operations. */
module Accommodations {
  import opened Wrappers
  import opened PhpText
  import opened PhpValues

  /** An accommodation record; the price is exact and timestamps are clock ticks. */
  datatype Accommodation = Accommodation(
    id: int,
    title: string,
    description: string,
    price: real,
    location: string,
    imageUrl: Option<string>,
    amenities: seq<string>,
    createdAt: int,
    updatedAt: int)

  const MaxPrice: real := 999999.99

  // ---------------------------------------------------------------- validators

  /**
    * The shape shared by the title, description and location checks: not blank, then
    * at least `min` bytes, then at most `max` bytes, each with its own message.
    */
  function CheckText(s: string, min: nat, max: nat, emptyMsg: string, shortMsg: string, longMsg: string)
    : (r: Outcome<string>)
    ensures r.Pass? <==> !Blank(s) && min <= |s| <= max
    ensures Blank(s) ==> r == Fail(emptyMsg)
    ensures !Blank(s) && |s| < min ==> r == Fail(shortMsg)
    ensures !Blank(s) && min <= |s| && |s| > max ==> r == Fail(longMsg)
  {
    if Blank(s) then Fail(emptyMsg)
    else if |s| < min then Fail(shortMsg)
    else if |s| > max then Fail(longMsg)
    else Pass
  }

  /** `validateTitle`: 3 to 200 bytes, not blank. */
  function ValidateTitle(t: string): (r: Outcome<string>)
    ensures r.Pass? <==> !Blank(t) && 3 <= |t| <= 200
  {
    CheckText(t, 3, 200, "Title cannot be empty", "Title must be at least 3 characters long",
              "Title cannot exceed 200 characters")
  }

  /** `validateDescription`: 10 to 2000 bytes, not blank. */
  function ValidateDescription(d: string): (r: Outcome<string>)
    ensures r.Pass? <==> !Blank(d) && 10 <= |d| <= 2000
  {
    CheckText(d, 10, 2000, "Description cannot be empty", "Description must be at least 10 characters long",
              "Description cannot exceed 2000 characters")
  }

  /** `validateLocation`: 2 to 100 bytes, not blank. */
  function ValidateLocation(l: string): (r: Outcome<string>)
    ensures r.Pass? <==> !Blank(l) && 2 <= |l| <= 100
  {
    CheckText(l, 2, 100, "Location cannot be empty", "Location must be at least 2 characters long",
              "Location cannot exceed 100 characters")
  }

  /** `validatePrice`: from 0 to 999,999.99 inclusive. */
  function ValidatePrice(p: real): (r: Outcome<string>)
    ensures r.Pass? <==> 0.0 <= p <= MaxPrice
    ensures p < 0.0 ==> r == Fail("Price cannot be negative")
    ensures p > MaxPrice ==> r == Fail("Price cannot exceed 999,999.99")
  {
    if p < 0.0 then Fail("Price cannot be negative")
    else if p > MaxPrice then Fail("Price cannot exceed 999,999.99")
    else Pass
  }

  /** `validateImageUrl`: absent is fine; present must be non-blank, at most 500 bytes, a URL. */
  function ValidateImageUrl(u: Option<string>, b: Builtins): (r: Outcome<string>)
    ensures r.Pass? <==> u.None? || (!Blank(u.value) && |u.value| <= 500 && b.isUrl(u.value))
    ensures u.Some? && Blank(u.value) ==> r == Fail("Image URL cannot be empty if provided")
  {
    match u
    case None => Pass
    case Some(s) =>
      if Blank(s) then Fail("Image URL cannot be empty if provided")
      else if |s| > 500 then Fail("Image URL cannot exceed 500 characters")
      else if !b.isUrl(s) then Fail("Invalid image URL format")
      else Pass
  }

  /** An amenity the entity accepts: a non-blank string of at most 100 bytes. */
  predicate GoodAmenity(a: string) {
    !Blank(a) && |a| <= 100
  }

  /** No string occurs twice (`count($xs) === count(array_unique($xs))` on strings). */
  predicate Distinct(xs: seq<string>) {
    forall i, j :: 0 <= i < j < |xs| ==> xs[i] != xs[j]
  }

  /** The strings of a PHP list, when every element is a string. */
  function AsTexts(items: seq<Value>): (r: Option<seq<string>>)
    ensures r.Some? <==> forall i :: 0 <= i < |items| ==> items[i].Str?
    ensures r.Some? ==> |r.value| == |items| && forall i :: 0 <= i < |items| ==> items[i] == Str(r.value[i])
  {
    if items == [] then Some([])
    else if !items[0].Str? then None
    else match AsTexts(items[1..])
      case None => None
      case Some(rest) => Some([items[0].s] + rest)
  }

  /** The texts of a list of strings, as a PHP list. */
  function Texts(xs: seq<string>): (r: seq<Value>)
    ensures |r| == |xs| && forall i :: 0 <= i < |xs| ==> r[i] == Str(xs[i])
    ensures AsTexts(r) == Some(xs)
  {
    if xs == [] then []
    else
      var r := [Str(xs[0])] + Texts(xs[1..]);
      assert r[1..] == Texts(xs[1..]);
      assert [xs[0]] + xs[1..] == xs;
      r
  }

  /** The per-element checks of `validateAmenities`, the first failing element deciding. */
  function ElementError(items: seq<Value>): (r: Option<string>)
    ensures r.None? <==> forall i :: 0 <= i < |items| ==> items[i].Str? && GoodAmenity(items[i].s)
  {
    if items == [] then None
    else if !items[0].Str? then Some("All amenities must be strings")
    else if Blank(items[0].s) then Some("Amenity cannot be empty")
    else if |items[0].s| > 100 then Some("Amenity cannot exceed 100 characters")
    else ElementError(items[1..])
  }

  /** `validateAmenities`: every element checked in order, then the duplicate check. */
  function ValidateAmenities(items: seq<Value>): (r: Outcome<string>)
    ensures r.Pass? <==> AsTexts(items).Some? && AmenitiesOk(AsTexts(items).value)
    ensures ElementError(items).None? && AsTexts(items).Some? && !Distinct(AsTexts(items).value)
            ==> r == Fail("Amenities cannot contain duplicates")
  {
    match ElementError(items)
    case Some(m) => Fail(m)
    case None =>
      var texts := AsTexts(items).value;
      if !Distinct(texts) then Fail("Amenities cannot contain duplicates") else Pass
  }

  /** What a stored amenity list satisfies: good elements, no repeats. */
  predicate AmenitiesOk(xs: seq<string>) {
    (forall i :: 0 <= i < |xs| ==> GoodAmenity(xs[i])) && Distinct(xs)
  }

  /** The entity invariant the constructor establishes. */
  predicate Valid(a: Accommodation, b: Builtins) {
    && ValidateTitle(a.title).Pass?
    && ValidateDescription(a.description).Pass?
    && ValidatePrice(a.price).Pass?
    && ValidateLocation(a.location).Pass?
    && ValidateImageUrl(a.imageUrl, b).Pass?
    && AmenitiesOk(a.amenities)
  }

  // ---------------------------------------------------------------- construction

  /** `new Accommodation(...)`: validates every field in order, then builds the record. */
  function New(id: int, title: string, description: string, price: real, location: string,
               imageUrl: Option<string>, amenities: seq<Value>, createdAt: int, updatedAt: int,
               b: Builtins): (r: Result<Accommodation, string>)
    ensures r.Ok? <==> ValidateTitle(title).Pass? && ValidateDescription(description).Pass?
                       && ValidatePrice(price).Pass? && ValidateLocation(location).Pass?
                       && ValidateImageUrl(imageUrl, b).Pass? && ValidateAmenities(amenities).Pass?
    ensures r.Ok? ==> Valid(r.value, b) && Texts(r.value.amenities) == amenities
    ensures r.Ok? ==> r.value.id == id && r.value.title == title && r.value.description == description
                      && r.value.price == price && r.value.location == location && r.value.imageUrl == imageUrl
                      && r.value.createdAt == createdAt && r.value.updatedAt == updatedAt
    ensures ValidateTitle(title).Fail? ==> r == Err(ValidateTitle(title).error)
  {
    if ValidateTitle(title).Fail? then Err(ValidateTitle(title).error)
    else if ValidateDescription(description).Fail? then Err(ValidateDescription(description).error)
    else if ValidatePrice(price).Fail? then Err(ValidatePrice(price).error)
    else if ValidateLocation(location).Fail? then Err(ValidateLocation(location).error)
    else if ValidateImageUrl(imageUrl, b).Fail? then Err(ValidateImageUrl(imageUrl, b).error)
    else if ValidateAmenities(amenities).Fail? then Err(ValidateAmenities(amenities).error)
    else
      TextsOfAsTexts(amenities);
      Ok(Accommodation(id, title, description, price, location, imageUrl, AsTexts(amenities).value, createdAt, updatedAt))
  }

  /** The constructor accepts every valid record, given its own fields, and builds that record. */
  lemma NewOfValid(a: Accommodation, b: Builtins)
    requires Valid(a, b)
    ensures New(a.id, a.title, a.description, a.price, a.location, a.imageUrl, Texts(a.amenities),
                a.createdAt, a.updatedAt, b) == Ok(a)
  {
    assert AsTexts(Texts(a.amenities)) == Some(a.amenities);
  }

  /** Reading a list of strings and writing it back gives the same list. */
  lemma TextsOfAsTexts(items: seq<Value>)
    ensures AsTexts(items).Some? ==> Texts(AsTexts(items).value) == items
  {
  }

  /** `Accommodation::create`: an unsaved record (id 0) stamped `now` twice. */
  function Create(title: string, description: string, price: real, location: string,
                  imageUrl: Option<string>, amenities: seq<Value>, now: int, b: Builtins)
    : (r: Result<Accommodation, string>)
    ensures r.Ok? ==> r.value.id == 0 && r.value.createdAt == now && r.value.updatedAt == now
    ensures r.Ok? ==> r.value.title == title && r.value.price == price && r.value.imageUrl == imageUrl
    ensures r.Ok? <==> New(0, title, description, price, location, imageUrl, amenities, now, now, b).Ok?
  {
    New(0, title, description, price, location, imageUrl, amenities, now, now, b)
  }

  // ---------------------------------------------------------------- mutators

  /** One argument of `updateInfo` that was given (not null). */
  datatype FieldUpdate =
    | NewTitle(title: string)
    | NewDescription(description: string)
    | NewPrice(price: real)
    | NewLocation(location: string)
    | NewImageUrl(url: string)
    | NewAmenities(items: seq<Value>)

  /** The validator `updateInfo` runs before assigning a field. */
  function CheckUpdate(u: FieldUpdate, b: Builtins): Outcome<string> {
    match u
    case NewTitle(t) => ValidateTitle(t)
    case NewDescription(d) => ValidateDescription(d)
    case NewPrice(p) => ValidatePrice(p)
    case NewLocation(l) => ValidateLocation(l)
    case NewImageUrl(s) => ValidateImageUrl(Some(s), b)
    case NewAmenities(xs) => ValidateAmenities(xs)
  }

  /** The assignment itself. */
  function Assign(a: Accommodation, u: FieldUpdate): Accommodation {
    match u
    case NewTitle(t) => a.(title := t)
    case NewDescription(d) => a.(description := d)
    case NewPrice(p) => a.(price := p)
    case NewLocation(l) => a.(location := l)
    case NewImageUrl(s) => a.(imageUrl := Some(s))
    case NewAmenities(xs) => a.(amenities := if AsTexts(xs).Some? then AsTexts(xs).value else a.amenities)
  }

  /** One guarded assignment: skipped when the argument is null, else validated then applied. */
  function Step(m: Mutation<Accommodation>, u: Option<FieldUpdate>, b: Builtins): (r: Mutation<Accommodation>)
    ensures m.Threw? ==> r == m
    ensures m.Done? && u.None? ==> r == m
    ensures m.Done? && u.Some? && CheckUpdate(u.value, b).Pass? ==> r == Done(Assign(m.value, u.value))
    ensures m.Done? && u.Some? && CheckUpdate(u.value, b).Fail? ==> r == Threw(m.value, CheckUpdate(u.value, b).error)
  {
    match m
    case Threw(_, _) => m
    case Done(a) =>
      match u
      case None => m
      case Some(x) =>
        match CheckUpdate(x, b)
        case Fail(e) => Threw(a, e)
        case Pass => Done(Assign(a, x))
  }

  /** Whether a possibly-null argument passes its check. */
  predicate Accepted(u: Option<FieldUpdate>, b: Builtins) {
    u.None? || CheckUpdate(u.value, b).Pass?
  }

  /** Every given argument passes its check. */
  predicate AllAccepted(us: seq<Option<FieldUpdate>>, b: Builtins) {
    forall i :: 0 <= i < |us| ==> Accepted(us[i], b)
  }

  /** The arguments of `updateInfo`, in the order it handles them. */
  function Updates(title: Option<string>, description: Option<string>, price: Option<real>,
                   location: Option<string>, imageUrl: Option<string>, amenities: Option<seq<Value>>)
    : seq<Option<FieldUpdate>>
  {
    [ if title.Some? then Some(NewTitle(title.value)) else None,
      if description.Some? then Some(NewDescription(description.value)) else None,
      if price.Some? then Some(NewPrice(price.value)) else None,
      if location.Some? then Some(NewLocation(location.value)) else None,
      if imageUrl.Some? then Some(NewImageUrl(imageUrl.value)) else None,
      if amenities.Some? then Some(NewAmenities(amenities.value)) else None ]
  }

  /** The guarded assignments applied in order. */
  function Steps(m: Mutation<Accommodation>, us: seq<Option<FieldUpdate>>, b: Builtins): (r: Mutation<Accommodation>)
    ensures m.Threw? ==> r == m
    decreases |us|
  {
    if us == [] then m else Steps(Step(m, us[0], b), us[1..], b)
  }

  /** The arguments are all accepted exactly when the first one and the rest are. */
  lemma AllAcceptedCons(us: seq<Option<FieldUpdate>>, b: Builtins)
    requires us != []
    ensures AllAccepted(us, b) <==> Accepted(us[0], b) && AllAccepted(us[1..], b)
  {
    if Accepted(us[0], b) && AllAccepted(us[1..], b) {
      forall i | 0 <= i < |us| ensures Accepted(us[i], b) {
        if i > 0 { assert us[i] == us[1..][i - 1]; }
      }
    }
  }

  /** The record with every accepted argument assigned. */
  function AssignAll(a: Accommodation, us: seq<Option<FieldUpdate>>): Accommodation
    decreases |us|
  {
    if us == [] then a
    else AssignAll(if us[0].Some? then Assign(a, us[0].value) else a, us[1..])
  }

  /** The steps complete exactly when every given argument passes, and then assign them all. */
  lemma {:induction false} StepsDone(a: Accommodation, us: seq<Option<FieldUpdate>>, b: Builtins)
    ensures Steps(Done(a), us, b).Done? <==> AllAccepted(us, b)
    ensures Steps(Done(a), us, b).Done? ==> Steps(Done(a), us, b).value == AssignAll(a, us)
    ensures Steps(Done(a), us, b).Threw? ==> Steps(Done(a), us, b).state.updatedAt == a.updatedAt
    decreases |us|
  {
    if us != [] {
      var next := if us[0].Some? then Assign(a, us[0].value) else a;
      AllAcceptedCons(us, b);
      if Accepted(us[0], b) {
        assert Step(Done(a), us[0], b) == Done(next);
        StepsDone(next, us[1..], b);
        assert next.updatedAt == a.updatedAt;
      }
    }
  }

  /**
    * `updateInfo(...)`: each non-null argument is validated and assigned in turn (title,
    * description, price, location, image URL, amenities); `updatedAt` is refreshed last.
    * A null image URL leaves the old one: this operation cannot clear it.
    */
  function UpdateInfo(a: Accommodation, title: Option<string>, description: Option<string>,
                      price: Option<real>, location: Option<string>, imageUrl: Option<string>,
                      amenities: Option<seq<Value>>, now: int, b: Builtins): (r: Mutation<Accommodation>)
    ensures r.Done? <==> AllAccepted(Updates(title, description, price, location, imageUrl, amenities), b)
    ensures r.Done? ==> r.value == AssignAll(a, Updates(title, description, price, location, imageUrl, amenities)).(updatedAt := now)
    ensures r.Threw? ==> r.state.updatedAt == a.updatedAt
  {
    var us := Updates(title, description, price, location, imageUrl, amenities);
    StepsDone(a, us, b);
    match Steps(Done(a), us, b)
    case Threw(s, e) => Threw(s, e)
    case Done(x) => Done(x.(updatedAt := now))
  }

  /**
    * `addAmenity($amenity)`: a blank amenity is refused; one already present changes
    * nothing (not even the timestamp); otherwise it is appended. The 100-byte limit
    * the constructor enforces is not checked here.
    */
  function AddAmenity(a: Accommodation, amenity: string, now: int): (r: Result<Accommodation, string>)
    ensures r.Err? <==> Blank(amenity)
    ensures r.Err? ==> r.error == "Amenity cannot be empty"
    ensures r.Ok? && amenity in a.amenities ==> r.value == a
    ensures r.Ok? && amenity !in a.amenities ==> r.value == a.(amenities := a.amenities + [amenity], updatedAt := now)
  {
    if Blank(amenity) then Err("Amenity cannot be empty")
    else if amenity in a.amenities then Ok(a)
    else Ok(a.(amenities := a.amenities + [amenity], updatedAt := now))
  }

  /** The position `array_search($x, $xs, true)` finds: the first occurrence. */
  function Search(xs: seq<string>, x: string): (r: Option<nat>)
    ensures r.None? <==> x !in xs
    ensures r.Some? ==> r.value < |xs| && xs[r.value] == x && x !in xs[..r.value]
  {
    if xs == [] then None
    else if xs[0] == x then Some(0)
    else match Search(xs[1..], x)
      case None => None
      case Some(k) =>
        assert xs[1..][..k] == xs[1..k + 1];
        Some(k + 1)
  }

  /** `removeAmenity($amenity)`: drops the first occurrence and re-indexes; absent is a no-op. */
  function RemoveAmenity(a: Accommodation, amenity: string, now: int): (r: Accommodation)
    ensures amenity !in a.amenities ==> r == a
    ensures amenity in a.amenities ==>
      exists k :: 0 <= k < |a.amenities| && a.amenities[k] == amenity && amenity !in a.amenities[..k]
                  && r == a.(amenities := a.amenities[..k] + a.amenities[k + 1..], updatedAt := now)
  {
    match Search(a.amenities, amenity)
    case None => a
    case Some(k) => a.(amenities := a.amenities[..k] + a.amenities[k + 1..], updatedAt := now)
  }

  /** `hasAmenity($amenity)`: strict membership. */
  predicate HasAmenity(a: Accommodation, amenity: string) {
    amenity in a.amenities
  }

  // ---------------------------------------------------------------- properties

  /** Adding an amenity makes it present, keeps the others and never introduces a repeat. */
  lemma AddAmenityThenHas(a: Accommodation, amenity: string, now: int)
    requires !Blank(amenity)
    ensures AddAmenity(a, amenity, now).Ok?
    ensures HasAmenity(AddAmenity(a, amenity, now).value, amenity)
    ensures forall x :: HasAmenity(a, x) ==> HasAmenity(AddAmenity(a, amenity, now).value, x)
    ensures Distinct(a.amenities) ==> Distinct(AddAmenity(a, amenity, now).value.amenities)
  {
  }

  /** Dropping position `k` removes that element and keeps every other one. */
  lemma DropAtMembers(xs: seq<string>, k: nat, x: string)
    requires k < |xs| && x != xs[k]
    ensures x in xs[..k] + xs[k + 1..] <==> x in xs
  {
    var ys := xs[..k] + xs[k + 1..];
    if x in xs {
      var i :| 0 <= i < |xs| && xs[i] == x;
      if i < k { assert ys[i] == x; } else { assert ys[i - 1] == x; }
    }
    if x in ys {
      var i :| 0 <= i < |ys| && ys[i] == x;
      if i < k { assert xs[i] == x; } else { assert xs[i + 1] == x; }
    }
  }

  /** Dropping a position of a list without repeats leaves a list without repeats, lacking that element. */
  lemma DropAtDistinct(xs: seq<string>, k: nat)
    requires k < |xs| && Distinct(xs)
    ensures Distinct(xs[..k] + xs[k + 1..])
    ensures xs[k] !in xs[..k] + xs[k + 1..]
  {
    var ys := xs[..k] + xs[k + 1..];
    forall i, j | 0 <= i < j < |ys| ensures ys[i] != ys[j] {
      var i' := if i < k then i else i + 1;
      var j' := if j < k then j else j + 1;
      assert ys[i] == xs[i'] && ys[j] == xs[j'];
    }
    forall i | 0 <= i < |ys| ensures ys[i] != xs[k] {
      if i < k { assert ys[i] == xs[i]; } else { assert ys[i] == xs[i + 1]; }
    }
  }

  /** With no repeats in the list, removing an amenity makes it absent and keeps every other one. */
  lemma RemoveAmenityThenAbsent(a: Accommodation, amenity: string, now: int)
    requires Distinct(a.amenities)
    ensures !HasAmenity(RemoveAmenity(a, amenity, now), amenity)
    ensures forall x :: x != amenity ==> (HasAmenity(RemoveAmenity(a, amenity, now), x) <==> HasAmenity(a, x))
    ensures Distinct(RemoveAmenity(a, amenity, now).amenities)
  {
    var xs := a.amenities;
    match Search(xs, amenity)
    case None =>
    case Some(k) =>
      DropAtDistinct(xs, k);
      forall x | x != amenity ensures x in xs[..k] + xs[k + 1..] <==> x in xs {
        DropAtMembers(xs, k, x);
      }
  }

  /** Adding a new amenity and removing it again restores the list. */
  lemma AddThenRemove(a: Accommodation, amenity: string, t1: int, t2: int)
    requires !Blank(amenity) && amenity !in a.amenities
    ensures RemoveAmenity(AddAmenity(a, amenity, t1).value, amenity, t2).amenities == a.amenities
  {
    var xs := a.amenities + [amenity];
    var k := |a.amenities|;
    assert Search(xs, amenity) == Some(k) by {
      assert amenity !in xs[..k] by { assert xs[..k] == a.amenities; }
    }
    assert xs[..k] + xs[k + 1..] == a.amenities;
  }

  /** Removing an amenity keeps the constructor's invariant: what is left is a subset without repeats. */
  lemma RemoveAmenityKeepsValid(a: Accommodation, amenity: string, now: int, b: Builtins)
    requires Valid(a, b)
    ensures Valid(RemoveAmenity(a, amenity, now), b)
  {
    var r := RemoveAmenity(a, amenity, now);
    RemoveAmenityThenAbsent(a, amenity, now);
    forall i | 0 <= i < |r.amenities| ensures GoodAmenity(r.amenities[i]) {
      var x := r.amenities[i];
      assert HasAmenity(r, x);
      assert x != amenity;
      assert HasAmenity(a, x);
    }
  }

  /** The element checks pass over a prefix of good amenities and decide on what follows it. */
  lemma {:induction false} GoodPrefixSkipped(items: seq<Value>, tail: seq<Value>)
    requires forall i :: 0 <= i < |items| ==> items[i].Str? && GoodAmenity(items[i].s)
    ensures ElementError(items + tail) == ElementError(tail)
    decreases |items|
  {
    if items != [] {
      assert (items + tail)[0] == items[0];
      assert (items + tail)[1..] == items[1..] + tail;
      GoodPrefixSkipped(items[1..], tail);
    } else {
      assert items + tail == tail;
    }
  }

  /**
    * A record that would be valid but for one over-long amenity at the end of its list:
    * the constructor refuses to rebuild it, with the length message.
    */
  lemma LongAmenityRebuilt(c: Accommodation, good: seq<string>, amenity: string, b: Builtins)
    requires c.amenities == good + [amenity] && Valid(c.(amenities := good), b)
    requires !Blank(amenity) && |amenity| > 100
    ensures New(c.id, c.title, c.description, c.price, c.location, c.imageUrl, Texts(c.amenities),
                c.createdAt, c.updatedAt, b) == Err("Amenity cannot exceed 100 characters")
  {
    GoodPrefixSkipped(Texts(good), [Str(amenity)]);
    assert Texts(c.amenities) == Texts(good) + [Str(amenity)];
    assert ElementError([Str(amenity)]) == Some("Amenity cannot exceed 100 characters");
  }

  /** `addAmenity` can break the invariant the constructor keeps: it skips the 100-byte limit. */
  lemma AddAmenitySkipsLengthLimit(a: Accommodation, amenity: string, now: int, b: Builtins)
    requires Valid(a, b)
    requires |amenity| == 101 && forall i :: 0 <= i < |amenity| ==> !IsTrimChar(amenity[i])
    ensures AddAmenity(a, amenity, now).Ok?
    ensures !Valid(AddAmenity(a, amenity, now).value, b)
  {
    UntrimmableNotBlank(amenity);
    var r := AddAmenity(a, amenity, now).value;
    assert r.amenities[|r.amenities| - 1] == amenity;
  }

  /** Arguments that are all null assign nothing. */
  lemma {:induction false} AssignNothing(a: Accommodation, us: seq<Option<FieldUpdate>>)
    requires forall i :: 0 <= i < |us| ==> us[i].None?
    ensures AssignAll(a, us) == a
    decreases |us|
  {
    if us != [] {
      assert forall i :: 0 <= i < |us[1..]| ==> us[1..][i] == us[i + 1];
      AssignNothing(a, us[1..]);
    }
  }

  /** An update that is given no field only refreshes the timestamp. */
  lemma EmptyUpdateTouchesOnly(a: Accommodation, now: int, b: Builtins)
    ensures UpdateInfo(a, None, None, None, None, None, None, now, b) == Done(a.(updatedAt := now))
  {
    AssignNothing(a, Updates(None, None, None, None, None, None));
  }

  /** Assigning one accepted argument to a valid record yields a valid record. */
  lemma AssignValid(a: Accommodation, u: FieldUpdate, b: Builtins)
    requires Valid(a, b) && CheckUpdate(u, b).Pass?
    ensures Valid(Assign(a, u), b)
  {
    match u
    case NewAmenities(xs) =>
    case _ =>
  }

  /** Assigning accepted arguments to a valid record yields a valid record. */
  lemma {:induction false} AssignAllValid(a: Accommodation, us: seq<Option<FieldUpdate>>, b: Builtins)
    requires Valid(a, b)
    requires AllAccepted(us, b)
    ensures Valid(AssignAll(a, us), b)
    decreases |us|
  {
    if us != [] {
      var next := if us[0].Some? then Assign(a, us[0].value) else a;
      assert Accepted(us[0], b);
      if us[0].Some? {
        AssignValid(a, us[0].value, b);
      }
      assert forall i :: 0 <= i < |us[1..]| ==> us[1..][i] == us[i + 1];
      AssignAllValid(next, us[1..], b);
    }
  }

  /** A successful update of a valid record yields a valid record. */
  lemma UpdatePreservesValid(a: Accommodation, title: Option<string>, description: Option<string>,
                             price: Option<real>, location: Option<string>, imageUrl: Option<string>,
                             amenities: Option<seq<Value>>, now: int, b: Builtins)
    requires Valid(a, b)
    requires UpdateInfo(a, title, description, price, location, imageUrl, amenities, now, b).Done?
    ensures Valid(UpdateInfo(a, title, description, price, location, imageUrl, amenities, now, b).value, b)
  {
    AssignAllValid(a, Updates(title, description, price, location, imageUrl, amenities), b);
  }

  /** One argument assigned when given. */
  function AssignGiven(a: Accommodation, u: Option<FieldUpdate>): Accommodation {
    if u.Some? then Assign(a, u.value) else a
  }

  /** Assigning a list of arguments is assigning its head, then its tail. */
  lemma AssignAllStep(a: Accommodation, us: seq<Option<FieldUpdate>>)
    requires us != []
    ensures AssignAll(a, us) == AssignAll(AssignGiven(a, us[0]), us[1..])
  {
  }

  /** The six arguments assigned in order: each given one replaces its field. */
  lemma AssignAllUpdates(a: Accommodation, title: Option<string>, description: Option<string>,
                         price: Option<real>, location: Option<string>, imageUrl: Option<string>,
                         amenities: Option<seq<Value>>)
    ensures AssignAll(a, Updates(title, description, price, location, imageUrl, amenities)) == a.(
      title := title.GetOr(a.title), description := description.GetOr(a.description),
      price := price.GetOr(a.price), location := location.GetOr(a.location),
      imageUrl := if imageUrl.Some? then imageUrl else a.imageUrl,
      amenities := if amenities.Some? && AsTexts(amenities.value).Some? then AsTexts(amenities.value).value
                   else a.amenities)
  {
    var us := Updates(title, description, price, location, imageUrl, amenities);
    AssignSix(a, us);
  }

  /** A six-argument list assigns its elements one after another. */
  lemma AssignSix(a: Accommodation, us: seq<Option<FieldUpdate>>)
    requires |us| == 6
    ensures AssignAll(a, us) ==
      AssignGiven(AssignGiven(AssignGiven(AssignGiven(AssignGiven(AssignGiven(a, us[0]), us[1]), us[2]), us[3]), us[4]), us[5])
  {
    var a1 := AssignGiven(a, us[0]);
    var a2 := AssignGiven(a1, us[1]);
    var a3 := AssignGiven(a2, us[2]);
    var a4 := AssignGiven(a3, us[3]);
    var a5 := AssignGiven(a4, us[4]);
    AssignAllStep(a, us);
    AssignAllStep(a1, us[1..]);
    assert us[1..][1..] == us[2..];
    AssignAllStep(a2, us[2..]);
    assert us[2..][1..] == us[3..];
    AssignAllStep(a3, us[3..]);
    assert us[3..][1..] == us[4..];
    AssignAllStep(a4, us[4..]);
    assert us[4..][1..] == us[5..];
    AssignAllStep(a5, us[5..]);
    assert us[5..][1..] == [];
  }

  /** What `updateInfo` assigns, field by field: each given argument, and the old value otherwise. */
  lemma UpdateInfoFields(a: Accommodation, title: Option<string>, description: Option<string>,
                         price: Option<real>, location: Option<string>, imageUrl: Option<string>,
                         amenities: Option<seq<Value>>, now: int, b: Builtins)
    requires UpdateInfo(a, title, description, price, location, imageUrl, amenities, now, b).Done?
    ensures var r := UpdateInfo(a, title, description, price, location, imageUrl, amenities, now, b).value;
      && r.id == a.id && r.createdAt == a.createdAt && r.updatedAt == now
      && r.title == title.GetOr(a.title) && r.description == description.GetOr(a.description)
      && r.price == price.GetOr(a.price) && r.location == location.GetOr(a.location)
      && r.imageUrl == (if imageUrl.Some? then imageUrl else a.imageUrl)
      && Texts(r.amenities) == (if amenities.Some? then amenities.value else Texts(a.amenities))
  {
    var us := Updates(title, description, price, location, imageUrl, amenities);
    assert UpdateInfo(a, title, description, price, location, imageUrl, amenities, now, b).value
           == AssignAll(a, us).(updatedAt := now);
    AssignAllUpdates(a, title, description, price, location, imageUrl, amenities);
    assert Accepted(us[5], b);
    AcceptedAmenities(amenities, b);
  }

  /** An accepted amenities argument is a list of strings, which `Texts` gives back. */
  lemma AcceptedAmenities(amenities: Option<seq<Value>>, b: Builtins)
    requires Accepted(if amenities.Some? then Some(NewAmenities(amenities.value)) else None, b)
    ensures amenities.Some? ==> AsTexts(amenities.value).Some? && Texts(AsTexts(amenities.value).value) == amenities.value
  {
    if amenities.Some? {
      TextsOfAsTexts(amenities.value);
    }
  }

  /** `updateInfo` never removes an image: a record that had one keeps one. */
  lemma UpdateKeepsImage(a: Accommodation, title: Option<string>, description: Option<string>,
                         price: Option<real>, location: Option<string>, imageUrl: Option<string>,
                         amenities: Option<seq<Value>>, now: int, b: Builtins)
    requires a.imageUrl.Some?
    requires UpdateInfo(a, title, description, price, location, imageUrl, amenities, now, b).Done?
    ensures UpdateInfo(a, title, description, price, location, imageUrl, amenities, now, b).value.imageUrl.Some?
  {
    UpdateInfoFields(a, title, description, price, location, imageUrl, amenities, now, b);
  }

  /** `toArray()`: the fields under their snake_case names, amenities as a list of strings. */
  function ToArray(a: Accommodation): (r: Value)
    ensures Field(r, "id") == Some(Int(a.id))
    ensures Field(r, "image_url") == Some(if a.imageUrl.Some? then Str(a.imageUrl.value) else Null)
    ensures Field(r, "amenities") == Some(List(Texts(a.amenities)))
  {
    var fields := [("id", Int(a.id)), ("title", Str(a.title)), ("description", Str(a.description)),
                   ("price", Float(a.price)), ("location", Str(a.location)),
                   ("image_url", if a.imageUrl.Some? then Str(a.imageUrl.value) else Null),
                   ("amenities", List(Texts(a.amenities))),
                   ("created_at", Int(a.createdAt)), ("updated_at", Int(a.updatedAt))];
    assert Field(Obj(fields), "id") == Some(Int(a.id)) by { FieldOfObj(fields, "id", 0); }
    assert Field(Obj(fields), "image_url") == Some(fields[5].1) by { FieldOfObj(fields, "image_url", 5); }
    assert Field(Obj(fields), "amenities") == Some(fields[6].1) by { FieldOfObj(fields, "amenities", 6); }
    Obj(fields)
  }

  /** Each accommodation as its array, in order (`array_map` over `toArray()`). */
  function ToArrays(xs: seq<Accommodation>): (r: seq<Value>)
    ensures |r| == |xs|
    ensures forall i :: 0 <= i < |r| ==> r[i] == ToArray(xs[i])
  {
    if xs == [] then [] else [ToArray(xs[0])] + ToArrays(xs[1..])
  }
}

=== FILE: accommodation_controller.dfy ===
/**
  * `AccommodationController`: the public listing and lookup of accommodations and
  * the admin-only creation. The file declares strict typing, so a value that is not
  * a string reaching a service parameter declared `string` raises a TypeError, which
  * none of the controller's `catch` blocks sees.
  */
module AccommodationControllers {
  import opened Wrappers
  import opened PhpText
  import opened PhpValues
  import opened Store
  import opened Http
  import opened Accommodations
  import AccommodationServices
  import AuthMiddleware

  /** `['error' => $error, 'message' => $message]` under a status, the controller's failure shape. */
  function Problem(status: int, error: string, message: string): (r: Reply)
    ensures r.status == status && r.data.Arr?
    ensures Field(r.data, "error") == Some(Str(error))
    ensures Field(r.data, "message") == Some(Str(message))
  {
    var fields := [("error", Str(error)), ("message", Str(message))];
    FieldOfObj(fields, "error", 0);
    FieldOfObj(fields, "message", 1);
    Reply(status, Obj(fields))
  }

  /** A service's `InvalidArgumentException`, as the controller's `catch` receives it. */
  function Raised<T>(r: Result<T, string>): (t: Result<T, Thrown>)
    ensures t.Ok? <==> r.Ok?
    ensures t.Ok? ==> t.value == r.value
    ensures t.Err? ==> t.error == InvalidArgument(r.error)
  {
    match r
    case Ok(x) => Ok(x)
    case Err(m) => Err(InvalidArgument(m))
  }

  /** A value passed to a parameter declared `string` under strict typing. */
  function StrictText(v: Value): (r: Result<string, Thrown>)
    ensures r.Ok? <==> v.Str?
    ensures r.Ok? ==> r.value == v.s
    ensures r.Err? ==> r.error.PhpError?
  {
    if v.Str? then Ok(v.s) else Err(PhpError("TypeError"))
  }

  // ---------------------------------------------------------------------------
  // Listing
  // ---------------------------------------------------------------------------

  /** `$_GET[$name] ?? null`, and `isset($_GET[$name])`: the value when present and not null. */
  function Query(query: map<string, Value>, name: string): (r: Option<Value>)
    ensures r.Some? <==> name in query && !query[name].Null?
    ensures r.Some? ==> r.value == query[name]
  {
    if name in query && !query[name].Null? then Some(query[name]) else None
  }

  /** The seven query parameters as `listAccommodations()` reads them, casts applied. */
  datatype Params = Params(
    limit: Option<int>,
    offset: Option<int>,
    location: Option<Value>,
    minPrice: Option<real>,
    maxPrice: Option<real>,
    search: Option<Value>,
    amenity: Option<Value>)

  /** The reads at the top of `listAccommodations()`. */
  function ReadParams(query: map<string, Value>, b: Builtins): Params {
    Params(
      if Query(query, "limit").Some? then Some(CastInt(query["limit"], b)) else None,
      if Query(query, "offset").Some? then Some(CastInt(query["offset"], b)) else None,
      Query(query, "location"),
      if Query(query, "min_price").Some? then Some(CastFloat(query["min_price"], b)) else None,
      if Query(query, "max_price").Some? then Some(CastFloat(query["max_price"], b)) else None,
      Query(query, "search"),
      Query(query, "amenity"))
  }

  /** A parameter that is present and truthy, what `if ($search)` accepts. */
  predicate Set(v: Option<Value>) {
    v.Some? && Truthy(v.value)
  }

  /** The one service query a listing runs. */
  datatype Filter =
    | BySearch(term: Value)
    | ByLocation(location: Value)
    | ByPrice(min: real, max: real)
    | ByAmenity(amenity: Value)
    | ByPage(limit: int, offset: int)
    | Everything

  /** The place of a filter in the controller's `if`/`elseif` chain. */
  function Rank(f: Filter): nat {
    match f
    case BySearch(_) => 0
    case ByLocation(_) => 1
    case ByPrice(_, _) => 2
    case ByAmenity(_) => 3
    case ByPage(_, _) => 4
    case Everything => 5
  }

  /** Whether the parameters ask for a filter, judged on its own, ignoring every other filter. */
  predicate Applicable(p: Params, f: Filter) {
    match f
    case BySearch(t) => p.search == Some(t) && Truthy(t)
    case ByLocation(l) => p.location == Some(l) && Truthy(l)
    case ByPrice(lo, hi) => p.minPrice == Some(lo) && p.maxPrice == Some(hi)
    case ByAmenity(a) => p.amenity == Some(a) && Truthy(a)
    case ByPage(n, o) => p.limit == Some(n) && o == p.offset.GetOr(0)
    case Everything => true
  }

  /** The filter `listAccommodations()` applies: the first one asked for, in the chain's order. */
  function Choose(p: Params): (f: Filter)
    ensures Applicable(p, f)
    ensures forall g :: Applicable(p, g) ==> Rank(f) <= Rank(g)
  {
    if Set(p.search) then BySearch(p.search.value)
    else if Set(p.location) then ByLocation(p.location.value)
    else if p.minPrice.Some? && p.maxPrice.Some? then ByPrice(p.minPrice.value, p.maxPrice.value)
    else if Set(p.amenity) then ByAmenity(p.amenity.value)
    else if p.limit.Some? then ByPage(p.limit.value, p.offset.GetOr(0))
    else Everything
  }

  /** Whether a filter hands a query value to a service parameter declared `string`. */
  predicate TakesText(f: Filter) {
    f.BySearch? || f.ByLocation? || f.ByAmenity?
  }

  /** The text a text filter carries. */
  function TextOf(f: Filter): Value
    requires TakesText(f)
  {
    match f
    case BySearch(t) => t
    case ByLocation(l) => l
    case ByAmenity(a) => a
  }

  /** The service call behind each filter; `getAllAccommodations()` for none. */
  function Run(db: Db, f: Filter): (r: Result<seq<Accommodation>, Thrown>)
    ensures r.Err? && r.error.PhpError? <==> TakesText(f) && !TextOf(f).Str?
    ensures r.Err? ==> r.error.PhpError? || r.error.InvalidArgument?
    ensures f == Everything ==> r == Ok(db.accommodations)
    ensures r.Ok? ==> forall i :: 0 <= i < |r.value| ==> r.value[i] in db.accommodations
  {
    match f
    case BySearch(t) =>
      (match StrictText(t)
       case Err(e) => Err(e)
       case Ok(s) => Raised(AccommodationServices.SearchByTerm(db, s)))
    case ByLocation(l) =>
      (match StrictText(l)
       case Err(e) => Err(e)
       case Ok(s) => Raised(AccommodationServices.ByLocation(db, s)))
    case ByPrice(lo, hi) => Raised(AccommodationServices.ByPriceRange(db, lo, hi))
    case ByAmenity(a) =>
      (match StrictText(a)
       case Err(e) => Err(e)
       case Ok(s) => Raised(AccommodationServices.ByAmenity(db, s)))
    case ByPage(n, o) =>
      var page := AccommodationServices.Paginate(db, n, o);
      assert page.Ok? ==> forall i :: 0 <= i < |page.value| ==> page.value[i] == db.accommodations[o + i];
      Raised(page)
    case Everything => Ok(db.accommodations)
  }

  /** What a query lists: the service query its chosen filter runs. */
  function Listed(db: Db, query: map<string, Value>, b: Builtins): Result<seq<Accommodation>, Thrown> {
    Run(db, Choose(ReadParams(query, b)))
  }

  function Maybe(v: Option<Value>): Value { v.GetOr(Null) }

  /** `filters_applied`: the parameters echoed back, null where unset. */
  function Echo(p: Params): (v: Value)
    ensures v.Arr?
  {
    Obj([("search", Maybe(p.search)), ("location", Maybe(p.location)),
         ("min_price", if p.minPrice.Some? then Float(p.minPrice.value) else Null),
         ("max_price", if p.maxPrice.Some? then Float(p.maxPrice.value) else Null),
         ("amenity", Maybe(p.amenity)),
         ("limit", if p.limit.Some? then Int(p.limit.value) else Null),
         ("offset", if p.offset.Some? then Int(p.offset.value) else Null)])
  }

  /** The 200 body of a listing. */
  function Catalogue(items: seq<Accommodation>, p: Params): (v: Value)
    ensures Field(v, "accommodations") == Some(List(ToArrays(items)))
    ensures Field(v, "total") == Some(Int(|items|))
  {
    var fields := [("accommodations", List(ToArrays(items))), ("total", Int(|items|)), ("filters_applied", Echo(p))];
    FieldOfObj(fields, "accommodations", 0);
    FieldOfObj(fields, "total", 1);
    Obj(fields)
  }

  /**
    * `listAccommodations()`: the chosen query's accommodations and their count, or a
    * 400 for a service's refusal; a TypeError escapes.
    */
  function ListAccommodations(db: Db, query: map<string, Value>, b: Builtins): (r: Result<Reply, Thrown>)
    ensures r.Err? <==> Listed(db, query, b).Err? && Listed(db, query, b).error.PhpError?
    ensures r.Err? ==> r.error.PhpError?
    ensures r.Ok? ==> (r.value.status == 200 || r.value.status == 400) && r.value.data.Arr?
    ensures r.Ok? && r.value.status == 200 <==> Listed(db, query, b).Ok?
    ensures Listed(db, query, b).Ok? ==>
      (Field(r.value.data, "accommodations") == Some(List(ToArrays(Listed(db, query, b).value)))
       && Field(r.value.data, "total") == Some(Int(|Listed(db, query, b).value|)))
    ensures Listed(db, query, b).Err? && Listed(db, query, b).error.InvalidArgument? ==>
      r == Ok(Problem(400, "Invalid request parameters", Listed(db, query, b).error.message))
  {
    match Listed(db, query, b)
    case Ok(items) => Ok(Reply(200, Catalogue(items, ReadParams(query, b))))
    case Err(e) =>
      if e.InvalidArgument? then Ok(Problem(400, "Invalid request parameters", e.message)) else Err(e)
  }

  /** A listing's `total` is the number of rows in its `accommodations` list. */
  lemma TotalCountsRows(db: Db, query: map<string, Value>, b: Builtins)
    requires ListAccommodations(db, query, b).Ok?
    requires ListAccommodations(db, query, b).value.status == 200
    ensures var data := ListAccommodations(db, query, b).value.data;
      exists es :: Field(data, "accommodations") == Some(Arr(es)) && Field(data, "total") == Some(Int(|es|))
  {
    var items := Listed(db, query, b).value;
    var es := ListFrom(ToArrays(items), 0);
    assert |es| == |items|;
    assert List(ToArrays(items)) == Arr(es);
  }

  /** With no query parameters, every stored accommodation is listed. */
  lemma EmptyQueryListsAll(db: Db, b: Builtins)
    ensures ListAccommodations(db, map[], b).Ok?
    ensures ListAccommodations(db, map[], b).value.status == 200
    ensures Field(ListAccommodations(db, map[], b).value.data, "total") == Some(Int(|db.accommodations|))
  {
    var p := ReadParams(map[], b);
    assert p == Params(None, None, None, None, None, None, None);
    assert Choose(p) == Everything;
  }

  /**
    * A truthy search term outranks every other parameter: the listing is the search's,
    * and each listed accommodation matches the term in its title or description.
    */
  lemma SearchOutranks(db: Db, query: map<string, Value>, b: Builtins, term: string)
    requires "search" in query && query["search"] == Str(term) && !IsEmpty(term)
    ensures Listed(db, query, b) == Raised(AccommodationServices.SearchByTerm(db, term))
    ensures Listed(db, query, b).Ok? ==> forall a :: a in Listed(db, query, b).value ==>
      a in db.accommodations && (Like(a.title, term) || Like(a.description, term))
  {
    var p := ReadParams(query, b);
    assert p.search == Some(Str(term));
    assert Choose(p) == BySearch(Str(term)) by {
      assert Applicable(p, BySearch(Str(term)));
    }
    var r := AccommodationServices.SearchByTerm(db, term);
    if r.Ok? {
      forall a | a in r.value
        ensures a in db.accommodations && (Like(a.title, term) || Like(a.description, term))
      {
        var i :| 0 <= i < |r.value| && r.value[i] == a;
      }
    }
  }

  /** A price range needs both bounds: a lone `min_price` is ignored and everything is listed. */
  lemma LoneMinPriceIgnored(db: Db, price: Value, b: Builtins)
    ensures Listed(db, map["min_price" := price], b) == Ok(db.accommodations)
  {
    var query := map["min_price" := price];
    var p := ReadParams(query, b);
    assert p.maxPrice.None? && p.limit.None?;
    assert !Set(p.search) && !Set(p.location) && !Set(p.amenity);
    assert Choose(p) == Everything;
  }

  /** `?search[]=x`: an array reaches `searchAccommodations(string)` and escapes as a TypeError. */
  lemma ArraySearchEscapes(db: Db, query: map<string, Value>, b: Builtins, es: seq<Entry>)
    requires "search" in query && query["search"] == Arr(es) && es != []
    ensures ListAccommodations(db, query, b).Err?
  {
    var p := ReadParams(query, b);
    assert Choose(p) == BySearch(Arr(es)) by {
      assert Applicable(p, BySearch(Arr(es)));
    }
  }

  /** `?limit=n` alone pages from offset 0. */
  lemma LimitPagesFromStart(db: Db, limit: Value, b: Builtins)
    requires !limit.Null?
    ensures Listed(db, map["limit" := limit], b) == Raised(AccommodationServices.Paginate(db, CastInt(limit, b), 0))
  {
    var p := ReadParams(map["limit" := limit], b);
    assert p.limit == Some(CastInt(limit, b)) && p.offset.None?;
    assert !Set(p.search) && !Set(p.location) && !Set(p.amenity) && p.minPrice.None?;
    assert Choose(p) == ByPage(CastInt(limit, b), 0);
  }

  // ---------------------------------------------------------------------------
  // Creation
  // ---------------------------------------------------------------------------

  /** The fields a creation request must fill. */
  const Required: seq<string> := ["title", "description", "price", "location"]

  /** `!isset($data[$name]) || empty(trim((string) $data[$name]))`. */
  predicate Missing(data: Value, name: string, b: Builtins) {
    Given(data, name).None? || Blank(CastText(Given(data, name).value, b))
  }

  /** The names among `names` that are missing, in order. */
  function MissingAmong(data: Value, names: seq<string>, b: Builtins): (r: seq<string>)
    ensures forall x :: x in r <==> x in names && Missing(data, x, b)
    ensures |r| <= |names|
  {
    if names == [] then []
    else (if Missing(data, names[0], b) then [names[0]] else []) + MissingAmong(data, names[1..], b)
  }

  /** `$missingFields` for the creation request. */
  function MissingFields(data: Value, b: Builtins): (r: seq<string>)
    ensures forall x :: x in r <==> x in Required && Missing(data, x, b)
  {
    MissingAmong(data, Required, b)
  }

  /** The creation request's values once the required ones are present. */
  datatype Draft = Draft(
    title: string,
    description: string,
    price: real,
    location: string,
    imageUrl: Option<string>,
    amenities: seq<Value>)

  /** The reads of `createAccommodation()`: trimmed text casts, `(float)` price, an array of amenities or none. */
  function ReadDraft(data: Value, b: Builtins): (d: Draft)
    ensures d.imageUrl.Some? <==> Given(data, "image_url").Some?
    ensures At(data, "amenities").Arr? ==> d.amenities == Values(At(data, "amenities").entries)
    ensures !At(data, "amenities").Arr? ==> d.amenities == []
  {
    var amenities := At(data, "amenities");
    Draft(Trim(CastText(At(data, "title"), b)),
          Trim(CastText(At(data, "description"), b)),
          CastFloat(At(data, "price"), b),
          Trim(CastText(At(data, "location"), b)),
          if Given(data, "image_url").Some? then Some(Trim(CastText(Given(data, "image_url").value, b))) else None,
          if amenities.Arr? then Values(amenities.entries) else [])
  }

  /** The service's creation of a draft. */
  function Service(db: Db, d: Draft, now: int, b: Builtins): Result<(Db, Accommodation), string> {
    AccommodationServices.CreateAccommodation(db, d.title, d.description, d.price, d.location, d.imageUrl, d.amenities, now, b)
  }

  /** The 400 for missing fields: the missing names and the required ones. */
  function MissingReply(missing: seq<string>): (r: Reply)
    ensures r.status == 400
    ensures Field(r.data, "missing_fields") == Some(Strs(missing))
  {
    var fields := [("error", Str("Missing required fields")), ("missing_fields", Strs(missing)),
                   ("required_fields", Strs(Required))];
    FieldOfObj(fields, "missing_fields", 1);
    Reply(400, Obj(fields))
  }

  /** The 201 body: the created accommodation and the admin who created it. */
  function Created(a: Accommodation, admin: AuthMiddleware.Identity): (v: Value)
    ensures Field(v, "accommodation") == Some(ToArray(a))
  {
    var creator := Obj([("admin_id", Int(admin.id)), ("admin_username", Str(admin.username))]);
    var fields := [("message", Str("Accommodation created successfully")), ("accommodation", ToArray(a)),
                   ("created_by", creator)];
    FieldOfObj(fields, "accommodation", 1);
    Obj(fields)
  }

  /** The refusal of a caller who is not an admin. */
  const Forbidden := Problem(403, "Access denied", "Admin privileges required to create accommodations")

  /** `createAccommodation()` past the required-field check: the price's sign, then the service. */
  function CreateDraft(db: Db, admin: AuthMiddleware.Identity, d: Draft, now: int, b: Builtins): (r: (Db, Reply))
    ensures (r.1.status == 201 || r.1.status == 400) && r.1.data.Arr?
    ensures d.price < 0.0 ==> r == (db, Problem(400, "Invalid price", "Price cannot be negative"))
    ensures r.1.status == 201 <==> d.price >= 0.0 && Service(db, d, now, b).Ok?
    ensures r.1.status == 201 ==>
      (r.0 == Service(db, d, now, b).value.0
       && Field(r.1.data, "accommodation") == Some(ToArray(Service(db, d, now, b).value.1)))
    ensures r.1.status != 201 ==> r.0 == db
    ensures d.price >= 0.0 && Service(db, d, now, b).Err? ==>
      r == (db, Problem(400, "Invalid accommodation data", Service(db, d, now, b).error))
  {
    if d.price < 0.0 then (db, Problem(400, "Invalid price", "Price cannot be negative"))
    else match Service(db, d, now, b)
      case Err(m) => (db, Problem(400, "Invalid accommodation data", m))
      case Ok((db', a)) => (db', Reply(201, Created(a, admin)))
  }

  /** `createAccommodation()` once an admin and the body are known: missing fields first. */
  function CreateFor(db: Db, admin: AuthMiddleware.Identity, data: Value, now: int, b: Builtins): (r: (Db, Reply))
    ensures (r.1.status == 201 || r.1.status == 400) && r.1.data.Arr?
    ensures MissingFields(data, b) != [] ==> r == (db, MissingReply(MissingFields(data, b)))
    ensures MissingFields(data, b) == [] ==> r == CreateDraft(db, admin, ReadDraft(data, b), now, b)
    ensures r.1.status == 201 ==> MissingFields(data, b) == []
  {
    var missing := MissingFields(data, b);
    if missing != [] then (db, MissingReply(missing))
    else CreateDraft(db, admin, ReadDraft(data, b), now, b)
  }

  /** Whether the published identity is an admin's. */
  predicate IsAdmin(user: Option<AuthMiddleware.Identity>) {
    user.Some? && user.value.role == "admin"
  }

  /** `createAccommodation()`: anyone but an admin gets a 403 before the body is read. */
  function CreateAccommodation(db: Db, user: Option<AuthMiddleware.Identity>, req: Request, now: int, b: Builtins)
    : (r: Result<(Db, Reply), Thrown>)
    ensures !IsAdmin(user) ==> r == Ok((db, Forbidden))
    ensures IsAdmin(user) && RequestBody(req).Err? ==> r.Err? && r.error.PhpError?
    ensures IsAdmin(user) && RequestBody(req).Ok? ==> r == Ok(CreateFor(db, user.value, RequestBody(req).value, now, b))
    ensures r.Ok? && r.value.1.status == 201 ==> IsAdmin(user)
    ensures r.Ok? ==> r.value.1.data.Arr?
  {
    if !IsAdmin(user) then Ok((db, Forbidden))
    else match RequestBody(req)
      case Err(e) => Err(e)
      case Ok(data) => Ok(CreateFor(db, user.value, data, now, b))
  }

  /** A price sent as the text "0" counts as missing (PHP's `empty("0")`); a price such as "0.0" is not empty and passes. */
  lemma ZeroPriceIsMissing(db: Db, admin: AuthMiddleware.Identity, data: Value, now: int, b: Builtins)
    requires Given(data, "price") == Some(Str("0"))
    ensures "price" in MissingFields(data, b)
    ensures CreateFor(db, admin, data, now, b).1.status == 400
  {
    EmptyIsBlank("0");
    assert Missing(data, "price", b);
    assert "price" in Required;
  }

  // ---------------------------------------------------------------------------
  // Lookup
  // ---------------------------------------------------------------------------

  /** `getAccommodation($params)`: a non-zero id, then the stored row or a 404. */
  function GetAccommodation(db: Db, params: Value, b: Builtins): (r: Reply)
    ensures (r.status == 200 || r.status == 400 || r.status == 404) && r.data.Arr?
    ensures r.status == 400 <==> PathId(params, "id", b) == 0
    ensures r.status == 404 <==> PathId(params, "id", b) != 0 && !AccommodationExists(db, PathId(params, "id", b))
    ensures r.status == 200 ==>
      Field(r.data, "accommodation") == Some(ToArray(FindAccommodation(db, PathId(params, "id", b)).value))
  {
    var id := PathId(params, "id", b);
    if id == 0 then Problem(400, "Invalid accommodation ID", "Accommodation ID is required")
    else match FindAccommodation(db, id)
      case None => Problem(404, "Accommodation not found", "No accommodation found with the specified ID")
      case Some(a) =>
        FieldOfObj([("accommodation", ToArray(a))], "accommodation", 0);
        Reply(200, Obj([("accommodation", ToArray(a))]))
  }

  /** A lookup reads the store only through `findById` of the requested id. */
  lemma GetReadsOnlyFind(db1: Db, db2: Db, params: Value, b: Builtins)
    requires FindAccommodation(db1, PathId(params, "id", b)) == FindAccommodation(db2, PathId(params, "id", b))
    ensures GetAccommodation(db1, params, b) == GetAccommodation(db2, params, b)
  {
  }

  /** After the service's creation, the new id finds the new record. */
  lemma LookupCreated(db: Db, d: Draft, now: int, b: Builtins, params: Value)
    requires Good(db)
    requires Service(db, d, now, b).Ok?
    requires Given(params, "id") == Some(Int(db.lastAccommodationId + 1))
    ensures GetAccommodation(Service(db, d, now, b).value.0, params, b).status == 200
    ensures Field(GetAccommodation(Service(db, d, now, b).value.0, params, b).data, "accommodation")
            == Some(ToArray(Service(db, d, now, b).value.1))
  {
    var (db', a) := Service(db, d, now, b).value;
    AccommodationServices.CreateThenFind(db, d.title, d.description, d.price, d.location, d.imageUrl, d.amenities,
                                         now, b, 0);
    assert FindAccommodation(db', a.id) == Some(a);
    assert PathId(params, "id", b) == a.id;
  }

  /** After the service's creation, every other id is answered as before. */
  lemma LookupOthers(db: Db, d: Draft, now: int, b: Builtins, other: Value)
    requires Good(db)
    requires Service(db, d, now, b).Ok?
    requires PathId(other, "id", b) != db.lastAccommodationId + 1
    ensures GetAccommodation(Service(db, d, now, b).value.0, other, b) == GetAccommodation(db, other, b)
  {
    var db' := Service(db, d, now, b).value.0;
    var o := PathId(other, "id", b);
    AccommodationServices.CreateThenFind(db, d.title, d.description, d.price, d.location, d.imageUrl, d.amenities,
                                         now, b, o);
    assert FindAccommodation(db', o) == FindAccommodation(db, o);
    GetReadsOnlyFind(db', db, other, b);
  }

  /**
    * An accommodation an admin creates can be looked up by the id the creation
    * reported, and the lookup shows what the creation returned; other ids are
    * answered as before.
    */
  lemma CreateThenGet(db: Db, admin: AuthMiddleware.Identity, data: Value, now: int, b: Builtins,
                      params: Value, other: Value)
    requires Good(db)
    requires CreateFor(db, admin, data, now, b).1.status == 201
    requires Given(params, "id") == Some(Int(db.lastAccommodationId + 1))
    requires PathId(other, "id", b) != db.lastAccommodationId + 1
    ensures var (db', reply) := CreateFor(db, admin, data, now, b);
      && GetAccommodation(db', params, b).status == 200
      && Field(GetAccommodation(db', params, b).data, "accommodation") == Field(reply.data, "accommodation")
      && GetAccommodation(db', other, b) == GetAccommodation(db, other, b)
  {
    LookupCreated(db, ReadDraft(data, b), now, b, params);
    LookupOthers(db, ReadDraft(data, b), now, b, other);
  }
}

=== FILE: accommodation_factory.dfy ===
/**
  * `AccommodationFactory`: the preset amenity lists, creation from amenity categories,
  * and the reading of a database row into an entity.
  */
module AccommodationFactories {
  import opened Wrappers
  import opened PhpText
  import opened PhpValues
  import opened Accommodations

  // ---------------------------------------------------------------- presets

  const PremiumAmenities: seq<string> :=
    ["WiFi", "Air Conditioning", "Private Bathroom", "Room Service", "Flat Screen TV", "Mini Bar", "Safe", "Balcony"]

  const BudgetAmenities: seq<string> := ["WiFi", "Shared Bathroom", "Basic TV"]

  /** A literal amenity name: 2 to 100 bytes, starting and ending with bytes `trim` keeps. */
  predicate Tidy(s: string) {
    2 <= |s| <= 100 && !IsTrimChar(s[0]) && !IsTrimChar(s[|s| - 1])
  }

  predicate AllTidy(xs: seq<string>) {
    forall i :: 0 <= i < |xs| ==> Tidy(xs[i])
  }

  predicate AllGood(xs: seq<string>) {
    forall i :: 0 <= i < |xs| ==> GoodAmenity(xs[i])
  }

  /** Tidy names are amenities the entity accepts. */
  lemma TidyGood(xs: seq<string>)
    requires AllTidy(xs)
    ensures AllGood(xs)
  {
    forall i | 0 <= i < |xs| ensures GoodAmenity(xs[i]) {
      UntrimmableNotBlank(xs[i]);
    }
  }

  /** A list of distinct tidy names is an amenity list the entity accepts. */
  lemma TidyAccepted(xs: seq<string>)
    requires AllTidy(xs) && Distinct(xs)
    ensures AmenitiesOk(xs)
  {
    TidyGood(xs);
  }

  lemma PremiumDistinct() ensures AllTidy(PremiumAmenities) && Distinct(PremiumAmenities) { }
  lemma BudgetDistinct() ensures AllTidy(BudgetAmenities) && Distinct(BudgetAmenities) { }

  /** Both presets are lists the entity accepts. */
  lemma PresetsAccepted()
    ensures AmenitiesOk(PremiumAmenities) && AmenitiesOk(BudgetAmenities)
  {
    PremiumDistinct();
    TidyAccepted(PremiumAmenities);
    BudgetDistinct();
    TidyAccepted(BudgetAmenities);
  }

  /** Creation with an acceptable amenity list succeeds exactly when the other fields pass. */
  lemma CreateWithList(title: string, description: string, price: real, location: string,
                       imageUrl: Option<string>, xs: seq<string>, now: int, b: Builtins)
    requires AmenitiesOk(xs)
    ensures Create(title, description, price, location, imageUrl, Texts(xs), now, b).Ok?
            <==> BaseAccepted(title, description, price, location, imageUrl, b)
    ensures Create(title, description, price, location, imageUrl, Texts(xs), now, b).Ok? ==>
      Create(title, description, price, location, imageUrl, Texts(xs), now, b).value.amenities == xs
  {
  }

  /** The base checks every factory method shares: all fields but the amenities. */
  predicate BaseAccepted(title: string, description: string, price: real, location: string,
                         imageUrl: Option<string>, b: Builtins) {
    && ValidateTitle(title).Pass? && ValidateDescription(description).Pass?
    && ValidatePrice(price).Pass? && ValidateLocation(location).Pass?
    && ValidateImageUrl(imageUrl, b).Pass?
  }

  /** `createBasicAccommodation`: no image, no amenities. */
  function CreateBasic(title: string, description: string, price: real, location: string, now: int, b: Builtins)
    : (r: Result<Accommodation, string>)
    ensures r.Ok? <==> BaseAccepted(title, description, price, location, None, b)
    ensures r.Ok? ==> r.value.amenities == [] && r.value.imageUrl.None? && r.value.id == 0
  {
    assert Texts([]) == [];
    CreateWithList(title, description, price, location, None, [], now, b);
    Create(title, description, price, location, None, [], now, b)
  }

  /** `createPremiumAccommodation`: the eight premium amenities. */
  function CreatePremium(title: string, description: string, price: real, location: string,
                         imageUrl: Option<string>, now: int, b: Builtins): (r: Result<Accommodation, string>)
    ensures r.Ok? <==> BaseAccepted(title, description, price, location, imageUrl, b)
    ensures r.Ok? ==> r.value.amenities == PremiumAmenities && |r.value.amenities| == 8
  {
    PresetsAccepted();
    CreateWithList(title, description, price, location, imageUrl, PremiumAmenities, now, b);
    Create(title, description, price, location, imageUrl, Texts(PremiumAmenities), now, b)
  }

  /** `createBudgetAccommodation`: the three budget amenities. */
  function CreateBudget(title: string, description: string, price: real, location: string,
                        imageUrl: Option<string>, now: int, b: Builtins): (r: Result<Accommodation, string>)
    ensures r.Ok? <==> BaseAccepted(title, description, price, location, imageUrl, b)
    ensures r.Ok? ==> r.value.amenities == BudgetAmenities && |r.value.amenities| == 3
  {
    PresetsAccepted();
    CreateWithList(title, description, price, location, imageUrl, BudgetAmenities, now, b);
    Create(title, description, price, location, imageUrl, Texts(BudgetAmenities), now, b)
  }

  // ---------------------------------------------------------------- categories

  const Basic: seq<string> := ["WiFi", "Basic TV", "Shared Bathroom"]
  const Comfort: seq<string> := ["Private Bathroom", "Air Conditioning", "Room Service"]
  const Luxury: seq<string> := ["Mini Bar", "Safe", "Balcony", "Spa Access"]
  const Business: seq<string> := ["Work Desk", "Business Center Access", "Meeting Room Access"]
  const Entertainment: seq<string> := ["Flat Screen TV", "Gaming Console", "Streaming Services"]
  const Outdoor: seq<string> := ["Garden View", "Terrace", "Pool Access", "Parking"]

  /** The category table of `createWithAmenityCategories`; an unknown name has no entry. */
  function Category(name: string): Option<seq<string>> {
    if name == "basic" then Some(Basic)
    else if name == "comfort" then Some(Comfort)
    else if name == "luxury" then Some(Luxury)
    else if name == "business" then Some(Business)
    else if name == "entertainment" then Some(Entertainment)
    else if name == "outdoor" then Some(Outdoor)
    else None
  }

  /** Every category lists distinct amenities the entity accepts. */
  lemma CategoriesAccepted(name: string)
    requires Category(name).Some?
    ensures AmenitiesOk(Category(name).value)
  {
    if name == "basic" { BasicDistinct(); }
    else if name == "comfort" { ComfortDistinct(); }
    else if name == "luxury" { LuxuryDistinct(); }
    else if name == "business" { BusinessDistinct(); }
    else if name == "entertainment" { EntertainmentDistinct(); }
    else { OutdoorDistinct(); }
    TidyAccepted(Category(name).value);
  }

  lemma BasicDistinct() ensures AllTidy(Basic) && Distinct(Basic) { }
  lemma ComfortDistinct() ensures AllTidy(Comfort) && Distinct(Comfort) { }
  lemma LuxuryDistinct() ensures AllTidy(Luxury) && Distinct(Luxury) { }
  lemma BusinessDistinct() ensures AllTidy(Business) && Distinct(Business) { }
  lemma EntertainmentDistinct() ensures AllTidy(Entertainment) && Distinct(Entertainment) { }
  lemma OutdoorDistinct() ensures AllTidy(Outdoor) && Distinct(Outdoor) { }

  /** The lists of the known categories, concatenated in the order given (`array_merge`). */
  function Gather(names: seq<string>): (r: seq<string>)
    ensures AllGood(r)
  {
    if names == [] then []
    else if Category(names[0]).None? then Gather(names[1..])
    else
      CategoriesAccepted(names[0]);
      Category(names[0]).value + Gather(names[1..])
  }

  /** An unknown category contributes nothing. */
  lemma GatherSkipsUnknown(names: seq<string>, unknown: string)
    requires Category(unknown).None?
    ensures Gather([unknown] + names) == Gather(names)
  {
    assert ([unknown] + names)[1..] == names;
  }

  /** Gathering a concatenation is concatenating the gatherings. */
  lemma {:induction false} GatherAppend(xs: seq<string>, ys: seq<string>)
    ensures Gather(xs + ys) == Gather(xs) + Gather(ys)
  {
    if xs == [] {
      assert xs + ys == ys;
    } else {
      assert (xs + ys)[0] == xs[0];
      assert (xs + ys)[1..] == xs[1..] + ys;
      GatherAppend(xs[1..], ys);
    }
  }

  /** `array_unique` on strings: the first occurrence of each value, in order. */
  function Unique(xs: seq<string>): (r: seq<string>)
    ensures Distinct(r)
    ensures forall i :: 0 <= i < |r| ==> r[i] in xs
    ensures forall i :: 0 <= i < |xs| ==> xs[i] in r
    ensures |r| <= |xs|
  {
    if xs == [] then []
    else
      var prefix := xs[..|xs| - 1];
      var last := xs[|xs| - 1];
      var p := Unique(prefix);
      assert xs == prefix + [last];
      if last in p then p else p + [last]
  }

  /** Values already distinct are kept as they are. */
  lemma {:induction false} UniqueOfDistinct(xs: seq<string>)
    requires Distinct(xs)
    ensures Unique(xs) == xs
  {
    if xs != [] {
      var prefix := xs[..|xs| - 1];
      UniqueOfDistinct(prefix);
      assert xs[|xs| - 1] !in prefix;
      assert prefix + [xs[|xs| - 1]] == xs;
    }
  }

  /** Appending values never disturbs the first occurrences already found: they stay a prefix. */
  lemma {:induction false} UniqueKeepsFirst(xs: seq<string>, ys: seq<string>)
    ensures |Unique(xs)| <= |Unique(xs + ys)| && Unique(xs + ys)[..|Unique(xs)|] == Unique(xs)
  {
    if ys != [] {
      var init := ys[..|ys| - 1];
      assert xs + ys == (xs + init) + [ys[|ys| - 1]];
      assert (xs + ys)[..|xs + ys| - 1] == xs + init;
      UniqueKeepsFirst(xs, init);
    } else {
      assert xs + ys == xs;
    }
  }

  /** The amenity list `createWithAmenityCategories` builds. */
  function CategoryAmenities(names: seq<string>): (r: seq<string>)
    ensures AmenitiesOk(r)
  {
    UniqueGood(Gather(names));
    Unique(Gather(names))
  }

  /** Dropping repeats keeps only values that were there. */
  lemma UniqueGood(xs: seq<string>)
    requires AllGood(xs)
    ensures AllGood(Unique(xs))
  {
    var r := Unique(xs);
    forall i | 0 <= i < |r| ensures GoodAmenity(r[i]) {
      var j :| 0 <= j < |xs| && xs[j] == r[i];
    }
  }

  /**
    * `createWithAmenityCategories`: the known categories' lists merged in order, unknown
    * names ignored, duplicates dropped; the amenities themselves can never be refused.
    */
  function CreateWithCategories(title: string, description: string, price: real, location: string,
                                names: seq<string>, imageUrl: Option<string>, now: int, b: Builtins)
    : (r: Result<Accommodation, string>)
    ensures r.Ok? <==> BaseAccepted(title, description, price, location, imageUrl, b)
    ensures r.Ok? ==> r.value.amenities == Unique(Gather(names))
  {
    CreateWithList(title, description, price, location, imageUrl, CategoryAmenities(names), now, b);
    Create(title, description, price, location, imageUrl, Texts(CategoryAmenities(names)), now, b)
  }

  /** Values all seen already add nothing. */
  lemma {:induction false} UniqueAbsorbs(xs: seq<string>, ys: seq<string>)
    requires forall i :: 0 <= i < |ys| ==> ys[i] in Unique(xs)
    ensures Unique(xs + ys) == Unique(xs)
  {
    if ys == [] {
      assert xs + ys == xs;
    } else {
      var init := ys[..|ys| - 1];
      assert xs + ys == (xs + init) + [ys[|ys| - 1]];
      assert (xs + ys)[..|xs + ys| - 1] == xs + init;
      UniqueAbsorbs(xs, init);
    }
  }

  /** A category named twice adds its amenities once, where it first appears. */
  lemma RepeatedCategoryOnce(name: string)
    requires Category(name).Some?
    ensures Unique(Gather([name, name])) == Category(name).value
  {
    var xs := Category(name).value;
    assert Gather([name]) == xs by { assert [name][1..] == []; }
    GatherAppend([name], [name]);
    assert [name] + [name] == [name, name];
    CategoriesAccepted(name);
    UniqueOfDistinct(xs);
    UniqueAbsorbs(xs, xs);
  }

  // ---------------------------------------------------------------- database rows

  const RequiredFields: seq<string> := ["id", "title", "description", "price", "location", "created_at", "updated_at"]

  /** `validateDatabaseData`: required keys in order, id, price, the two dates, the amenities. */
  function ValidateRow(data: Value, b: Builtins): (r: Outcome<Thrown>)
    ensures FirstMissing(data, RequiredFields).Some? ==>
      r == Fail(InvalidArgument("Missing required field: " + RequiredFields[FirstMissing(data, RequiredFields).value]))
    ensures (FirstMissing(data, RequiredFields).None? && (!IsNumeric(At(data, "id"), b) || CastInt(At(data, "id"), b) <= 0))
            ==> r == Fail(InvalidArgument("Invalid accommodation ID"))
    ensures (FirstMissing(data, RequiredFields).None? && IsNumeric(At(data, "id"), b) && CastInt(At(data, "id"), b) > 0
             && (!IsNumeric(At(data, "price"), b) || CastFloat(At(data, "price"), b) < 0.0))
            ==> r == Fail(InvalidArgument("Invalid accommodation price"))
    ensures (FirstMissing(data, RequiredFields).None? && IdAndPriceAccepted(data, b)
             && ReadDate(At(data, "created_at"), b).Err?)
            ==> r == Fail(ReadDate(At(data, "created_at"), b).error)
    ensures (FirstMissing(data, RequiredFields).None? && IdAndPriceAccepted(data, b)
             && ReadDate(At(data, "created_at"), b).Ok? && ReadDate(At(data, "updated_at"), b).Err?)
            ==> r == Fail(ReadDate(At(data, "updated_at"), b).error)
    ensures (FirstMissing(data, RequiredFields).None? && IdAndPriceAccepted(data, b) && DatesAccepted(data, b)
             && !EmptyField(data, "amenities") && At(data, "amenities").Str? && b.jsonDecode(At(data, "amenities").s).None?)
            ==> r == Fail(InvalidArgument("Invalid JSON format for amenities"))
    ensures (FirstMissing(data, RequiredFields).None? && IdAndPriceAccepted(data, b) && DatesAccepted(data, b)
             && !EmptyField(data, "amenities") && !At(data, "amenities").Str? && !At(data, "amenities").Arr?)
            ==> r == Fail(InvalidArgument("Amenities must be an array or JSON string"))
    ensures r.Pass? <==>
      && FirstMissing(data, RequiredFields).None?
      && IdAndPriceAccepted(data, b)
      && DatesAccepted(data, b)
      && (EmptyField(data, "amenities") || AmenitiesReadable(At(data, "amenities"), b))
  {
    match FirstMissing(data, RequiredFields)
    case Some(k) => Fail(InvalidArgument("Missing required field: " + RequiredFields[k]))
    case None =>
      var id := At(data, "id");
      var price := At(data, "price");
      if !IsNumeric(id, b) || CastInt(id, b) <= 0 then Fail(InvalidArgument("Invalid accommodation ID"))
      else if !IsNumeric(price, b) || CastFloat(price, b) < 0.0 then Fail(InvalidArgument("Invalid accommodation price"))
      else if ReadDate(At(data, "created_at"), b).Err? then Fail(ReadDate(At(data, "created_at"), b).error)
      else if ReadDate(At(data, "updated_at"), b).Err? then Fail(ReadDate(At(data, "updated_at"), b).error)
      else if EmptyField(data, "amenities") then Pass
      else match At(data, "amenities")
        case Str(s) => if b.jsonDecode(s).None? then Fail(InvalidArgument("Invalid JSON format for amenities")) else Pass
        case Arr(_) => Pass
        case _ => Fail(InvalidArgument("Amenities must be an array or JSON string"))
  }

  /** A positive numeric id and a numeric price that is not negative. */
  predicate IdAndPriceAccepted(data: Value, b: Builtins) {
    && IsNumeric(At(data, "id"), b) && CastInt(At(data, "id"), b) > 0
    && IsNumeric(At(data, "price"), b) && CastFloat(At(data, "price"), b) >= 0.0
  }

  /** Both timestamps parse as dates. */
  predicate DatesAccepted(data: Value, b: Builtins) {
    ReadDate(At(data, "created_at"), b).Ok? && ReadDate(At(data, "updated_at"), b).Ok?
  }

  /** A non-empty amenities column the row check lets through: JSON text that decodes, or an array. */
  predicate AmenitiesReadable(v: Value, b: Builtins) {
    (v.Str? && b.jsonDecode(v.s).Some?) || v.Arr?
  }

  /**
    * The amenity list `createFromDatabaseData` passes on: the decoded JSON text (null
    * becoming `[]`) or the array's values. A JSON text that decodes to a scalar reaches a
    * parameter typed `array` and raises a TypeError.
    */
  function RowAmenities(data: Value, b: Builtins): (r: Result<seq<Value>, Thrown>)
    ensures EmptyField(data, "amenities") ==> r == Ok([])
    ensures !EmptyField(data, "amenities") && At(data, "amenities").Arr? ==> r == Ok(Values(At(data, "amenities").entries))
    ensures r.Err? ==> r.error.PhpError?
  {
    if EmptyField(data, "amenities") then Ok([])
    else match At(data, "amenities")
      case Str(s) =>
        (match b.jsonDecode(s).GetOr(Null)
         case Null => Ok([])
         case Arr(es) => Ok(Values(es))
         case _ => Err(PhpError("TypeError")))
      case Arr(es) => Ok(Values(es))
      case _ => Ok([])
  }

  /** The image column as the entity receives it: an empty value becomes null. */
  function RowImage(data: Value, b: Builtins): (r: Option<string>)
    ensures r.None? <==> EmptyField(data, "image_url")
  {
    if EmptyField(data, "image_url") then None else Some(CastText(At(data, "image_url"), b))
  }

  /** `createFromDatabaseData`: the row checked, the fields cast, and the entity constructed. */
  function CreateFromRow(data: Value, b: Builtins): (r: Result<Accommodation, Thrown>)
    ensures ValidateRow(data, b).Fail? ==> r == Err(ValidateRow(data, b).error)
    ensures r.Ok? ==> ValidateRow(data, b).Pass? && Valid(r.value, b)
    ensures r.Ok? ==> r.value.id == CastInt(At(data, "id"), b) && r.value.id > 0
    ensures r.Ok? ==> r.value.imageUrl == RowImage(data, b)
  {
    match ValidateRow(data, b)
    case Fail(e) => Err(e)
    case Pass =>
      match RowAmenities(data, b)
      case Err(e) => Err(e)
      case Ok(amenities) =>
        match New(CastInt(At(data, "id"), b), CastText(At(data, "title"), b),
                  CastText(At(data, "description"), b), CastFloat(At(data, "price"), b),
                  CastText(At(data, "location"), b), RowImage(data, b), amenities,
                  ReadDate(At(data, "created_at"), b).value, ReadDate(At(data, "updated_at"), b).value, b)
        case Err(m) => Err(InvalidArgument(m))
        case Ok(a) => Ok(a)
  }

  /** `createMultipleFromDatabaseData`: every row in order; the first failing row decides. */
  function CreateFromRows(rows: seq<Value>, b: Builtins): (r: Result<seq<Accommodation>, Thrown>)
    ensures r.Ok? <==> forall i :: 0 <= i < |rows| ==> CreateFromRow(rows[i], b).Ok?
    ensures r.Ok? ==> |r.value| == |rows| && forall i :: 0 <= i < |rows| ==> r.value[i] == CreateFromRow(rows[i], b).value
  {
    MapAll(rows, row => CreateFromRow(row, b))
  }

  /**
    * A row whose columns hold the fields of `a`: the amenities as an array, the
    * timestamps as text written by `format`.
    */
  predicate HoldsRow(data: Value, a: Accommodation, format: int -> string) {
    && Field(data, "id") == Some(Int(a.id))
    && Field(data, "title") == Some(Str(a.title))
    && Field(data, "description") == Some(Str(a.description))
    && Field(data, "price") == Some(Float(a.price))
    && Field(data, "location") == Some(Str(a.location))
    && Field(data, "image_url") == Some(if a.imageUrl.Some? then Str(a.imageUrl.value) else Null)
    && Field(data, "amenities") == Some(List(Texts(a.amenities)))
    && Field(data, "created_at") == Some(Str(format(a.createdAt)))
    && Field(data, "updated_at") == Some(Str(format(a.updatedAt)))
  }

  /** Such a row has every required column. */
  lemma RowComplete(data: Value, a: Accommodation, format: int -> string)
    requires HoldsRow(data, a, format)
    ensures FirstMissing(data, RequiredFields).None?
  {
    forall j | 0 <= j < |RequiredFields| ensures Field(data, RequiredFields[j]).Some? {
      if j == 0 { assert RequiredFields[j] == "id"; }
      else if j == 1 { assert RequiredFields[j] == "title"; }
      else if j == 2 { assert RequiredFields[j] == "description"; }
      else if j == 3 { assert RequiredFields[j] == "price"; }
      else if j == 4 { assert RequiredFields[j] == "location"; }
      else if j == 5 { assert RequiredFields[j] == "created_at"; }
      else { assert RequiredFields[j] == "updated_at"; }
    }
  }

  /** The row of a valid saved accommodation passes the row check. */
  lemma RowAccepted(data: Value, a: Accommodation, format: int -> string, b: Builtins)
    requires HoldsRow(data, a, format) && a.id > 0 && a.price >= 0.0
    requires b.dateTime(format(a.createdAt)) == Some(a.createdAt)
    requires b.dateTime(format(a.updatedAt)) == Some(a.updatedAt)
    ensures ValidateRow(data, b).Pass?
  {
    RowComplete(data, a, format);
    RowDates(data, a, format, b);
    var id, price := At(data, "id"), At(data, "price");
    assert id == Int(a.id) && price == Float(a.price);
    assert IsNumeric(id, b) && CastInt(id, b) > 0;
    assert IsNumeric(price, b) && CastFloat(price, b) >= 0.0;
    assert At(data, "amenities").Arr?;
  }

  /** The timestamps of such a row read back as the entity's. */
  lemma RowDates(data: Value, a: Accommodation, format: int -> string, b: Builtins)
    requires HoldsRow(data, a, format)
    requires b.dateTime(format(a.createdAt)) == Some(a.createdAt)
    requires b.dateTime(format(a.updatedAt)) == Some(a.updatedAt)
    ensures ReadDate(At(data, "created_at"), b) == Ok(a.createdAt)
    ensures ReadDate(At(data, "updated_at"), b) == Ok(a.updatedAt)
  {
    assert At(data, "created_at") == Str(format(a.createdAt));
    assert At(data, "updated_at") == Str(format(a.updatedAt));
  }

  /** The amenities and image of such a row are the entity's. */
  lemma RowExtras(data: Value, a: Accommodation, format: int -> string, b: Builtins)
    requires HoldsRow(data, a, format)
    requires a.imageUrl.Some? ==> !Blank(a.imageUrl.value)
    ensures RowAmenities(data, b) == Ok(Texts(a.amenities))
    ensures RowImage(data, b) == a.imageUrl
  {
    if a.imageUrl.Some? && IsEmpty(a.imageUrl.value) {
      EmptyIsBlank(a.imageUrl.value);
    }
    ValuesOfList(Texts(a.amenities));
  }

  /**
    * A valid saved accommodation read back from its row is the same accommodation,
    * provided the timestamp text reads back as the instant it was written from.
    */
  lemma RowRoundTrip(data: Value, a: Accommodation, format: int -> string, b: Builtins)
    requires HoldsRow(data, a, format) && Valid(a, b) && a.id > 0
    requires b.dateTime(format(a.createdAt)) == Some(a.createdAt)
    requires b.dateTime(format(a.updatedAt)) == Some(a.updatedAt)
    ensures CreateFromRow(data, b) == Ok(a)
  {
    RowAccepted(data, a, format, b);
    RowExtras(data, a, format, b);
    RowDates(data, a, format, b);
    RowColumns(data, a, format, b);
    NewOfValid(a, b);
  }

  /** The plain columns of such a row, cast the way the factory casts them, are the fields of `a`. */
  lemma RowColumns(data: Value, a: Accommodation, format: int -> string, b: Builtins)
    requires HoldsRow(data, a, format)
    ensures CastInt(At(data, "id"), b) == a.id && CastFloat(At(data, "price"), b) == a.price
    ensures CastText(At(data, "title"), b) == a.title && CastText(At(data, "description"), b) == a.description
    ensures CastText(At(data, "location"), b) == a.location
  {
  }
}

=== FILE: accommodation_service.dfy ===
/**
  * `AccommodationService`: argument checks in front of the repository queries, the
  * service's own record validation, and the create / update / delete / amenity flows
  * as transitions of the store. `Err` carries the message of the
  * `InvalidArgumentException` the service or the entity throws; an error leaves the
  * store as it was.
  */
module AccommodationServices {
  import opened Wrappers
  import opened PhpText
  import opened PhpValues
  import opened Tables
  import Users
  import opened Accommodations
  import opened Store

  // ---------------------------------------------------------------- validation

  /** The per-element checks of the service's amenity loop, the first failing element deciding. */
  function AmenityElementError(items: seq<Value>): (r: Option<string>)
    ensures r.None? <==> forall i :: 0 <= i < |items| ==> items[i].Str? && !Blank(items[i].s)
    ensures r.Some? ==> r.value == "All amenities must be strings" || r.value == "Amenity cannot be empty"
  {
    if items == [] then None
    else if !items[0].Str? then Some("All amenities must be strings")
    else if Blank(items[0].s) then Some("Amenity cannot be empty")
    else AmenityElementError(items[1..])
  }

  /** The image check of the service: only a given, non-blank URL is looked at. */
  predicate ImageAcceptable(imageUrl: Option<string>, b: Builtins) {
    imageUrl.None? || Blank(imageUrl.value) || b.isUrl(imageUrl.value)
  }

  /** What the service's validation accepts; it checks no lengths and no price ceiling. */
  predicate DataAcceptable(title: string, description: string, price: real, location: string,
                           imageUrl: Option<string>, amenities: seq<Value>, b: Builtins) {
    && !Blank(title) && !Blank(description) && price >= 0.0 && !Blank(location)
    && ImageAcceptable(imageUrl, b)
    && (forall i :: 0 <= i < |amenities| ==> amenities[i].Str? && !Blank(amenities[i].s))
    && Distinct(AsTexts(amenities).value)
  }

  /** `validateAccommodationData`: the checks in source order, the first failure thrown. */
  function ValidateAccommodationData(title: string, description: string, price: real, location: string,
                                     imageUrl: Option<string>, amenities: seq<Value>, b: Builtins)
    : (r: Outcome<string>)
    ensures r.Pass? <==> DataAcceptable(title, description, price, location, imageUrl, amenities, b)
    ensures Blank(title) ==> r == Fail("Title is required")
    ensures !Blank(title) && Blank(description) ==> r == Fail("Description is required")
    ensures !Blank(title) && !Blank(description) && price < 0.0 ==> r == Fail("Price cannot be negative")
    ensures !Blank(title) && !Blank(description) && price >= 0.0 && Blank(location) ==> r == Fail("Location is required")
  {
    if Blank(title) then Fail("Title is required")
    else if Blank(description) then Fail("Description is required")
    else if price < 0.0 then Fail("Price cannot be negative")
    else if Blank(location) then Fail("Location is required")
    else if !ImageAcceptable(imageUrl, b) then Fail("Invalid image URL format")
    else match AmenityElementError(amenities)
      case Some(m) => Fail(m)
      case None =>
        if !Distinct(AsTexts(amenities).value) then Fail("Amenities cannot contain duplicates") else Pass
  }

  /** Whatever the entity's constructor accepts, the service's validation accepts too. */
  lemma EntityChecksImplyServiceChecks(title: string, description: string, price: real, location: string,
                                       imageUrl: Option<string>, amenities: seq<Value>, b: Builtins)
    requires New(0, title, description, price, location, imageUrl, amenities, 0, 0, b).Ok?
    ensures ValidateAccommodationData(title, description, price, location, imageUrl, amenities, b).Pass?
  {
    assert ElementError(amenities).None?;
  }

  /**
    * The service's validation is weaker than the entity's: a two-byte title passes it,
    * and creating the record then fails in the entity's own title check.
    */
  lemma ServiceAcceptsShortTitle(description: string, location: string, b: Builtins)
    requires ValidateDescription(description).Pass? && ValidateLocation(location).Pass?
    ensures ValidateAccommodationData("ab", description, 10.0, location, None, [], b).Pass?
    ensures Accommodations.Create("ab", description, 10.0, location, None, [], 0, b)
            == Err("Title must be at least 3 characters long")
  {
    UntrimmableNotBlank("ab");
  }

  // ---------------------------------------------------------------- queries

  /** `getAccommodationsWithPagination($limit, $offset)`: both bounds checked before the query. */
  function Paginate(db: Db, limit: int, offset: int): (r: Result<seq<Accommodation>, string>)
    ensures limit <= 0 ==> r == Err("Limit must be greater than 0")
    ensures limit > 0 && offset < 0 ==> r == Err("Offset cannot be negative")
    ensures r.Ok? <==> limit > 0 && offset >= 0
    ensures r.Ok? ==> |r.value| <= limit
    ensures r.Ok? ==> forall i :: 0 <= i < |r.value| ==>
      offset + i < |db.accommodations| && r.value[i] == db.accommodations[offset + i]
    ensures r.Ok? && offset + limit <= |db.accommodations| ==> |r.value| == limit
  {
    if limit <= 0 then Err("Limit must be greater than 0")
    else if offset < 0 then Err("Offset cannot be negative")
    else Ok(Page(db.accommodations, limit, offset))
  }

  /** `searchAccommodations($term)`: a blank term, then a term under 2 bytes, is refused. */
  function SearchByTerm(db: Db, term: string): (r: Result<seq<Accommodation>, string>)
    ensures Blank(term) ==> r == Err("Search term cannot be empty")
    ensures !Blank(term) && |term| < 2 ==> r == Err("Search term must be at least 2 characters long")
    ensures r.Ok? <==> !Blank(term) && |term| >= 2
    ensures r.Ok? ==> forall i :: 0 <= i < |r.value| ==>
      r.value[i] in db.accommodations && (Like(r.value[i].title, term) || Like(r.value[i].description, term))
    ensures r.Ok? ==> forall a :: a in db.accommodations && (Like(a.title, term) || Like(a.description, term))
                                 ==> a in r.value
  {
    if Blank(term) then Err("Search term cannot be empty")
    else if |term| < 2 then Err("Search term must be at least 2 characters long")
    else Ok(SearchAccommodations(db, term))
  }

  /** `findAccommodationsByLocation($location)`. */
  function ByLocation(db: Db, location: string): (r: Result<seq<Accommodation>, string>)
    ensures r.Err? <==> Blank(location)
    ensures r.Err? ==> r.error == "Location cannot be empty"
    ensures r.Ok? ==> forall i :: 0 <= i < |r.value| ==> r.value[i] in db.accommodations && Like(r.value[i].location, location)
    ensures r.Ok? ==> forall a :: a in db.accommodations && Like(a.location, location) ==> a in r.value
  {
    if Blank(location) then Err("Location cannot be empty") else Ok(AccommodationsAt(db, location))
  }

  /** `findAccommodationsByPriceRange($min, $max)`: the three range errors in order. */
  function ByPriceRange(db: Db, min: real, max: real): (r: Result<seq<Accommodation>, string>)
    ensures min < 0.0 ==> r == Err("Minimum price cannot be negative")
    ensures min >= 0.0 && max < 0.0 ==> r == Err("Maximum price cannot be negative")
    ensures min >= 0.0 && max >= 0.0 && min > max ==> r == Err("Minimum price cannot be greater than maximum price")
    ensures r.Ok? <==> 0.0 <= min <= max
    ensures r.Ok? ==> forall i :: 0 <= i < |r.value| ==> r.value[i] in db.accommodations && min <= r.value[i].price <= max
    ensures r.Ok? ==> forall a :: a in db.accommodations && min <= a.price <= max ==> a in r.value
  {
    if min < 0.0 then Err("Minimum price cannot be negative")
    else if max < 0.0 then Err("Maximum price cannot be negative")
    else if min > max then Err("Minimum price cannot be greater than maximum price")
    else Ok(AccommodationsPriced(db, min, max))
  }

  /** `findAccommodationsByAmenity($amenity)`. */
  function ByAmenity(db: Db, amenity: string): (r: Result<seq<Accommodation>, string>)
    ensures r.Err? <==> Blank(amenity)
    ensures r.Err? ==> r.error == "Amenity cannot be empty"
    ensures r.Ok? ==> forall i :: 0 <= i < |r.value| ==> r.value[i] in db.accommodations && amenity in r.value[i].amenities
    ensures r.Ok? ==> forall a :: a in db.accommodations && amenity in a.amenities ==> a in r.value
  {
    if Blank(amenity) then Err("Amenity cannot be empty") else Ok(AccommodationsWith(db, amenity))
  }

  /** `getAccommodationUsers($id)`: the users who bookmarked an existing accommodation. */
  function UsersOf(db: Db, id: int): (r: Result<seq<Users.User>, string>)
    ensures r.Err? <==> !AccommodationExists(db, id)
    ensures r.Err? ==> r.error == "Accommodation not found"
    ensures r.Ok? ==> forall i :: 0 <= i < |r.value| ==> r.value[i] in db.users && (r.value[i].id, id) in db.bookmarks
    ensures r.Ok? ==> forall u :: u in db.users && (u.id, id) in db.bookmarks ==> u in r.value
  {
    if !AccommodationExists(db, id) then Err("Accommodation not found") else Ok(AccommodationUsers(db, id))
  }

  // ---------------------------------------------------------------- transitions

  /**
    * `createAccommodation(...)`: the service's validation, then the entity's
    * constructor, then the insert under the next id.
    */
  function CreateAccommodation(db: Db, title: string, description: string, price: real, location: string,
                               imageUrl: Option<string>, amenities: seq<Value>, now: int, b: Builtins)
    : (r: Result<(Db, Accommodation), string>)
    ensures ValidateAccommodationData(title, description, price, location, imageUrl, amenities, b).Fail? ==>
      r == Err(ValidateAccommodationData(title, description, price, location, imageUrl, amenities, b).error)
    ensures r.Ok? <==> DataAcceptable(title, description, price, location, imageUrl, amenities, b)
                       && Accommodations.Create(title, description, price, location, imageUrl, amenities, now, b).Ok?
    ensures r.Ok? ==> r.value.1 == Accommodations.Create(title, description, price, location, imageUrl, amenities, now, b)
                                     .value.(id := db.lastAccommodationId + 1)
    ensures r.Ok? ==> r.value.0 == SaveAccommodation(db, r.value.1.(id := 0)).0
  {
    match ValidateAccommodationData(title, description, price, location, imageUrl, amenities, b)
    case Fail(m) => Err(m)
    case Pass =>
      match Accommodations.Create(title, description, price, location, imageUrl, amenities, now, b)
      case Err(m) => Err(m)
      case Ok(a) =>
        var saved := SaveAccommodation(db, a);
        Ok((saved.0, saved.1.value))
  }

  /** A created record is stored under a fresh id, valid, and leaves every other record alone. */
  lemma CreateThenFind(db: Db, title: string, description: string, price: real, location: string,
                       imageUrl: Option<string>, amenities: seq<Value>, now: int, b: Builtins, other: int)
    requires Good(db)
    requires CreateAccommodation(db, title, description, price, location, imageUrl, amenities, now, b).Ok?
    ensures var (db', a) := CreateAccommodation(db, title, description, price, location, imageUrl, amenities, now, b).value;
      && Good(db') && !AccommodationExists(db, a.id) && FindAccommodation(db', a.id) == Some(a)
      && Valid(a, b) && a.createdAt == a.updatedAt == now
      && (other != a.id ==> FindAccommodation(db', other) == FindAccommodation(db, other))
  {
    var a := Accommodations.Create(title, description, price, location, imageUrl, amenities, now, b).value;
    SaveAccommodationEffect(db, a, other);
  }

  /** Whether any argument of an update was given. */
  predicate AnyGiven(title: Option<string>, description: Option<string>, price: Option<real>,
                     location: Option<string>, imageUrl: Option<string>, amenities: Option<seq<Value>>) {
    title.Some? || description.Some? || price.Some? || location.Some? || imageUrl.Some? || amenities.Some?
  }

  /** The service's validation of an update: the given values merged over the stored ones. */
  function MergedCheck(a: Accommodation, title: Option<string>, description: Option<string>, price: Option<real>,
                       location: Option<string>, imageUrl: Option<string>, amenities: Option<seq<Value>>,
                       b: Builtins): Outcome<string>
  {
    if !AnyGiven(title, description, price, location, imageUrl, amenities) then Pass
    else ValidateAccommodationData(title.GetOr(a.title), description.GetOr(a.description), price.GetOr(a.price),
                                   location.GetOr(a.location), if imageUrl.Some? then imageUrl else a.imageUrl,
                                   amenities.GetOr(Texts(a.amenities)), b)
  }

  /**
    * `updateAccommodation($id, ...)`: the record must exist; when anything is given the
    * merged record passes the service's validation; then the entity's `updateInfo`
    * runs and the record is saved. An exception from `updateInfo` saves nothing.
    */
  function UpdateAccommodation(db: Db, id: int, title: Option<string>, description: Option<string>,
                               price: Option<real>, location: Option<string>, imageUrl: Option<string>,
                               amenities: Option<seq<Value>>, now: int, b: Builtins)
    : (r: Result<(Db, Accommodation), string>)
    ensures !AccommodationExists(db, id) ==> r == Err("Accommodation not found")
    ensures AccommodationExists(db, id)
            && MergedCheck(FindAccommodation(db, id).value, title, description, price, location, imageUrl, amenities, b).Fail?
            ==> r == Err(MergedCheck(FindAccommodation(db, id).value, title, description, price, location, imageUrl, amenities, b).error)
    ensures r.Ok? <==>
      && AccommodationExists(db, id)
      && MergedCheck(FindAccommodation(db, id).value, title, description, price, location, imageUrl, amenities, b).Pass?
      && AllAccepted(Updates(title, description, price, location, imageUrl, amenities), b)
  {
    match FindAccommodation(db, id)
    case None => Err("Accommodation not found")
    case Some(a) =>
      match MergedCheck(a, title, description, price, location, imageUrl, amenities, b)
      case Fail(m) => Err(m)
      case Pass =>
        match Accommodations.UpdateInfo(a, title, description, price, location, imageUrl, amenities, now, b)
        case Threw(_, m) => Err(m)
        case Done(x) =>
          UpdateInfoFields(a, title, description, price, location, imageUrl, amenities, now, b);
          var saved := SaveAccommodation(db, x);
          Ok((saved.0, saved.1.value))
  }

  /**
    * A successful update stores, under the same id, the old record with each given field
    * replaced and `updatedAt` refreshed; every other record is untouched.
    */
  lemma UpdateThenFind(db: Db, id: int, title: Option<string>, description: Option<string>,
                       price: Option<real>, location: Option<string>, imageUrl: Option<string>,
                       amenities: Option<seq<Value>>, now: int, b: Builtins, other: int)
    requires Good(db)
    requires UpdateAccommodation(db, id, title, description, price, location, imageUrl, amenities, now, b).Ok?
    ensures var prev := FindAccommodation(db, id).value;
      var (db', a) := UpdateAccommodation(db, id, title, description, price, location, imageUrl, amenities, now, b).value;
      && Good(db') && FindAccommodation(db', id) == Some(a)
      && a.id == id && a.createdAt == prev.createdAt && a.updatedAt == now
      && a.title == title.GetOr(prev.title) && a.description == description.GetOr(prev.description)
      && a.price == price.GetOr(prev.price) && a.location == location.GetOr(prev.location)
      && a.imageUrl == (if imageUrl.Some? then imageUrl else prev.imageUrl)
      && (other != id ==> FindAccommodation(db', other) == FindAccommodation(db, other))
  {
    var prev := FindAccommodation(db, id).value;
    UpdateInfoFields(prev, title, description, price, location, imageUrl, amenities, now, b);
    var x := Accommodations.UpdateInfo(prev, title, description, price, location, imageUrl, amenities, now, b).value;
    SaveAccommodationEffect(db, x, other);
  }

  /** An update given no field succeeds and only refreshes the stored record's `updatedAt`. */
  lemma EmptyUpdateOnlyStamps(db: Db, id: int, now: int, b: Builtins)
    requires Good(db) && AccommodationExists(db, id)
    ensures UpdateAccommodation(db, id, None, None, None, None, None, None, now, b).Ok?
    ensures UpdateAccommodation(db, id, None, None, None, None, None, None, now, b).value.1
            == FindAccommodation(db, id).value.(updatedAt := now)
  {
    var prev := FindAccommodation(db, id).value;
    EmptyUpdateTouchesOnly(prev, now, b);
    assert AllAccepted(Updates(None, None, None, None, None, None), b);
    SaveAccommodationEffect(db, prev.(updatedAt := now), id);
  }

  /** `deleteAccommodation($id)`: an absent id is refused before anything is deleted. */
  function DeleteById(db: Db, id: int): (r: Result<Db, string>)
    ensures r.Err? <==> !AccommodationExists(db, id)
    ensures r.Err? ==> r.error == "Accommodation not found"
    ensures r.Ok? ==> |r.value.accommodations| == |db.accommodations| - 1
    ensures r.Ok? ==> r.value.users == db.users && r.value.bookmarks == db.bookmarks
  {
    if !AccommodationExists(db, id) then Err("Accommodation not found")
    else Ok(DeleteAccommodation(db, id).0)
  }

  /** After a successful delete the id is gone and every other record is untouched. */
  lemma DeleteThenAbsent(db: Db, id: int, other: int)
    requires Good(db) && DeleteById(db, id).Ok?
    ensures Good(DeleteById(db, id).value)
    ensures !AccommodationExists(DeleteById(db, id).value, id)
    ensures other != id ==> FindAccommodation(DeleteById(db, id).value, other) == FindAccommodation(db, other)
  {
    DeleteAccommodationEffect(db, id, other);
  }

  /**
    * `addAmenityToAccommodation($id, $amenity)`: the lookup rebuilds the stored row, an
    * unknown id is refused before a blank amenity, and `save` reads the written row back
    * through the constructor. `addAmenity` skips the 100-byte limit, so an over-long new
    * amenity is written and only the read-back refuses it: the store is changed although
    * the call throws.
    */
  function AddAmenityTo(db: Db, id: int, amenity: string, now: int, b: Builtins): (r: (Db, Result<Accommodation, string>))
    ensures !AccommodationExists(db, id) ==> r == (db, Err("Accommodation not found"))
    ensures AccommodationExists(db, id) && !Valid(FindAccommodation(db, id).value, b) ==>
      r == (db, Err(ReadBack(FindAccommodation(db, id).value, b).error))
    ensures AccommodationExists(db, id) && Valid(FindAccommodation(db, id).value, b) && Blank(amenity) ==>
      r == (db, Err("Amenity cannot be empty"))
    ensures r.1.Ok? <==>
      && AccommodationExists(db, id) && Valid(FindAccommodation(db, id).value, b) && !Blank(amenity)
      && (amenity in FindAccommodation(db, id).value.amenities || |amenity| <= 100)
    ensures AccommodationExists(db, id) && Valid(FindAccommodation(db, id).value, b) && !Blank(amenity)
            && amenity !in FindAccommodation(db, id).value.amenities && |amenity| > 100
            ==> r.1 == Err("Amenity cannot exceed 100 characters")
    ensures r.1.Ok? ==> Valid(r.1.value, b) && HasAmenity(r.1.value, amenity)
    ensures r.1.Ok? && id != 0 ==> r.1.value.id == id
    ensures r.1.Ok? ==> forall x :: HasAmenity(FindAccommodation(db, id).value, x) ==> HasAmenity(r.1.value, x)
  {
    match FindAccommodation(db, id)
    case None => (db, Err("Accommodation not found"))
    case Some(a) =>
      if !Valid(a, b) then (db, Err(ReadBack(a, b).error))
      else if Blank(amenity) then (db, Err("Amenity cannot be empty"))
      else
        AddAmenityThenHas(a, amenity, now);
        var x := AddAmenity(a, amenity, now).value;
        var saved := SaveAccommodation(db, x);
        var row := saved.1.value;
        assert Valid(row, b) <==> Valid(x, b);
        assert amenity !in a.amenities && |amenity| > 100 ==> ReadBack(row, b) == Err("Amenity cannot exceed 100 characters") by {
          if amenity !in a.amenities && |amenity| > 100 {
            LongAmenityRebuilt(row, a.amenities, amenity, b);
          }
        }
        (saved.0, ReadBack(row, b))
  }

  /**
    * `removeAmenityFromAccommodation($id, $amenity)`: the same lookup and order of refusals;
    * removal keeps a valid row valid, so the read-back after the save returns it.
    */
  function RemoveAmenityFrom(db: Db, id: int, amenity: string, now: int, b: Builtins): (r: (Db, Result<Accommodation, string>))
    ensures !AccommodationExists(db, id) ==> r == (db, Err("Accommodation not found"))
    ensures AccommodationExists(db, id) && !Valid(FindAccommodation(db, id).value, b) ==>
      r == (db, Err(ReadBack(FindAccommodation(db, id).value, b).error))
    ensures AccommodationExists(db, id) && Valid(FindAccommodation(db, id).value, b) && Blank(amenity) ==>
      r == (db, Err("Amenity cannot be empty"))
    ensures r.1.Ok? <==> AccommodationExists(db, id) && Valid(FindAccommodation(db, id).value, b) && !Blank(amenity)
    ensures r.1.Ok? ==> Valid(r.1.value, b) && !HasAmenity(r.1.value, amenity)
    ensures r.1.Ok? ==> forall x :: x != amenity ==> (HasAmenity(r.1.value, x) <==> HasAmenity(FindAccommodation(db, id).value, x))
    ensures r.1.Ok? && id != 0 ==> r.1.value.id == id
  {
    match FindAccommodation(db, id)
    case None => (db, Err("Accommodation not found"))
    case Some(a) =>
      if !Valid(a, b) then (db, Err(ReadBack(a, b).error))
      else if Blank(amenity) then (db, Err("Amenity cannot be empty"))
      else
        var x := RemoveAmenity(a, amenity, now);
        RemoveAmenityThenAbsent(a, amenity, now);
        RemoveAmenityKeepsValid(a, amenity, now, b);
        var saved := SaveAccommodation(db, x);
        var row := saved.1.value;
        assert Valid(row, b);
        (saved.0, ReadBack(row, b))
  }

  /**
    * Adding a new amenity through the service writes it; when it fits in 100 bytes the
    * add succeeds and removing it again restores the stored list. A longer one is still
    * written, the add is refused by its read-back, and the removal's own lookup then
    * refuses the row it left behind.
    */
  lemma AddThenRemoveThroughService(db: Db, id: int, amenity: string, t1: int, t2: int, b: Builtins)
    requires Good(db) && AccommodationExists(db, id) && !Blank(amenity)
    requires amenity !in FindAccommodation(db, id).value.amenities
    ensures var a := FindAccommodation(db, id).value;
      var db1 := AddAmenityTo(db, id, amenity, t1, b).0;
      Valid(a, b) ==>
        && FindAccommodation(db1, id).Some?
        && FindAccommodation(db1, id).value.amenities == a.amenities + [amenity]
        && (AddAmenityTo(db, id, amenity, t1, b).1.Ok? <==> |amenity| <= 100)
        && (RemoveAmenityFrom(db1, id, amenity, t2, b).1.Ok? <==> |amenity| <= 100)
        && (|amenity| <= 100 ==> RemoveAmenityFrom(db1, id, amenity, t2, b).1.value.amenities == a.amenities)
  {
    var a := FindAccommodation(db, id).value;
    if Valid(a, b) {
      var x := AddAmenity(a, amenity, t1).value;
      SaveAccommodationEffect(db, x, id);
      var db1 := AddAmenityTo(db, id, amenity, t1, b).0;
      assert db1 == SaveAccommodation(db, x).0;
      var stored := FindAccommodation(db1, id).value;
      assert stored.amenities == a.amenities + [amenity];
      if |amenity| <= 100 {
        AddThenRemove(a, amenity, t1, t2);
      } else {
        LongAmenityRebuilt(stored, a.amenities, amenity, b);
        assert !Valid(stored, b);
      }
    }
  }
}

=== FILE: admin_action.dfy ===
/**
  * `createAccommodationAction` of the frontend's administration feature: the
  * server action that checks the session cookie, reads and validates the form,
  * and posts the accommodation to `/admin/accommodations`. The request itself
  * is a parameter: what the server answered, or that it could not be reached.
  */
module AdminActions {
  import opened Wrappers
  import opened JsText

  /** A JavaScript number as `parseFloat` returns it. */
  datatype Number = NaN | Finite(value: real) | Infinite(negative: bool)

  /** The text fields of the submitted form; a field the form lacks reads as `null`. */
  type Form = map<string, string>

  /** `fieldErrors`: per field, its messages, in the order the fields were checked. */
  type FieldErrors = seq<(string, seq<string>)>

  const NotAuthenticated := "Necesitás estar autenticado para realizar esta acción"
  const TitleRequired := "El título es requerido"
  const DescriptionRequired := "La descripción es requerida"
  const PriceInvalid := "El precio debe ser un número positivo"
  const LocationRequired := "La ubicación es requerida para el hospedaje"
  const FormInvalid := "Por favor corregí los errores en el formulario"
  const CreateFailed := "Error al crear el hospedaje"
  const ServerUnreachable := "Error al conectar con el servidor"
  const CreatedMessage := "¡Hospedaje creado exitosamente!"

  /** `formData.get(name)`. */
  function Get(form: Form, name: string): Option<string> {
    if name in form then Some(form[name]) else None
  }

  /** `!t || t.trim().length === 0`. */
  predicate Missing(t: Option<string>) {
    t.None? || Blank(t.value)
  }

  /** `isNaN(price) || price < 0`. */
  predicate BadPrice(n: Number) {
    n.NaN? || (n.Finite? && n.value < 0.0) || (n.Infinite? && n.negative)
  }

  // ---------------------------------------------------------------------------
  // Amenities
  // ---------------------------------------------------------------------------

  /** One piece trimmed, or nothing when that leaves it empty. */
  function Piece(a: string): (r: seq<string>)
    ensures |r| <= 1
    ensures r == [] <==> Trim(a) == []
    ensures r != [] ==> r[0] == Trim(a) && Trim(r[0]) == r[0] && (',' !in a ==> ',' !in r[0])
  {
    TrimTwice(a);
    if Trim(a) == [] then [] else [Trim(a)]
  }

  /** Each piece trimmed, the empty ones dropped. */
  function Clean(pieces: seq<string>): (r: seq<string>)
    ensures |r| <= |pieces|
  {
    if pieces == [] then [] else Piece(pieces[0]) + Clean(pieces[1..])
  }

  /** What an amenity read from the text is: not empty, trimmed, without a comma. */
  predicate Amenity(s: string) {
    s != [] && Trim(s) == s && ',' !in s
  }

  /** A piece without a comma that is not all white space trims to an amenity. */
  lemma TrimmedAmenity(a: string)
    requires ',' !in a && !Blank(a)
    ensures Amenity(Trim(a))
  {
    TrimTwice(a);
  }

  /** Cleaning pieces without commas gives amenities. */
  lemma {:induction false} CleanGivesAmenities(pieces: seq<string>)
    requires forall j :: 0 <= j < |pieces| ==> ',' !in pieces[j]
    ensures forall i :: 0 <= i < |Clean(pieces)| ==> Amenity(Clean(pieces)[i])
    decreases |pieces|
  {
    if pieces != [] {
      var rest := Clean(pieces[1..]);
      assert forall j :: 1 <= j < |pieces| ==> pieces[1..][j - 1] == pieces[j];
      CleanGivesAmenities(pieces[1..]);
      if Blank(pieces[0]) {
        assert Clean(pieces) == rest;
      } else {
        var x := Trim(pieces[0]);
        TrimmedAmenity(pieces[0]);
        assert Clean(pieces) == [x] + rest;
        forall i | 0 <= i < |[x] + rest| ensures Amenity(([x] + rest)[i]) {
          if i > 0 { assert ([x] + rest)[i] == rest[i - 1]; }
        }
      }
    }
  }

  /** `Clean` takes its pieces one at a time. */
  lemma CleanFirst(a: string, rest: seq<string>)
    ensures Clean([a] + rest) == Piece(a) + Clean(rest)
  {
    assert ([a] + rest)[1..] == rest;
  }

  /**
    * The amenities text as the action reads it: split on commas, each piece
    * trimmed, empty pieces dropped; no text, or empty text, gives none.
    */
  function ParseAmenities(text: Option<string>): (r: seq<string>)
    ensures forall i :: 0 <= i < |r| ==> Amenity(r[i])
    ensures text.None? || text.value == [] ==> r == []
  {
    if text.None? || text.value == [] then []
    else
      CleanGivesAmenities(Split(text.value, ','));
      Clean(Split(text.value, ','))
  }

  /** Space after a comma does not change the amenities read. */
  lemma CleanUnderSpace(s: string)
    ensures Clean(Split([' '] + s, ',')) == Clean(Split(s, ','))
  {
    var ps := Split(s, ',');
    SplitUnder(' ', ',', s);
    assert ps == [ps[0]] + ps[1..];
    CleanFirst([' '] + ps[0], ps[1..]);
    CleanFirst(ps[0], ps[1..]);
    TrimUnderSpace(' ', ps[0]);
  }

  /** An amenity followed by ", " and more text is read first, then the rest. */
  lemma CleanJoinStep(x: string, rest: string)
    requires Amenity(x)
    ensures Clean(Split(x + ", " + rest, ',')) == [x] + Clean(Split(rest, ','))
  {
    assert x + ", " + rest == x + [','] + ([' '] + rest);
    SplitAfter(x, ',', [' '] + rest);
    CleanFirst(x, Split([' '] + rest, ','));
    CleanUnderSpace(rest);
    assert Piece(x) == [x];
  }

  /** The amenities after the first are amenities. */
  lemma AmenitiesTail(xs: seq<string>)
    requires xs != []
    requires forall i :: 0 <= i < |xs| ==> Amenity(xs[i])
    ensures forall i :: 0 <= i < |xs[1..]| ==> Amenity(xs[1..][i])
  {
    forall i | 0 <= i < |xs[1..]| ensures Amenity(xs[1..][i]) {
      assert xs[1..][i] == xs[i + 1];
    }
  }

  /** One amenity is read back as itself. */
  lemma CleanSplitOne(x: string)
    requires Amenity(x)
    ensures Clean(Split(x, ',')) == [x]
  {
    SplitWithout(x, ',');
    CleanFirst(x, []);
    assert Piece(x) == [x];
  }

  /** Amenities joined with ", " are split back into themselves. */
  lemma {:induction false} CleanSplitJoin(xs: seq<string>)
    requires xs != []
    requires forall i :: 0 <= i < |xs| ==> Amenity(xs[i])
    ensures Clean(Split(Join(xs, ", "), ',')) == xs
    decreases |xs|
  {
    if |xs| == 1 {
      CleanSplitOne(xs[0]);
      Uncons(xs);
    } else {
      var rest := Join(xs[1..], ", ");
      assert Clean(Split(Join(xs, ", "), ',')) == [xs[0]] + Clean(Split(rest, ',')) by {
        assert Join(xs, ", ") == xs[0] + ", " + rest;
        CleanJoinStep(xs[0], rest);
      }
      assert Clean(Split(rest, ',')) == xs[1..] by {
        AmenitiesTail(xs);
        CleanSplitJoin(xs[1..]);
      }
      Uncons(xs);
    }
  }

  /** A list of amenities written as "a, b, c" is read back as that list. */
  lemma AmenitiesRoundTrip(xs: seq<string>)
    requires forall i :: 0 <= i < |xs| ==> Amenity(xs[i])
    ensures ParseAmenities(Some(Join(xs, ", "))) == xs
  {
    if xs != [] {
      assert |Join(xs, ", ")| >= |xs[0]| by {
        if |xs| > 1 { assert Join(xs, ", ") == xs[0] + ", " + Join(xs[1..], ", "); }
      }
      CleanSplitJoin(xs);
    }
  }

  // ---------------------------------------------------------------------------
  // Validation
  // ---------------------------------------------------------------------------

  /** The fields as the action reads them; `parseFloat` is JavaScript's, and a missing price parses as "null". */
  datatype Fields = Fields(
    title: Option<string>, description: Option<string>, price: Number,
    location: Option<string>, imageUrl: Option<string>, amenities: seq<string>)

  function Read(form: Form, parseFloat: string -> Number): Fields {
    Fields(Get(form, "title"), Get(form, "description"), parseFloat(Get(form, "price").GetOr("null")),
           Get(form, "location"), Get(form, "imageUrl"), ParseAmenities(Get(form, "amenities")))
  }

  /** `fieldErrors[field]`: the messages recorded for a field, if any. */
  function Messages(errors: FieldErrors, field: string): Option<seq<string>> {
    if errors == [] then None
    else if errors[0].0 == field then Some(errors[0].1)
    else Messages(errors[1..], field)
  }

  /** One field's check: its message when it fails. */
  function Check(bad: bool, field: string, message: string): FieldErrors {
    if bad then [(field, [message])] else []
  }

  /** Looking a field up in two lists of errors in turn. */
  lemma {:induction false} MessagesAppend(a: FieldErrors, b: FieldErrors, field: string)
    ensures Messages(a + b, field) == if Messages(a, field).Some? then Messages(a, field) else Messages(b, field)
    decreases |a|
  {
    if a != [] {
      assert (a + b)[0] == a[0] && (a + b)[1..] == a[1..] + b;
      MessagesAppend(a[1..], b, field);
    } else {
      assert a + b == b;
    }
  }

  /** A field's check is found under its name only. */
  lemma MessagesOfCheck(bad: bool, field: string, message: string, name: string)
    ensures Messages(Check(bad, field, message), name) == if bad && name == field then Some([message]) else None
  {
  }

  /** The four checks in order. */
  function Checks(t: bool, d: bool, p: bool, l: bool): FieldErrors {
    Check(t, "title", TitleRequired) + Check(d, "description", DescriptionRequired)
    + Check(p, "price", PriceInvalid) + Check(l, "location", LocationRequired)
  }

  /** Each field's messages in the four checks are its own check's. */
  lemma ChecksFound(t: bool, d: bool, p: bool, l: bool, name: string)
    ensures Checks(t, d, p, l) == [] <==> !t && !d && !p && !l
    ensures Messages(Checks(t, d, p, l), name) ==
      if t && name == "title" then Some([TitleRequired])
      else if d && name == "description" then Some([DescriptionRequired])
      else if p && name == "price" then Some([PriceInvalid])
      else if l && name == "location" then Some([LocationRequired])
      else None
  {
    var a := Check(t, "title", TitleRequired);
    var b := Check(d, "description", DescriptionRequired);
    var c := Check(p, "price", PriceInvalid);
    var e := Check(l, "location", LocationRequired);
    MessagesAppend(a + b + c, e, name);
    MessagesAppend(a + b, c, name);
    MessagesAppend(a, b, name);
  }

  /** The checks of title, description, price and location, in that order. */
  function Validate(f: Fields): (r: FieldErrors)
    ensures r == [] <==> !Missing(f.title) && !Missing(f.description) && !BadPrice(f.price) && !Missing(f.location)
    ensures Messages(r, "title") == if Missing(f.title) then Some([TitleRequired]) else None
    ensures Messages(r, "description") == if Missing(f.description) then Some([DescriptionRequired]) else None
    ensures Messages(r, "price") == if BadPrice(f.price) then Some([PriceInvalid]) else None
    ensures Messages(r, "location") == if Missing(f.location) then Some([LocationRequired]) else None
  {
    var t, d, p, l := Missing(f.title), Missing(f.description), BadPrice(f.price), Missing(f.location);
    ChecksFound(t, d, p, l, "title");
    ChecksFound(t, d, p, l, "description");
    ChecksFound(t, d, p, l, "price");
    ChecksFound(t, d, p, l, "location");
    Checks(t, d, p, l)
  }

  // ---------------------------------------------------------------------------
  // The action
  // ---------------------------------------------------------------------------

  /** The JSON body posted: trimmed texts, a blank image URL as null. */
  datatype Payload = Payload(
    title: string, description: string, price: Number, location: string,
    imageUrl: Option<string>, amenities: seq<string>)

  /** `imageUrl && imageUrl.trim() ? imageUrl.trim() : null`. */
  function ImageUrl(t: Option<string>): (r: Option<string>)
    ensures r.None? <==> Missing(t)
    ensures r.Some? ==> r.value == Trim(t.value)
  {
    if t.Some? && !Blank(t.value) then Some(Trim(t.value)) else None
  }

  /** What the action decides before any request: refuse, report the field errors, or post. */
  datatype Prepared = Unauthenticated | Invalid(errors: FieldErrors) | Post(token: string, payload: Payload)

  /**
    * The cookie check, then the form: `cookie` is the `auth_token` cookie's value.
    * Only a form without field errors leads to a request, carrying the token.
    */
  function Prepare(cookie: Option<string>, form: Form, parseFloat: string -> Number): (r: Prepared)
    ensures cookie.None? ==> r == Unauthenticated
    ensures cookie.Some? && Validate(Read(form, parseFloat)) != [] ==> r == Invalid(Validate(Read(form, parseFloat)))
    ensures r.Post? <==> cookie.Some? && Validate(Read(form, parseFloat)) == []
    ensures r.Post? ==> r.token == cookie.value
    ensures r.Post? ==>
      var p := r.payload;
      && p.title == Trim(Get(form, "title").value) && p.title != []
      && p.description == Trim(Get(form, "description").value) && p.description != []
      && p.location == Trim(Get(form, "location").value) && p.location != []
      && p.price == Read(form, parseFloat).price && !BadPrice(p.price)
      && p.imageUrl == ImageUrl(Get(form, "imageUrl"))
      && p.amenities == ParseAmenities(Get(form, "amenities"))
  {
    match cookie
    case None => Unauthenticated
    case Some(token) =>
      var f := Read(form, parseFloat);
      var errors := Validate(f);
      if errors != [] then Invalid(errors)
      else Post(token, Payload(Trim(f.title.value), Trim(f.description.value), f.price, Trim(f.location.value),
                               ImageUrl(f.imageUrl), f.amenities))
  }

  /** What became of the request: the server's answer (`response.ok`), or no answer at all. */
  datatype Delivery = Answered(ok: bool) | Unreachable

  /** The `ActionResult` the form receives. */
  datatype ActionResult = ActionResult(success: bool, error: Option<string>, message: Option<string>, fieldErrors: Option<FieldErrors>)

  /** `createAccommodationAction(prevState, formData)`, with `delivery` the fate of the request it posts. */
  function CreateAccommodationAction(cookie: Option<string>, form: Form, parseFloat: string -> Number, delivery: Delivery)
    : (r: ActionResult)
    ensures r.success <==> Prepare(cookie, form, parseFloat).Post? && delivery == Answered(true)
    ensures r.success ==> r.message == Some(CreatedMessage) && r.error.None?
    ensures !r.success ==> r.error.Some?
    ensures cookie.None? ==> r == ActionResult(false, Some(NotAuthenticated), None, None)
    ensures r.fieldErrors.Some? <==> Prepare(cookie, form, parseFloat).Invalid?
    ensures r.fieldErrors.Some? ==> r.error == Some(FormInvalid) && r.fieldErrors.value != []
    ensures Prepare(cookie, form, parseFloat).Post? && delivery == Answered(false) ==> r.error == Some(CreateFailed)
    ensures Prepare(cookie, form, parseFloat).Post? && delivery == Unreachable ==> r.error == Some(ServerUnreachable)
  {
    match Prepare(cookie, form, parseFloat)
    case Unauthenticated => ActionResult(false, Some(NotAuthenticated), None, None)
    case Invalid(errors) => ActionResult(false, Some(FormInvalid), None, Some(errors))
    case Post(_, _) =>
      match delivery
      case Unreachable => ActionResult(false, Some(ServerUnreachable), None, None)
      case Answered(ok) =>
        if ok then ActionResult(true, None, Some(CreatedMessage), None)
        else ActionResult(false, Some(CreateFailed), None, None)
  }

  /** Without the cookie the form is not even read: the answer is the same whatever it holds. */
  lemma CookieFirst(form1: Form, form2: Form, parseFloat: string -> Number, d1: Delivery, d2: Delivery)
    ensures CreateAccommodationAction(None, form1, parseFloat, d1) == CreateAccommodationAction(None, form2, parseFloat, d2)
  {
  }

  /** A price of zero passes the form's check, which only refuses NaN and negative prices. */
  lemma ZeroPricePasses(cookie: string, form: Form, parseFloat: string -> Number)
    requires Read(form, parseFloat).price == Finite(0.0)
    requires !Missing(Get(form, "title")) && !Missing(Get(form, "description")) && !Missing(Get(form, "location"))
    ensures Prepare(Some(cookie), form, parseFloat).Post?
    ensures Prepare(Some(cookie), form, parseFloat).payload.price == Finite(0.0)
  {
  }
}

=== FILE: amenity_helpers.dfy ===
/**
  * `accommodation-helpers.ts`: the frontend's reading of an accommodation's
  * `amenities`, which the API may deliver as an array or as JSON text.
  */
module AmenityHelpers {
  import opened Wrappers

  /** A JavaScript value, as `any` may hold it. */
  datatype Js =
    | Undefined
    | Null
    | Bool(b: bool)
    | Num(n: real)
    | Text(s: string)
    | Array(items: seq<Js>)
    | Object(entries: seq<(string, Js)>)

  /**
    * `normalizeAmenities(amenities)`: an array as it is, text parsed as JSON when
    * that gives an array, and otherwise nothing. `parse` is `JSON.parse`, with
    * `None` for the `SyntaxError` it throws. The elements are not checked to be strings.
    */
  function NormalizeAmenities(x: Js, parse: string -> Option<Js>): (r: seq<Js>)
    ensures x.Array? ==> r == x.items
    ensures r != [] ==> x.Array? || (x.Text? && parse(x.s) == Some(Array(r)))
  {
    match x
    case Array(items) => items
    case Text(s) =>
      (match parse(s)
       case Some(Array(items)) => items
       case _ => [])
    case _ => []
  }

  /** `hasAmenities(amenities)`: whether the normalized list has an element. */
  predicate HasAmenities(x: Js, parse: string -> Option<Js>) {
    |NormalizeAmenities(x, parse)| > 0
  }

  /** Text that does not parse, or parses to something other than an array, has no amenities. */
  lemma TextWithoutArray(s: string, parse: string -> Option<Js>)
    requires parse(s).None? || !parse(s).value.Array?
    ensures NormalizeAmenities(Text(s), parse) == []
    ensures !HasAmenities(Text(s), parse)
  {
  }

  /** Neither null, undefined, a boolean, a number nor an object has amenities. */
  lemma OtherValuesEmpty(x: Js, parse: string -> Option<Js>)
    requires !x.Array? && !x.Text?
    ensures NormalizeAmenities(x, parse) == [] && !HasAmenities(x, parse)
  {
  }

  /** Normalizing what normalization returned changes nothing. */
  lemma NormalizeIdempotent(x: Js, parse: string -> Option<Js>)
    ensures NormalizeAmenities(Array(NormalizeAmenities(x, parse)), parse) == NormalizeAmenities(x, parse)
  {
  }

  /**
    * An array stored as its JSON text reads back as the same array: `stringify`
    * is `JSON.stringify`, assumed to be undone by `parse` for this array.
    */
  lemma JsonRoundTrip(items: seq<Js>, stringify: Js -> string, parse: string -> Option<Js>)
    requires parse(stringify(Array(items))) == Some(Array(items))
    ensures NormalizeAmenities(Text(stringify(Array(items))), parse) == items
    ensures HasAmenities(Text(stringify(Array(items))), parse) <==> items != []
  {
  }

  /** An array has amenities exactly when it is not empty; text, exactly when it parses to a non-empty array. */
  lemma HasAmenitiesExactly(x: Js, parse: string -> Option<Js>)
    ensures x.Array? ==> (HasAmenities(x, parse) <==> x.items != [])
    ensures x.Text? ==> (HasAmenities(x, parse) <==> parse(x.s).Some? && parse(x.s).value.Array? && parse(x.s).value.items != [])
  {
  }
}

=== FILE: app.dfy ===
/**
  * `index.php`, the front controller: the development CORS policy as the one global
  * middleware, the three named middlewares, and the route table, served for one
  * request. What a request may change is the state: the store, the identity the
  * authentication middleware publishes, and the headers sent.
  */
module App {
  import opened Wrappers
  import opened PhpValues
  import opened Platform
  import opened Store
  import opened Http
  import opened Routing
  import Passwords
  import Cors
  import AuthMiddleware
  import AuthControllers
  import UserControllers
  import AccommodationControllers

  /** What the front controller wires in: the token codec, the hashing primitives, the clock and PHP's conversions. */
  datatype Env = Env(jwt: Jwt, bcrypt: Bcrypt, hasher: Passwords.Hasher, now: int, b: Builtins)

  /**
    * One request's world: the request as the superglobals hold it and the services
    * wired in, which stay fixed, and what the request may change: the store, the
    * identity the authentication middleware publishes, and the headers sent.
    */
  datatype AppState = AppState(req: Request, env: Env, db: Db, user: Option<AuthMiddleware.Identity>, sent: seq<Cors.Header>)

  // ---------------------------------------------------------------------------
  // Middlewares
  // ---------------------------------------------------------------------------

  /** `CorsMiddleware::forDevelopment()->handle()`: send the headers, answer a preflight itself. */
  function CorsStep(s: AppState): (st: Step<AppState>)
    ensures st.state == s.(sent := s.sent + Cors.Headers(Cors.ForDevelopment(), s.req.origin.GetOr("")))
    ensures st.result.Ok? && (st.result.value.Some? <==> s.req.verb == Some("OPTIONS"))
  {
    var (hs, stop) := Cors.Handle(Cors.ForDevelopment(), s.req.verb, s.req.origin);
    Step(s.(sent := s.sent + hs), Ok(stop))
  }

  /** The authentication middleware's decision for the request in `s`. */
  function Authenticate(s: AppState): Result<AuthMiddleware.Admission, Thrown> {
    AuthMiddleware.Handle(s.db, s.env.jwt, s.req.headers, s.req.query, s.env.now, s.env.b)
  }

  /** `AuthenticationMiddleware::handle()`: publish the identity and go on, or answer with the refusal. */
  function AuthStep(s: AppState): (st: Step<AppState>)
    ensures st.state == s || st.state == s.(user := st.state.user)
    ensures st.result == Ok(None) <==> Authenticate(s).Ok? && Authenticate(s).value.Admit?
    ensures st.result == Ok(None) ==> st.state == s.(user := Some(Authenticate(s).value.identity))
    ensures Authenticate(s).Ok? && Authenticate(s).value.Deny? ==> st == Step(s, Ok(Some(Authenticate(s).value.reply)))
  {
    match Authenticate(s)
    case Err(e) => Step(s, Err(e))
    case Ok(Admit(identity)) => Step(s.(user := Some(identity)), Ok(None))
    case Ok(Deny(reply)) => Step(s, Ok(Some(reply)))
  }

  /** The closure `requireAdmin()` returns. */
  function AdminGate(s: AppState): Step<AppState> { Step(s, Ok(AuthMiddleware.RequireAdmin(s.user))) }

  /** The closure `requireAuth()` returns. */
  function UserGate(s: AppState): Step<AppState> { Step(s, Ok(AuthMiddleware.RequireAuth(s.user))) }

  /** The middlewares routes name: `auth`, `admin` and `user`. */
  const Named: map<string, Middleware<AppState>> := map["auth" := Runs(AuthStep), "admin" := Runs(AdminGate), "user" := Runs(UserGate)]

  // ---------------------------------------------------------------------------
  // Handlers
  // ---------------------------------------------------------------------------

  /** A controller's reply, or the PHP `Error` it let escape, as the router's handler result. */
  function Returned(s: AppState, r: Result<Reply, Thrown>): (AppState, Result<Value, Thrown>) {
    match r
    case Ok(reply) => (s, Ok(ReplyValue(reply)))
    case Err(e) => (s, Err(e))
  }

  /** The same for a controller that may also change the store. */
  function Stored(s: AppState, r: Result<(Db, Reply), Thrown>): (AppState, Result<Value, Thrown>) {
    match r
    case Ok((db, reply)) => (s.(db := db), Ok(ReplyValue(reply)))
    case Err(e) => (s, Err(e))
  }

  function ListRoute(s: AppState, params: Value): (AppState, Result<Value, Thrown>) {
    Returned(s, AccommodationControllers.ListAccommodations(s.db, s.req.query, s.env.b))
  }

  function GetRoute(s: AppState, params: Value): (AppState, Result<Value, Thrown>) {
    Returned(s, Ok(AccommodationControllers.GetAccommodation(s.db, params, s.env.b)))
  }

  function CreateRoute(s: AppState, params: Value): (AppState, Result<Value, Thrown>) {
    Stored(s, AccommodationControllers.CreateAccommodation(s.db, s.user, s.req, s.env.now, s.env.b))
  }

  function BookmarksRoute(s: AppState, params: Value): (AppState, Result<Value, Thrown>) {
    Returned(s, Ok(UserControllers.GetUserAccommodations(s.db, s.user)))
  }

  function BookmarkRoute(s: AppState, params: Value): (AppState, Result<Value, Thrown>) {
    Stored(s, UserControllers.AddAccommodation(s.db, s.user, s.req, s.env.b))
  }

  function UnbookmarkRoute(s: AppState, params: Value): (AppState, Result<Value, Thrown>) {
    Stored(s, Ok(UserControllers.RemoveAccommodation(s.db, s.user, params, s.env.b)))
  }

  /** The `/docs` closure where `docs/index.html` is not installed. */
  function DocsRoute(s: AppState, params: Value): (AppState, Result<Value, Thrown>) {
    Returned(s, Ok(Reply(404, ErrorBody("Documentation not found. Please ensure docs/index.html exists."))))
  }

  function LoginRoute(s: AppState, params: Value): (AppState, Result<Value, Thrown>) {
    Returned(s, AuthControllers.Login(s.db, s.env.bcrypt, s.env.jwt, s.req, s.env.now, s.env.b))
  }

  function RegisterRoute(s: AppState, params: Value): (AppState, Result<Value, Thrown>) {
    Stored(s, AuthControllers.Register(s.db, s.env.hasher, s.env.bcrypt, s.env.jwt, s.req, s.env.now, s.env.b))
  }

  function RefreshRoute(s: AppState, params: Value): (AppState, Result<Value, Thrown>) {
    Returned(s, Ok(AuthControllers.Refresh(s.db, s.env.jwt, s.req.headers, s.env.now)))
  }

  function ValidateRoute(s: AppState, params: Value): (AppState, Result<Value, Thrown>) {
    Returned(s, Ok(AuthControllers.Validate(s.db, s.env.jwt, s.req.headers, s.env.now)))
  }

  // ---------------------------------------------------------------------------
  // The application
  // ---------------------------------------------------------------------------

  /** The registrations of `index.php`, in order: method, path and the middlewares the route names. */
  const Registrations: seq<(string, string, seq<string>)> := [
    ("GET", "/api/accommodations", []),
    ("GET", "/api/accommodations/{id}", []),
    ("POST", "/api/admin/accommodations", ["auth", "admin"]),
    ("GET", "/api/users/accommodations", ["auth", "user"]),
    ("POST", "/api/users/accommodations", ["auth", "user"]),
    ("DELETE", "/api/users/accommodations/{accommodation_id}", ["auth", "user"]),
    ("GET", "/docs", []),
    ("POST", "/api/auth/login", []),
    ("POST", "/api/auth/register", []),
    ("POST", "/api/auth/refresh", []),
    ("POST", "/api/auth/validate", [])]

  /** The handlers `index.php` registers, in the order of `Registrations`. */
  const Handlers: seq<Handler<AppState>> := [
    Calls(ListRoute), Calls(GetRoute), Calls(CreateRoute), Calls(BookmarksRoute), Calls(BookmarkRoute),
    Calls(UnbookmarkRoute), Calls(DocsRoute), Calls(LoginRoute), Calls(RegisterRoute), Calls(RefreshRoute),
    Calls(ValidateRoute)]

  /** `index.php` wires each route to its controller: the table `Serve` uses meets every lemma's handler requirement. */
  lemma HandlersWired()
    ensures HandlerAt(Handlers, 0) == Calls(ListRoute) && HandlerAt(Handlers, 1) == Calls(GetRoute)
    ensures HandlerAt(Handlers, 2) == Calls(CreateRoute) && HandlerAt(Handlers, 3) == Calls(BookmarksRoute)
  {
  }

  /** The handler in position `i` of a table, `Invalid` past its end. */
  function HandlerAt(hs: seq<Handler<AppState>>, i: nat): Handler<AppState> {
    if i < |hs| then hs[i] else Invalid
  }

  /** The route table: each registration with its handler. */
  function Routes(hs: seq<Handler<AppState>>): (rs: seq<Route<AppState>>)
    ensures |rs| == |Registrations|
    ensures forall i :: 0 <= i < |rs| ==>
      rs[i] == Route(Registrations[i].0, Registrations[i].1, HandlerAt(hs, i), Registrations[i].2)
  {
    seq(|Registrations|, i requires 0 <= i < |Registrations| =>
      Route(Registrations[i].0, Registrations[i].1, HandlerAt(hs, i), Registrations[i].2))
  }

  /**
    * No method and path is registered twice, so each registration of `index.php`
    * adds its route rather than replacing an earlier one.
    */
  lemma TableDistinct(hs: seq<Handler<AppState>>)
    ensures Distinct(Routes(hs))
  {
    var t := Registrations;
    // The only same-method paths of equal length differ at one character.
    assert t[2].1[5] != t[4].1[5];
    assert t[8].1[10] != t[10].1[10];
    assert forall i, j :: 0 <= i < j < |t| ==> (t[i].0, t[i].1) != (t[j].0, t[j].1);
  }

  /** The router `index.php` builds around a handler table. */
  function Application(hs: seq<Handler<AppState>>): Router<AppState> {
    Router(Routes(hs), Named, [Runs(CorsStep)])
  }

  /** `$router->handleRequest()` for the request in `s`, with a handler table. */
  function ServeWith(hs: seq<Handler<AppState>>, s: AppState): (AppState, Result<Response, Thrown>) {
    HandleRequest(Application(hs), s.req.verb, s.req.uri, s, s.env.b)
  }

  /** `$router->handleRequest()` for the request in `s`, with the controllers `index.php` registers. */
  function Serve(s: AppState): (AppState, Result<Response, Thrown>) {
    ServeWith(Handlers, s)
  }

  // ---------------------------------------------------------------------------
  // What a request meets
  // ---------------------------------------------------------------------------

  /** The headers the development CORS policy sends for the request in `s`. */
  function CorsHeaders(s: AppState): seq<Cors.Header> {
    Cors.Headers(Cors.ForDevelopment(), s.req.origin.GetOr(""))
  }

  /** Each registration's own method and path reach its route, with no parameters. */
  lemma Registered(hs: seq<Handler<AppState>>, i: nat)
    requires i < |Registrations|
    ensures FindRoute(Application(hs).routes, Registrations[i].0, Registrations[i].1) == Some(Found(i, Arr([])))
  {
    var rs := Routes(hs);
    var (v, p) := (Registrations[i].0, Registrations[i].1);
    TableDistinct(hs);
    assert Routing.Key(rs[i]) == (v, p);
    var found := FindRoute(rs, v, p).value;
    assert Routing.Key(rs[found.index]) == Routing.Key(rs[i]);
  }

  /** Apart from a preflight, the CORS middleware sends its headers and lets the request through. */
  lemma CorsPasses(s: AppState)
    requires s.req.verb != Some("OPTIONS")
    ensures RunChain([Runs(CorsStep)], s) == Step(s.(sent := s.sent + CorsHeaders(s)), Ok(None))
  {
    assert [Runs(CorsStep)][1..] == [];
  }

  /**
    * No route answers OPTIONS, so a preflight is answered 404 before the CORS
    * middleware runs: no CORS header is sent and nothing changes.
    */
  lemma PreflightNotFound(hs: seq<Handler<AppState>>, s: AppState)
    requires s.req.verb == Some("OPTIONS")
    ensures ServeWith(hs, s) == (s, Ok(Response(404, NotFoundBody("OPTIONS", RequestPath(s.req.uri), s.req.uri, []))))
  {
    var rs := Application(hs).routes;
    assert forall i :: 0 <= i < |rs| ==> rs[i].verb != "OPTIONS";
    assert FindRoute(rs, "OPTIONS", RequestPath(s.req.uri)).None?;
  }

  /** No registration is for the OPTIONS method. */
  lemma NoPreflightRoute(i: nat)
    requires i < |Registrations|
    ensures Registrations[i].0 != "OPTIONS"
  {
    assert Registrations[i].0 in ["GET", "POST", "DELETE"];
  }

  /** Behind the CORS middleware, a non-preflight request meets the route's middlewares and handler. */
  lemma BehindCors(r: Router<AppState>, route: Route<AppState>, params: Value, s: AppState)
    requires r.globals == [Runs(CorsStep)] && s.req.verb != Some("OPTIONS")
    ensures var s1 := s.(sent := s.sent + CorsHeaders(s));
      var n := RunChain(Resolve(route.middlewares, r.named), s1);
      Dispatch(r, route, params, s, s.env.b) == if n.result != Ok(None) then Stopped(n, s.env.b) else Invoke(route.handler, n.state, params, s.env.b)
  {
    CorsPasses(s);
  }

  /**
    * A request for a registered method and path: the CORS headers are sent, then
    * the route's middlewares run, then its handler with no parameters.
    */
  lemma Routed(hs: seq<Handler<AppState>>, s: AppState, i: nat)
    requires i < |Registrations|
    requires s.req.verb.GetOr("GET") == Registrations[i].0 && RequestPath(s.req.uri) == Registrations[i].1
    ensures var s1 := s.(sent := s.sent + CorsHeaders(s));
      var n := RunChain(Resolve(Registrations[i].2, Named), s1);
      ServeWith(hs, s) == if n.result != Ok(None) then Stopped(n, s.env.b) else Invoke(HandlerAt(hs, i), n.state, Arr([]), s.env.b)
  {
    var r := Application(hs);
    NoPreflightRoute(i);
    Registered(hs, i);
    assert ServeWith(hs, s) == Dispatch(r, r.routes[i], Arr([]), s, s.env.b);
    assert r.routes[i] == Route(Registrations[i].0, Registrations[i].1, HandlerAt(hs, i), Registrations[i].2);
    BehindCors(r, r.routes[i], Arr([]), s);
  }

  /** The two public accommodation routes' registrations. */
  lemma PublicEntries()
    ensures Registrations[0] == ("GET", "/api/accommodations", [])
    ensures Registrations[1] == ("GET", "/api/accommodations/{id}", [])
  {
  }

  /** The admin route's registration. */
  lemma AdminEntry()
    ensures Registrations[2] == ("POST", "/api/admin/accommodations", ["auth", "admin"])
  {
  }

  /** The gate a guarded route runs after authentication. */
  function Gate(i: nat): Middleware<AppState> {
    if i == 2 then Runs(AdminGate) else Runs(UserGate)
  }

  /** The guarded routes, 2 to 5, run the authentication middleware, then the admin or the user gate. */
  lemma Guarded(i: nat)
    requires 2 <= i <= 5
    ensures Resolve(Registrations[i].2, Named) == [Runs(AuthStep), Gate(i)]
  {
    var names := Registrations[i].2;
    assert names == if i == 2 then ["auth", "admin"] else ["auth", "user"];
    assert forall k :: 0 <= k < |names| ==> names[k] in Named;
  }

  /**
    * A request the authentication middleware refuses on a guarded route is answered
    * with the refusal after the CORS headers; the gate and the controller never run.
    */
  lemma RefusalSent(hs: seq<Handler<AppState>>, s: AppState, i: nat, m: string)
    requires 2 <= i <= 5
    requires s.req.verb.GetOr("GET") == Registrations[i].0 && RequestPath(s.req.uri) == Registrations[i].1
    requires Authenticate(s) == Ok(AuthMiddleware.Deny(AuthMiddleware.Refusal(401, m)))
    ensures ServeWith(hs, s) == (s.(sent := s.sent + CorsHeaders(s)), Ok(Response(401, ErrorBody(m))))
  {
    var s1 := s.(sent := s.sent + CorsHeaders(s));
    Routed(hs, s, i);
    Guarded(i);
    assert Authenticate(s1) == Authenticate(s);
    AuthStops(Gate(i), s1, m);
    RefusalResponse(s1, 401, m, s.env.b);
  }

  /** A chain opened by the authentication middleware stops at its refusal. */
  lemma AuthStops(gate: Middleware<AppState>, s: AppState, m: string)
    requires Authenticate(s) == Ok(AuthMiddleware.Deny(AuthMiddleware.Refusal(401, m)))
    ensures RunChain([Runs(AuthStep), gate], s) == Step(s, Ok(Some(AuthMiddleware.Refusal(401, m))))
  {
    var refusal := AuthMiddleware.Refusal(401, m);
    assert refusal.Arr?;
    assert AuthStep(s) == Step(s, Ok(Some(refusal)));
    assert Execute(Runs(AuthStep), s) == Step(s, Ok(Some(refusal)));
  }

  /** The refusal a middleware returns is sent with its status and data. */
  lemma RefusalResponse(s: AppState, status: int, m: string, b: Builtins)
    ensures Stopped(Step(s, Ok(Some(AuthMiddleware.Refusal(status, m)))), b) == (s, Ok(Response(status, ErrorBody(m))))
  {
    var refusal := AuthMiddleware.Refusal(status, m);
    assert MiddlewareResponse(refusal, b) == Emit(Int(status), ErrorBody(m), b);
  }

  /** Without a token every guarded route answers 401 "Authentication token required". */
  lemma TokenRequired(hs: seq<Handler<AppState>>, s: AppState, i: nat)
    requires 2 <= i <= 5
    requires s.req.verb.GetOr("GET") == Registrations[i].0 && RequestPath(s.req.uri) == Registrations[i].1
    requires !Truthy(AuthMiddleware.ExtractToken(s.req.headers, s.req.query))
    ensures ServeWith(hs, s) == (s.(sent := s.sent + CorsHeaders(s)), Ok(Response(401, ErrorBody("Authentication token required"))))
  {
    RefusalSent(hs, s, i, "Authentication token required");
  }

  /** An admitted identity is published and the rest of the chain runs on it. */
  lemma AuthPublishes(gate: Middleware<AppState>, s: AppState, u: AuthMiddleware.Identity)
    requires Authenticate(s) == Ok(AuthMiddleware.Admit(u))
    ensures RunChain([Runs(AuthStep), gate], s) == RunChain([gate], s.(user := Some(u)))
  {
    assert Execute(Runs(AuthStep), s) == Step(s.(user := Some(u)), Ok(None));
    assert [Runs(AuthStep), gate][1..] == [gate];
  }

  /** The admin gate passes an administrator and refuses any other identity with 403. */
  lemma AdminGateDecides(s: AppState)
    requires s.user.Some?
    ensures s.user.value.role == "admin" ==> RunChain([Runs(AdminGate)], s) == Step(s, Ok(None))
    ensures s.user.value.role != "admin" ==>
      RunChain([Runs(AdminGate)], s) == Step(s, Ok(Some(AuthMiddleware.Refusal(403, "Insufficient permissions"))))
  {
    assert [Runs(AdminGate)][1..] == [];
    assert AuthMiddleware.Refusal(403, "Insufficient permissions").Arr?;
  }

  /** The user gate passes any published identity. */
  lemma UserGatePasses(s: AppState)
    requires s.user.Some?
    ensures RunChain([Runs(UserGate)], s) == Step(s, Ok(None))
  {
    assert [Runs(UserGate)][1..] == [];
  }

  /**
    * An identity that is not an administrator's is admitted but stopped by the
    * admin gate with 403: the accommodation controller never runs, the store is unchanged.
    */
  lemma AdminOnly(hs: seq<Handler<AppState>>, s: AppState, u: AuthMiddleware.Identity)
    requires s.req.verb.GetOr("GET") == "POST" && RequestPath(s.req.uri) == "/api/admin/accommodations"
    requires Authenticate(s) == Ok(AuthMiddleware.Admit(u)) && u.role != "admin"
    ensures ServeWith(hs, s) ==
      (s.(sent := s.sent + CorsHeaders(s), user := Some(u)), Ok(Response(403, ErrorBody("Insufficient permissions"))))
  {
    var s1 := s.(sent := s.sent + CorsHeaders(s));
    var s2 := s1.(user := Some(u));
    AdminEntry();
    Routed(hs, s, 2);
    Guarded(2);
    assert Authenticate(s1) == Authenticate(s);
    AuthPublishes(Runs(AdminGate), s1, u);
    AdminGateDecides(s2);
    RefusalResponse(s2, 403, "Insufficient permissions", s.env.b);
  }

  /**
    * An identity the guards accept reaches the route's controller, which sees it
    * published: an administrator on the admin route, anyone on the user routes.
    */
  lemma Admitted(hs: seq<Handler<AppState>>, s: AppState, i: nat, u: AuthMiddleware.Identity)
    requires 2 <= i <= 5
    requires s.req.verb.GetOr("GET") == Registrations[i].0 && RequestPath(s.req.uri) == Registrations[i].1
    requires Authenticate(s) == Ok(AuthMiddleware.Admit(u)) && (i == 2 ==> u.role == "admin")
    ensures ServeWith(hs, s) == Invoke(HandlerAt(hs, i), s.(sent := s.sent + CorsHeaders(s), user := Some(u)), Arr([]), s.env.b)
  {
    var s1 := s.(sent := s.sent + CorsHeaders(s));
    var s2 := s1.(user := Some(u));
    Routed(hs, s, i);
    Guarded(i);
    assert Authenticate(s1) == Authenticate(s);
    AuthPublishes(Gate(i), s1, u);
    if i == 2 {
      AdminGateDecides(s2);
    } else {
      UserGatePasses(s2);
    }
  }


  // ---------------------------------------------------------------------------
  // Requests that reach a controller
  // ---------------------------------------------------------------------------

  /** What the router sends for a controller's result: the reply as built, or the PHP `Error`. */
  function Sent(r: Result<Reply, Thrown>): Result<Response, Thrown> {
    match r
    case Ok(reply) => Ok(Response(reply.status, reply.data))
    case Err(e) => Err(e)
  }

  /** `GET /api/accommodations` sends the listing controller's reply after the CORS headers. */
  lemma ListingServed(hs: seq<Handler<AppState>>, s: AppState)
    requires s.req.verb.GetOr("GET") == "GET" && RequestPath(s.req.uri) == "/api/accommodations"
    requires HandlerAt(hs, 0) == Calls(ListRoute)
    ensures ServeWith(hs, s) ==
      (s.(sent := s.sent + CorsHeaders(s)), Sent(AccommodationControllers.ListAccommodations(s.db, s.req.query, s.env.b)))
  {
    var s1 := s.(sent := s.sent + CorsHeaders(s));
    PublicEntries();
    Routed(hs, s, 0);
    assert Resolve(Registrations[0].2, Named) == [];
    var r := AccommodationControllers.ListAccommodations(s.db, s.req.query, s.env.b);
    assert ListRoute(s1, Arr([])) == Returned(s1, r);
    if r.Ok? { ReplyDelivered(r.value, s.env.b); }
  }

  /** The creation handler sends the controller's reply as built and keeps the store it returns. */
  lemma CreateInvoked(s: AppState)
    ensures match AccommodationControllers.CreateAccommodation(s.db, s.user, s.req, s.env.now, s.env.b)
      case Ok((db, reply)) => Invoke(Calls(CreateRoute), s, Arr([]), s.env.b) == (s.(db := db), Ok(Response(reply.status, reply.data)))
      case Err(e) => Invoke(Calls(CreateRoute), s, Arr([]), s.env.b) == (s, Err(e))
  {
    var r := AccommodationControllers.CreateAccommodation(s.db, s.user, s.req, s.env.now, s.env.b);
    assert CreateRoute(s, Arr([])) == Stored(s, r);
    if r.Ok? { ReplyDelivered(r.value.1, s.env.b); }
  }

  /**
    * An administrator's `POST /api/admin/accommodations` runs the creation
    * controller with the identity published: the reply is sent as built and the
    * store it returns is kept.
    */
  lemma AdminCreates(hs: seq<Handler<AppState>>, s: AppState, u: AuthMiddleware.Identity)
    requires s.req.verb.GetOr("GET") == "POST" && RequestPath(s.req.uri) == "/api/admin/accommodations"
    requires HandlerAt(hs, 2) == Calls(CreateRoute)
    requires Authenticate(s) == Ok(AuthMiddleware.Admit(u)) && u.role == "admin"
    ensures var s2 := s.(sent := s.sent + CorsHeaders(s), user := Some(u));
      match AccommodationControllers.CreateAccommodation(s.db, Some(u), s.req, s.env.now, s.env.b)
      case Ok((db, reply)) => ServeWith(hs, s) == (s2.(db := db), Ok(Response(reply.status, reply.data)))
      case Err(e) => ServeWith(hs, s) == (s2, Err(e))
  {
    var s2 := s.(sent := s.sent + CorsHeaders(s), user := Some(u));
    AdminEntry();
    Admitted(hs, s, 2, u);
    CreateInvoked(s2);
  }

  /** The prefix of the accommodation route, before its `{id}` placeholder. */
  const ItemPrefix := "/api/accommodations/"

  /** The accommodation route is its prefix and one `{id}` placeholder. */
  lemma ItemPattern()
    ensures Registrations[1].1 == ItemPrefix + "{" + "id" + "}"
    ensures '{' !in ItemPrefix && HoleName("id")
  {
    PublicEntries();
    assert ItemPrefix + "{" + "id" + "}" == "/api/accommodations/{id}";
  }

  /** A path under the accommodation prefix other than the pattern itself is not a registered path. */
  lemma ItemNotRegistered(id: string)
    requires Capture(id) && id != "{id}"
    ensures forall k :: 0 <= k < |Registrations| ==> Registrations[k].1 != ItemPrefix + id || Registrations[k].0 != "GET"
  {
    var path := ItemPrefix + id;
    assert path[1] == 'a' && path[5] == 'a';
    ItemPattern();
    var pattern := ItemPrefix + "{" + "id" + "}";
    assert pattern[|ItemPrefix|..] == "{id}";
    assert path[|ItemPrefix|..] == id;
  }

  /** The parameters the accommodation route captures from a path under its prefix. */
  function ItemParams(id: string): (params: Value)
    requires Capture(id)
    ensures Given(params, "id") == Some(Str(id))
  {
    ItemPattern();
    TrailingPlaceholder(ItemPrefix, "id", id);
    RouteParams(ItemPrefix + "{" + "id" + "}", ItemPrefix + id)
  }

  /** No route is registered under a path of the accommodation prefix other than the pattern. */
  lemma ItemNotExact(hs: seq<Handler<AppState>>, id: string)
    requires Capture(id) && id != "{id}"
    ensures Exact(Application(hs).routes, "GET", ItemPrefix + id).None?
  {
    var rs := Application(hs).routes;
    ItemNotRegistered(id);
    assert forall k :: 0 <= k < |rs| ==> Routing.Key(rs[k]) == (Registrations[k].0, Registrations[k].1);
  }

  /** Of the routes a path under the accommodation prefix could meet, the listing's does not match and the item's does. */
  lemma ItemMatches(hs: seq<Handler<AppState>>, id: string)
    requires Capture(id)
    ensures var rs := Application(hs).routes;
      !Matches(rs[0], "GET", ItemPrefix + id) && Matches(rs[1], "GET", ItemPrefix + id)
  {
    var path := ItemPrefix + id;
    PublicEntries();
    LiteralRoute("/api/accommodations", path);
    ItemPattern();
    TrailingPlaceholder(ItemPrefix, "id", id);
  }

  /**
    * `GET /api/accommodations/<id>` reaches the accommodation route with `id`
    * captured, unless the path is the pattern itself, which is matched exactly.
    */
  lemma ItemFound(hs: seq<Handler<AppState>>, id: string)
    requires Capture(id) && id != "{id}"
    ensures FindRoute(Application(hs).routes, "GET", ItemPrefix + id) == Some(Found(1, ItemParams(id)))
  {
    ItemNotExact(hs, id);
    ItemMatches(hs, id);
    ItemPattern();
  }

  /** The lookup handler sends the controller's reply as built. */
  lemma GetInvoked(s: AppState, params: Value)
    ensures var g := AccommodationControllers.GetAccommodation(s.db, params, s.env.b);
      Invoke(Calls(GetRoute), s, params, s.env.b) == (s, Ok(Response(g.status, g.data)))
  {
    var g := AccommodationControllers.GetAccommodation(s.db, params, s.env.b);
    assert GetRoute(s, params) == Returned(s, Ok(g));
    ReplyDelivered(g, s.env.b);
  }

  /**
    * `GET /api/accommodations/<id>` sends, after the CORS headers, the lookup
    * controller's reply for the captured `id`; nothing else changes.
    */
  lemma ItemServed(hs: seq<Handler<AppState>>, s: AppState, id: string)
    requires s.req.verb.GetOr("GET") == "GET" && RequestPath(s.req.uri) == ItemPrefix + id
    requires Capture(id) && id != "{id}"
    requires HandlerAt(hs, 1) == Calls(GetRoute)
    ensures var g := AccommodationControllers.GetAccommodation(s.db, ItemParams(id), s.env.b);
      ServeWith(hs, s) == (s.(sent := s.sent + CorsHeaders(s)), Ok(Response(g.status, g.data)))
  {
    var r := Application(hs);
    ItemFound(hs, id);
    assert ServeWith(hs, s) == Dispatch(r, r.routes[1], ItemParams(id), s, s.env.b);
    PublicEntries();
    assert r.routes[1] == Route("GET", "/api/accommodations/{id}", Calls(GetRoute), []);
    BehindCors(r, r.routes[1], ItemParams(id), s);
    GetInvoked(s.(sent := s.sent + CorsHeaders(s)), ItemParams(id));
  }

  /** The pattern itself, `/api/accommodations/{id}`, is matched exactly and captures nothing, so it is a 400. */
  lemma PatternPathRefused(hs: seq<Handler<AppState>>, s: AppState)
    requires s.req.verb.GetOr("GET") == "GET" && RequestPath(s.req.uri) == "/api/accommodations/{id}"
    requires HandlerAt(hs, 1) == Calls(GetRoute)
    ensures ServeWith(hs, s).1.Ok? && ServeWith(hs, s).1.value.status == 400
  {
    PublicEntries();
    Routed(hs, s, 1);
    assert Resolve(Registrations[1].2, Named) == [];
    GetInvoked(s.(sent := s.sent + CorsHeaders(s)), Arr([]));
  }

  /** The user routes' registrations. */
  lemma UserEntries()
    ensures Registrations[3] == ("GET", "/api/users/accommodations", ["auth", "user"])
  {
  }

  /** The bookmark listing handler sends the controller's reply as built. */
  lemma BookmarksInvoked(s: AppState)
    ensures var g := UserControllers.GetUserAccommodations(s.db, s.user);
      Invoke(Calls(BookmarksRoute), s, Arr([]), s.env.b) == (s, Ok(Response(g.status, g.data)))
  {
    var g := UserControllers.GetUserAccommodations(s.db, s.user);
    assert BookmarksRoute(s, Arr([])) == Returned(s, Ok(g));
    ReplyDelivered(g, s.env.b);
  }

  /**
    * `GET /api/users/accommodations` with a token the middleware admits lists
    * that user's bookmarks: the controller sees the identity just published.
    */
  lemma BookmarksServed(hs: seq<Handler<AppState>>, s: AppState, u: AuthMiddleware.Identity)
    requires s.req.verb.GetOr("GET") == "GET" && RequestPath(s.req.uri) == "/api/users/accommodations"
    requires HandlerAt(hs, 3) == Calls(BookmarksRoute)
    requires Authenticate(s) == Ok(AuthMiddleware.Admit(u))
    ensures var g := UserControllers.GetUserAccommodations(s.db, Some(u));
      ServeWith(hs, s) == (s.(sent := s.sent + CorsHeaders(s), user := Some(u)), Ok(Response(g.status, g.data)))
  {
    UserEntries();
    Admitted(hs, s, 3, u);
    BookmarksInvoked(s.(sent := s.sent + CorsHeaders(s), user := Some(u)));
  }
}

=== FILE: auth_controller.dfy ===
/**
  * `AuthController`: the four endpoints under `/api/auth/`. Login and registration check
  * the request body before calling the authentication service and map its exceptions
  * to 400 and 500 replies; refresh and validate read the token after an exact
  * `Bearer ` prefix of the `Authorization` header. The file runs in PHP's coercive
  * typing mode, so a scalar field passed to `trim` or to a `string` parameter is
  * converted, and only an array raises a TypeError.
  */
module AuthControllers {
  import opened Wrappers
  import opened PhpText
  import opened PhpValues
  import opened Users
  import opened Platform
  import opened Passwords
  import opened Store
  import opened Http
  import AuthServices
  import AuthMiddleware

  // ---------------------------------------------------------------------------
  // Input checks
  // ---------------------------------------------------------------------------

  /**
    * A field the validators read with `empty($data[$f]) || empty(trim($data[$f]))`:
    * its trimmed text when it is neither, None when it is; `trim` of an array is a
    * TypeError.
    */
  function Filled(data: Value, name: string, b: Builtins): (r: Result<Option<string>, Thrown>)
    ensures r.Err? <==> !EmptyField(data, name) && At(data, name).Arr?
    ensures r.Err? ==> r.error.PhpError?
    ensures (r.Ok? && r.value.Some?) <==>
      !EmptyField(data, name) && !At(data, name).Arr? && !IsEmpty(Trim(CastText(At(data, name), b)))
    ensures r.Ok? && r.value.Some? ==> r.value.value == Trim(CastText(At(data, name), b))
  {
    if EmptyField(data, name) then Ok(None)
    else match CoerceText(At(data, name), b)
      case None => Err(PhpError("TypeError"))
      case Some(t) => if IsEmpty(Trim(t)) then Ok(None) else Ok(Some(Trim(t)))
  }

  /** The e-mail rules, first failure reported: required, `filter_var`, then (at registration) 100 bytes. */
  function EmailError(email: Option<string>, capped: bool, b: Builtins): (r: Option<string>)
    ensures r.None? <==> email.Some? && b.isEmail(email.value) && (capped ==> |email.value| <= 100)
    ensures email.None? ==> r == Some("Email is required")
    ensures email.Some? && !b.isEmail(email.value) ==> r == Some("Email format is invalid")
  {
    if email.None? then Some("Email is required")
    else if !b.isEmail(email.value) then Some("Email format is invalid")
    else if capped && |email.value| > 100 then Some("Email cannot exceed 100 characters")
    else None
  }

  /** The username rules on the trimmed text, first failure reported: required, 3, 50, then the charset. */
  function UsernameError(username: Option<string>): (r: Option<string>)
    ensures r.None? <==> username.Some? && GoodUsername(username.value)
    ensures username.None? ==> r == Some("Username is required")
    ensures username.Some? && |username.value| < 3 ==> r == Some("Username must be at least 3 characters long")
    ensures username.Some? && |username.value| > 50 ==> r == Some("Username cannot exceed 50 characters")
  {
    if username.None? then Some("Username is required")
    else if |username.value| < 3 then Some("Username must be at least 3 characters long")
    else if |username.value| > 50 then Some("Username cannot exceed 50 characters")
    else if !UsernameCharset(username.value) then Some("Username can only contain letters, numbers, underscores, and hyphens")
    else None
  }

  function Report(field: string, error: Option<string>): seq<(string, string)> {
    if error.None? then [] else [(field, error.value)]
  }

  function PasswordError(data: Value): Option<string> {
    if EmptyField(data, "password") then Some("Password is required") else None
  }

  /** What `validateLoginInput` accepts. */
  predicate LoginInputValid(data: Value, b: Builtins) {
    && !EmptyField(data, "email") && !At(data, "email").Arr?
    && !IsEmpty(Trim(CastText(At(data, "email"), b)))
    && b.isEmail(Trim(CastText(At(data, "email"), b)))
    && !EmptyField(data, "password")
  }

  /** `validateLoginInput`: the failing fields, e-mail before password; empty when the input is accepted. */
  function LoginErrors(data: Value, b: Builtins): (r: Result<seq<(string, string)>, Thrown>)
    ensures r.Err? <==> !EmptyField(data, "email") && At(data, "email").Arr?
    ensures r.Err? ==> r.error.PhpError?
    ensures r.Ok? ==> (r.value == [] <==> LoginInputValid(data, b))
    ensures r.Ok? ==> |r.value| <= 2 && forall i :: 0 <= i < |r.value| ==> r.value[i].0 == "email" || r.value[i].0 == "password"
    ensures r.Ok? && EmptyField(data, "password") ==> r.value[|r.value| - 1] == ("password", "Password is required")
  {
    match Filled(data, "email", b)
    case Err(e) => Err(e)
    case Ok(email) => Ok(Report("email", EmailError(email, false, b)) + Report("password", PasswordError(data)))
  }

  /** A body with neither field names both, in the order they are checked. */
  lemma EmptyLoginBody(b: Builtins)
    ensures LoginErrors(Arr([]), b) == Ok([("email", "Email is required"), ("password", "Password is required")])
    ensures ValidationMessage(LoginErrors(Arr([]), b).value)
      == "Validation failed: " + "email" + " - " + "Email is required" + "; " + "password" + " - " + "Password is required"
  {
    assert Field(Arr([]), "email").None? && Field(Arr([]), "password").None?;
    assert Filled(Arr([]), "email", b) == Ok(None);
    assert Report("email", EmailError(None, false, b)) == [("email", "Email is required")];
    assert Report("password", PasswordError(Arr([]))) == [("password", "Password is required")];
    var errors := [("email", "Email is required"), ("password", "Password is required")];
    assert [("email", "Email is required")] + [("password", "Password is required")] == errors;
    assert LoginErrors(Arr([]), b) == Ok(errors);
    TwoFieldMessage("email", "Email is required", "password", "Password is required");
  }

  /** `in_array($data['role'], ['user', 'admin'])` with PHP's loose comparison, or no role given. */
  predicate RoleAcceptable(data: Value, b: Builtins) {
    RoleWords();
    EmptyField(data, "role") || LooseEqualsWord(At(data, "role"), "user", b) || LooseEqualsWord(At(data, "role"), "admin", b)
  }

  lemma RoleWords()
    ensures IsWord("user") && IsWord("admin")
  {
  }

  /** What `validateRegistrationInput` accepts. */
  predicate RegistrationInputValid(data: Value, b: Builtins) {
    && !EmptyField(data, "username") && !At(data, "username").Arr?
    && !IsEmpty(Trim(CastText(At(data, "username"), b)))
    && GoodUsername(Trim(CastText(At(data, "username"), b)))
    && !EmptyField(data, "email") && !At(data, "email").Arr?
    && !IsEmpty(Trim(CastText(At(data, "email"), b)))
    && b.isEmail(Trim(CastText(At(data, "email"), b)))
    && |Trim(CastText(At(data, "email"), b))| <= 100
    && !EmptyField(data, "password")
    && RoleAcceptable(data, b)
  }

  /** `validateRegistrationInput`: the failing fields in the order username, email, password, role. */
  function RegistrationErrors(data: Value, b: Builtins): (r: Result<seq<(string, string)>, Thrown>)
    ensures r.Err? <==> (!EmptyField(data, "username") && At(data, "username").Arr?)
                        || (!EmptyField(data, "email") && At(data, "email").Arr?)
    ensures r.Err? ==> r.error.PhpError?
    ensures r.Ok? ==> (r.value == [] <==> RegistrationInputValid(data, b))
    ensures r.Ok? ==> |r.value| <= 4
    ensures r.Ok? && !RoleAcceptable(data, b) ==> r.value[|r.value| - 1] == ("role", "Role must be either \"user\" or \"admin\"")
  {
    match Filled(data, "username", b)
    case Err(e) => Err(e)
    case Ok(username) =>
      match Filled(data, "email", b)
      case Err(e) => Err(e)
      case Ok(email) =>
        Ok(Report("username", UsernameError(username)) + Report("email", EmailError(email, true, b))
           + Report("password", PasswordError(data))
           + Report("role", if RoleAcceptable(data, b) then None else Some("Role must be either \"user\" or \"admin\"")))
  }

  // ---------------------------------------------------------------------------
  // Login and registration
  // ---------------------------------------------------------------------------

  /** `['success' => true, 'message' => ..., 'token' => ..., 'user' => ..., 'expires_in' => ...]`. */
  function SessionReply(status: int, message: string, s: AuthServices.Session): (r: Reply)
    ensures r.status == status && r.data.Arr?
    ensures Field(r.data, "token") == Some(Str(s.token))
    ensures Field(r.data, "user") == Some(s.user)
    ensures Field(r.data, "expires_in") == Some(Int(s.expiresIn))
  {
    var fields := [("success", Bool(true)), ("message", Str(message)), ("token", Str(s.token)),
                   ("user", s.user), ("expires_in", Int(s.expiresIn))];
    FieldOfObj(fields, "token", 2);
    FieldOfObj(fields, "user", 3);
    FieldOfObj(fields, "expires_in", 4);
    Reply(status, Obj(fields))
  }

  /**
    * The `catch` blocks of `login()` and `register()`: an `InvalidArgumentException` is a 400
    * carrying its message, any other exception a 500 with a fixed text. A PHP `Error` is no
    * `Exception` and escapes.
    */
  function Caught(e: Thrown, internal: string): (r: Result<Reply, Thrown>)
    ensures r.Err? <==> e.PhpError?
    ensures e.InvalidArgument? ==> r == Ok(Failure(400, "VALIDATION_ERROR", e.message))
    ensures e.OtherException? ==> r == Ok(Failure(500, "INTERNAL_ERROR", internal))
  {
    match e
    case InvalidArgument(m) => Ok(Failure(400, "VALIDATION_ERROR", m))
    case OtherException(_) => Ok(Failure(500, "INTERNAL_ERROR", internal))
    case PhpError(_) => Err(e)
  }

  /**
    * The arguments `login()` hands the service once the body is accepted: the trimmed
    * address, and the password as coercive mode converts it. An array password cannot
    * be converted, and is the only obstacle left.
    */
  function LoginAttempt(req: Request, b: Builtins): (r: Option<(string, string)>)
    ensures r.Some? <==> RequestBody(req).Ok? && LoginInputValid(RequestBody(req).value, b)
                         && !At(RequestBody(req).value, "password").Arr?
    ensures r.Some? ==> r.value.0 == Trim(CastText(At(RequestBody(req).value, "email"), b))
                        && r.value.1 == CastText(At(RequestBody(req).value, "password"), b)
  {
    match RequestBody(req)
    case Err(_) => None
    case Ok(data) =>
      if !LoginInputValid(data, b) || At(data, "password").Arr? then None
      else Some((Trim(CastText(At(data, "email"), b)), CastText(At(data, "password"), b)))
  }

  /**
    * `login()`: body, input check, then the service. A refused login is a 400 with the
    * service's message; a successful one a 200 carrying the issued session.
    */
  function Login(db: Db, bc: Bcrypt, j: Jwt, req: Request, now: int, b: Builtins): (r: Result<Reply, Thrown>)
    ensures r.Err? ==> r.error.PhpError?
    ensures RequestBody(req).Err? ==> r.Err?
    ensures r.Ok? ==> r.value.status == 200 || r.value.status == 400
    ensures RequestBody(req).Ok? && LoginErrors(RequestBody(req).value, b).Ok? && LoginErrors(RequestBody(req).value, b).value != [] ==>
      r == Ok(Failure(400, "VALIDATION_ERROR", ValidationMessage(LoginErrors(RequestBody(req).value, b).value)))
    ensures (r.Ok? && r.value.status == 200) <==>
      LoginAttempt(req, b).Some? && AuthServices.Login(db, bc, j, LoginAttempt(req, b).value.0, LoginAttempt(req, b).value.1, now).Ok?
    ensures r.Ok? && r.value.status == 200 ==>
      r.value == SessionReply(200, "Login successful", AuthServices.Login(db, bc, j, LoginAttempt(req, b).value.0, LoginAttempt(req, b).value.1, now).value)
    ensures LoginAttempt(req, b).Some? && AuthServices.Login(db, bc, j, LoginAttempt(req, b).value.0, LoginAttempt(req, b).value.1, now).Err? ==>
      r == Ok(Failure(400, "VALIDATION_ERROR", AuthServices.Login(db, bc, j, LoginAttempt(req, b).value.0, LoginAttempt(req, b).value.1, now).error.message))
  {
    match RequestBody(req)
    case Err(e) => Err(e)
    case Ok(data) =>
      match LoginErrors(data, b)
      case Err(e) => Err(e)
      case Ok(errors) =>
        if errors != [] then Ok(Failure(400, "VALIDATION_ERROR", ValidationMessage(errors)))
        else
          var email := Trim(CastText(At(data, "email"), b));
          match CoerceText(At(data, "password"), b)
          case None => Err(PhpError("TypeError"))
          case Some(password) =>
            match AuthServices.Login(db, bc, j, email, password, now)
            case Ok(s) => Ok(SessionReply(200, "Login successful", s))
            case Err(e) => Caught(e, "An unexpected error occurred during login")
  }

  /** The endpoint, like the service, answers an unknown address and a wrong password identically. */
  lemma LoginRepliesHideCause(db1: Db, db2: Db, bc: Bcrypt, j: Jwt, req: Request, now: int, b: Builtins)
    requires LoginAttempt(req, b).Some?
    requires !Blank(LoginAttempt(req, b).value.1)
    requires FindUserByEmail(db1, LoginAttempt(req, b).value.0).None?
    requires FindUserByEmail(db2, LoginAttempt(req, b).value.0).Some?
    requires !Verify(bc, LoginAttempt(req, b).value.1, FindUserByEmail(db2, LoginAttempt(req, b).value.0).value.passwordHash)
    ensures Login(db1, bc, j, req, now, b) == Login(db2, bc, j, req, now, b)
    ensures Login(db1, bc, j, req, now, b) == Ok(Failure(400, "VALIDATION_ERROR", "Invalid credentials"))
  {
    var c := LoginAttempt(req, b).value;
    TrimTwice(CastText(At(RequestBody(req).value, "email"), b));
    assert !Blank(c.0);
    AuthServices.LoginHidesCause(db1, db2, bc, j, c.0, c.1, now);
  }

  /** The registration arguments: trimmed username and address, the password and `$data['role'] ?? null`. */
  datatype Registration = Registration(username: string, email: string, password: string, role: Option<string>)

  /**
    * What `register()` hands the service once the body is accepted. Coercive mode converts
    * a scalar password or role; an array in either is a TypeError.
    */
  function RegistrationAttempt(data: Value, b: Builtins): (r: Result<Registration, Thrown>)
    requires RegistrationInputValid(data, b)
    ensures r.Err? <==> At(data, "password").Arr? || At(data, "role").Arr?
    ensures r.Err? ==> r.error.PhpError?
    ensures r.Ok? ==> r.value.username == Trim(CastText(At(data, "username"), b)) && GoodUsername(r.value.username)
    ensures r.Ok? ==> r.value.email == Trim(CastText(At(data, "email"), b)) && b.isEmail(r.value.email)
    ensures r.Ok? ==> r.value.password == CastText(At(data, "password"), b)
    ensures r.Ok? ==> r.value.role == (if At(data, "role").Null? then None else Some(CastText(At(data, "role"), b)))
  {
    match CoerceText(At(data, "password"), b)
    case None => Err(PhpError("TypeError"))
    case Some(password) =>
      if At(data, "role").Null? then
        Ok(Registration(Trim(CastText(At(data, "username"), b)), Trim(CastText(At(data, "email"), b)), password, None))
      else match CoerceText(At(data, "role"), b)
        case None => Err(PhpError("TypeError"))
        case Some(role) =>
          Ok(Registration(Trim(CastText(At(data, "username"), b)), Trim(CastText(At(data, "email"), b)), password, Some(role)))
  }

  /**
    * The controller's checks subsume the service's own input check except for a
    * password of blanks: `empty` accepts it, the service's blank test does not.
    */
  lemma RegistrationChecksAgree(data: Value, b: Builtins)
    requires RegistrationInputValid(data, b) && RegistrationAttempt(data, b).Ok?
    ensures var a := RegistrationAttempt(data, b).value;
      AuthServices.ValidateRegistrationInput(a.username, a.email, a.password, b).Pass? <==> !Blank(a.password)
  {
    var a := RegistrationAttempt(data, b).value;
    GoodUsernameNotBlank(a.username);
    TrimTwice(CastText(At(data, "email"), b));
  }

  /**
    * `register()` after the body is read: input check, then the service. Success is a 201
    * carrying the new user's session; the store changes only then.
    */
  function RegisterBody(db: Db, h: Hasher, bc: Bcrypt, j: Jwt, data: Value, now: int, b: Builtins)
    : (r: Result<(Db, Reply), Thrown>)
    ensures r.Err? ==> r.error.PhpError?
    ensures r.Ok? ==> r.value.1.status == 201 || r.value.1.status == 400 || r.value.1.status == 500
    ensures r.Ok? && r.value.1.status != 201 ==> r.value.0 == db
    ensures RegistrationErrors(data, b).Ok? && RegistrationErrors(data, b).value != [] ==>
      r == Ok((db, Failure(400, "VALIDATION_ERROR", ValidationMessage(RegistrationErrors(data, b).value))))
    ensures r.Ok? && r.value.1.status == 201 ==> RegistrationInputValid(data, b) && RegistrationAttempt(data, b).Ok?
    ensures r.Ok? && r.value.1.status == 201 ==>
      var a := RegistrationAttempt(data, b).value;
      AuthServices.Register(db, h, bc, j, a.username, a.email, a.password, a.role, now, b).Ok?
      && r.value.0 == AuthServices.Register(db, h, bc, j, a.username, a.email, a.password, a.role, now, b).value.0
      && r.value.1 == SessionReply(201, "Registration successful", AuthServices.Register(db, h, bc, j, a.username, a.email, a.password, a.role, now, b).value.1)
  {
    match RegistrationErrors(data, b)
    case Err(e) => Err(e)
    case Ok(errors) =>
      if errors != [] then Ok((db, Failure(400, "VALIDATION_ERROR", ValidationMessage(errors))))
      else
        match RegistrationAttempt(data, b)
        case Err(e) => Err(e)
        case Ok(a) => Registered(db, h, bc, j, a, now, b)
  }

  /** The service's answer to accepted registration input, as `register()` replies with it. */
  function Registered(db: Db, h: Hasher, bc: Bcrypt, j: Jwt, a: Registration, now: int, b: Builtins)
    : (r: Result<(Db, Reply), Thrown>)
    ensures r.Err? ==> r.error.PhpError?
    ensures r.Ok? ==> r.value.1.status == 201 || r.value.1.status == 400 || r.value.1.status == 500
    ensures r.Ok? && r.value.1.status != 201 ==> r.value.0 == db
    ensures (r.Ok? && r.value.1.status == 201) <==> AuthServices.Register(db, h, bc, j, a.username, a.email, a.password, a.role, now, b).Ok?
    ensures r.Ok? && r.value.1.status == 201 ==>
      r.value.0 == AuthServices.Register(db, h, bc, j, a.username, a.email, a.password, a.role, now, b).value.0
      && r.value.1 == SessionReply(201, "Registration successful", AuthServices.Register(db, h, bc, j, a.username, a.email, a.password, a.role, now, b).value.1)
  {
    match AuthServices.Register(db, h, bc, j, a.username, a.email, a.password, a.role, now, b)
    case Ok(s) => Ok((s.0, SessionReply(201, "Registration successful", s.1)))
    case Err(e) =>
      match Caught(e, "An unexpected error occurred during registration")
      case Ok(reply) => Ok((db, reply))
      case Err(e') => Err(e')
  }

  /** `register()`: a body that is not an array is a TypeError; otherwise the checks above. */
  function Register(db: Db, h: Hasher, bc: Bcrypt, j: Jwt, req: Request, now: int, b: Builtins)
    : (r: Result<(Db, Reply), Thrown>)
    ensures RequestBody(req).Err? ==> r.Err? && r.error.PhpError?
    ensures RequestBody(req).Ok? ==> r == RegisterBody(db, h, bc, j, RequestBody(req).value, now, b)
  {
    match RequestBody(req)
    case Err(e) => Err(e)
    case Ok(data) => RegisterBody(db, h, bc, j, data, now, b)
  }

  // ---------------------------------------------------------------------------
  // Refresh and validate
  // ---------------------------------------------------------------------------

  /**
    * `$headers['Authorization'] ?? $headers['authorization'] ?? ''` when it is not empty and
    * starts with exactly `Bearer ` (this letter case, one space): the text after those 7 bytes.
    */
  function BearerSuffix(headers: map<string, string>): (r: Option<string>)
    ensures r.Some? <==> Authorization(headers).Some? && StartsWith(Authorization(headers).value, "Bearer ")
    ensures r.Some? ==> Authorization(headers).value == "Bearer " + r.value
  {
    var h := Authorization(headers).GetOr("");
    if IsEmpty(h) || !StartsWith(h, "Bearer ") then None
    else
      assert h == h[..7] + h[7..];
      Some(h[7..])
  }

  /** The usual header, `Bearer <token>`, gives its token to the controller and the middleware alike. */
  lemma ParsersAgree(token: string)
    requires '\n' !in token && (token == [] || !AuthMiddleware.RegexSpace(token[0]))
    ensures BearerSuffix(map["Authorization" := "Bearer " + token]) == Some(token)
    ensures AuthMiddleware.BearerToken("Bearer " + token) == Some(token)
  {
    BearerHeader(token);
    AuthMiddleware.BearerCapitalised(token);
  }

  /** A `Bearer <token>` header gives its token back, whatever the token holds. */
  lemma BearerHeader(token: string)
    ensures BearerSuffix(map["Authorization" := "Bearer " + token]) == Some(token)
  {
    var h := "Bearer " + token;
    assert h[..7] == "Bearer ";
    assert h[7..] == token;
  }

  /** The two parsers differ on letter case: `bearer <token>` passes the middleware but not these endpoints. */
  lemma ParsersDifferOnCase(token: string)
    requires '\n' !in token && (token == [] || !AuthMiddleware.RegexSpace(token[0]))
    ensures BearerSuffix(map["Authorization" := "bearer " + token]).None?
    ensures AuthMiddleware.BearerToken("bearer " + token) == Some(token)
  {
    var h := "bearer " + token;
    assert h[0] == 'b';
    var word := "bearer";
    assert AuthMiddleware.Lowered(word) == "bearer" by {
      var l := AuthMiddleware.Lowered(word);
      assert l[0] == 'b' && l[1] == 'e' && l[2] == 'a' && l[3] == 'r' && l[4] == 'e' && l[5] == 'r';
    }
    AuthMiddleware.BearerReadsToken(word, token);
    assert word + " " + token == h;
  }

  const MissingToken := Failure(401, "MISSING_TOKEN", "Authorization token is required")
  const InvalidToken := Failure(401, "INVALID_TOKEN", "Invalid or expired token")

  /** `refresh()`: a fresh session for a valid bearer token, else one of the two 401 replies. */
  function Refresh(db: Db, j: Jwt, headers: map<string, string>, now: int): (r: Reply)
    ensures BearerSuffix(headers).None? ==> r == MissingToken
    ensures BearerSuffix(headers).Some? && AuthServices.ValidateToken(db, j, BearerSuffix(headers).value, now).None? ==> r == InvalidToken
    ensures r.status == 200 <==> BearerSuffix(headers).Some? && AuthServices.ValidateToken(db, j, BearerSuffix(headers).value, now).Some?
    ensures r.status == 200 ==> r == SessionReply(200, "Token refreshed successfully", AuthServices.RefreshToken(db, j, BearerSuffix(headers).value, now).value)
  {
    match BearerSuffix(headers)
    case None => MissingToken
    case Some(token) =>
      match AuthServices.RefreshToken(db, j, token, now)
      case None => InvalidToken
      case Some(s) => SessionReply(200, "Token refreshed successfully", s)
  }

  /** The `user` part of a successful validation: id, email, username and role. */
  function UserSummary(info: AuthServices.TokenInfo): (v: Value)
    ensures Field(v, "id") == Some(Int(info.userId))
    ensures Field(v, "role") == Some(Str(info.role))
  {
    var fields := [("id", Int(info.userId)), ("email", Str(info.email)), ("username", Str(info.username)), ("role", Str(info.role))];
    FieldOfObj(fields, "id", 0);
    FieldOfObj(fields, "role", 3);
    Obj(fields)
  }

  /** `validate()`: the stored identity behind a valid bearer token, else one of the two 401 replies. */
  function Validate(db: Db, j: Jwt, headers: map<string, string>, now: int): (r: Reply)
    ensures BearerSuffix(headers).None? ==> r == MissingToken
    ensures BearerSuffix(headers).Some? && AuthServices.ValidateToken(db, j, BearerSuffix(headers).value, now).None? ==> r == InvalidToken
    ensures r.status == 200 <==> BearerSuffix(headers).Some? && AuthServices.ValidateToken(db, j, BearerSuffix(headers).value, now).Some?
    ensures r.status == 200 ==> Field(r.data, "user") == Some(UserSummary(AuthServices.ValidateToken(db, j, BearerSuffix(headers).value, now).value))
  {
    match BearerSuffix(headers)
    case None => MissingToken
    case Some(token) =>
      match AuthServices.ValidateToken(db, j, token, now)
      case None => InvalidToken
      case Some(info) =>
        var fields := [("success", Bool(true)), ("message", Str("Token is valid")), ("user", UserSummary(info))];
        FieldOfObj(fields, "user", 2);
        Reply(200, Obj(fields))
  }

  /** The two token endpoints accept exactly the same requests and refuse the rest the same way. */
  lemma RefreshValidateAgree(db: Db, j: Jwt, headers: map<string, string>, now: int)
    ensures (Refresh(db, j, headers, now).status == 200) == (Validate(db, j, headers, now).status == 200)
    ensures Refresh(db, j, headers, now).status != 200 ==> Refresh(db, j, headers, now) == Validate(db, j, headers, now)
  {
  }

  /** The token a login returns validates, for the logged-in user, within its hour. */
  lemma LoginThenValidate(db: Db, bc: Bcrypt, j: Jwt, req: Request, now: int, later: int, b: Builtins)
    requires JwtSound(j) && Good(db)
    requires Login(db, bc, j, req, now, b).Ok? && Login(db, bc, j, req, now, b).value.status == 200
    requires now <= later < now + TokenLifetime
    ensures var c := LoginAttempt(req, b).value;
      var token := AuthServices.Login(db, bc, j, c.0, c.1, now).value.token;
      Validate(db, j, map["Authorization" := "Bearer " + token], later).status == 200
  {
    var c := LoginAttempt(req, b).value;
    var token := AuthServices.Login(db, bc, j, c.0, c.1, now).value.token;
    AuthServices.LoginTokenValidates(db, bc, j, c.0, c.1, now, later);
    BearerHeader(token);
  }
}

=== FILE: auth_middleware.dfy ===
/**
  * The authentication middleware: where a request's token is read from, what the
  * middleware answers when the token is missing, invalid or names a deleted
  * user, the identity it publishes for the controllers otherwise, and the role
  * checks built on that identity. `$GLOBALS['authenticated_user']` is an
  * `Option<Identity>` passed explicitly.
  */
module AuthMiddleware {
  import opened Wrappers
  import opened PhpText
  import opened PhpValues
  import opened UserRoles
  import opened Users
  import opened Platform
  import opened Store
  import opened Http
  import AuthServices

  // ---------------------------------------------------------------------------
  // The bearer token
  // ---------------------------------------------------------------------------

  /** What `\s` matches in a PCRE pattern without Unicode properties. */
  predicate RegexSpace(c: char) {
    IsSpace(c)
  }

  /** How many whitespace characters follow position `p`. */
  function SpaceRun(s: string, p: nat): (n: nat)
    requires p <= |s|
    ensures p + n <= |s|
    ensures forall j :: p <= j < p + n ==> RegexSpace(s[j])
    ensures p + n == |s| || !RegexSpace(s[p + n])
    decreases |s| - p
  {
    if p == |s| || !RegexSpace(s[p]) then 0 else 1 + SpaceRun(s, p + 1)
  }

  /** `Bearer` in any letter case at position `i`, followed by whitespace. */
  predicate BearerAt(s: string, i: nat) {
    i + 7 <= |s| && Lowered(s[i..i + 6]) == "bearer" && RegexSpace(s[i + 6])
  }

  /** The text lower-cased byte by byte, as `/i` compares it. */
  function Lowered(s: string): (r: string)
    ensures |r| == |s| && forall k :: 0 <= k < |s| ==> r[k] == LowerChar(s[k])
  {
    if s == [] then [] else [LowerChar(s[0])] + Lowered(s[1..])
  }

  /** `(.*)$` can match from `p`: no line break before the last character. */
  predicate OpenTail(s: string, p: nat) {
    forall j :: p <= j < |s| - 1 ==> s[j] != '\n'
  }

  /** Where `$` lets `.*` stop: the end, or before a final line break. */
  function LineEnd(s: string): (e: nat)
    ensures e <= |s|
  {
    if s != [] && s[|s| - 1] == '\n' then |s| - 1 else |s|
  }

  /** Where the capture of the match starting at `i` begins: after the whole whitespace run. */
  function TokenStart(s: string, i: nat): (p: nat)
    requires BearerAt(s, i)
    ensures i + 7 <= p <= |s|
  {
    i + 6 + SpaceRun(s, i + 6)
  }

  /**
    * `preg_match('/Bearer\s+(.*)$/i', ...)` tried from position `i` on: the first
    * position where the match succeeds gives the text after the whitespace up to
    * the end of the line (the greedy `\s+` takes the whole run; giving any of it
    * back cannot help `$`).
    */
  function BearerFrom(s: string, i: nat): (r: Option<string>)
    requires i <= |s|
    ensures r.Some? ==> '\n' !in r.value
    ensures r.Some? ==> r.value == [] || !RegexSpace(r.value[0])
    decreases |s| - i
  {
    if i + 7 > |s| then None
    else if BearerAt(s, i) && OpenTail(s, TokenStart(s, i)) then
      var p := TokenStart(s, i);
      var e := LineEnd(s);
      if p >= e then Some([])
      else
        assert forall k :: 0 <= k < e - p ==> s[p..e][k] == s[p + k];
        Some(s[p..e])
    else BearerFrom(s, i + 1)
  }

  /** The capture of the bearer pattern in an `Authorization` value, if it matches. */
  function BearerToken(header: string): (r: Option<string>)
    ensures r.Some? ==> '\n' !in r.value
  {
    BearerFrom(header, 0)
  }

  /** A match at the very start of the header decides the capture. */
  lemma BearerAtStart(s: string)
    requires BearerAt(s, 0) && OpenTail(s, TokenStart(s, 0))
    ensures BearerToken(s) == Some(if TokenStart(s, 0) >= LineEnd(s) then [] else s[TokenStart(s, 0)..LineEnd(s)])
  {
  }

  /** A single-line token after `Bearer` (in any letter case) and one space is read back exactly. */
  lemma BearerReadsToken(word: string, token: string)
    requires |word| == 6 && Lowered(word) == "bearer"
    requires '\n' !in token && (token == [] || !RegexSpace(token[0]))
    ensures BearerToken(word + " " + token) == Some(token)
  {
    var s := word + " " + token;
    assert s[0..6] == word;
    assert RegexSpace(s[6]);
    assert BearerAt(s, 0);
    assert s[7..] == token;
    assert SpaceRun(s, 7) == 0;
    assert TokenStart(s, 0) == 7;
    assert OpenTail(s, 7) by {
      forall j | 7 <= j < |s| - 1 ensures s[j] != '\n' { assert s[j] == token[j - 7]; }
    }
    assert LineEnd(s) == |s| by {
      if token != [] { assert s[|s| - 1] == token[|token| - 1]; }
    }
    BearerAtStart(s);
    var capture := if TokenStart(s, 0) >= LineEnd(s) then [] else s[TokenStart(s, 0)..LineEnd(s)];
    assert capture == token by {
      if token != [] { assert s[7..|s|] == token; }
    }
  }

  /** The usual spelling, `Bearer <token>`. */
  lemma BearerCapitalised(token: string)
    requires '\n' !in token && (token == [] || !RegexSpace(token[0]))
    ensures BearerToken("Bearer " + token) == Some(token)
  {
    var word := "Bearer";
    assert LowerChar('B') == 'b';
    assert Lowered(word) == "bearer" by {
      var l := Lowered(word);
      assert l[0] == 'b' && l[1] == 'e' && l[2] == 'a' && l[3] == 'r' && l[4] == 'e' && l[5] == 'r';
    }
    BearerReadsToken(word, token);
    assert word + " " + token == "Bearer " + token;
  }

  /**
    * `extractTokenFromRequest()`: the bearer token of a truthy `Authorization` (or
    * `authorization`) header that matches the pattern, else `$_GET['token'] ?? null`.
    */
  function ExtractToken(headers: map<string, string>, query: map<string, Value>): (r: Value)
    ensures Authorization(headers).Some? && !IsEmpty(Authorization(headers).value) && BearerToken(Authorization(headers).value).Some?
      ==> r == Str(BearerToken(Authorization(headers).value).value)
    ensures (Authorization(headers).None? || IsEmpty(Authorization(headers).value) || BearerToken(Authorization(headers).value).None?)
      ==> r == (if "token" in query then query["token"] else Null)
  {
    match Authorization(headers)
    case Some(h) =>
      if !IsEmpty(h) && BearerToken(h).Some? then Str(BearerToken(h).value)
      else if "token" in query then query["token"] else Null
    case None => if "token" in query then query["token"] else Null
  }

  // ---------------------------------------------------------------------------
  // The middleware
  // ---------------------------------------------------------------------------

  /** `$GLOBALS['authenticated_user']`: the stored user's id, username, e-mail, role value and the token's claims. */
  datatype Identity = Identity(id: int, username: string, email: string, role: string, payload: Claims)

  /** What `handle()` decides: publish an identity and go on, or stop with a reply. */
  datatype Admission = Admit(identity: Identity) | Deny(reply: Value)

  /** `['status' => $status, 'data' => ['error' => $message]]`. */
  function Refusal(status: int, message: string): (v: Value)
    ensures Given(v, "status") == Some(Int(status)) && Given(v, "data") == Some(ErrorBody(message))
  {
    ReplyValue(Reply(status, ErrorBody(message)))
  }

  /** The identity published for a stored user and the claims of the token that named them. */
  function IdentityOf(u: User, claims: Claims): Identity {
    Identity(u.id, u.username, u.email, RoleValue(u.role), claims)
  }

  /**
    * `handle()`: a falsy token is refused as missing, a token the codec rejects
    * as invalid, a token whose subject is no longer stored as naming an unknown
    * user; otherwise the stored user is admitted. A token from the query string
    * that is an array cannot be passed as the string the codec expects.
    */
  function Handle(db: Db, j: Jwt, headers: map<string, string>, query: map<string, Value>, now: int, b: Builtins): (r: Result<Admission, Thrown>)
    ensures !Truthy(ExtractToken(headers, query)) ==> r == Ok(Deny(Refusal(401, "Authentication token required")))
    ensures r.Err? <==> Truthy(ExtractToken(headers, query)) && ExtractToken(headers, query).Arr?
    ensures r.Err? ==> r.error.PhpError?
    ensures r.Ok? && r.value.Admit? ==>
      (UserExists(db, r.value.identity.id) && FindUser(db, r.value.identity.id).value.username == r.value.identity.username)
    ensures Truthy(ExtractToken(headers, query)) && !ExtractToken(headers, query).Arr? ==>
      r == Ok(Examine(db, j, CoerceText(ExtractToken(headers, query), b).value, now))
  {
    var token := ExtractToken(headers, query);
    if !Truthy(token) then Ok(Deny(Refusal(401, "Authentication token required")))
    else match CoerceText(token, b)
      case None => Err(PhpError("TypeError"))
      case Some(t) => Ok(Examine(db, j, t, now))
  }

  /** The checks after a token was found: the codec, then the user table. */
  function Examine(db: Db, j: Jwt, token: string, now: int): (a: Admission)
    ensures a.Admit? <==> j.decode(token, now).Some? && UserExists(db, j.decode(token, now).value.sub)
    ensures a.Admit? ==> a.identity == IdentityOf(FindUser(db, j.decode(token, now).value.sub).value, j.decode(token, now).value)
    ensures j.decode(token, now).None? ==> a == Deny(Refusal(401, "Invalid or expired token"))
    ensures j.decode(token, now).Some? && !UserExists(db, j.decode(token, now).value.sub) ==> a == Deny(Refusal(401, "User not found"))
  {
    match j.decode(token, now)
    case None => Deny(Refusal(401, "Invalid or expired token"))
    case Some(claims) =>
      match FindUser(db, claims.sub)
      case None => Deny(Refusal(401, "User not found"))
      case Some(u) => Admit(IdentityOf(u, claims))
  }

  /** `validateTokenOnly($token)`: the identity `handle()` would publish, without publishing it. */
  function ValidateTokenOnly(db: Db, j: Jwt, token: string, now: int): (r: Option<Identity>)
    ensures r.Some? <==> Examine(db, j, token, now).Admit?
    ensures r.Some? ==> r.value == Examine(db, j, token, now).identity
  {
    match j.decode(token, now)
    case None => None
    case Some(claims) =>
      match FindUser(db, claims.sub)
      case None => None
      case Some(u) => Some(IdentityOf(u, claims))
  }

  /** The middleware and the authentication service agree on which tokens identify whom. */
  lemma ValidateTokenOnlyAgrees(db: Db, j: Jwt, token: string, now: int)
    ensures ValidateTokenOnly(db, j, token, now).Some? <==> AuthServices.ValidateToken(db, j, token, now).Some?
    ensures ValidateTokenOnly(db, j, token, now).Some? ==>
      var id, info := ValidateTokenOnly(db, j, token, now).value, AuthServices.ValidateToken(db, j, token, now).value;
      id.id == info.userId && id.username == info.username && id.email == info.email && id.role == info.role && id.payload == info.payload
  {
  }

  /** A token issued at login, used within its hour by a user still stored, gets the request through. */
  lemma IssuedTokenAdmits(db: Db, j: Jwt, u: User, issued: int, now: int)
    requires JwtSound(j) && issued <= now < issued + TokenLifetime
    requires FindUser(db, u.id) == Some(u)
    ensures Examine(db, j, GenerateToken(j, u.id, u.email, RoleValue(u.role), issued), now).Admit?
    ensures Examine(db, j, GenerateToken(j, u.id, u.email, RoleValue(u.role), issued), now).identity.role == RoleValue(u.role)
  {
    FreshTokenValid(j, u.id, u.email, RoleValue(u.role), issued, now);
  }

  // ---------------------------------------------------------------------------
  // Role checks on the published identity
  // ---------------------------------------------------------------------------

  /**
    * `requireRole($role)`: no identity is refused 401; an administrator passes
    * every check; any other role must equal the one required, else 403.
    */
  function RequireRole(required: string, user: Option<Identity>): (r: Option<Value>)
    ensures r.None? <==> user.Some? && (user.value.role == "admin" || user.value.role == required)
    ensures user.None? ==> r == Some(Refusal(401, "Authentication required"))
    ensures user.Some? && r.Some? ==> r == Some(Refusal(403, "Insufficient permissions"))
  {
    match user
    case None => Some(Refusal(401, "Authentication required"))
    case Some(u) =>
      if u.role == "admin" then None
      else if u.role != required then Some(Refusal(403, "Insufficient permissions"))
      else None
  }

  /** `requireAdmin()`. */
  function RequireAdmin(user: Option<Identity>): (r: Option<Value>)
    ensures r.None? <==> user.Some? && user.value.role == "admin"
  {
    RequireRole("admin", user)
  }

  /** `requireAuth()`: any identity passes. */
  function RequireAuth(user: Option<Identity>): (r: Option<Value>)
    ensures r.None? <==> user.Some?
    ensures r.Some? ==> r == Some(Refusal(401, "Authentication required"))
  {
    if user.None? then Some(Refusal(401, "Authentication required")) else None
  }

  /** `currentUserHasRole($role)`. */
  predicate CurrentUserHasRole(user: Option<Identity>, role: string) {
    user.Some? && (user.value.role == "admin" || user.value.role == role)
  }

  /** The role test and the role middleware let through exactly the same users. */
  lemma HasRoleIffPasses(user: Option<Identity>, role: string)
    ensures CurrentUserHasRole(user, role) <==> RequireRole(role, user).None?
  {
  }

  /** `currentUserIsAdmin()`. */
  predicate CurrentUserIsAdmin(user: Option<Identity>) {
    CurrentUserHasRole(user, "admin")
  }

  /** An administrator passes every role check, and only administrators pass the admin check. */
  lemma AdminPassesAll(user: Option<Identity>, role: string)
    ensures CurrentUserIsAdmin(user) ==> RequireRole(role, user).None?
    ensures CurrentUserIsAdmin(user) <==> RequireAdmin(user).None?
  {
  }

  /** `getCurrentUserId()`. */
  function CurrentUserId(user: Option<Identity>): (r: Option<int>)
    ensures r.Some? <==> RequireAuth(user).None?
    ensures r.Some? ==> r.value == user.value.id
  {
    match user
    case None => None
    case Some(u) => Some(u.id)
  }
}

=== FILE: auth_service.dfy ===
/**
  * `AuthenticationService`: login, registration, token validation and refresh,
  * password change and reset, and the role test on a token. The token codec and
  * the clock are parameters (`Jwt`, `now`); so are bcrypt and the random draws.
  */
module AuthServices {
  import opened Wrappers
  import opened PhpText
  import opened PhpValues
  import opened UserRoles
  import opened Users
  import opened Platform
  import opened Passwords
  import opened Store

  /** The array `login`, `register` and `refreshToken` return. */
  datatype Session = Session(token: string, user: Value, expiresIn: int)

  /** The array `validateToken` returns: the stored user's identity plus the decoded claims. */
  datatype TokenInfo = TokenInfo(userId: int, email: string, username: string, role: string, payload: Claims)

  /** The session issued for a stored user at time `now`. */
  function SessionFor(j: Jwt, u: User, now: int): (r: Session)
    ensures r.expiresIn == TokenLifetime
    ensures Field(r.user, "password_hash").None?
    ensures JwtSound(j) ==> j.decode(r.token, now) == Some(Claims(u.id, u.email, RoleValue(u.role), now, now + TokenLifetime))
  {
    Session(GenerateToken(j, u.id, u.email, RoleValue(u.role), now), Users.ToArray(u, false), 3600)
  }

  // ---------------------------------------------------------------- login

  /**
    * `login($email, $password)`: both must be non-blank; an unknown address and a wrong
    * password are refused with the same message.
    */
  function Login(db: Db, bc: Bcrypt, j: Jwt, email: string, password: string, now: int): (r: Result<Session, Thrown>)
    ensures Blank(email) || Blank(password) ==> r == Err(InvalidArgument("Email and password are required"))
    ensures r.Ok? <==> !Blank(email) && !Blank(password) && FindUserByEmail(db, email).Some?
                       && Verify(bc, password, FindUserByEmail(db, email).value.passwordHash)
    ensures r.Err? && !Blank(email) && !Blank(password) ==> r.error == InvalidArgument("Invalid credentials")
    ensures r.Ok? ==> r.value == SessionFor(j, FindUserByEmail(db, email).value, now)
  {
    if Blank(email) || Blank(password) then Err(InvalidArgument("Email and password are required"))
    else match FindUserByEmail(db, email)
      case None => Err(InvalidArgument("Invalid credentials"))
      case Some(u) =>
        if !Verify(bc, password, u.passwordHash) then Err(InvalidArgument("Invalid credentials"))
        else Ok(SessionFor(j, u, now))
  }

  /** A caller cannot tell an unknown address from a wrong password. */
  lemma LoginHidesCause(db1: Db, db2: Db, bc: Bcrypt, j: Jwt, email: string, password: string, now: int)
    requires !Blank(email) && !Blank(password)
    requires FindUserByEmail(db1, email).None?
    requires FindUserByEmail(db2, email).Some? && !Verify(bc, password, FindUserByEmail(db2, email).value.passwordHash)
    ensures Login(db1, bc, j, email, password, now) == Login(db2, bc, j, email, password, now)
  {
  }

  // ---------------------------------------------------------------- registration

  /** `validateRegistrationInput`: the three required fields, then the address syntax. */
  function ValidateRegistrationInput(username: string, email: string, password: string, b: Builtins)
    : (r: Outcome<string>)
    ensures r.Pass? <==> !Blank(username) && !Blank(email) && !Blank(password) && b.isEmail(email)
    ensures Blank(username) ==> r == Fail("Username is required")
    ensures !Blank(username) && Blank(email) ==> r == Fail("Email is required")
    ensures !Blank(username) && !Blank(email) && Blank(password) ==> r == Fail("Password is required")
  {
    if Blank(username) then Fail("Username is required")
    else if Blank(email) then Fail("Email is required")
    else if Blank(password) then Fail("Password is required")
    else if !b.isEmail(email) then Fail("Invalid email format")
    else Pass
  }

  /** The strength failure message: every broken rule's message, joined by commas. */
  function StrengthFailure(password: string): string {
    "Password validation failed: " + Join(StrengthErrors(password), ", ")
  }

  /**
    * The role `register` gives: a PHP-truthy role text must be a role value (anything
    * else makes `UserRole::from` raise a ValueError); otherwise the default role.
    */
  function RegistrationRole(role: Option<string>): (r: Result<Role, Thrown>)
    ensures role.None? || IsEmpty(role.value) ==> r == Ok(RoleUser)
    ensures role.Some? && !IsEmpty(role.value) ==> (r.Ok? <==> IsValid(role.value))
    ensures r.Ok? && role.Some? && !IsEmpty(role.value) ==> RoleValue(r.value) == role.value
    ensures r.Err? ==> r.error.PhpError?
  {
    if role.None? || IsEmpty(role.value) then Ok(Default())
    else match From(role.value)
      case None => Err(PhpError("not a valid backing value for enum UserRole"))
      case Some(x) => Ok(x)
  }

  /**
    * `register(...)`: input checks; then an address already in use, then a username
    * already in use; then the strength check; then the password is hashed; then the role;
    * then the entity is created, inserted, and a session issued for it.
    */
  function Register(db: Db, h: Hasher, bc: Bcrypt, j: Jwt, username: string, email: string, password: string,
                    role: Option<string>, now: int, b: Builtins): (r: Result<(Db, Session), Thrown>)
    ensures ValidateRegistrationInput(username, email, password, b).Fail? ==>
      r == Err(InvalidArgument(ValidateRegistrationInput(username, email, password, b).error))
    ensures ValidateRegistrationInput(username, email, password, b).Pass? && FindUserByEmail(db, email).Some? ==>
      r == Err(InvalidArgument("User with this email already exists"))
    ensures (ValidateRegistrationInput(username, email, password, b).Pass? && FindUserByEmail(db, email).None?
             && FindUserByUsername(db, username).Some?) ==> r == Err(InvalidArgument("User with this username already exists"))
    ensures (ValidateRegistrationInput(username, email, password, b).Pass? && FindUserByEmail(db, email).None?
             && FindUserByUsername(db, username).None? && !StrengthValid(password))
            ==> r == Err(InvalidArgument(StrengthFailure(password)))
    ensures (ValidateRegistrationInput(username, email, password, b).Pass? && FindUserByEmail(db, email).None?
             && FindUserByUsername(db, username).None? && StrengthValid(password) && !BcryptCost(h.cost))
            ==> r == Err(Hash(h, bc, password).error) && r.error.PhpError?
    ensures (ValidateRegistrationInput(username, email, password, b).Pass? && FindUserByEmail(db, email).None?
             && FindUserByUsername(db, username).None? && StrengthValid(password) && BcryptCost(h.cost)
             && RegistrationRole(role).Err?) ==> r == Err(RegistrationRole(role).error)
    ensures r.Ok? <==>
      && ValidateRegistrationInput(username, email, password, b).Pass?
      && FindUserByEmail(db, email).None? && FindUserByUsername(db, username).None?
      && StrengthValid(password) && BcryptCost(h.cost) && RegistrationRole(role).Ok?
      && GoodUsername(username) && Users.ValidateEmail(email, b).Pass?
      && ValidatePasswordHash(Hash(h, bc, password).value).Pass?
    ensures r.Ok? ==>
      && |r.value.0.users| == |db.users| + 1 && r.value.0.users == db.users + [r.value.0.users[|db.users|]]
      && r.value.0.accommodations == db.accommodations && r.value.0.bookmarks == db.bookmarks
      && NewAccount(r.value.0.users[|db.users|], db, h, bc, username, email, password, role, now)
      && r.value.1 == SessionFor(j, r.value.0.users[|db.users|], now)
  {
    match ValidateRegistrationInput(username, email, password, b)
    case Fail(m) => Err(InvalidArgument(m))
    case Pass =>
      if FindUserByEmail(db, email).Some? then Err(InvalidArgument("User with this email already exists"))
      else if FindUserByUsername(db, username).Some? then Err(InvalidArgument("User with this username already exists"))
      else if !StrengthValid(password) then Err(InvalidArgument(StrengthFailure(password)))
      else match Hash(h, bc, password)
        case Err(e) => Err(e)
        case Ok(digest) =>
          match RegistrationRole(role)
          case Err(e) => Err(e)
          case Ok(userRole) =>
            match Users.Create(username, email, digest, Some(userRole), now, b)
            case Err(m) => Err(InvalidArgument(m))
            case Ok(u) => Ok(Enrol(db, j, u, now))
  }

  /** The account a registration stores: the given names, role and digest, the next id, stamped `now`. */
  predicate NewAccount(u: User, db: Db, h: Hasher, bc: Bcrypt, username: string, email: string, password: string,
                       role: Option<string>, now: int)
  {
    && u.id == db.lastUserId + 1 && u.username == username && u.email == email
    && RegistrationRole(role).Ok? && u.role == RegistrationRole(role).value
    && Hash(h, bc, password).Ok? && u.passwordHash == Hash(h, bc, password).value
    && u.createdAt == now && u.updatedAt == now
  }

  /** `save` of a new entity followed by the session for the stored row. */
  function Enrol(db: Db, j: Jwt, u: User, now: int): (r: (Db, Session))
    requires u.id == 0
    ensures r.0.users == db.users + [u.(id := db.lastUserId + 1)]
    ensures r.0.accommodations == db.accommodations && r.0.bookmarks == db.bookmarks
    ensures r.1 == SessionFor(j, u.(id := db.lastUserId + 1), now)
  {
    var saved := SaveUser(db, u);
    (saved.0, SessionFor(j, saved.1.value, now))
  }

  /**
    * With sound bcrypt and a consistent store, a registration that passes every check
    * succeeds; the new account is then found under a fresh id and no other is disturbed.
    */
  lemma RegisterSucceeds(db: Db, h: Hasher, bc: Bcrypt, j: Jwt, username: string, email: string, password: string,
                         role: Option<string>, now: int, b: Builtins, other: int)
    requires Good(db) && BcryptSound(bc)
    requires ValidateRegistrationInput(username, email, password, b).Pass?
    requires FindUserByEmail(db, email).None? && FindUserByUsername(db, username).None?
    requires StrengthValid(password) && BcryptCost(h.cost) && RegistrationRole(role).Ok?
    requires GoodUsername(username) && |email| <= 100
    ensures Register(db, h, bc, j, username, email, password, role, now, b).Ok?
    ensures var (db', session) := Register(db, h, bc, j, username, email, password, role, now, b).value;
      var u := db'.users[|db.users|];
      && Good(db') && !UserExists(db, u.id) && FindUser(db', u.id) == Some(u)
      && (other != u.id ==> FindUser(db', other) == FindUser(db, other))
      && session == SessionFor(j, u, now)
  {
    var u := Users.Create(username, email, Hash(h, bc, password).value, Some(RegistrationRole(role).value), now, b).value;
    SaveUserEffect(db, u, other);
  }

  /** An unknown non-empty role text is not an `InvalidArgumentException`: it escapes as an Error. */
  lemma UnknownRoleIsAnError(db: Db, h: Hasher, bc: Bcrypt, j: Jwt, username: string, email: string,
                             password: string, now: int, b: Builtins)
    requires ValidateRegistrationInput(username, email, password, b).Pass? && StrengthValid(password)
    requires FindUserByEmail(db, email).None? && FindUserByUsername(db, username).None?
    ensures Register(db, h, bc, j, username, email, password, Some("root"), now, b).Err?
    ensures Register(db, h, bc, j, username, email, password, Some("root"), now, b).error.PhpError?
  {
    assert !IsEmpty("root");
  }

  /**
    * With sound bcrypt and a store whose addresses are unique, the account a registration
    * creates can log in at once with the same address and password.
    */
  lemma RegisterThenLogin(db: Db, h: Hasher, bc: Bcrypt, j: Jwt, username: string, email: string, password: string,
                          role: Option<string>, now: int, later: int, b: Builtins)
    requires BcryptSound(bc)
    requires Register(db, h, bc, j, username, email, password, role, now, b).Ok?
    ensures var db' := Register(db, h, bc, j, username, email, password, role, now, b).value.0;
      Login(db', bc, j, email, password, later).Ok?
  {
    var userRole := RegistrationRole(role).value;
    var u := Users.Create(username, email, Hash(h, bc, password).value, Some(userRole), now, b).value;
    FindInsertedByEmail(db, u);
    assert u.(id := 0) == u;
  }

  // ---------------------------------------------------------------- tokens

  /** `validateToken($token)`: null unless the token verifies and its subject is still stored. */
  function ValidateToken(db: Db, j: Jwt, token: string, now: int): (r: Option<TokenInfo>)
    ensures r.Some? <==> j.decode(token, now).Some? && UserExists(db, j.decode(token, now).value.sub)
    ensures r.Some? ==> var u := FindUser(db, j.decode(token, now).value.sub).value;
      r.value == TokenInfo(u.id, u.email, u.username, RoleValue(u.role), j.decode(token, now).value)
  {
    match j.decode(token, now)
    case None => None
    case Some(claims) =>
      match FindUser(db, claims.sub)
      case None => None
      case Some(u) => Some(TokenInfo(u.id, u.email, u.username, RoleValue(u.role), claims))
  }

  /** `refreshToken($token)`: a fresh session for the token's stored subject. */
  function RefreshToken(db: Db, j: Jwt, token: string, now: int): (r: Option<Session>)
    ensures r.Some? <==> ValidateToken(db, j, token, now).Some?
    ensures r.Some? ==> r.value == SessionFor(j, FindUser(db, j.decode(token, now).value.sub).value, now)
  {
    match j.decode(token, now)
    case None => None
    case Some(claims) =>
      match FindUser(db, claims.sub)
      case None => None
      case Some(u) => Some(SessionFor(j, u, now))
  }

  /**
    * A token from a login identifies the logged-in user for its whole hour, as long as
    * the user is still stored.
    */
  lemma LoginTokenValidates(db: Db, bc: Bcrypt, j: Jwt, email: string, password: string, now: int, later: int)
    requires JwtSound(j) && Good(db)
    requires Login(db, bc, j, email, password, now).Ok?
    requires now <= later < now + TokenLifetime
    ensures var u := FindUserByEmail(db, email).value;
      ValidateToken(db, j, Login(db, bc, j, email, password, now).value.token, later).Some?
      && ValidateToken(db, j, Login(db, bc, j, email, password, now).value.token, later).value.userId == u.id
  {
    var u := FindUserByEmail(db, email).value;
    var k :| 0 <= k < |db.users| && db.users[k] == u;
    Tables.LookupAt(db.users, UserKey, k);
  }

  /** `getUserByToken($token)`: a subject that casts to 0 counts as none. */
  function UserByToken(db: Db, j: Jwt, token: string, now: int): (r: Option<User>)
    ensures r.Some? ==> j.decode(token, now).Some? && j.decode(token, now).value.sub != 0
    ensures r.Some? ==> r.value.id == j.decode(token, now).value.sub && r.value in db.users
    ensures j.decode(token, now).Some? && j.decode(token, now).value.sub != 0 ==>
      r == FindUser(db, j.decode(token, now).value.sub)
  {
    match j.decode(token, now)
    case None => None
    case Some(claims) => if claims.sub == 0 then None else FindUser(db, claims.sub)
  }

  /** `userHasRole($token, $required)`: an admin token has every role; others need equality. */
  function UserHasRole(j: Jwt, token: string, required: string, now: int): (r: bool)
    ensures j.decode(token, now).None? ==> !r
    ensures r <==> j.decode(token, now).Some? && !IsEmpty(j.decode(token, now).value.role)
                   && (j.decode(token, now).value.role == "admin" || j.decode(token, now).value.role == required)
  {
    match j.decode(token, now)
    case None => false
    case Some(claims) =>
      if IsEmpty(claims.role) then false
      else if claims.role == RoleValue(RoleAdmin) then true
      else claims.role == required
  }

  /** A freshly issued admin token has every role; a user token has exactly the user role. */
  lemma IssuedRoleDecides(j: Jwt, u: User, required: string, now: int)
    requires JwtSound(j)
    ensures UserHasRole(j, SessionFor(j, u, now).token, required, now) <==> u.role == RoleAdmin || required == "user"
  {
    assert !IsEmpty(RoleValue(u.role));
  }

  // ---------------------------------------------------------------- passwords

  /**
    * `changePassword($id, $current, $new)` of the authentication service: unlike the
    * user service it applies the hasher's five-rule strength check.
    */
  function ChangePassword(db: Db, h: Hasher, bc: Bcrypt, id: int, current: string, next: string, now: int)
    : (r: Result<Db, Thrown>)
    ensures !UserExists(db, id) ==> r == Err(InvalidArgument("User not found"))
    ensures UserExists(db, id) && !Verify(bc, current, FindUser(db, id).value.passwordHash) ==>
      r == Err(InvalidArgument("Current password is incorrect"))
    ensures (UserExists(db, id) && Verify(bc, current, FindUser(db, id).value.passwordHash) && !StrengthValid(next)) ==>
      r == Err(InvalidArgument("New password validation failed: " + Join(StrengthErrors(next), ", ")))
    ensures (UserExists(db, id) && Verify(bc, current, FindUser(db, id).value.passwordHash) && StrengthValid(next)
             && !BcryptCost(h.cost)) ==> r.Err? && r.error.PhpError?
    ensures r.Ok? ==> UserExists(db, id) && Verify(bc, current, FindUser(db, id).value.passwordHash) && StrengthValid(next)
                      && BcryptCost(h.cost)
  {
    match FindUser(db, id)
    case None => Err(InvalidArgument("User not found"))
    case Some(u) =>
      if !Verify(bc, current, u.passwordHash) then Err(InvalidArgument("Current password is incorrect"))
      else if !StrengthValid(next) then
        Err(InvalidArgument("New password validation failed: " + Join(StrengthErrors(next), ", ")))
      else match Hash(h, bc, next)
        case Err(e) => Err(e)
        case Ok(digest) =>
          match UpdatePassword(u, digest, now)
          case Err(m) => Err(InvalidArgument(m))
          case Ok(x) => Ok(SaveUser(db, x).0)
  }

  /** After a password change the new password verifies against the stored digest. */
  lemma ChangedPasswordVerifies(db: Db, h: Hasher, bc: Bcrypt, id: int, current: string, next: string, now: int)
    requires Good(db) && BcryptSound(bc)
    requires ChangePassword(db, h, bc, id, current, next, now).Ok?
    ensures FindUser(ChangePassword(db, h, bc, id, current, next, now).value, id).Some?
    ensures Verify(bc, next, FindUser(ChangePassword(db, h, bc, id, current, next, now).value, id).value.passwordHash)
  {
    var u := FindUser(db, id).value;
    var x := UpdatePassword(u, Hash(h, bc, next).value, now).value;
    SaveUserEffect(db, x, id);
  }

  /**
    * `resetPassword($id)`: a twelve-character password from `draws` replaces the stored
    * digest and is returned in clear; it is not put through the strength check.
    */
  method ResetPassword(db: Db, h: Hasher, bc: Bcrypt, id: int, draws: seq<int>, now: int)
    returns (r: Result<(Db, string), Thrown>)
    requires |draws| >= 12 && forall i :: 0 <= i < |draws| ==> 0 <= draws[i] < |Alphabet|
    ensures !UserExists(db, id) ==> r == Err(InvalidArgument("User not found"))
    ensures UserExists(db, id) && !BcryptCost(h.cost) ==> r.Err? && r.error.PhpError?
    ensures BcryptCost(h.cost) && r.Err? ==> r.error.InvalidArgument?
    ensures BcryptSound(bc) ==> (r.Ok? <==> UserExists(db, id) && BcryptCost(h.cost))
    ensures r.Ok? ==> |r.value.1| == 12 && forall i :: 0 <= i < 12 ==> r.value.1[i] == Alphabet[draws[i]]
    ensures r.Ok? && Good(db) ==> FindUser(r.value.0, id).Some?
    ensures (r.Ok? && Good(db) && BcryptSound(bc)) ==> Verify(bc, r.value.1, FindUser(r.value.0, id).value.passwordHash)
  {
    var found := FindUser(db, id);
    if found.None? {
      return Err(InvalidArgument("User not found"));
    }
    var temporary := GenerateSecurePassword(12, draws);
    var digest := Hash(h, bc, temporary);
    if digest.Err? {
      return Err(digest.error);
    }
    var updated := UpdatePassword(found.value, digest.value, now);
    if updated.Err? {
      return Err(InvalidArgument(updated.error));
    }
    if Good(db) {
      SaveUserEffect(db, updated.value, id);
    }
    r := Ok((SaveUser(db, updated.value).0, temporary));
  }
}

=== FILE: cors.dfy ===
/**
  * The CORS middleware: its configuration and the presets the backend offers,
  * the response headers it sets on every routed request, and its answer to a
  * preflight `OPTIONS` request. Headers are returned as a list rather than sent.
  */
module Cors {
  import opened Wrappers
  import opened PhpText
  import opened PhpValues

  /** The allowed origins, methods and request headers, the credentials flag and the preflight cache lifetime. */
  datatype Config = Config(origins: seq<string>, methods: seq<string>, headers: seq<string>, credentials: bool, maxAge: int)

  /** A response header line `name: value`. */
  datatype Header = Header(name: string, value: string)

  const AllowOriginName := "Access-Control-Allow-Origin"
  const AllowMethodsName := "Access-Control-Allow-Methods"
  const AllowHeadersName := "Access-Control-Allow-Headers"
  const AllowCredentialsName := "Access-Control-Allow-Credentials"
  const MaxAgeName := "Access-Control-Max-Age"
  const ExposeHeadersName := "Access-Control-Expose-Headers"
  const VaryName := "Vary"

  /** The origins the development preset lets through. */
  const DevOrigins := ["http://localhost:3000", "http://127.0.0.1:3000", "http://localhost:8000", "http://fsj29.la-posada", "http://fsj29.la-posada:80"]

  /** The constructor's defaults: any origin, the five usual methods, credentials, a day of caching. */
  function Default(): (c: Config)
    ensures c.origins == ["*"] && c.credentials && c.maxAge == 86400
  {
    Config(["*"], ["GET", "POST", "PUT", "DELETE", "OPTIONS"], ["Content-Type", "Authorization", "X-Requested-With"], true, 86400)
  }

  /** The development preset the application installs: five local origins, PATCH allowed, an hour of caching. */
  function ForDevelopment(): (c: Config)
    ensures c.origins == DevOrigins && "*" !in c.origins && c.credentials && c.maxAge == 3600
  {
    Config(DevOrigins,
      ["GET", "POST", "PUT", "DELETE", "OPTIONS", "PATCH"],
      ["Content-Type", "Authorization", "X-Requested-With", "Accept", "Origin", "Cache-Control", "X-File-Name"],
      true, 3600)
  }

  /** The production preset: the given origins, the defaults otherwise. */
  function ForProduction(origins: seq<string>): (c: Config)
    ensures c.origins == origins && c.credentials && c.maxAge == 86400
  {
    Config(origins, ["GET", "POST", "PUT", "DELETE", "OPTIONS"], ["Content-Type", "Authorization", "X-Requested-With"], true, 86400)
  }

  /** The strict preset: GET and POST only, two headers, no credentials. */
  function Strict(origins: seq<string>): (c: Config)
    ensures c.origins == origins && !c.credentials && c.methods == ["GET", "POST"] && c.maxAge == 3600
  {
    Config(origins, ["GET", "POST"], ["Content-Type", "Authorization"], false, 3600)
  }

  /** An origin the configuration lets through: a non-empty one, listed or covered by `*`. */
  predicate OriginAllowed(c: Config, origin: string) {
    !IsEmpty(origin) && ("*" in c.origins || origin in c.origins)
  }

  /** The value of `Access-Control-Allow-Origin`, if the header is sent at all. */
  function AllowOrigin(c: Config, origin: string): (r: Option<string>)
    ensures r.Some? <==> OriginAllowed(c, origin) || "*" in c.origins
    ensures OriginAllowed(c, origin) ==> r == Some(origin)
    ensures !OriginAllowed(c, origin) && r.Some? ==> r == Some("*")
  {
    if OriginAllowed(c, origin) then Some(origin)
    else if "*" in c.origins then Some("*")
    else None
  }

  /** `Access-Control-Allow-Origin`, when sent. */
  function OriginPart(c: Config, origin: string): seq<Header> {
    match AllowOrigin(c, origin)
    case Some(o) => [Header(AllowOriginName, o)]
    case None => []
  }

  /** The allowed methods and request headers, comma-separated. */
  function ListsPart(c: Config): seq<Header> {
    [Header(AllowMethodsName, Join(c.methods, ", ")), Header(AllowHeadersName, Join(c.headers, ", "))]
  }

  function CredentialsPart(c: Config): seq<Header> {
    if c.credentials then [Header(AllowCredentialsName, "true")] else []
  }

  /** The cache lifetime, the exposed headers and `Vary: Origin`. */
  function FixedPart(c: Config): seq<Header> {
    [Header(MaxAgeName, Decimal(c.maxAge)), Header(ExposeHeadersName, "Content-Length, X-JSON"), Header(VaryName, "Origin")]
  }

  /** The headers set for a request from `origin`, in the order they are sent. */
  function Headers(c: Config, origin: string): (hs: seq<Header>)
  {
    OriginPart(c, origin) + ListsPart(c) + CredentialsPart(c) + FixedPart(c)
  }

  /** The value of the first header of that name. */
  function HeaderValue(hs: seq<Header>, name: string): (r: Option<string>)
    ensures r.Some? <==> exists i :: 0 <= i < |hs| && hs[i].name == name
  {
    if hs == [] then None
    else if hs[0].name == name then Some(hs[0].value)
    else
      var r := HeaderValue(hs[1..], name);
      assert forall i :: 1 <= i < |hs| ==> hs[i] == hs[1..][i - 1];
      assert r.Some? ==> exists i :: 0 <= i < |hs[1..]| && hs[1..][i].name == name;
      r
  }

  /** The first header of a name in two lists sent in turn is the first list's, if it has one. */
  lemma {:induction false} HeaderValueAppend(a: seq<Header>, b: seq<Header>, name: string)
    ensures HeaderValue(a + b, name) == if HeaderValue(a, name).Some? then HeaderValue(a, name) else HeaderValue(b, name)
    decreases |a|
  {
    if a == [] {
      assert a + b == b;
    } else {
      assert (a + b)[0] == a[0] && (a + b)[1..] == a[1..] + b;
      HeaderValueAppend(a[1..], b, name);
    }
  }

  /** The names of the CORS headers are pairwise different. */
  lemma NamesDistinct()
    ensures AllowOriginName != AllowMethodsName && AllowOriginName != AllowHeadersName && AllowOriginName != AllowCredentialsName
    ensures AllowMethodsName != AllowHeadersName && AllowMethodsName != AllowCredentialsName
    ensures AllowHeadersName != AllowCredentialsName
    ensures forall n :: n in [MaxAgeName, ExposeHeadersName, VaryName] ==>
      n != AllowOriginName && n != AllowMethodsName && n != AllowHeadersName && n != AllowCredentialsName
  {
    assert |AllowOriginName| == 27 && |AllowMethodsName| == 28 && |AllowHeadersName| == 28 && |AllowCredentialsName| == 32;
    assert |MaxAgeName| == 22 && |ExposeHeadersName| == 29 && |VaryName| == 4;
    assert AllowMethodsName[21] != AllowHeadersName[21];
  }

  /** A header name found in the four parts, in the order they are sent. */
  lemma HeaderValueParts(c: Config, origin: string, name: string)
    ensures HeaderValue(Headers(c, origin), name) ==
      if HeaderValue(OriginPart(c, origin), name).Some? then HeaderValue(OriginPart(c, origin), name)
      else if HeaderValue(ListsPart(c), name).Some? then HeaderValue(ListsPart(c), name)
      else if HeaderValue(CredentialsPart(c), name).Some? then HeaderValue(CredentialsPart(c), name)
      else HeaderValue(FixedPart(c), name)
  {
    var o, l, k, f := OriginPart(c, origin), ListsPart(c), CredentialsPart(c), FixedPart(c);
    assert Headers(c, origin) == o + (l + (k + f));
    HeaderValueAppend(o, l + (k + f), name);
    HeaderValueAppend(l, k + f, name);
    HeaderValueAppend(k, f, name);
  }

  /** None of the four varying CORS headers is among the fixed ones. */
  lemma FixedPartLacks(c: Config, name: string)
    requires name in [AllowOriginName, AllowMethodsName, AllowHeadersName, AllowCredentialsName]
    ensures HeaderValue(FixedPart(c), name).None?
  {
    NamesDistinct();
    var f := FixedPart(c);
    assert f[0].name == MaxAgeName && f[1].name == ExposeHeadersName && f[2].name == VaryName;
  }

  lemma OriginHeaderSent(c: Config, origin: string)
    ensures HeaderValue(Headers(c, origin), AllowOriginName) == AllowOrigin(c, origin)
  {
    NamesDistinct();
    HeaderValueParts(c, origin, AllowOriginName);
    FixedPartLacks(c, AllowOriginName);
  }

  lemma ListHeadersSent(c: Config, origin: string)
    ensures HeaderValue(Headers(c, origin), AllowMethodsName) == Some(Join(c.methods, ", "))
    ensures HeaderValue(Headers(c, origin), AllowHeadersName) == Some(Join(c.headers, ", "))
  {
    NamesDistinct();
    HeaderValueParts(c, origin, AllowMethodsName);
    HeaderValueParts(c, origin, AllowHeadersName);
  }

  lemma CredentialsHeaderSent(c: Config, origin: string)
    ensures HeaderValue(Headers(c, origin), AllowCredentialsName) == (if c.credentials then Some("true") else None)
  {
    NamesDistinct();
    HeaderValueParts(c, origin, AllowCredentialsName);
    FixedPartLacks(c, AllowCredentialsName);
  }

  /**
    * What a request is told: the origin it may read the response from, the
    * methods and headers it may use, and a credentials header exactly when the
    * configuration allows credentials.
    */
  lemma HeadersSent(c: Config, origin: string)
    ensures HeaderValue(Headers(c, origin), AllowOriginName) == AllowOrigin(c, origin)
    ensures HeaderValue(Headers(c, origin), AllowMethodsName) == Some(Join(c.methods, ", "))
    ensures HeaderValue(Headers(c, origin), AllowHeadersName) == Some(Join(c.headers, ", "))
    ensures HeaderValue(Headers(c, origin), AllowCredentialsName) == (if c.credentials then Some("true") else None)
  {
    OriginHeaderSent(c, origin);
    ListHeadersSent(c, origin);
    CredentialsHeaderSent(c, origin);
  }

  /** With the development preset only the five listed origins may read responses; they get their own origin back. */
  lemma DevelopmentOrigins(origin: string)
    ensures AllowOrigin(ForDevelopment(), origin) == (if origin in DevOrigins then Some(origin) else None)
  {
    assert !IsEmpty(origin) <== origin in DevOrigins;
  }

  /** The strict preset never allows credentials, whatever the origin. */
  lemma StrictWithoutCredentials(origins: seq<string>, origin: string)
    ensures HeaderValue(Headers(Strict(origins), origin), AllowCredentialsName).None?
  {
    HeadersSent(Strict(origins), origin);
  }

  /**
    * `handle()`: the headers for the request's origin (`''` when unset) and, for a
    * preflight `OPTIONS` request, the reply that ends it with status 200; any other
    * method (GET when unset) goes on to the route.
    */
  function Handle(c: Config, verb: Option<string>, origin: Option<string>): (r: (seq<Header>, Option<Value>))
    ensures r.0 == Headers(c, origin.GetOr(""))
    ensures r.1.Some? <==> verb == Some("OPTIONS")
    ensures r.1.Some? ==> Given(r.1.value, "status") == Some(Int(200)) && Given(r.1.value, "data") == Some(Arr([]))
  {
    var hs := Headers(c, origin.GetOr(""));
    if verb.GetOr("GET") == "OPTIONS" then
      var fields := [("status", Int(200)), ("data", Arr([]))];
      FieldOfObj(fields, "status", 0);
      FieldOfObj(fields, "data", 1);
      (hs, Some(Obj(fields)))
    else (hs, None)
  }

  // ---------------------------------------------------------------------------
  // Reconfiguration
  // ---------------------------------------------------------------------------

  /** No entry is listed twice. */
  predicate NoRepeats(xs: seq<string>) {
    forall i, j :: 0 <= i < j < |xs| ==> xs[i] != xs[j]
  }

  /** `in_array` guarded append: the list gains the entry once. */
  function AddOnce(xs: seq<string>, x: string): (r: seq<string>)
    ensures x in r && forall y :: y in r <==> y in xs || y == x
    ensures NoRepeats(xs) ==> NoRepeats(r)
    ensures x in xs ==> r == xs
    ensures x !in xs ==> r == xs + [x]
  {
    if x in xs then xs else xs + [x]
  }

  /** Adding an origin, method or header a second time changes nothing. */
  lemma AddOnceIdempotent(xs: seq<string>, x: string)
    ensures AddOnce(AddOnce(xs, x), x) == AddOnce(xs, x)
  {
  }

  /** An origin is added once; nothing else changes. */
  function AddOrigin(c: Config, origin: string): (c': Config)
    ensures forall y :: y in c'.origins <==> y in c.origins || y == origin
    ensures NoRepeats(c.origins) ==> NoRepeats(c'.origins)
    ensures origin in c.origins ==> c' == c
    ensures c'.methods == c.methods && c'.headers == c.headers && c'.credentials == c.credentials && c'.maxAge == c.maxAge
  {
    c.(origins := AddOnce(c.origins, origin))
  }

  /** Every method written upper-case. */
  predicate UpperCase(ms: seq<string>) {
    forall i :: 0 <= i < |ms| ==> ToUpper(ms[i]) == ms[i]
  }

  lemma ToUpperIdempotent(s: string)
    ensures ToUpper(ToUpper(s)) == ToUpper(s)
  {
  }

  /** A method is added upper-cased, once. */
  function AddMethod(c: Config, m: string): (c': Config)
    ensures forall y :: y in c'.methods <==> y in c.methods || y == ToUpper(m)
    ensures ToUpper(m) in c.methods ==> c' == c
    ensures UpperCase(c.methods) ==> UpperCase(c'.methods)
    ensures NoRepeats(c.methods) ==> NoRepeats(c'.methods)
    ensures c'.origins == c.origins && c'.headers == c.headers && c'.credentials == c.credentials && c'.maxAge == c.maxAge
  {
    ToUpperIdempotent(m);
    c.(methods := AddOnce(c.methods, ToUpper(m)))
  }

  /** A request header is added once; nothing else changes. */
  function AddHeader(c: Config, h: string): (c': Config)
    ensures forall y :: y in c'.headers <==> y in c.headers || y == h
    ensures NoRepeats(c.headers) ==> NoRepeats(c'.headers)
    ensures h in c.headers ==> c' == c
    ensures c'.origins == c.origins && c'.methods == c.methods && c'.credentials == c.credentials && c'.maxAge == c.maxAge
  {
    c.(headers := AddOnce(c.headers, h))
  }

  /** Replacing the methods stores them upper-cased. */
  function SetMethods(c: Config, ms: seq<string>): (c': Config)
    ensures UpperCase(c'.methods) && |c'.methods| == |ms|
    ensures forall i :: 0 <= i < |ms| ==> ToUpper(c'.methods[i]) == ToUpper(ms[i])
    ensures c'.origins == c.origins && c'.headers == c.headers && c'.credentials == c.credentials && c'.maxAge == c.maxAge
  {
    var us := seq(|ms|, i requires 0 <= i < |ms| => ToUpper(ms[i]));
    forall i | 0 <= i < |ms| ensures ToUpper(us[i]) == us[i] { ToUpperIdempotent(ms[i]); }
    c.(methods := us)
  }

  /** Adding a method of any case to methods just set upper-cased adds nothing twice. */
  lemma AddSetMethod(c: Config, ms: seq<string>, i: nat)
    requires i < |ms|
    ensures AddMethod(SetMethods(c, ms), ms[i]) == SetMethods(c, ms)
  {
    var c' := SetMethods(c, ms);
    assert ToUpper(ms[i]) == c'.methods[i] by { ToUpperIdempotent(ms[i]); }
  }

  /** `getConfiguration()`. */
  function Configuration(c: Config): (v: Value)
    ensures Given(v, "allowed_origins") == Some(Strs(c.origins))
    ensures Given(v, "allowed_methods") == Some(Strs(c.methods))
    ensures Given(v, "allowed_headers") == Some(Strs(c.headers))
    ensures Given(v, "allow_credentials") == Some(Bool(c.credentials))
    ensures Given(v, "max_age") == Some(Int(c.maxAge))
  {
    var fields := [("allowed_origins", Strs(c.origins)), ("allowed_methods", Strs(c.methods)),
                   ("allowed_headers", Strs(c.headers)), ("allow_credentials", Bool(c.credentials)), ("max_age", Int(c.maxAge))];
    FieldOfObj(fields, "allowed_origins", 0);
    FieldOfObj(fields, "allowed_methods", 1);
    FieldOfObj(fields, "allowed_headers", 2);
    FieldOfObj(fields, "allow_credentials", 3);
    FieldOfObj(fields, "max_age", 4);
    Obj(fields)
  }
}

=== FILE: http.dfy ===
/**
  * The request as the backend reads it from PHP's superglobals, and the replies it
  * builds. `$_SERVER`, `getallheaders()`, `$_GET` and the decoded body become fields
  * of one immutable `Request` value that is passed to whoever reads them.
  */
module Http {
  import opened Wrappers
  import opened PhpText
  import opened PhpValues

  /**
    * `$_SERVER['REQUEST_METHOD']`, `$_SERVER['REQUEST_URI']` and `$_SERVER['HTTP_ORIGIN']`
    * (None where unset), the header array, the query array, and the body as
    * `json_decode(file_get_contents('php://input'), true)` yields it (Null when the
    * text is not JSON).
    */
  datatype Request = Request(
    verb: Option<string>,
    uri: Option<string>,
    origin: Option<string>,
    headers: map<string, string>,
    query: map<string, Value>,
    body: Value)

  /** What a controller returns: `['status' => $status, 'data' => $data]`. */
  datatype Reply = Reply(status: int, data: Value)

  /** What reaches the client: the status code and the array sent as JSON. */
  datatype Response = Response(status: int, body: Value)

  /** The array a reply is returned as. */
  function ReplyValue(r: Reply): (v: Value)
    ensures Given(v, "status") == Some(Int(r.status))
    ensures r.data != Null ==> Given(v, "data") == Some(r.data)
  {
    var fields := [("status", Int(r.status)), ("data", r.data)];
    FieldOfObj(fields, "status", 0);
    FieldOfObj(fields, "data", 1);
    Obj(fields)
  }

  /** `['error' => $message]`, the body of every middleware refusal. */
  function ErrorBody(message: string): (v: Value)
    ensures v.Arr?
    ensures Given(v, "error") == Some(Str(message))
  {
    FieldOfObj([("error", Str(message))], "error", 0);
    Obj([("error", Str(message))])
  }

  /**
    * `isset($params[$name]) ? (int) $params[$name] : null` for a route placeholder, with
    * the null read as 0, as the `!$id` test that follows every such read treats it.
    */
  function PathId(params: Value, name: string, b: Builtins): (id: int)
    ensures Given(params, name).None? ==> id == 0
    ensures Given(params, name).Some? ==> id == CastInt(Given(params, name).value, b)
  {
    match Given(params, name)
    case None => 0
    case Some(v) => CastInt(v, b)
  }

  /**
    * `Router::getRequestBody()`: the decoded body, `[]` in place of null. A body that
    * decodes to a scalar cannot be returned as the declared `array`: a TypeError.
    */
  function RequestBody(req: Request): (r: Result<Value, Thrown>)
    ensures r.Ok? <==> req.body.Null? || req.body.Arr?
    ensures r.Ok? ==> r.value.Arr? && (req.body.Arr? ==> r.value == req.body)
    ensures r.Err? ==> r.error.PhpError?
  {
    match req.body
    case Null => Ok(Arr([]))
    case Arr(_) => Ok(req.body)
    case _ => Err(PhpError("TypeError"))
  }

  /** `$headers['Authorization'] ?? $headers['authorization'] ?? null`. */
  function Authorization(headers: map<string, string>): (r: Option<string>)
    ensures "Authorization" in headers ==> r == Some(headers["Authorization"])
    ensures "Authorization" !in headers ==> r == (if "authorization" in headers then Some(headers["authorization"]) else None)
  {
    if "Authorization" in headers then Some(headers["Authorization"])
    else if "authorization" in headers then Some(headers["authorization"])
    else None
  }
  /**
    * `['status' => $status, 'data' => ['success' => false, 'error' => $code, 'message' => $message]]`,
    * how the authentication and user controllers refuse a request.
    */
  function Failure(status: int, code: string, message: string): (r: Reply)
    ensures r.status == status && r.data.Arr?
    ensures Given(r.data, "success") == Some(Bool(false))
    ensures Given(r.data, "error") == Some(Str(code))
    ensures Given(r.data, "message") == Some(Str(message))
  {
    var fields := [("success", Bool(false)), ("error", Str(code)), ("message", Str(message))];
    FieldOfObj(fields, "success", 0);
    FieldOfObj(fields, "error", 1);
    FieldOfObj(fields, "message", 2);
    Reply(status, Obj(fields))
  }

  /**
    * The message of the `InvalidArgumentException` the controllers' input validators
    * throw: `'Validation failed: '` then one `field - message` per failing field, in
    * the order the fields were checked, separated by `'; '`.
    */
  function ValidationMessage(errors: seq<(string, string)>): string {
    "Validation failed: " + Join(Details(errors), "; ")
  }

  function Details(errors: seq<(string, string)>): (r: seq<string>)
    ensures |r| == |errors|
    ensures forall i :: 0 <= i < |errors| ==> r[i] == errors[i].0 + " - " + errors[i].1
  {
    if errors == [] then [] else [errors[0].0 + " - " + errors[0].1] + Details(errors[1..])
  }

  /** A single failing field is reported on its own. */
  lemma OneFieldMessage(field: string, message: string)
    ensures ValidationMessage([(field, message)]) == "Validation failed: " + field + " - " + message
  {
    assert Details([(field, message)]) == [field + " - " + message];
  }

  /** Two failing fields are reported in the order they were checked. */
  lemma TwoFieldMessage(f1: string, m1: string, f2: string, m2: string)
    ensures ValidationMessage([(f1, m1), (f2, m2)]) == "Validation failed: " + f1 + " - " + m1 + "; " + f2 + " - " + m2
  {
    var d := Details([(f1, m1), (f2, m2)]);
    assert d == [f1 + " - " + m1, f2 + " - " + m2];
    assert d[1..] == [f2 + " - " + m2];
    assert Join(d, "; ") == d[0] + "; " + Join(d[1..], "; ");
    assert Join(d[1..], "; ") == f2 + " - " + m2;
  }
}

=== FILE: js_text.dfy ===
/**
  * The JavaScript string operations the frontend's form handling uses: `trim`,
  * `split` on one separator and `join`. A JavaScript string is a sequence of
  * UTF-16 code units; here each `char` stands for one.
  */
module JsText {

  /** What `String.prototype.trim` removes: the ECMAScript WhiteSpace and LineTerminator characters. */
  predicate IsJsSpace(c: char) {
    || c == '\t' || c == '\U{000B}' || c == '\U{000C}' || c == ' ' || c == '\U{00A0}' || c == '\U{FEFF}'
    || c == '\n' || c == '\r' || c == '\U{2028}' || c == '\U{2029}'
    || c == '\U{1680}' || ('\U{2000}' <= c <= '\U{200A}') || c == '\U{202F}' || c == '\U{205F}' || c == '\U{3000}'
  }

  /** Where the run of white space that starts at `i` ends. */
  function RunEnd(s: string, i: nat): (k: nat)
    requires i <= |s|
    ensures i <= k <= |s|
    ensures k == |s| || !IsJsSpace(s[k])
    decreases |s| - i
  {
    if i == |s| || !IsJsSpace(s[i]) then i else RunEnd(s, i + 1)
  }

  /** Where the run of white space that ends at `j` starts. */
  function RunStart(s: string, j: nat): (k: nat)
    requires j <= |s|
    ensures k <= j
    ensures k == 0 || !IsJsSpace(s[k - 1])
  {
    if j == 0 || !IsJsSpace(s[j - 1]) then j else RunStart(s, j - 1)
  }

  /** Everything a run from `i` covers is white space. */
  lemma {:induction false} RunEndSpaces(s: string, i: nat)
    requires i <= |s|
    ensures forall k :: i <= k < RunEnd(s, i) ==> IsJsSpace(s[k])
    decreases |s| - i
  {
    if i < |s| && IsJsSpace(s[i]) {
      RunEndSpaces(s, i + 1);
    }
  }

  /** Everything a run up to `j` covers is white space. */
  lemma {:induction false} RunStartSpaces(s: string, j: nat)
    requires j <= |s|
    ensures forall k :: RunStart(s, j) <= k < j ==> IsJsSpace(s[k])
  {
    if j > 0 && IsJsSpace(s[j - 1]) {
      RunStartSpaces(s, j - 1);
    }
  }

  /** In a text with something other than white space, the leading and trailing runs do not meet. */
  lemma RunsApart(s: string)
    requires RunEnd(s, 0) < |s|
    ensures RunEnd(s, 0) < RunStart(s, |s|)
  {
    RunStartSpaces(s, |s|);
  }

  /** `s.trim()`: the text between the leading and the trailing white space. */
  function Trim(s: string): (r: string)
    ensures |r| <= |s|
    ensures r == [] || (!IsJsSpace(r[0]) && !IsJsSpace(r[|r| - 1]))
  {
    var a := RunEnd(s, 0);
    if a == |s| then []
    else
      RunsApart(s);
      s[a..RunStart(s, |s|)]
  }

  /** `!t || t.trim().length === 0` for a present text: nothing but white space. */
  predicate Blank(s: string) {
    Trim(s) == []
  }

  /** A text trims to nothing exactly when all of it is white space. */
  lemma BlankIsAllSpace(s: string)
    ensures Blank(s) <==> forall i :: 0 <= i < |s| ==> IsJsSpace(s[i])
  {
    RunEndSpaces(s, 0);
    var a := RunEnd(s, 0);
    if a < |s| {
      RunsApart(s);
      assert !IsJsSpace(s[a]);
    }
  }

  /** Trimming only removes characters: a character missing from a text is missing from its trim. */
  lemma TrimWithout(s: string, c: char)
    requires c !in s
    ensures c !in Trim(s)
  {
    var r := Trim(s);
    if r != [] {
      var a, b := RunEnd(s, 0), RunStart(s, |s|);
      RunsApart(s);
      assert r == s[a..b];
      assert forall i :: 0 <= i < |r| ==> r[i] == s[a + i];
    }
  }

  /** A text that starts and ends with something other than white space trims to itself. */
  lemma TrimOfTrimmed(s: string)
    requires s == [] || (!IsJsSpace(s[0]) && !IsJsSpace(s[|s| - 1]))
    ensures Trim(s) == s
  {
  }

  /** Trimming twice is trimming once. */
  lemma TrimTwice(s: string)
    ensures Trim(Trim(s)) == Trim(s)
  {
    TrimOfTrimmed(Trim(s));
  }

  /** A run from a later position in a text with a character in front ends one further on. */
  lemma {:induction false} RunEndUnderPrefix(c: char, s: string, i: nat)
    requires i <= |s|
    ensures RunEnd([c] + s, i + 1) == 1 + RunEnd(s, i)
    decreases |s| - i
  {
    if i < |s| {
      assert ([c] + s)[i + 1] == s[i];
      if IsJsSpace(s[i]) {
        RunEndUnderPrefix(c, s, i + 1);
      }
    }
  }

  /** A run that stops at something other than white space starts one further on in a text with a character in front. */
  lemma {:induction false} RunStartUnderPrefix(c: char, s: string, j: nat)
    requires j <= |s| && RunStart(s, j) > 0
    ensures RunStart([c] + s, j + 1) == 1 + RunStart(s, j)
  {
    assert ([c] + s)[j] == s[j - 1];
    if IsJsSpace(s[j - 1]) {
      RunStartUnderPrefix(c, s, j - 1);
    }
  }

  /** A slice of a text is the same slice, one further on, of the text with a character in front. */
  lemma SliceUnderPrefix(c: char, s: string, i: nat, j: nat)
    requires i <= j <= |s|
    ensures ([c] + s)[1 + i..1 + j] == s[i..j]
  {
  }

  /** White space in front of a text does not change what it trims to. */
  lemma TrimUnderSpace(c: char, s: string)
    requires IsJsSpace(c)
    ensures Trim([c] + s) == Trim(s)
  {
    var t := [c] + s;
    assert |t| == |s| + 1;
    var a := RunEnd(s, 0);
    RunEndUnderPrefix(c, s, 0);
    assert RunEnd(t, 0) == 1 + a;
    if a == |s| {
      assert Trim(t) == [] && Trim(s) == [];
    } else {
      var b := RunStart(s, |s|);
      RunsApart(s);
      RunStartUnderPrefix(c, s, |s|);
      assert RunStart(t, |t|) == 1 + b;
      TrimIs(s);
      TrimIs(t);
      assert Trim(t) == t[1 + a..1 + b];
      SliceUnderPrefix(c, s, a, b);
    }
  }

  /** What is left of a text with something other than white space. */
  lemma TrimIs(s: string)
    requires RunEnd(s, 0) < RunStart(s, |s|)
    ensures Trim(s) == s[RunEnd(s, 0)..RunStart(s, |s|)]
  {
  }

  /** `s.split(sep)` for a one-character separator: the pieces between separators, at least one. */
  function Split(s: string, sep: char): (r: seq<string>)
    ensures |r| >= 1
    ensures forall i :: 0 <= i < |r| ==> sep !in r[i]
  {
    if s == [] then [[]]
    else
      var rest := Split(s[1..], sep);
      if s[0] == sep then [[]] + rest
      else [[s[0]] + rest[0]] + rest[1..]
  }

  /** `xs.join(sep)`: the pieces with the separator between each two. */
  function Join(xs: seq<string>, sep: string): string {
    if xs == [] then [] else if |xs| == 1 then xs[0] else xs[0] + sep + Join(xs[1..], sep)
  }

  /** Splitting after a piece without the separator gives that piece first. */
  lemma {:induction false} SplitAfter(a: string, sep: char, b: string)
    requires sep !in a
    ensures Split(a + [sep] + b, sep) == [a] + Split(b, sep)
    decreases |a|
  {
    if a == [] {
      assert a + [sep] + b == [sep] + b;
      assert ([sep] + b)[1..] == b;
    } else {
      var s := a + [sep] + b;
      assert s[0] == a[0] && s[1..] == a[1..] + [sep] + b;
      SplitAfter(a[1..], sep, b);
      assert [a[0]] + a[1..] == a;
    }
  }

  /** A text without the separator splits into itself. */
  lemma {:induction false} SplitWithout(a: string, sep: char)
    requires sep !in a
    ensures Split(a, sep) == [a]
    decreases |a|
  {
    if a != [] {
      SplitWithout(a[1..], sep);
      assert [a[0]] + a[1..] == a;
    }
  }

  /** Splitting a text with one character in front extends its first piece, unless that character is the separator. */
  lemma SplitUnder(c: char, sep: char, s: string)
    requires c != sep
    ensures Split([c] + s, sep) == [[c] + Split(s, sep)[0]] + Split(s, sep)[1..]
  {
    assert ([c] + s)[1..] == s;
  }
}

=== FILE: password_hasher.dfy ===
/** The password hasher: bcrypt cost, the strength rules and random password generation. */
module Passwords {
  import opened Wrappers
  import opened PhpText
  import opened Platform

  /** A hasher with its bcrypt cost; the constructor takes any cost, 12 by default. */
  datatype Hasher = Hasher(cost: int)

  const DefaultCost := 12

  /**
    * `hash($password)`: a bcrypt digest at the hasher's cost. A cost bcrypt does not accept
    * makes `password_hash` raise a `ValueError`, which no `catch (Exception)` intercepts.
    */
  function Hash(h: Hasher, b: Bcrypt, password: string): (r: Result<string, Thrown>)
    ensures r.Err? <==> !BcryptCost(h.cost)
    ensures r.Err? ==> r.error.PhpError?
    ensures r.Ok? && BcryptSound(b) ==> b.matches(password, r.value) && |r.value| == 60 && !Blank(r.value)
  {
    if BcryptCost(h.cost) then Ok(b.digest(password, h.cost))
    else Err(PhpError("Invalid bcrypt cost parameter specified: " + Decimal(h.cost)))
  }

  /** `verify($password, $hash)`. */
  function Verify(b: Bcrypt, password: string, hash: string): bool {
    b.matches(password, hash)
  }

  /** `setCost($cost)`: only 4 through 31 are accepted. */
  function SetCost(h: Hasher, cost: int): (r: Result<Hasher, string>)
    ensures r.Ok? <==> BcryptCost(cost)
    ensures r.Ok? ==> r.value.cost == cost
    ensures r.Err? ==> r.error == "Cost must be between 4 and 31"
  {
    if !BcryptCost(cost) then Err("Cost must be between 4 and 31") else Ok(Hasher(cost))
  }

  // ---------------------------------------------------------------- strength

  /** The five strength rules, in the order they are checked. */
  datatype Rule = MinLength | NeedsUpper | NeedsLower | NeedsNumber | NeedsSpecial

  const Rules: seq<Rule> := [MinLength, NeedsUpper, NeedsLower, NeedsNumber, NeedsSpecial]

  /** Whether a password meets one rule. */
  predicate Meets(p: string, rule: Rule) {
    match rule
    case MinLength => |p| >= 8
    case NeedsUpper => HasUpper(p)
    case NeedsLower => HasLower(p)
    case NeedsNumber => HasDigit(p)
    case NeedsSpecial => HasNonAlnum(p)
  }

  /** The message reported for a rule the password breaks. */
  function Message(rule: Rule): string {
    match rule
    case MinLength => "Password must be at least 8 characters long"
    case NeedsUpper => "Password must contain at least one uppercase letter"
    case NeedsLower => "Password must contain at least one lowercase letter"
    case NeedsNumber => "Password must contain at least one number"
    case NeedsSpecial => "Password must contain at least one special character"
  }

  /** The rules of `rules` that `p` breaks, keeping their order. */
  function Broken(p: string, rules: seq<Rule>): (r: seq<Rule>)
    ensures forall x :: x in r <==> x in rules && !Meets(p, x)
    ensures |r| <= |rules|
  {
    if rules == [] then []
    else (if Meets(p, rules[0]) then [] else [rules[0]]) + Broken(p, rules[1..])
  }

  /** A password meeting every rule of a list breaks none of them. */
  lemma {:induction false} NothingBroken(p: string, rules: seq<Rule>)
    requires forall x :: x in rules ==> Meets(p, x)
    ensures Broken(p, rules) == []
  {
    if rules != [] {
      assert rules[0] in rules;
      NothingBroken(p, rules[1..]);
    }
  }

  /** `validatePasswordStrength($password)['errors']`: one message per broken rule, in rule order. */
  function StrengthErrors(p: string): (r: seq<string>)
    ensures |r| == |Broken(p, Rules)| <= 5
    ensures forall i :: 0 <= i < |r| ==> r[i] == Message(Broken(p, Rules)[i])
  {
    var broken := Broken(p, Rules);
    seq(|broken|, i requires 0 <= i < |broken| => Message(broken[i]))
  }

  /** A password meeting all five rules. */
  predicate Strong(p: string) {
    |p| >= 8 && HasUpper(p) && HasLower(p) && HasDigit(p) && HasNonAlnum(p)
  }

  /** `validatePasswordStrength($password)['valid']`: the error list is empty. */
  predicate StrengthValid(p: string) {
    StrengthErrors(p) == []
  }

  /** The strength check reports no error exactly for a strong password. */
  lemma StrengthValidIff(p: string)
    ensures StrengthValid(p) <==> Strong(p)
  {
    var broken := Broken(p, Rules);
    if Strong(p) {
      forall x | x in Rules ensures Meets(p, x) { }
      NothingBroken(p, Rules);
    } else {
      var x: Rule :| x in Rules && !Meets(p, x);
      assert x in broken;
    }
  }

  /** A rule's message is reported exactly when the password breaks the rule. */
  lemma MessageReportedIff(p: string, rule: Rule)
    ensures Message(rule) in StrengthErrors(p) <==> !Meets(p, rule)
  {
    if !Meets(p, rule) {
      BrokenRuleReported(p, rule);
    }
    if Message(rule) in StrengthErrors(p) {
      ReportedRuleBroken(p, rule);
    }
  }

  lemma BrokenRuleReported(p: string, rule: Rule)
    requires !Meets(p, rule)
    ensures Message(rule) in StrengthErrors(p)
  {
    var broken := Broken(p, Rules);
    assert rule in Rules;
    var i :| 0 <= i < |broken| && broken[i] == rule;
    assert StrengthErrors(p)[i] == Message(rule);
  }

  lemma ReportedRuleBroken(p: string, rule: Rule)
    requires Message(rule) in StrengthErrors(p)
    ensures !Meets(p, rule)
  {
    var broken := Broken(p, Rules);
    var errs := StrengthErrors(p);
    var i :| 0 <= i < |errs| && errs[i] == Message(rule);
    MessageInjective(broken[i], rule);
    assert broken[i] in broken;
  }

  /** Distinct rules have distinct messages. */
  lemma MessageInjective(a: Rule, b: Rule)
    requires Message(a) == Message(b)
    ensures a == b
  {
  }

  // ---------------------------------------------------------------- generation

  /** The 72 characters `generateSecurePassword` draws from. */
  const Alphabet: string :=
    "ABCDEFGHIJKLMNOPQRSTUVWXYZ" + "abcdefghijklmnopqrstuvwxyz" + "0123456789" + "!@#$%^&*()"

  /**
    * `generateSecurePassword($length)`: `draws` are the values `random_int(0, 71)`
    * returned, one per position; a non-positive length yields the empty string.
    */
  method GenerateSecurePassword(length: int, draws: seq<int>) returns (password: string)
    requires |draws| >= length
    requires forall i :: 0 <= i < |draws| ==> 0 <= draws[i] < |Alphabet|
    ensures |password| == if length < 0 then 0 else length
    ensures forall i :: 0 <= i < |password| ==> password[i] == Alphabet[draws[i]]
  {
    password := "";
    var i := 0;
    while i < length
      invariant 0 <= i <= (if length < 0 then 0 else length) <= |draws|
      invariant |password| == i
      invariant forall k :: 0 <= k < i ==> password[k] == Alphabet[draws[k]]
    {
      password := password + [Alphabet[draws[i]]];
      i := i + 1;
    }
  }

  /**
    * A generated password need not pass the strength check that `changePassword`
    * applies: twelve draws of 0 give twelve `A`s.
    */
  lemma GeneratedMayBeWeak(draws: seq<int>, password: string)
    requires |draws| == 12 && forall i :: 0 <= i < 12 ==> draws[i] == 0
    requires |password| == 12 && forall i :: 0 <= i < 12 ==> password[i] == Alphabet[draws[i]]
    ensures !Strong(password)
  {
    assert Alphabet[0] == 'A';
    forall i | 0 <= i < |password| ensures !IsLower(password[i]) {
      assert password[i] == 'A';
    }
  }
}

=== FILE: php_text.dfy ===
/**
  * PHP's byte-string primitives as the application uses them. A PHP string is a
  * sequence of bytes; here each `char` stands for one byte, so `strlen($s)` is `|s|`.
  */
module PhpText {
  import opened Wrappers

  /** The characters PHP's `trim` removes by default: " \t\n\r\0\x0B". */
  predicate IsTrimChar(c: char) {
    c == ' ' || c == '\t' || c == '\n' || c == '\r' || c == '\0' || c == '\U{000B}'
  }

  /** The length of the leading run of trim characters. */
  function LeadingTrim(s: string): (n: nat)
    ensures n <= |s|
    ensures forall i :: 0 <= i < n ==> IsTrimChar(s[i])
    ensures n == |s| || !IsTrimChar(s[n])
  {
    if s == [] || !IsTrimChar(s[0]) then 0 else 1 + LeadingTrim(s[1..])
  }

  /** The length of the trailing run of trim characters. */
  function TrailingTrim(s: string): (n: nat)
    ensures n <= |s|
    ensures forall i :: |s| - n <= i < |s| ==> IsTrimChar(s[i])
    ensures n == |s| || !IsTrimChar(s[|s| - n - 1])
  {
    if s == [] || !IsTrimChar(s[|s| - 1]) then 0 else 1 + TrailingTrim(s[..|s| - 1])
  }

  /** `ltrim($s)`: drops the leading run of trim characters. */
  function TrimLeft(s: string): string {
    s[LeadingTrim(s)..]
  }

  /** `rtrim($s)`: drops the trailing run of trim characters. */
  function TrimRight(s: string): string {
    s[..|s| - TrailingTrim(s)]
  }

  /** `trim($s)`. */
  function Trim(s: string): string {
    TrimRight(TrimLeft(s))
  }

  /** PHP's `empty()` applied to a string: true of "" and of "0". */
  predicate IsEmpty(s: string) {
    s == "" || s == "0"
  }

  /** `empty(trim($s))`, the "is blank" test used by every validator of the backend. */
  predicate Blank(s: string) {
    IsEmpty(Trim(s))
  }

  /** A string whose first and last bytes `trim` would keep is its own trim. */
  lemma TrimOfUntrimmable(s: string)
    requires s == [] || (!IsTrimChar(s[0]) && !IsTrimChar(s[|s| - 1]))
    ensures Trim(s) == s
  {
  }

  /** A string of two or more bytes that starts and ends with bytes `trim` keeps is not blank. */
  lemma UntrimmableNotBlank(s: string)
    requires |s| >= 2 && !IsTrimChar(s[0]) && !IsTrimChar(s[|s| - 1])
    ensures !Blank(s)
  {
    TrimOfUntrimmable(s);
  }

  /** `empty($s)` implies `empty(trim($s))`: "" and "0" are their own trim. */
  lemma EmptyIsBlank(s: string)
    requires IsEmpty(s)
    ensures Blank(s)
  {
  }

  /** `trim` is idempotent: what it keeps starts and ends with bytes it keeps. */
  lemma TrimTwice(s: string)
    ensures Trim(Trim(s)) == Trim(s)
  {
    var l := TrimLeft(s);
    assert l != [] ==> !IsTrimChar(l[0]);
    var t := Trim(s);
    assert t == l[..|l| - TrailingTrim(l)];
    if t != [] {
      assert t[0] == l[0];
      assert t[|t| - 1] == l[|l| - TrailingTrim(l) - 1];
    }
    TrimOfUntrimmable(t);
  }

  /** Trimming never adds bytes: it keeps a contiguous infix of its input. */
  lemma TrimIsInfix(s: string)
    ensures exists a, b :: 0 <= a <= b <= |s| && Trim(s) == s[a..b]
  {
    var a := LeadingTrim(s);
    var l := s[a..];
    var b := a + |l| - TrailingTrim(l);
    assert Trim(s) == s[a..b];
  }

  // ---------------------------------------------------------------- character classes

  predicate IsUpper(c: char) { 'A' <= c <= 'Z' }
  predicate IsLower(c: char) { 'a' <= c <= 'z' }
  predicate IsDigit(c: char) { '0' <= c <= '9' }
  predicate IsAlnum(c: char) { IsUpper(c) || IsLower(c) || IsDigit(c) }

  /** PCRE's `\s` without the Unicode flag: space, \t, \n, \x0B, \f, \r. */
  predicate IsSpace(c: char) {
    c == ' ' || c == '\t' || c == '\n' || c == '\U{000B}' || c == '\U{000C}' || c == '\r'
  }

  predicate HasUpper(s: string) { exists i :: 0 <= i < |s| && IsUpper(s[i]) }
  predicate HasLower(s: string) { exists i :: 0 <= i < |s| && IsLower(s[i]) }
  predicate HasDigit(s: string) { exists i :: 0 <= i < |s| && IsDigit(s[i]) }
  /** `preg_match('/[^A-Za-z0-9]/', $s)`. */
  predicate HasNonAlnum(s: string) { exists i :: 0 <= i < |s| && !IsAlnum(s[i]) }

  /** `strtoupper` on one byte (PHP 8: ASCII only). */
  function UpperChar(c: char): char {
    if IsLower(c) then (c as int - 32) as char else c
  }

  /** `strtolower` on one byte (PHP 8: ASCII only). */
  function LowerChar(c: char): char {
    if IsUpper(c) then (c as int + 32) as char else c
  }

  /** `strtoupper($s)`. */
  function ToUpper(s: string): (r: string)
    ensures |r| == |s|
    ensures forall i :: 0 <= i < |s| ==> r[i] == UpperChar(s[i])
  {
    if s == [] then [] else [UpperChar(s[0])] + ToUpper(s[1..])
  }

  /** `str_starts_with($s, $p)`, also `strpos($s, $p) === 0`. */
  predicate StartsWith(s: string, p: string) {
    |p| <= |s| && s[..|p|] == p
  }

  /** The first position of `c` in `s`, as `strpos` finds it. */
  function IndexOf(s: string, c: char): (r: Option<nat>)
    ensures r.None? <==> c !in s
    ensures r.Some? ==> r.value < |s| && s[r.value] == c && c !in s[..r.value]
  {
    if s == [] then None
    else if s[0] == c then Some(0)
    else match IndexOf(s[1..], c)
      case None => None
      case Some(k) => Some(k + 1)
  }

  /** `implode($sep, $parts)`. */
  function Join(parts: seq<string>, sep: string): string {
    if parts == [] then ""
    else if |parts| == 1 then parts[0]
    else parts[0] + sep + Join(parts[1..], sep)
  }

  /** The decimal text of an integer, as PHP's `(string)` cast writes it. */
  function Decimal(n: int): string
    decreases if n < 0 then -n + 1 else n
  {
    if n < 0 then "-" + Decimal(-n)
    else if n < 10 then [('0' as int + n) as char]
    else Decimal(n / 10) + [('0' as int + n % 10) as char]
  }
}

=== FILE: php_values.dfy ===
/**
  * PHP values as the backend handles them: decoded JSON request bodies, the
  * `['status' => ..., 'data' => ...]` arrays handlers return, and the casts and
  * comparisons PHP applies to them. Built-ins whose behaviour lies outside the
  * application (`filter_var`, `is_numeric` and the numeric casts of strings,
  * `json_decode`) are fields of `Builtins`, supplied by the caller.
  */
module PhpValues {
  import opened Wrappers
  import opened PhpText

  datatype Key = IntKey(n: int) | StrKey(s: string)

  /** A PHP value; `Arr` is PHP's ordered array (list or string-keyed map). */
  datatype Value =
    | Null
    | Bool(b: bool)
    | Int(i: int)
    | Float(r: real)
    | Str(s: string)
    | Arr(entries: seq<Entry>)

  datatype Entry = Entry(key: Key, val: Value)

  /** The PHP built-ins the model leaves uninterpreted. */
  datatype Builtins = Builtins(
    isEmail: string -> bool,          // filter_var($s, FILTER_VALIDATE_EMAIL) !== false
    isUrl: string -> bool,            // filter_var($s, FILTER_VALIDATE_URL) !== false
    isNumericText: string -> bool,    // is_numeric on a string
    isLeadingNumericText: string -> bool, // a non-numeric string that starts with a number, such as "200abc"
    intOfText: string -> int,         // (int) on a string
    floatOfText: string -> real,      // (float) on a string
    textOfFloat: real -> string,      // (string) on a float
    jsonDecode: string -> Option<Value>, // json_decode($s, true); None when json_last_error() is set
    dateTime: string -> Option<int>      // new DateTime($s) as a clock reading; None when it throws
  )

  /** A string-keyed array literal, `['a' => x, 'b' => y]`. */
  function Obj(fields: seq<(string, Value)>): (r: Value)
    ensures r.Arr? && |r.entries| == |fields|
    ensures forall i :: 0 <= i < |fields| ==> r.entries[i] == Entry(StrKey(fields[i].0), fields[i].1)
  {
    if fields == [] then Arr([])
    else Arr([Entry(StrKey(fields[0].0), fields[0].1)] + Obj(fields[1..]).entries)
  }

  /** The entries of a list `[x, y, ...]` keyed 0, 1, ... from `start`. */
  function ListFrom(items: seq<Value>, start: int): (r: seq<Entry>)
    ensures |r| == |items|
    ensures forall i :: 0 <= i < |items| ==> r[i] == Entry(IntKey(start + i), items[i])
  {
    if items == [] then [] else [Entry(IntKey(start), items[0])] + ListFrom(items[1..], start + 1)
  }

  function List(items: seq<Value>): Value {
    Arr(ListFrom(items, 0))
  }

  function Strs(items: seq<string>): Value {
    List(seq(|items|, i requires 0 <= i < |items| => Str(items[i])))
  }

  /** The value stored under `k`, if any. */
  function Find(entries: seq<Entry>, k: Key): Option<Value> {
    if entries == [] then None
    else if entries[0].key == k then Some(entries[0].val)
    else Find(entries[1..], k)
  }

  /** A key is found exactly when some entry carries it. */
  lemma {:induction false} FindPresence(entries: seq<Entry>, k: Key)
    ensures Find(entries, k).Some? <==> exists i :: 0 <= i < |entries| && entries[i].key == k
  {
    if entries != [] && entries[0].key != k {
      FindPresence(entries[1..], k);
      if exists i :: 0 <= i < |entries| && entries[i].key == k {
        var i :| 0 <= i < |entries| && entries[i].key == k;
        assert entries[1..][i - 1].key == k;
      }
    }
  }

  /** `$v[$name]` when `$v` is an array holding that key. */
  function Field(v: Value, name: string): Option<Value> {
    if v.Arr? then Find(v.entries, StrKey(name)) else None
  }

  /** The field of an array literal is the first pair carrying that name. */
  lemma {:induction false} FieldOfObj(fields: seq<(string, Value)>, name: string, i: nat)
    requires i < |fields| && fields[i].0 == name
    requires forall j :: 0 <= j < i ==> fields[j].0 != name
    ensures Field(Obj(fields), name) == Some(fields[i].1)
  {
    if i > 0 {
      FieldOfObj(fields[1..], name, i - 1);
      assert Obj(fields).entries[1..] == Obj(fields[1..]).entries;
    }
  }

  /** An array literal has a field exactly when one of its pairs carries that name. */
  lemma FieldPresence(fields: seq<(string, Value)>, name: string)
    ensures Field(Obj(fields), name).Some? <==> exists j :: 0 <= j < |fields| && fields[j].0 == name
  {
    var r := Obj(fields);
    FindPresence(r.entries, StrKey(name));
    if exists j :: 0 <= j < |fields| && fields[j].0 == name {
      var j :| 0 <= j < |fields| && fields[j].0 == name;
      assert r.entries[j].key == StrKey(name);
    }
  }

  /** `$v[$name]`: the element, or null (with a warning) when there is none. */
  function At(v: Value, name: string): Value {
    Field(v, name).GetOr(Null)
  }

  /** The values of an array in order, keys dropped (what `foreach` visits). */
  function Values(entries: seq<Entry>): (r: seq<Value>)
    ensures |r| == |entries| && forall i :: 0 <= i < |entries| ==> r[i] == entries[i].val
  {
    if entries == [] then [] else [entries[0].val] + Values(entries[1..])
  }

  /** The values of a list literal are its items. */
  lemma ValuesOfList(items: seq<Value>)
    ensures List(items).Arr? && Values(List(items).entries) == items
  {
  }

  /**
    * The first of `names` that is not a key of `v` (`array_key_exists` fails), as the
    * database-row validators scan their required-field lists.
    */
  function FirstMissing(v: Value, names: seq<string>): (r: Option<nat>)
    ensures r.Some? ==> r.value < |names| && Field(v, names[r.value]).None?
    ensures r.Some? ==> forall j :: 0 <= j < r.value ==> Field(v, names[j]).Some?
    ensures r.None? <==> forall j :: 0 <= j < |names| ==> Field(v, names[j]).Some?
  {
    if names == [] then None
    else if Field(v, names[0]).None? then Some(0)
    else match FirstMissing(v, names[1..])
      case None => None
      case Some(k) => Some(k + 1)
  }

  /** `$v[$name] ?? ...`: the element when present and not null. */
  function Given(v: Value, name: string): Option<Value> {
    match Field(v, name)
    case Some(x) => if x.Null? then None else Some(x)
    case None => None
  }

  /** PHP's truthiness: what `if ($v)` accepts. */
  predicate Truthy(v: Value) {
    match v
    case Null => false
    case Bool(b) => b
    case Int(i) => i != 0
    case Float(r) => r != 0.0
    case Str(s) => !IsEmpty(s)
    case Arr(es) => es != []
  }

  /** `empty($data[$name])`: absent, or present and falsy. */
  predicate EmptyField(v: Value, name: string) {
    match Field(v, name)
    case None => true
    case Some(x) => !Truthy(x)
  }

  /** `(string) $v`, the explicit cast; an array becomes "Array" (with a notice). */
  function CastText(v: Value, b: Builtins): string {
    match v
    case Null => ""
    case Bool(x) => if x then "1" else ""
    case Int(i) => Decimal(i)
    case Float(r) => b.textOfFloat(r)
    case Str(s) => s
    case Arr(_) => "Array"
  }

  /**
    * A value passed where a built-in such as `trim` expects a string, in PHP's
    * coercive typing mode: scalars convert, an array raises a TypeError (None).
    */
  function CoerceText(v: Value, b: Builtins): (r: Option<string>)
    ensures r.None? <==> v.Arr?
    ensures r.Some? ==> r.value == CastText(v, b)
  {
    if v.Arr? then None else Some(CastText(v, b))
  }

  /**
    * `new DateTime($v)` as both factories' row checks guard it, inside
    * `try { ... } catch (\Exception)`: a value that is not a string in coercive mode
    * raises a TypeError, which the catch does not see.
    */
  function ReadDate(v: Value, b: Builtins): (r: Result<int, Thrown>)
    ensures r.Ok? <==> CoerceText(v, b).Some? && b.dateTime(CoerceText(v, b).value).Some?
    ensures r.Ok? ==> r.value == b.dateTime(CoerceText(v, b).value).value
    ensures v.Arr? ==> r.Err? && r.error.PhpError?
  {
    match CoerceText(v, b)
    case None => Err(PhpError("TypeError"))
    case Some(s) =>
      match b.dateTime(s)
      case None => Err(InvalidArgument("Invalid datetime format in database data"))
      case Some(t) => Ok(t)
  }

  /** `is_numeric($v)`. */
  predicate IsNumeric(v: Value, b: Builtins) {
    match v
    case Int(_) => true
    case Float(_) => true
    case Str(s) => b.isNumericText(s)
    case _ => false
  }

  /** Truncation toward zero, as `(int)` applies it to a float. */
  function Truncate(r: real): int {
    if r >= 0.0 then r.Floor else -((-r).Floor)
  }

  /** `(int) $v`. */
  function CastInt(v: Value, b: Builtins): int {
    match v
    case Null => 0
    case Bool(x) => if x then 1 else 0
    case Int(i) => i
    case Float(r) => Truncate(r)
    case Str(s) => b.intOfText(s)
    case Arr(es) => if es == [] then 0 else 1
  }

  /** `(float) $v`. */
  function CastFloat(v: Value, b: Builtins): real {
    match v
    case Null => 0.0
    case Bool(x) => if x then 1.0 else 0.0
    case Int(i) => i as real
    case Float(r) => r
    case Str(s) => b.floatOfText(s)
    case Arr(es) => if es == [] then 0.0 else 1.0
  }

  /** A string PHP 8 would not read as a number (all the words the model compares against). */
  predicate IsWord(w: string) {
    w != [] && forall i :: 0 <= i < |w| ==> IsLower(w[i])
  }

  /**
    * PHP 8's loose `$v == $w` for a word `$w`: a bool compares by truthiness, null
    * equals only "", a number compares as its decimal text, an array never equals.
    */
  predicate LooseEqualsWord(v: Value, w: string, b: Builtins)
    requires IsWord(w)
  {
    match v
    case Null => false
    case Bool(x) => x
    case Int(_) => CastText(v, b) == w
    case Float(_) => CastText(v, b) == w
    case Str(s) => s == w
    case Arr(_) => false
  }
}

=== FILE: platform.dfy ===
/**
  * The cryptographic services the backend calls but does not implement: bcrypt
  * (`password_hash` / `password_verify`) and the HS256 token codec behind the
  * token manager. Each is a pair of functions supplied by the caller; the
  * predicates below state what the application relies on them to do.
  */
module Platform {
  import opened Wrappers
  import opened PhpText

  /** `password_hash($p, PASSWORD_BCRYPT, ['cost' => $c])` and `password_verify($p, $h)`. */
  datatype Bcrypt = Bcrypt(digest: (string, int) -> string, matches: (string, string) -> bool)

  /** The costs bcrypt accepts; `password_hash` raises a `ValueError` for any other. */
  predicate BcryptCost(cost: int) {
    4 <= cost <= 31
  }

  /**
    * What bcrypt guarantees the application: at an accepted cost, a digest verifies
    * against the password it was made from and is a 60-byte, non-blank string.
    */
  ghost predicate BcryptSound(b: Bcrypt) {
    forall p: string, c: int | BcryptCost(c) :: b.matches(p, b.digest(p, c)) && |b.digest(p, c)| == 60 && !Blank(b.digest(p, c))
  }

  /** The token lifetime the token manager adds to the issue time, in seconds. */
  const TokenLifetime := 3600

  /** The claims a token carries: `sub`, `email`, `role`, `iat`, `exp` (issuer and audience are fixed). */
  datatype Claims = Claims(sub: int, email: string, role: string, iat: int, exp: int)

  /** `JWT::encode` and `JWT::decode` with the server's key; `decode` yields None where it throws. */
  datatype Jwt = Jwt(encode: Claims -> string, decode: (string, int) -> Option<Claims>)

  /**
    * What the codec guarantees: a token it issued decodes to its claims from the moment it
    * was issued until it expires (before `iat` the library refuses it as not yet valid).
    */
  ghost predicate JwtSound(j: Jwt) {
    forall c: Claims, now: int | c.iat <= now < c.exp :: j.decode(j.encode(c), now) == Some(c)
  }

  /** `generateToken($userId, $email, $role)` at clock time `now`. */
  function GenerateToken(j: Jwt, userId: int, email: string, role: string, now: int): (r: string)
    ensures JwtSound(j) ==> j.decode(r, now) == Some(Claims(userId, email, role, now, now + TokenLifetime))
  {
    j.encode(Claims(userId, email, role, now, now + TokenLifetime))
  }

  /** A token issued at `now` is accepted for the whole of its hour and identifies its user. */
  lemma FreshTokenValid(j: Jwt, userId: int, email: string, role: string, now: int, later: int)
    requires JwtSound(j)
    requires now <= later < now + TokenLifetime
    ensures j.decode(GenerateToken(j, userId, email, role, now), later).Some?
    ensures j.decode(GenerateToken(j, userId, email, role, now), later).value.sub == userId
  {
  }
}

=== FILE: router.dfy ===
/**
  * The backend's router: request-path normalisation, the route table keyed by
  * method and path, `{name}` placeholders, the global and per-route middleware
  * passes, and how whatever a handler returns becomes the status and JSON array
  * sent back. The router is generic in the state `S` its middlewares and
  * handlers read and change (superglobals, the authenticated identity, the
  * database), so a handler is a function from state and parameters to a new
  * state and a result.
  */
module Routing {
  import opened Wrappers
  import opened PhpText
  import opened PhpValues
  import opened Http

  // ---------------------------------------------------------------------------
  // Request path
  // ---------------------------------------------------------------------------

  /** The front-controller prefix an XAMPP install puts in front of every path. */
  const IndexScript := "/backend/index.php"

  /** The directory prefix of direct backend access; only `/backend` is cut off. */
  const BackendDir := "/backend/"

  /** Everything before the first `?`. */
  function StripQuery(p: string): (r: string)
    ensures '?' !in r
    ensures '?' !in p ==> r == p
    ensures |r| <= |p| && p[..|r|] == r
  {
    match IndexOf(p, '?')
    case None => p
    case Some(k) => p[..k]
  }

  /** The path without `/backend/index.php`; what is left, if empty, becomes "/". */
  function StripIndex(p: string): (r: string)
    ensures '?' !in p ==> '?' !in r
  {
    if StartsWith(p, IndexScript) then
      var rest := p[|IndexScript|..];
      assert forall c :: c in rest ==> c in p;
      if IsEmpty(rest) then "/" else rest
    else p
  }

  /** The path without a leading `/backend` directory. */
  function StripBackend(p: string): (r: string)
    ensures '?' !in p ==> '?' !in r
  {
    if StartsWith(p, BackendDir) then
      var rest := p[|BackendDir| - 1..];
      assert forall c :: c in rest ==> c in p;
      if IsEmpty(rest) then "/" else rest
    else p
  }

  /** The path without one trailing slash, unless it is the root. */
  function StripTrailing(p: string): (r: string)
    ensures '?' !in p ==> '?' !in r
  {
    if p != "/" && p != [] && p[|p| - 1] == '/' then
      assert forall c :: c in p[..|p| - 1] ==> c in p;
      p[..|p| - 1]
    else p
  }

  /** The path a request URI is routed by (`REQUEST_URI ?? '/'`). */
  function RequestPath(uri: Option<string>): (path: string)
    ensures '?' !in path
    ensures uri.None? ==> path == "/"
  {
    StripTrailing(StripBackend(StripIndex(StripQuery(uri.GetOr("/")))))
  }

  /** A path as an application link writes it: rooted, without query, prefix or trailing slash. */
  predicate PlainPath(p: string) {
    |p| >= 2 && p[0] == '/' && p[|p| - 1] != '/' && '?' !in p && !StartsWith(p + "/", BackendDir)
  }

  /** Whatever starts with `/backend/index.php` starts with `/backend/`. */
  lemma IndexScriptUnderBackend(p: string)
    ensures StartsWith(p, IndexScript) ==> StartsWith(p, BackendDir)
  {
    if StartsWith(p, IndexScript) { assert p[..|BackendDir|] == IndexScript[..|BackendDir|]; }
  }

  /** A plain path routes as itself, with or without a trailing slash. */
  lemma PlainPathRoutesAsItself(p: string)
    requires PlainPath(p)
    ensures RequestPath(Some(p)) == p
    ensures RequestPath(Some(p + "/")) == p
  {
    var q := p + "/";
    assert '?' !in q by { assert forall i :: 0 <= i < |p| ==> q[i] == p[i]; }
    if |p| >= |BackendDir| { assert q[..|BackendDir|] == p[..|BackendDir|]; }
    IndexScriptUnderBackend(p);
    IndexScriptUnderBackend(q);
    assert StripTrailing(q) == p by { assert q[..|q| - 1] == p; }
  }

  /** The query string never takes part in routing. */
  lemma QueryIgnored(p: string, query: string)
    requires '?' !in p
    ensures RequestPath(Some(p + "?" + query)) == RequestPath(Some(p))
  {
    var u := p + "?" + query;
    assert u[|p|] == '?';
    assert u[..|p|] == p;
    assert StripQuery(u) == p;
  }

  /** A path reached through `/backend/index.php` routes as the path itself. */
  lemma IndexScriptIgnored(p: string)
    requires |p| >= 1 && p[0] == '/' && '?' !in p && !StartsWith(p, IndexScript)
    ensures RequestPath(Some(IndexScript + p)) == RequestPath(Some(p))
  {
    var u := IndexScript + p;
    assert '?' !in u by { assert forall i :: |IndexScript| <= i < |u| ==> u[i] == p[i - |IndexScript|]; }
    assert u[..|IndexScript|] == IndexScript;
    assert u[|IndexScript|..] == p;
  }

  /** A path reached through the `/backend` directory routes as the path itself. */
  lemma BackendDirIgnored(p: string)
    requires |p| >= 1 && p[0] == '/' && '?' !in p
    requires !StartsWith(p, BackendDir) && !StartsWith("/backend" + p, IndexScript)
    ensures RequestPath(Some("/backend" + p)) == RequestPath(Some(p))
  {
    var u := "/backend" + p;
    assert '?' !in u by { assert forall i :: 8 <= i < |u| ==> u[i] == p[i - 8]; }
    assert u[..|BackendDir|] == BackendDir;
    assert u[|BackendDir| - 1..] == p;
    IndexScriptUnderBackend(p);
  }

  // ---------------------------------------------------------------------------
  // Route patterns
  // ---------------------------------------------------------------------------

  /** A route path read as a pattern: literal characters and `{name}` placeholders. */
  datatype Part = Lit(c: char) | Hole(name: string)

  /** What `[^}]+` can capture between the braces of a placeholder. */
  predicate HoleName(name: string) {
    name != [] && '}' !in name
  }

  /**
    * For a text opening with `{`, the position of the brace that closes the
    * placeholder: the first `}` after at least one other character.
    */
  function PlaceholderEnd(s: string): (r: Option<nat>)
    requires s != []
    ensures r.Some? ==> 2 <= r.value < |s| && s[r.value] == '}' && HoleName(s[1..r.value])
    ensures r.None? ==> |s| < 2 || s[1] == '}' || '}' !in s[2..]
  {
    match IndexOf(s[1..], '}')
    case None =>
      assert |s| >= 2 ==> s[2..] == s[1..][1..];
      None
    case Some(j) =>
      if j >= 1 then
        assert s[1..j + 1] == s[1..][..j];
        Some(j + 1)
      else None
  }

  /** The placeholders and literal characters of a route path, scanned left to right. */
  function Parts(route: string): (ps: seq<Part>)
    ensures forall i :: 0 <= i < |ps| && ps[i].Hole? ==> HoleName(ps[i].name)
    decreases |route|
  {
    if route == [] then []
    else if route[0] == '{' && PlaceholderEnd(route).Some? then
      var k := PlaceholderEnd(route).value;
      [Hole(route[1..k])] + Parts(route[k + 1..])
    else [Lit(route[0])] + Parts(route[1..])
  }

  /** The route text a pattern is written as. */
  function Render(ps: seq<Part>): string {
    if ps == [] then ""
    else match ps[0]
      case Lit(c) => [c] + Render(ps[1..])
      case Hole(name) => "{" + name + "}" + Render(ps[1..])
  }

  lemma RenderHole(name: string, ps: seq<Part>)
    ensures Render([Hole(name)] + ps) == "{" + name + "}" + Render(ps)
  {
    assert ([Hole(name)] + ps)[1..] == ps;
  }

  lemma RenderLit(c: char, ps: seq<Part>)
    ensures Render([Lit(c)] + ps) == [c] + Render(ps)
  {
    assert ([Lit(c)] + ps)[1..] == ps;
  }

  /** One placeholder read back from its text. */
  lemma RenderPlaceholder(route: string, k: nat)
    requires route != [] && route[0] == '{' && PlaceholderEnd(route) == Some(k)
    requires Render(Parts(route[k + 1..])) == route[k + 1..]
    ensures Render(Parts(route)) == route
  {
    var name, rest := route[1..k], route[k + 1..];
    assert Parts(route) == [Hole(name)] + Parts(rest);
    RenderHole(name, Parts(rest));
    PlaceholderText(route, k);
  }

  /** A placeholder's text is its name between braces. */
  lemma PlaceholderText(route: string, k: nat)
    requires 2 <= k < |route| && route[0] == '{' && route[k] == '}'
    ensures route == "{" + route[1..k] + "}" + route[k + 1..]
  {
    assert route[..k + 1] == "{" + route[1..k] + "}";
    assert route == route[..k + 1] + route[k + 1..];
  }

  /** One literal character read back from its text. */
  lemma RenderLiteral(route: string)
    requires route != [] && !(route[0] == '{' && PlaceholderEnd(route).Some?)
    requires Render(Parts(route[1..])) == route[1..]
    ensures Render(Parts(route)) == route
  {
    assert Parts(route) == [Lit(route[0])] + Parts(route[1..]);
    RenderLit(route[0], Parts(route[1..]));
    assert route == [route[0]] + route[1..];
  }

  /** Reading a route path as a pattern loses nothing of it. */
  lemma {:induction false} RenderParts(route: string)
    ensures Render(Parts(route)) == route
    decreases |route|
  {
    if route == [] {
    } else if route[0] == '{' && PlaceholderEnd(route).Some? {
      var k := PlaceholderEnd(route).value;
      RenderParts(route[k + 1..]);
      RenderPlaceholder(route, k);
    } else {
      RenderParts(route[1..]);
      RenderLiteral(route);
    }
  }

  /** The placeholder names of a pattern, in order. */
  function Names(ps: seq<Part>): (ns: seq<string>)
    ensures |ns| <= |ps|
  {
    if ps == [] then []
    else match ps[0]
      case Lit(_) => Names(ps[1..])
      case Hole(name) => [name] + Names(ps[1..])
  }

  /** What `([^/]+)` can capture. */
  predicate Capture(c: string) {
    c != [] && '/' !in c
  }

  predicate Captures(cs: seq<string>) {
    forall i :: 0 <= i < |cs| ==> Capture(cs[i])
  }

  /** The path a pattern describes once its placeholders are filled with `cs`. */
  function Fill(ps: seq<Part>, cs: seq<string>): string
    requires |cs| == |Names(ps)|
  {
    if ps == [] then ""
    else match ps[0]
      case Lit(c) => [c] + Fill(ps[1..], cs)
      case Hole(_) => cs[0] + Fill(ps[1..], cs[1..])
  }

  /** How far `[^/]+` can reach from the start of `s`: up to the first slash. */
  function SegmentLength(s: string): (n: nat)
    ensures n <= |s| && (forall i :: 0 <= i < n ==> s[i] != '/') && (n < |s| ==> s[n] == '/')
  {
    match IndexOf(s, '/')
    case None => |s|
    case Some(k) => assert forall i :: 0 <= i < k ==> s[i] == s[..k][i]; k
  }

  /**
    * The anchored match of a path against a pattern, as PCRE finds it: every
    * placeholder first takes the longest slash-free run it can and gives back one
    * character at a time until the rest of the pattern matches. The result lists
    * the captures in order.
    */
  function Match(ps: seq<Part>, s: string): (r: Option<seq<string>>)
    decreases |ps|, 0, 0
  {
    if ps == [] then (if s == [] then Some([]) else None)
    else match ps[0]
      case Lit(c) => if s != [] && s[0] == c then Match(ps[1..], s[1..]) else None
      case Hole(_) => TryHole(ps[1..], s, SegmentLength(s))
  }

  /** A placeholder capturing `s[..n]`, or failing that a shorter prefix, followed by `rest`. */
  function TryHole(rest: seq<Part>, s: string, n: nat): (r: Option<seq<string>>)
    requires n <= |s|
    decreases |rest|, 1, n
  {
    if n == 0 then None
    else match Match(rest, s[n..])
      case Some(cs) => Some([s[..n]] + cs)
      case None => TryHole(rest, s, n - 1)
  }

  /** What a match finds is a filling of the pattern with slash-free captures that spells the path. */
  lemma {:induction false} MatchSound(ps: seq<Part>, s: string)
    ensures Match(ps, s).Some? ==> |Match(ps, s).value| == |Names(ps)| && Captures(Match(ps, s).value) && Fill(ps, Match(ps, s).value) == s
    decreases |ps|, 0, 0
  {
    if ps != [] {
      match ps[0]
      case Lit(c) =>
        if s != [] && s[0] == c {
          MatchSound(ps[1..], s[1..]);
          assert s == [c] + s[1..];
        }
      case Hole(_) =>
        TryHoleSound(ps[1..], s, SegmentLength(s));
    }
  }

  lemma {:induction false} TryHoleSound(rest: seq<Part>, s: string, n: nat)
    requires n <= |s| && forall i :: 0 <= i < n ==> s[i] != '/'
    ensures TryHole(rest, s, n).Some? ==>
      var cs := TryHole(rest, s, n).value;
      |cs| == |Names(rest)| + 1 && Captures(cs) && cs[0] + Fill(rest, cs[1..]) == s
    decreases |rest|, 1, n
  {
    if n > 0 {
      var here := Match(rest, s[n..]);
      if here.Some? {
        MatchSound(rest, s[n..]);
        CaptureFirst(rest, s, n, here.value);
        assert TryHole(rest, s, n) == Some([s[..n]] + here.value);
      } else {
        TryHoleSound(rest, s, n - 1);
        assert TryHole(rest, s, n) == TryHole(rest, s, n - 1);
      }
    }
  }

  /** A slash-free prefix followed by a filling of the rest is a filling of the hole and the rest. */
  lemma CaptureFirst(rest: seq<Part>, s: string, n: nat, cs: seq<string>)
    requires 1 <= n <= |s| && forall i :: 0 <= i < n ==> s[i] != '/'
    requires |cs| == |Names(rest)| && Captures(cs) && Fill(rest, cs) == s[n..]
    ensures var r := [s[..n]] + cs; |r| == |Names(rest)| + 1 && Captures(r) && r[0] + Fill(rest, r[1..]) == s
  {
    var r := [s[..n]] + cs;
    assert s == s[..n] + s[n..];
    assert forall i :: 0 <= i < n ==> s[..n][i] == s[i];
    assert Capture(r[0]);
    assert r[1..] == cs;
  }

  /** Giving back characters reaches every shorter capture that lets the rest match. */
  lemma {:induction false} TryHoleReaches(rest: seq<Part>, s: string, n: nat, m: nat)
    requires 1 <= m <= n <= |s|
    requires Match(rest, s[m..]).Some?
    ensures TryHole(rest, s, n).Some?
    decreases n
  {
    var here := Match(rest, s[n..]);
    if here.Some? {
      assert TryHole(rest, s, n) == Some([s[..n]] + here.value);
    } else {
      assert n != m;
      TryHoleReaches(rest, s, n - 1, m);
      assert TryHole(rest, s, n) == TryHole(rest, s, n - 1);
    }
  }

  /** Every filling of the placeholders with slash-free captures is matched. */
  lemma {:induction false} MatchComplete(ps: seq<Part>, cs: seq<string>)
    requires |cs| == |Names(ps)| && Captures(cs)
    ensures Match(ps, Fill(ps, cs)).Some?
    decreases |ps|
  {
    if ps != [] {
      var s := Fill(ps, cs);
      match ps[0]
      case Lit(c) =>
        MatchComplete(ps[1..], cs);
        assert s[1..] == Fill(ps[1..], cs);
      case Hole(_) =>
        assert Captures(cs[1..]) by { assert forall i :: 0 <= i < |cs| - 1 ==> cs[1..][i] == cs[i + 1]; }
        MatchComplete(ps[1..], cs[1..]);
        var m := |cs[0]|;
        assert Capture(cs[0]);
        assert s == cs[0] + Fill(ps[1..], cs[1..]);
        assert s[m..] == Fill(ps[1..], cs[1..]);
        assert forall i :: 0 <= i < m ==> s[i] == cs[0][i];
        var n := SegmentLength(s);
        TryHoleReaches(ps[1..], s, n, m);
    }
  }

  /** Every placeholder stands for a whole segment: it ends the pattern or a slash follows it. */
  predicate SegmentHoles(ps: seq<Part>) {
    forall i :: 0 <= i < |ps| && ps[i].Hole? ==> i + 1 == |ps| || ps[i + 1] == Lit('/')
  }

  /** For whole-segment placeholders the captures are exactly the segments filled in. */
  lemma {:induction false} MatchSegments(ps: seq<Part>, cs: seq<string>)
    requires SegmentHoles(ps) && |cs| == |Names(ps)| && Captures(cs)
    ensures Match(ps, Fill(ps, cs)) == Some(cs)
    decreases |ps|
  {
    if ps != [] {
      assert SegmentHoles(ps[1..]) by { assert forall i :: 0 <= i < |ps| - 1 ==> ps[1..][i] == ps[i + 1]; }
      match ps[0]
      case Lit(c) =>
        MatchSegments(ps[1..], cs);
        LitMatched(ps, cs);
      case Hole(_) =>
        assert Captures(cs[1..]) by { assert forall i :: 0 <= i < |cs| - 1 ==> cs[1..][i] == cs[i + 1]; }
        MatchSegments(ps[1..], cs[1..]);
        HoleMatched(ps, cs);
    }
  }

  /** A literal in front of a matched filling is matched with it. */
  lemma LitMatched(ps: seq<Part>, cs: seq<string>)
    requires ps != [] && ps[0].Lit? && |cs| == |Names(ps)|
    requires Match(ps[1..], Fill(ps[1..], cs)) == Some(cs)
    ensures Match(ps, Fill(ps, cs)) == Some(cs)
  {
    var s := Fill(ps, cs);
    assert s[1..] == Fill(ps[1..], cs);
  }

  /** A whole-segment placeholder in front of a matched filling takes exactly its capture. */
  lemma HoleMatched(ps: seq<Part>, cs: seq<string>)
    requires ps != [] && ps[0].Hole? && SegmentHoles(ps) && |cs| == |Names(ps)| && Captures(cs)
    requires Match(ps[1..], Fill(ps[1..], cs[1..])) == Some(cs[1..])
    ensures Match(ps, Fill(ps, cs)) == Some(cs)
  {
    var tail := Fill(ps[1..], cs[1..]);
    assert Fill(ps, cs) == cs[0] + tail;
    assert tail == [] || tail[0] == '/' by {
      if |ps| > 1 { assert ps[1..][0] == Lit('/'); }
    }
    assert Capture(cs[0]);
    HoleTakesSegment(ps[1..], cs[0], tail, cs[1..]);
    Uncons(cs);
  }

  /** A capture followed by a slash, or by nothing, is what the placeholder takes. */
  lemma HoleTakesSegment(rest: seq<Part>, c: string, tail: string, cs: seq<string>)
    requires Capture(c) && (tail == [] || tail[0] == '/')
    requires Match(rest, tail) == Some(cs)
    ensures SegmentLength(c + tail) == |c|
    ensures TryHole(rest, c + tail, |c|) == Some([c] + cs)
  {
    var s, m := c + tail, |c|;
    assert s[..m] == c && s[m..] == tail;
    assert forall i :: 0 <= i < m ==> s[i] == c[i];
    assert m < |s| ==> s[m] == tail[0];
  }

  /** A pattern without placeholders matches exactly its own text. */
  lemma {:induction false} LiteralMatch(ps: seq<Part>, s: string)
    requires Names(ps) == []
    ensures Match(ps, s).Some? <==> s == Render(ps)
    decreases |ps|
  {
    if ps != [] {
      match ps[0]
      case Lit(c) =>
        if s != [] {
          LiteralMatch(ps[1..], s[1..]);
          assert s == [s[0]] + s[1..];
        }
    }
  }

  /** The pattern of a route text without placeholders: one literal per character. */
  function Lits(p: string): (ps: seq<Part>)
    ensures |ps| == |p| && forall i :: 0 <= i < |p| ==> ps[i] == Lit(p[i])
  {
    seq(|p|, i requires 0 <= i < |p| => Lit(p[i]))
  }

  /** A route text without an opening brace reads as its literal characters. */
  lemma {:induction false} PartsOfLiteral(p: string, rest: string)
    requires '{' !in p
    ensures Parts(p + rest) == Lits(p) + Parts(rest)
    decreases |p|
  {
    if p != [] {
      var s := p + rest;
      assert s[0] == p[0] && s[1..] == p[1..] + rest;
      PartsOfLiteral(p[1..], rest);
      assert Lits(p) == [Lit(p[0])] + Lits(p[1..]);
    } else {
      assert p + rest == rest;
    }
  }

  /** Literal characters carry no placeholder names. */
  lemma {:induction false} NamesOfLits(p: string, tail: seq<Part>)
    ensures Names(Lits(p) + tail) == Names(tail)
    decreases |p|
  {
    if p != [] {
      var ps := Lits(p) + tail;
      assert ps[0] == Lit(p[0]) && ps[1..] == Lits(p[1..]) + tail;
      NamesOfLits(p[1..], tail);
    } else {
      assert Lits(p) + tail == tail;
    }
  }

  /** Filling a pattern that starts with literal characters writes those characters first. */
  lemma {:induction false} FillLits(p: string, tail: seq<Part>, cs: seq<string>)
    requires |cs| == |Names(tail)|
    ensures |cs| == |Names(Lits(p) + tail)|
    ensures Fill(Lits(p) + tail, cs) == p + Fill(tail, cs)
    decreases |p|
  {
    NamesOfLits(p, tail);
    if p != [] {
      var ps := Lits(p) + tail;
      assert ps[0] == Lit(p[0]) && ps[1..] == Lits(p[1..]) + tail;
      FillLits(p[1..], tail, cs);
      assert p == [p[0]] + p[1..];
    } else {
      assert Lits(p) + tail == tail;
    }
  }

  /** A route text without braces matches exactly itself. */
  lemma LiteralRoute(p: string, s: string)
    requires '{' !in p
    ensures Match(Parts(p), s).Some? <==> s == p
  {
    PartsOfLiteral(p, "");
    assert p + "" == p;
    assert Parts(p) == Lits(p);
    NamesOfLits(p, []);
    assert Lits(p) + [] == Lits(p);
    LiteralMatch(Lits(p), s);
    RenderParts(p);
  }

  /** `{name}` reads as a single placeholder. */
  lemma PlaceholderAlone(name: string)
    requires HoleName(name)
    ensures Parts("{" + name + "}") == [Hole(name)]
  {
    var s := "{" + name + "}";
    assert s[1..] == name + "}";
    assert IndexOf(name + "}", '}') == Some(|name|) by {
      assert (name + "}")[..|name|] == name;
    }
    assert PlaceholderEnd(s) == Some(|name| + 1);
    assert s[1..|name| + 1] == name;
    assert s[|name| + 2..] == [];
  }

  /**
    * A route text that ends in its only placeholder, after a slash, captures the
    * request path's last segment under the placeholder's name.
    */
  lemma TrailingPlaceholder(prefix: string, name: string, c: string)
    requires '{' !in prefix && HoleName(name) && Capture(c)
    ensures Match(Parts(prefix + "{" + name + "}"), prefix + c) == Some([c])
    ensures Find(RouteParams(prefix + "{" + name + "}", prefix + c).entries, StrKey(name)) == Some(Str(c))
  {
    var route := prefix + "{" + name + "}";
    assert route == prefix + ("{" + name + "}");
    PartsOfLiteral(prefix, "{" + name + "}");
    PlaceholderAlone(name);
    var ps := Lits(prefix) + [Hole(name)];
    assert Parts(route) == ps;
    assert Names([Hole(name)]) == [name];
    NamesOfLits(prefix, [Hole(name)]);
    FillLits(prefix, [Hole(name)], [c]);
    assert Fill([Hole(name)], [c]) == c + Fill([], [c][1..]);
    assert Fill(ps, [c]) == prefix + c;
    assert SegmentHoles(ps);
    MatchSegments(ps, [c]);
    BindFinds([name], [c], 0);
  }

  // ---------------------------------------------------------------------------
  // Route parameters
  // ---------------------------------------------------------------------------

  /** `$a[$k] = $v`: an existing key keeps its place, a new one is appended. */
  function Put(es: seq<Entry>, k: Key, v: Value): (r: seq<Entry>)
    ensures Find(r, k) == Some(v)
    ensures forall k' :: k' != k ==> Find(r, k') == Find(es, k')
  {
    if es == [] then [Entry(k, v)]
    else if es[0].key == k then [Entry(k, v)] + es[1..]
    else
      var tail := Put(es[1..], k, v);
      assert ([es[0]] + tail)[1..] == tail;
      [es[0]] + tail
  }

  /** The parameter array: each name bound in turn to its capture, later names overwriting earlier ones. */
  function Bind(names: seq<string>, caps: seq<string>): seq<Entry>
    requires |names| == |caps|
  {
    if names == [] then []
    else
      var k := |names| - 1;
      Put(Bind(names[..k], caps[..k]), StrKey(names[k]), Str(caps[k]))
  }

  /** A name bound last to a capture finds that capture. */
  lemma {:induction false} BindFinds(names: seq<string>, caps: seq<string>, i: nat)
    requires |names| == |caps| && i < |names| && names[i] !in names[i + 1..]
    ensures Find(Bind(names, caps), StrKey(names[i])) == Some(Str(caps[i]))
    decreases |names|
  {
    var k := |names| - 1;
    if i < k {
      assert names[k] == names[i + 1..][k - i - 1];
      assert names[..k][i + 1..] == names[i + 1..k];
      assert names[i + 1..] == names[i + 1..k] + [names[k]];
      BindFinds(names[..k], caps[..k], i);
    }
  }

  /** A name no placeholder carries is not in the parameter array. */
  lemma {:induction false} BindLacks(names: seq<string>, caps: seq<string>, n: string)
    requires |names| == |caps| && n !in names
    ensures Find(Bind(names, caps), StrKey(n)) == None
    decreases |names|
  {
    if names != [] {
      var k := |names| - 1;
      assert names == names[..k] + [names[k]];
      BindLacks(names[..k], caps[..k], n);
    }
  }

  /** The `$params` array a matched pattern hands to its handler. */
  function Params(ps: seq<Part>, caps: seq<string>): (v: Value)
    requires |caps| == |Names(ps)|
    ensures v.Arr?
  {
    Arr(Bind(Names(ps), caps))
  }

  /** The parameters a route path's pattern captures from a request path it matches. */
  function RouteParams(route: string, path: string): (v: Value)
    requires Match(Parts(route), path).Some?
    ensures v.Arr?
  {
    var ps := Parts(route);
    MatchSound(ps, path);
    Params(ps, Match(ps, path).value)
  }

  // ---------------------------------------------------------------------------
  // Middlewares, handlers and the route table
  // ---------------------------------------------------------------------------

  /** What running a middleware or handler leaves: the new state and its return value or exception. */
  datatype Step<!S> = Step(state: S, result: Result<Option<Value>, Thrown>)

  /** A callable or an object with `handle()`; `Inert` is an object without it. */
  datatype Middleware<!S> = Runs(run: S -> Step<S>) | Inert

  /** A callable or `[controller, method]` pair taking the parameter array; `Invalid` is neither. */
  datatype Handler<!S> = Calls(call: (S, Value) -> (S, Result<Value, Thrown>)) | Invalid

  datatype Route<!S> = Route(verb: string, path: string, handler: Handler<S>, middlewares: seq<string>)

  /** The routes in registration order, the named middlewares, and the global ones in order. */
  datatype Router<!S> = Router(routes: seq<Route<S>>, named: map<string, Middleware<S>>, globals: seq<Middleware<S>>)

  /** A route's identity in the table, `$routes[$method][$path]`. */
  function Key<S>(r: Route<S>): (string, string) {
    (r.verb, r.path)
  }

  /** No method and path is registered twice. */
  predicate Distinct<S>(routes: seq<Route<S>>) {
    forall i, j :: 0 <= i < j < |routes| ==> Key(routes[i]) != Key(routes[j])
  }

  /** The first route registered for `verb` and `path`. */
  function RouteIndex<S>(routes: seq<Route<S>>, verb: string, path: string): (r: Option<nat>)
    ensures r.None? <==> forall i :: 0 <= i < |routes| ==> Key(routes[i]) != (verb, path)
    ensures r.Some? ==> r.value < |routes| && Key(routes[r.value]) == (verb, path)
    ensures r.Some? ==> forall i :: 0 <= i < r.value ==> Key(routes[i]) != (verb, path)
    decreases |routes|
  {
    if routes == [] then None
    else if Key(routes[0]) == (verb, path) then Some(0)
    else match RouteIndex(routes[1..], verb, path)
      case None =>
        assert forall i :: 1 <= i < |routes| ==> routes[i] == routes[1..][i - 1];
        None
      case Some(k) =>
        assert forall i :: 1 <= i < k + 1 ==> routes[i] == routes[1..][i - 1];
        Some(k + 1)
  }

  /** `$routes[$method][$path]`: the route registered under a method and path. */
  function Exact<S>(routes: seq<Route<S>>, verb: string, path: string): (r: Option<Route<S>>)
    ensures r.Some? ==> Key(r.value) == (verb, path)
  {
    match RouteIndex(routes, verb, path)
    case None => None
    case Some(i) => Some(routes[i])
  }

  /** `array_keys($routes[$method] ?? [])`: the paths of one method, in registration order. */
  function MethodPaths<S>(routes: seq<Route<S>>, verb: string): (ps: seq<string>)
    ensures ps == [] <==> forall i :: 0 <= i < |routes| ==> routes[i].verb != verb
    ensures forall p :: p in ps <==> Exact(routes, verb, p).Some?
  {
    if routes == [] then []
    else
      var rest := MethodPaths(routes[1..], verb);
      assert forall i :: 1 <= i < |routes| ==> routes[i] == routes[1..][i - 1];
      forall p ensures Exact(routes, verb, p).Some? <==> (Key(routes[0]) == (verb, p) || Exact(routes[1..], verb, p).Some?) {
        assert RouteIndex(routes, verb, p).None? <==> Key(routes[0]) != (verb, p) && RouteIndex(routes[1..], verb, p).None?;
      }
      if routes[0].verb == verb then [routes[0].path] + rest else rest
  }

  /** A router with nothing registered. */
  function NewRouter<S>(): (r: Router<S>)
    ensures Distinct(r.routes) && forall v, p :: Exact(r.routes, v, p).None?
    ensures r.globals == [] && r.named == map[]
  {
    Router([], map[], [])
  }

  /**
    * Registers a handler and its middleware names under a method and path; a second
    * registration of the same pair replaces the first and keeps its place.
    */
  function AddRoute<S>(r: Router<S>, verb: string, path: string, handler: Handler<S>, middlewares: seq<string>): (r': Router<S>)
    ensures r'.named == r.named && r'.globals == r.globals
    ensures |r'.routes| == |r.routes| || |r'.routes| == |r.routes| + 1
  {
    var route := Route(verb, path, handler, middlewares);
    match RouteIndex(r.routes, verb, path)
    case Some(i) => r.(routes := r.routes[i := route])
    case None => r.(routes := r.routes + [route])
  }

  /** The index found is the first one holding the key. */
  lemma FirstKey<S>(routes: seq<Route<S>>, verb: string, path: string, k: nat)
    requires k < |routes| && Key(routes[k]) == (verb, path)
    requires forall i :: 0 <= i < k ==> Key(routes[i]) != (verb, path)
    ensures RouteIndex(routes, verb, path) == Some(k)
  {
  }

  /** Tables with the same keys place every key at the same index. */
  lemma SameKeys<S>(a: seq<Route<S>>, b: seq<Route<S>>, verb: string, path: string)
    requires |a| == |b| && forall j :: 0 <= j < |a| ==> Key(a[j]) == Key(b[j])
    ensures RouteIndex(a, verb, path) == RouteIndex(b, verb, path)
  {
    match RouteIndex(a, verb, path)
    case Some(x) =>
      FirstKey(b, verb, path, x);
    case None =>
      assert forall j :: 0 <= j < |b| ==> Key(b[j]) != (verb, path);
  }

  /** Appending a route leaves every registered key where it was. */
  lemma AppendKeys<S>(a: seq<Route<S>>, route: Route<S>, verb: string, path: string)
    ensures RouteIndex(a + [route], verb, path) ==
      if RouteIndex(a, verb, path).Some? then RouteIndex(a, verb, path)
      else if Key(route) == (verb, path) then Some(|a|) else None
  {
    var b := a + [route];
    assert forall j :: 0 <= j < |a| ==> b[j] == a[j];
    assert b[|a|] == route;
    match RouteIndex(a, verb, path)
    case Some(x) =>
      FirstKey(b, verb, path, x);
    case None =>
      if Key(route) == (verb, path) {
        FirstKey(b, verb, path, |a|);
      } else {
        assert forall j :: 0 <= j < |b| ==> Key(b[j]) != (verb, path);
      }
  }

  /** Registering a route is storing it under its method and path: the table behaves as a map. */
  lemma AddRouteStores<S>(r: Router<S>, verb: string, path: string, handler: Handler<S>, middlewares: seq<string>)
    ensures Exact(AddRoute(r, verb, path, handler, middlewares).routes, verb, path) == Some(Route(verb, path, handler, middlewares))
    ensures forall v, p :: (v, p) != (verb, path) ==>
      Exact(AddRoute(r, verb, path, handler, middlewares).routes, v, p) == Exact(r.routes, v, p)
  {
    var route := Route(verb, path, handler, middlewares);
    var rs := AddRoute(r, verb, path, handler, middlewares).routes;
    match RouteIndex(r.routes, verb, path)
    case Some(i) =>
      assert rs == r.routes[i := route];
      forall v, p ensures RouteIndex(rs, v, p) == RouteIndex(r.routes, v, p) {
        SameKeys(rs, r.routes, v, p);
      }
    case None =>
      assert rs == r.routes + [route];
      forall v, p ensures RouteIndex(rs, v, p) == if RouteIndex(r.routes, v, p).Some? then RouteIndex(r.routes, v, p)
        else if (verb, path) == (v, p) then Some(|r.routes|) else None {
        AppendKeys(r.routes, route, v, p);
      }
      assert rs[|r.routes|] == route;
  }

  /** Registering a route never puts a method and path into the table twice. */
  lemma AddRouteKeepsDistinct<S>(r: Router<S>, verb: string, path: string, handler: Handler<S>, middlewares: seq<string>)
    requires Distinct(r.routes)
    ensures Distinct(AddRoute(r, verb, path, handler, middlewares).routes)
  {
    var route := Route(verb, path, handler, middlewares);
    var rs := AddRoute(r, verb, path, handler, middlewares).routes;
    match RouteIndex(r.routes, verb, path)
    case Some(i) =>
      assert rs == r.routes[i := route];
      assert forall j :: 0 <= j < |rs| ==> Key(rs[j]) == Key(r.routes[j]);
    case None =>
      assert rs == r.routes + [route];
      assert forall j :: 0 <= j < |r.routes| ==> rs[j] == r.routes[j] && Key(rs[j]) != (verb, path);
  }
  /** Appends a middleware run before every routed request. */
  function AddGlobal<S>(r: Router<S>, m: Middleware<S>): (r': Router<S>)
    ensures |r'.globals| == |r.globals| + 1 && r'.globals[..|r.globals|] == r.globals && r'.globals[|r.globals|] == m
    ensures r'.routes == r.routes && r'.named == r.named
  {
    r.(globals := r.globals + [m])
  }

  /** Registers a middleware routes can name; a second one under the same name replaces the first. */
  function AddNamed<S>(r: Router<S>, name: string, m: Middleware<S>): (r': Router<S>)
    ensures name in r'.named && r'.named[name] == m
    ensures forall n :: n != name ==> (n in r'.named <==> n in r.named) && (n in r.named ==> r'.named[n] == r.named[n])
    ensures r'.routes == r.routes && r'.globals == r.globals
  {
    r.(named := r.named[name := m])
  }

  // ---------------------------------------------------------------------------
  // Finding the route
  // ---------------------------------------------------------------------------

  /** A route of the method whose pattern matches the path. */
  predicate Matches<S>(route: Route<S>, verb: string, path: string) {
    route.verb == verb && Match(Parts(route.path), path).Some?
  }

  /** The route found for a request and the parameters its pattern captured. */
  datatype Found = Found(index: nat, params: Value)

  /** The first route from `from` on, in registration order, whose pattern matches. */
  function FirstMatch<S>(routes: seq<Route<S>>, verb: string, path: string, from: nat): (r: Option<Found>)
    requires from <= |routes|
    ensures r.None? <==> forall i :: from <= i < |routes| ==> !Matches(routes[i], verb, path)
    ensures r.Some? ==> from <= r.value.index < |routes| && Matches(routes[r.value.index], verb, path)
    ensures r.Some? ==> forall i :: from <= i < r.value.index ==> !Matches(routes[i], verb, path)
    ensures r.Some? ==> r.value.params == RouteParams(routes[r.value.index].path, path)
    decreases |routes| - from
  {
    if from == |routes| then None
    else if Matches(routes[from], verb, path) then
      Some(Found(from, RouteParams(routes[from].path, path)))
    else FirstMatch(routes, verb, path, from + 1)
  }

  /**
    * The route a request reaches: nothing when the method has no routes, else the
    * route registered under exactly this path with no parameters, else the first
    * route of the method whose pattern matches.
    */
  function FindRoute<S>(routes: seq<Route<S>>, verb: string, path: string): (r: Option<Found>)
    ensures r.None? <==> Exact(routes, verb, path).None? && forall i :: 0 <= i < |routes| ==> !Matches(routes[i], verb, path)
    ensures r.Some? ==> r.value.index < |routes| && routes[r.value.index].verb == verb && r.value.params.Arr?
    ensures Exact(routes, verb, path).Some? ==> r.Some? && routes[r.value.index] == Exact(routes, verb, path).value && r.value.params == Arr([])
    ensures Exact(routes, verb, path).None? && r.Some? ==>
      Matches(routes[r.value.index], verb, path) && forall i :: 0 <= i < r.value.index ==> !Matches(routes[i], verb, path)
    ensures Exact(routes, verb, path).None? && r.Some? ==> r.value.params == RouteParams(routes[r.value.index].path, path)
  {
    if MethodPaths(routes, verb) == [] then
      assert Exact(routes, verb, path).None?;
      None
    else match RouteIndex(routes, verb, path)
      case Some(i) => Some(Found(i, Arr([])))
      case None => FirstMatch(routes, verb, path, 0)
  }

  // ---------------------------------------------------------------------------
  // Running middlewares
  // ---------------------------------------------------------------------------

  /** `executeMiddleware`: the declared `?array` return turns any other value into a TypeError. */
  function Execute<S>(m: Middleware<S>, s: S): (st: Step<S>)
    ensures m.Inert? ==> st == Step(s, Ok(None))
    ensures st.result.Ok? && st.result.value.Some? ==> st.result.value.value.Arr?
    ensures m.Runs? && m.run(s).result.Ok? && m.run(s).result.value.Some? && !m.run(s).result.value.value.Arr? ==> st.result == Err(PhpError("TypeError"))
    ensures m.Runs? && !(m.run(s).result.Ok? && m.run(s).result.value.Some? && !m.run(s).result.value.value.Arr?) ==> st == m.run(s)
  {
    match m
    case Inert => Step(s, Ok(None))
    case Runs(run) =>
      var st := run(s);
      if st.result.Ok? && st.result.value.Some? && !st.result.value.value.Arr? then Step(st.state, Err(PhpError("TypeError")))
      else st
  }

  /** Middlewares in order, each seeing the state the previous one left, until one returns or throws. */
  function RunChain<S>(ms: seq<Middleware<S>>, s: S): (st: Step<S>)
    ensures st.result.Ok? && st.result.value.Some? ==> st.result.value.value.Arr?
    ensures ms == [] ==> st == Step(s, Ok(None))
  {
    if ms == [] then Step(s, Ok(None))
    else
      var first := Execute(ms[0], s);
      if first.result != Ok(None) then first else RunChain(ms[1..], first.state)
  }

  /** Running two lists in turn is running their concatenation. */
  lemma {:induction false} RunChainAppend<S>(a: seq<Middleware<S>>, b: seq<Middleware<S>>, s: S)
    ensures RunChain(a + b, s) == (var x := RunChain(a, s); if x.result == Ok(None) then RunChain(b, x.state) else x)
    decreases |a|
  {
    if a != [] {
      assert (a + b)[0] == a[0] && (a + b)[1..] == a[1..] + b;
      var first := Execute(a[0], s);
      if first.result == Ok(None) {
        RunChainAppend(a[1..], b, first.state);
        assert RunChain(a + b, s) == RunChain(a[1..] + b, first.state);
        assert RunChain(a, s) == RunChain(a[1..], first.state);
      } else {
        assert RunChain(a + b, s) == first;
        assert RunChain(a, s) == first;
      }
    } else {
      assert a + b == b;
    }
  }

  /** A run of middlewares that all return null stops nowhere. */
  lemma {:induction false} RunChainPasses<S>(ms: seq<Middleware<S>>, s: S)
    requires forall i :: 0 <= i < |ms| ==> ms[i].Inert?
    ensures RunChain(ms, s) == Step(s, Ok(None))
    decreases |ms|
  {
    if ms != [] { RunChainPasses(ms[1..], s); }
  }

  /** The middlewares a route names that are registered, in the route's order; the others are skipped. */
  function Resolve<S>(names: seq<string>, named: map<string, Middleware<S>>): (ms: seq<Middleware<S>>)
    ensures |ms| <= |names|
    ensures (forall i :: 0 <= i < |names| ==> names[i] !in named) ==> ms == []
    ensures (forall i :: 0 <= i < |names| ==> names[i] in named) ==> |ms| == |names| && forall i :: 0 <= i < |names| ==> ms[i] == named[names[i]]
  {
    if names == [] then []
    else
      var rest := Resolve(names[1..], named);
      assert forall i :: 1 <= i < |names| ==> names[i] == names[1..][i - 1];
      if names[0] in named then [named[names[0]]] + rest else rest
  }

  // ---------------------------------------------------------------------------
  // Responses
  // ---------------------------------------------------------------------------

  /**
    * A value passed as the `int $status` of `sendResponse` in coercive mode; None is a TypeError.
    * A leading-numeric string such as "200abc" is accepted as its leading number, with a warning
    * that does not interrupt the request.
    */
  function StatusCode(v: Value, b: Builtins): (r: Option<int>)
    ensures v.Int? ==> r == Some(v.i)
    ensures v.Null? || v.Arr? ==> r.None?
    ensures r.Some? ==> r.value == CastInt(v, b)
    ensures r.Some? <==> IsNumeric(v, b) || v.Bool? || (v.Str? && b.isLeadingNumericText(v.s))
    ensures v.Str? && !b.isNumericText(v.s) && !b.isLeadingNumericText(v.s) ==> r.None?
  {
    match v
    case Int(i) => Some(i)
    case Bool(x) => Some(if x then 1 else 0)
    case Float(x) => Some(Truncate(x))
    case Str(s) => if b.isNumericText(s) || b.isLeadingNumericText(s) then Some(b.intOfText(s)) else None
    case _ => None
  }

  /** `sendResponse($status, $data)`: the data must be an array. */
  function Emit(status: Value, data: Value, b: Builtins): (r: Result<Response, Thrown>)
    ensures r.Ok? <==> StatusCode(status, b).Some? && data.Arr?
    ensures r.Ok? ==> r.value == Response(StatusCode(status, b).value, data)
    ensures r.Err? ==> r.error.PhpError?
  {
    match StatusCode(status, b)
    case None => Err(PhpError("TypeError"))
    case Some(code) => if data.Arr? then Ok(Response(code, data)) else Err(PhpError("TypeError"))
  }

  /** A status such as "200abc" is sent as its leading number rather than refused. */
  lemma LeadingNumericStatusSent(s: string, data: Value, b: Builtins)
    requires b.isLeadingNumericText(s) && data.Arr?
    ensures Emit(Str(s), data, b) == Ok(Response(b.intOfText(s), data))
  {
  }

  /** The response a middleware's returned array is sent as: status 200 and data `[]` unless given. */
  function MiddlewareResponse(v: Value, b: Builtins): (r: Result<Response, Thrown>)
    ensures r == Emit(Given(v, "status").GetOr(Int(200)), Given(v, "data").GetOr(Arr([])), b)
  {
    Emit(Given(v, "status").GetOr(Int(200)), Given(v, "data").GetOr(Arr([])), b)
  }

  /**
    * The response a handler's return value is sent as: an array gives its own
    * `status` (200 if unset) and its `data` (the whole array if unset); anything
    * else is wrapped as `['data' => ...]` with status 200.
    */
  function HandlerResponse(v: Value, b: Builtins): (r: Result<Response, Thrown>)
    ensures !v.Arr? ==> r == Ok(Response(200, Obj([("data", v)])))
    ensures v.Arr? && Given(v, "status").None? && Given(v, "data").None? ==> r == Ok(Response(200, v))
    ensures r.Err? ==> r.error.PhpError?
  {
    if v.Arr? then Emit(Given(v, "status").GetOr(Int(200)), Given(v, "data").GetOr(v), b)
    else Ok(Response(200, Obj([("data", v)])))
  }

  /** A controller's reply with array data reaches the client exactly as built. */
  lemma ReplyDelivered(r: Reply, b: Builtins)
    requires r.data.Arr?
    ensures HandlerResponse(ReplyValue(r), b) == Ok(Response(r.status, r.data))
  {
  }

  /** The body of the 500 response the router sends for an uncaught `Exception`. */
  function InternalError(): (v: Value)
    ensures v.Arr?
    ensures Given(v, "error") == Some(Str("Internal server error"))
  {
    ErrorBody("Internal server error")
  }

  /** `catch (\Exception $e)`: exceptions become a 500 response, PHP `Error`s pass through. */
  function Caught(r: Result<Response, Thrown>): (c: Result<Response, Thrown>)
    ensures c.Err? <==> r.Err? && r.error.PhpError?
    ensures c.Err? ==> c == r
    ensures r.Ok? ==> c == r
    ensures r.Err? && !r.error.PhpError? ==> c == Ok(Response(500, InternalError()))
    ensures (r.Ok? ==> r.value.body.Arr?) ==> (c.Ok? ==> c.value.body.Arr?)
  {
    if r.Err? && !r.error.PhpError? then Ok(Response(500, InternalError())) else r
  }

  /** What a middleware that returned or threw leads to. */
  function Stopped<S>(st: Step<S>, b: Builtins): (out: (S, Result<Response, Thrown>))
    requires st.result != Ok(None)
    ensures out.0 == st.state
    ensures out.1.Ok? ==> out.1.value.body.Arr?
    ensures out.1.Err? ==> out.1.error.PhpError?
  {
    match st.result
    case Ok(v) => (st.state, Caught(MiddlewareResponse(v.value, b)))
    case Err(e) => (st.state, Caught(Err(e)))
  }

  /** Running the route's handler with the captured parameters. */
  function Invoke<S>(h: Handler<S>, s: S, params: Value, b: Builtins): (out: (S, Result<Response, Thrown>))
    ensures h.Invalid? ==> out == (s, Ok(Response(500, InternalError())))
    ensures h.Calls? && h.call(s, params).1.Ok? ==> out == (h.call(s, params).0, Caught(HandlerResponse(h.call(s, params).1.value, b)))
    ensures h.Calls? && h.call(s, params).1.Err? ==> out == (h.call(s, params).0, Caught(Err(h.call(s, params).1.error)))
    ensures out.1.Ok? ==> out.1.value.body.Arr?
    ensures out.1.Err? ==> out.1.error.PhpError?
  {
    match h
    case Invalid => (s, Caught(Err(OtherException("Invalid route handler"))))
    case Calls(call) =>
      var (s', res) := call(s, params);
      match res
      case Ok(v) => (s', Caught(HandlerResponse(v, b)))
      case Err(e) => (s', Caught(Err(e)))
  }

  /** The body of the 404 response for a request no route matches. */
  function NotFoundBody(verb: string, path: string, uri: Option<string>, available: seq<string>): (v: Value)
    ensures Given(v, "error") == Some(Str("Route not found"))
    ensures Given(v, "method") == Some(Str(verb)) && Given(v, "path") == Some(Str(path))
    ensures Given(v, "original_uri") == Some(Str(uri.GetOr("N/A")))
    ensures Given(v, "available_routes") == Some(Strs(available))
  {
    var fields := [("error", Str("Route not found")), ("method", Str(verb)), ("path", Str(path)),
                   ("original_uri", Str(uri.GetOr("N/A"))), ("available_routes", Strs(available))];
    FieldOfObj(fields, "error", 0);
    FieldOfObj(fields, "method", 1);
    FieldOfObj(fields, "path", 2);
    FieldOfObj(fields, "original_uri", 3);
    FieldOfObj(fields, "available_routes", 4);
    Obj(fields)
  }

  /** A routed request: global middlewares, then the route's, then its handler. */
  function Dispatch<S>(r: Router<S>, route: Route<S>, params: Value, s: S, b: Builtins): (out: (S, Result<Response, Thrown>))
    ensures out.1.Ok? ==> out.1.value.body.Arr?
    ensures out.1.Err? ==> out.1.error.PhpError?
  {
    var g := RunChain(r.globals, s);
    if g.result != Ok(None) then Stopped(g, b)
    else
      var n := RunChain(Resolve(route.middlewares, r.named), g.state);
      if n.result != Ok(None) then Stopped(n, b)
      else Invoke(route.handler, n.state, params, b)
  }

  /**
    * Serves one request in state `s`: the method (GET when unset) and the
    * normalised path pick the route; an unrouted request is answered 404 before any
    * middleware runs. The result is the response sent, or the PHP `Error` that
    * escaped the router.
    */
  function HandleRequest<S>(r: Router<S>, verb: Option<string>, uri: Option<string>, s: S, b: Builtins): (out: (S, Result<Response, Thrown>))
    ensures out.1.Ok? ==> out.1.value.body.Arr?
    ensures out.1.Err? ==> out.1.error.PhpError?
  {
    var m := verb.GetOr("GET");
    var path := RequestPath(uri);
    match FindRoute(r.routes, m, path)
    case None => (s, Ok(Response(404, NotFoundBody(m, path, uri, MethodPaths(r.routes, m)))))
    case Some(found) => Dispatch(r, r.routes[found.index], found.params, s, b)
  }

  /**
    * How a request is served, once its method (GET when unset) and path are known: a path
    * no route of that method registers or matches is answered 404 listing the method's
    * paths, with the state untouched; a registered path runs its own route with no
    * parameters; otherwise the first route whose pattern matches runs with the captures.
    */
  lemma RequestRouted<S>(r: Router<S>, verb: Option<string>, uri: Option<string>, s: S, b: Builtins, k: nat)
    ensures var m := verb.GetOr("GET"); var path := RequestPath(uri);
      (Exact(r.routes, m, path).None? && forall i :: 0 <= i < |r.routes| ==> !Matches(r.routes[i], m, path))
      ==> HandleRequest(r, verb, uri, s, b) == (s, Ok(Response(404, NotFoundBody(m, path, uri, MethodPaths(r.routes, m)))))
    ensures var m := verb.GetOr("GET"); var path := RequestPath(uri);
      Exact(r.routes, m, path).Some? ==> HandleRequest(r, verb, uri, s, b) == Dispatch(r, Exact(r.routes, m, path).value, Arr([]), s, b)
    ensures var m := verb.GetOr("GET"); var path := RequestPath(uri);
      (Exact(r.routes, m, path).None? && k < |r.routes| && Matches(r.routes[k], m, path)
       && forall i :: 0 <= i < k ==> !Matches(r.routes[i], m, path))
      ==> HandleRequest(r, verb, uri, s, b) == Dispatch(r, r.routes[k], RouteParams(r.routes[k].path, path), s, b)
  {
    var m := verb.GetOr("GET");
    var path := RequestPath(uri);
    var found := FindRoute(r.routes, m, path);
    if Exact(r.routes, m, path).None? && k < |r.routes| && Matches(r.routes[k], m, path)
       && forall i :: 0 <= i < k ==> !Matches(r.routes[i], m, path) {
      assert found.Some?;
      var j := found.value.index;
      assert j <= k;
      assert k <= j;
    }
  }

  /** An unrouted request changes nothing and is answered 404. */
  lemma UnroutedIsNotFound<S>(r: Router<S>, verb: Option<string>, uri: Option<string>, s: S, b: Builtins)
    requires forall i :: 0 <= i < |r.routes| ==> r.routes[i].verb != verb.GetOr("GET")
    ensures HandleRequest(r, verb, uri, s, b).0 == s
    ensures HandleRequest(r, verb, uri, s, b).1.Ok? && HandleRequest(r, verb, uri, s, b).1.value.status == 404
  {
    assert FindRoute(r.routes, verb.GetOr("GET"), RequestPath(uri)).None?;
  }

  /**
    * The two middleware passes act as one chain, globals first: the first
    * middleware of the chain to return or throw decides the response and nothing
    * after it runs; when all return null the handler runs on the state they leave.
    */
  lemma {:induction false} DispatchIsOneChain<S>(r: Router<S>, route: Route<S>, params: Value, s: S, b: Builtins)
    ensures var c := RunChain(r.globals + Resolve(route.middlewares, r.named), s);
      Dispatch(r, route, params, s, b) == if c.result == Ok(None) then Invoke(route.handler, c.state, params, b) else Stopped(c, b)
  {
    RunChainAppend(r.globals, Resolve(route.middlewares, r.named), s);
  }
}


=== FILE: store.dfy ===
/**
  * The database behind the two repositories, as an in-memory value: the `users` and
  * `accommodations` tables in row order, the `user_accommodations` bookmark relation
  * as a set of (user id, accommodation id) pairs, and the last id each table's
  * auto-increment handed out. Row order stands for the order each query's
  * `ORDER BY` produces.
  */
module Store {
  import opened Wrappers
  import opened Tables
  import opened Users
  import opened Accommodations
  import PhpValues

  datatype Db = Db(
    users: seq<User>,
    accommodations: seq<Accommodation>,
    bookmarks: set<(int, int)>,
    lastUserId: nat,
    lastAccommodationId: nat)

  function UserKey(u: User): int { u.id }
  function AccommodationKey(a: Accommodation): int { a.id }

  /** The store's integrity: ids are unique and were handed out by the auto-increment. */
  predicate Good(db: Db) {
    && UniqueKeys(db.users, UserKey)
    && UniqueKeys(db.accommodations, AccommodationKey)
    && (forall k :: 0 <= k < |db.users| ==> 1 <= db.users[k].id <= db.lastUserId)
    && (forall k :: 0 <= k < |db.accommodations| ==> 1 <= db.accommodations[k].id <= db.lastAccommodationId)
  }

  /** An empty database. */
  function Empty(): (r: Db)
    ensures Good(r) && r.users == [] && r.accommodations == [] && r.bookmarks == {}
  {
    Db([], [], {}, 0, 0)
  }

  // ---------------------------------------------------------------- accommodations

  /** `AccommodationRepository::findById`. */
  function FindAccommodation(db: Db, id: int): (r: Option<Accommodation>)
    ensures r.Some? ==> r.value in db.accommodations && r.value.id == id
    ensures r.None? <==> forall k :: 0 <= k < |db.accommodations| ==> db.accommodations[k].id != id
  {
    Lookup(db.accommodations, AccommodationKey, id)
  }

  /** `AccommodationRepository::exists`. */
  predicate AccommodationExists(db: Db, id: int) {
    FindAccommodation(db, id).Some?
  }

  /**
    * `AccommodationRepository::save`: id 0 inserts a row under the next id; any other
    * id overwrites that row's columns except `created_at`, and the stored row is read
    * back. Updating an id with no row reads back nothing, which the declared return
    * type turns into an error (None).
    */
  function SaveAccommodation(db: Db, a: Accommodation): (r: (Db, Option<Accommodation>))
    ensures a.id == 0 ==> r.1 == Some(a.(id := db.lastAccommodationId + 1))
    ensures a.id != 0 ==> (r.1.Some? <==> AccommodationExists(db, a.id))
    ensures a.id != 0 && r.1.Some? ==> r.1.value == a.(createdAt := FindAccommodation(db, a.id).value.createdAt)
    ensures r.1.None? ==> r.0 == db
    ensures r.0.users == db.users && r.0.bookmarks == db.bookmarks && r.0.lastUserId == db.lastUserId
  {
    if a.id == 0 then
      var row := a.(id := db.lastAccommodationId + 1);
      (db.(accommodations := db.accommodations + [row], lastAccommodationId := row.id), Some(row))
    else match Locate(db.accommodations, AccommodationKey, a.id)
      case None => (db, None)
      case Some(k) =>
        var row := a.(createdAt := db.accommodations[k].createdAt);
        (db.(accommodations := db.accommodations[k := row]), Some(row))
  }

  /**
    * `findById`'s `mapToEntity`: a stored row is rebuilt through the `Accommodation`
    * constructor, so a row that fails one of the constructor's checks throws that check's
    * message instead of being returned.
    */
  function ReadBack(a: Accommodation, b: PhpValues.Builtins): (r: Result<Accommodation, string>)
    ensures r.Ok? <==> Accommodations.Valid(a, b)
    ensures r.Ok? ==> r.value == a
  {
    var r := Accommodations.New(a.id, a.title, a.description, a.price, a.location, a.imageUrl, Texts(a.amenities),
                 a.createdAt, a.updatedAt, b);
    if Accommodations.Valid(a, b) then Accommodations.NewOfValid(a, b); r else r
  }

  /** Saving keeps the store's integrity, stores the returned row, and touches no other row. */
  lemma SaveAccommodationEffect(db: Db, a: Accommodation, other: int)
    requires Good(db)
    ensures Good(SaveAccommodation(db, a).0)
    ensures SaveAccommodation(db, a).1.Some? ==>
      FindAccommodation(SaveAccommodation(db, a).0, SaveAccommodation(db, a).1.value.id) == SaveAccommodation(db, a).1
    ensures SaveAccommodation(db, a).1.Some? && other != SaveAccommodation(db, a).1.value.id ==>
      FindAccommodation(SaveAccommodation(db, a).0, other) == FindAccommodation(db, other)
    ensures a.id == 0 ==> !AccommodationExists(db, SaveAccommodation(db, a).1.value.id)
  {
    var rows := db.accommodations;
    if a.id == 0 {
      var row := a.(id := db.lastAccommodationId + 1);
      AppendKeepsKeys(rows, AccommodationKey, row, other);
      var rows' := rows + [row];
      assert SaveAccommodation(db, a).0.accommodations == rows';
      assert forall k :: 0 <= k < |rows'| ==> 1 <= rows'[k].id <= row.id by {
        forall k | 0 <= k < |rows'| ensures 1 <= rows'[k].id <= row.id {
          if k < |rows| { assert rows'[k] == rows[k]; }
        }
      }
    } else {
      match Locate(rows, AccommodationKey, a.id)
      case None =>
      case Some(k) =>
        var row := a.(createdAt := rows[k].createdAt);
        ReplaceKeepsKeys(rows, AccommodationKey, k, row, other);
        var rows' := rows[k := row];
        assert SaveAccommodation(db, a).0.accommodations == rows';
        assert forall j :: 0 <= j < |rows'| ==> 1 <= rows'[j].id <= db.lastAccommodationId by {
          forall j | 0 <= j < |rows'| ensures 1 <= rows'[j].id <= db.lastAccommodationId {
            if j != k { assert rows'[j] == rows[j]; }
          }
        }
    }
  }

  /** `AccommodationRepository::delete`: removes the row; true when there was one. */
  function DeleteAccommodation(db: Db, id: int): (r: (Db, bool))
    ensures r.1 <==> AccommodationExists(db, id)
    ensures !r.1 ==> r.0 == db
    ensures r.0.users == db.users && r.0.bookmarks == db.bookmarks
    ensures |r.0.accommodations| == |db.accommodations| - (if r.1 then 1 else 0)
  {
    match Locate(db.accommodations, AccommodationKey, id)
    case None => (db, false)
    case Some(k) => (db.(accommodations := RemoveAt(db.accommodations, k)), true)
  }

  /** After a delete the id is gone and every other row is where it was. */
  lemma DeleteAccommodationEffect(db: Db, id: int, other: int)
    requires Good(db)
    ensures Good(DeleteAccommodation(db, id).0)
    ensures !AccommodationExists(DeleteAccommodation(db, id).0, id)
    ensures other != id ==> FindAccommodation(DeleteAccommodation(db, id).0, other) == FindAccommodation(db, other)
  {
    DeleteAccommodationGood(db, id);
    DeleteAccommodationLookups(db, id, other);
  }

  /** Deleting an accommodation keeps the store's integrity. */
  lemma DeleteAccommodationGood(db: Db, id: int)
    requires Good(db)
    ensures Good(DeleteAccommodation(db, id).0)
  {
    match Locate(db.accommodations, AccommodationKey, id)
    case None =>
    case Some(k) =>
      RemoveKeepsKeys(db.accommodations, AccommodationKey, k, id);
  }

  /** After a delete the accommodation is gone and every other one is found as before. */
  lemma DeleteAccommodationLookups(db: Db, id: int, other: int)
    requires Good(db)
    ensures !AccommodationExists(DeleteAccommodation(db, id).0, id)
    ensures other != id ==> FindAccommodation(DeleteAccommodation(db, id).0, other) == FindAccommodation(db, other)
  {
    match Locate(db.accommodations, AccommodationKey, id)
    case None =>
    case Some(k) =>
      RemoveKeepsKeys(db.accommodations, AccommodationKey, k, other);
  }

  /** The needle occurs in the text starting at position `i`. */
  predicate OccursAt(text: string, needle: string, i: int) {
    0 <= i <= |text| - |needle| && text[i..i + |needle|] == needle
  }

  /** `LIKE '%needle%'`: the needle occurs somewhere in the text. */
  predicate Like(text: string, needle: string) {
    exists i :: 0 <= i <= |text| - |needle| && OccursAt(text, needle, i)
  }

  /** `AccommodationRepository::search`: the term occurs in the title or the description. */
  function SearchAccommodations(db: Db, term: string): (r: seq<Accommodation>)
    ensures forall i :: 0 <= i < |r| ==> r[i] in db.accommodations
    ensures forall i :: 0 <= i < |r| ==> Like(r[i].title, term) || Like(r[i].description, term)
    ensures forall a :: a in db.accommodations && (Like(a.title, term) || Like(a.description, term)) ==> a in r
  {
    Where(db.accommodations, (a: Accommodation) => Like(a.title, term) || Like(a.description, term))
  }

  /** `AccommodationRepository::findByLocation`: the location contains the text. */
  function AccommodationsAt(db: Db, location: string): (r: seq<Accommodation>)
    ensures forall i :: 0 <= i < |r| ==> r[i] in db.accommodations && Like(r[i].location, location)
    ensures forall a :: a in db.accommodations && Like(a.location, location) ==> a in r
  {
    Where(db.accommodations, (a: Accommodation) => Like(a.location, location))
  }

  /** `AccommodationRepository::findByPriceRange`: `price BETWEEN :min AND :max`. */
  function AccommodationsPriced(db: Db, min: real, max: real): (r: seq<Accommodation>)
    ensures forall i :: 0 <= i < |r| ==> r[i] in db.accommodations && min <= r[i].price <= max
    ensures forall a :: a in db.accommodations && min <= a.price <= max ==> a in r
  {
    Where(db.accommodations, (a: Accommodation) => min <= a.price <= max)
  }

  /** `AccommodationRepository::findByAmenity`: the amenity list holds the exact string. */
  function AccommodationsWith(db: Db, amenity: string): (r: seq<Accommodation>)
    ensures forall i :: 0 <= i < |r| ==> r[i] in db.accommodations && amenity in r[i].amenities
    ensures forall a :: a in db.accommodations && amenity in a.amenities ==> a in r
  {
    Where(db.accommodations, (a: Accommodation) => amenity in a.amenities)
  }

  /** `AccommodationRepository::getAccommodationUsers`: the users who bookmarked it. */
  function AccommodationUsers(db: Db, id: int): (r: seq<User>)
    ensures forall i :: 0 <= i < |r| ==> r[i] in db.users && (r[i].id, id) in db.bookmarks
    ensures forall u :: u in db.users && (u.id, id) in db.bookmarks ==> u in r
  {
    Where(db.users, (u: User) => (u.id, id) in db.bookmarks)
  }

  // ---------------------------------------------------------------- users

  /** `UserRepository::findById`. */
  function FindUser(db: Db, id: int): (r: Option<User>)
    ensures r.Some? ==> r.value in db.users && r.value.id == id
    ensures r.None? <==> forall k :: 0 <= k < |db.users| ==> db.users[k].id != id
  {
    Lookup(db.users, UserKey, id)
  }

  /** `UserRepository::exists`. */
  predicate UserExists(db: Db, id: int) {
    FindUser(db, id).Some?
  }

  function EmailOf(u: User): string { u.email }
  function UsernameOf(u: User): string { u.username }

  /** The first user whose `field` holds `value`. */
  function FirstUser(users: seq<User>, field: User -> string, value: string): (r: Option<User>)
    ensures r.Some? ==> r.value in users && field(r.value) == value
    ensures r.None? <==> forall k :: 0 <= k < |users| ==> field(users[k]) != value
  {
    if users == [] then None
    else if field(users[0]) == value then Some(users[0])
    else FirstUser(users[1..], field, value)
  }

  /** A row appended after rows that do not hold the value is the first to hold it. */
  lemma {:induction false} FirstUserAppended(users: seq<User>, field: User -> string, u: User)
    requires forall k :: 0 <= k < |users| ==> field(users[k]) != field(u)
    ensures FirstUser(users + [u], field, field(u)) == Some(u)
  {
    if users != [] {
      assert (users + [u])[1..] == users[1..] + [u];
      FirstUserAppended(users[1..], field, u);
    }
  }

  /** `UserRepository::findByEmail`. */
  function FindUserByEmail(db: Db, email: string): (r: Option<User>)
    ensures r.Some? ==> r.value in db.users && r.value.email == email
    ensures r.None? <==> forall k :: 0 <= k < |db.users| ==> db.users[k].email != email
  {
    FirstUser(db.users, EmailOf, email)
  }

  /** `UserRepository::findByUsername`. */
  function FindUserByUsername(db: Db, username: string): (r: Option<User>)
    ensures r.Some? ==> r.value in db.users && r.value.username == username
    ensures r.None? <==> forall k :: 0 <= k < |db.users| ==> db.users[k].username != username
  {
    FirstUser(db.users, UsernameOf, username)
  }

  /** A user inserted with an address no other user has is the one found by that address. */
  lemma FindInsertedByEmail(db: Db, u: User)
    requires FindUserByEmail(db, u.email).None?
    ensures FindUserByEmail(SaveUser(db, u.(id := 0)).0, u.email) == Some(u.(id := db.lastUserId + 1))
  {
    FirstUserAppended(db.users, EmailOf, u.(id := db.lastUserId + 1));
  }

  /** `UserRepository::usernameExists($username, $excludeUserId)`. */
  predicate UsernameTaken(db: Db, username: string, exclude: Option<int>) {
    exists k :: 0 <= k < |db.users| && db.users[k].username == username
                && (exclude.None? || db.users[k].id != exclude.value)
  }

  /** `UserRepository::emailExists($email, $excludeUserId)`. */
  predicate EmailTaken(db: Db, email: string, exclude: Option<int>) {
    exists k :: 0 <= k < |db.users| && db.users[k].email == email
                && (exclude.None? || db.users[k].id != exclude.value)
  }

  /**
    * `UserRepository::save`: id 0 inserts a row under the next id; any other id
    * overwrites that row's columns except `created_at` and reads it back.
    */
  function SaveUser(db: Db, u: User): (r: (Db, Option<User>))
    ensures u.id == 0 ==> r.1 == Some(u.(id := db.lastUserId + 1))
    ensures u.id != 0 ==> (r.1.Some? <==> UserExists(db, u.id))
    ensures u.id != 0 && r.1.Some? ==> r.1.value == u.(createdAt := FindUser(db, u.id).value.createdAt)
    ensures r.1.None? ==> r.0 == db
    ensures r.0.accommodations == db.accommodations && r.0.bookmarks == db.bookmarks
  {
    if u.id == 0 then
      var row := u.(id := db.lastUserId + 1);
      (db.(users := db.users + [row], lastUserId := row.id), Some(row))
    else match Locate(db.users, UserKey, u.id)
      case None => (db, None)
      case Some(k) =>
        var row := u.(createdAt := db.users[k].createdAt);
        (db.(users := db.users[k := row]), Some(row))
  }

  /** Saving keeps the store's integrity, stores the returned row, and touches no other row. */
  lemma SaveUserEffect(db: Db, u: User, other: int)
    requires Good(db)
    ensures Good(SaveUser(db, u).0)
    ensures SaveUser(db, u).1.Some? ==> FindUser(SaveUser(db, u).0, SaveUser(db, u).1.value.id) == SaveUser(db, u).1
    ensures SaveUser(db, u).1.Some? && other != SaveUser(db, u).1.value.id ==>
      FindUser(SaveUser(db, u).0, other) == FindUser(db, other)
    ensures u.id == 0 ==> !UserExists(db, SaveUser(db, u).1.value.id)
  {
    if u.id == 0 {
      var row := u.(id := db.lastUserId + 1);
      AppendKeepsKeys(db.users, UserKey, row, other);
      assert SaveUser(db, u).0.users == db.users + [row];
    } else {
      match Locate(db.users, UserKey, u.id)
      case None =>
      case Some(k) =>
        var row := u.(createdAt := db.users[k].createdAt);
        ReplaceKeepsKeys(db.users, UserKey, k, row, other);
        assert SaveUser(db, u).0.users == db.users[k := row];
    }
  }

  /** `UserRepository::delete`: removes the row; true when there was one. */
  function DeleteUser(db: Db, id: int): (r: (Db, bool))
    ensures r.1 <==> UserExists(db, id)
    ensures !r.1 ==> r.0 == db
    ensures r.0.accommodations == db.accommodations && r.0.bookmarks == db.bookmarks
  {
    match Locate(db.users, UserKey, id)
    case None => (db, false)
    case Some(k) => (db.(users := RemoveAt(db.users, k)), true)
  }

  /** After a delete the user is gone and every other user is where they were. */
  lemma DeleteUserEffect(db: Db, id: int, other: int)
    requires Good(db)
    ensures Good(DeleteUser(db, id).0)
    ensures !UserExists(DeleteUser(db, id).0, id)
    ensures other != id ==> FindUser(DeleteUser(db, id).0, other) == FindUser(db, other)
  {
    DeleteUserGood(db, id);
    DeleteUserLookups(db, id, other);
  }

  /** Deleting a user keeps the store's integrity. */
  lemma DeleteUserGood(db: Db, id: int)
    requires Good(db)
    ensures Good(DeleteUser(db, id).0)
  {
    match Locate(db.users, UserKey, id)
    case None =>
    case Some(k) =>
      RemoveKeepsKeys(db.users, UserKey, k, id);
  }

  /** After a delete the user is gone and every other user is found as before. */
  lemma DeleteUserLookups(db: Db, id: int, other: int)
    requires Good(db)
    ensures !UserExists(DeleteUser(db, id).0, id)
    ensures other != id ==> FindUser(DeleteUser(db, id).0, other) == FindUser(db, other)
  {
    match Locate(db.users, UserKey, id)
    case None =>
    case Some(k) =>
      RemoveKeepsKeys(db.users, UserKey, k, other);
  }

  // ---------------------------------------------------------------- bookmarks

  /** `UserRepository::getUserAccommodations`: the accommodations the user bookmarked. */
  function UserAccommodations(db: Db, userId: int): (r: seq<Accommodation>)
    ensures forall i :: 0 <= i < |r| ==> r[i] in db.accommodations && (userId, r[i].id) in db.bookmarks
    ensures forall a :: a in db.accommodations && (userId, a.id) in db.bookmarks ==> a in r
  {
    Where(db.accommodations, (a: Accommodation) => (userId, a.id) in db.bookmarks)
  }

  /** `UserRepository::hasUserAccommodation`. */
  predicate HasBookmark(db: Db, userId: int, accommodationId: int) {
    (userId, accommodationId) in db.bookmarks
  }

  /** `UserRepository::addUserAccommodation`: a duplicate pair is refused with false. */
  function AddBookmark(db: Db, userId: int, accommodationId: int): (r: (Db, bool))
    ensures r.1 <==> !HasBookmark(db, userId, accommodationId)
    ensures r.0.bookmarks == db.bookmarks + {(userId, accommodationId)}
    ensures r.0.users == db.users && r.0.accommodations == db.accommodations
  {
    if (userId, accommodationId) in db.bookmarks then (db, false)
    else (db.(bookmarks := db.bookmarks + {(userId, accommodationId)}), true)
  }

  /** `UserRepository::removeUserAccommodation`: true when a pair was deleted. */
  function RemoveBookmark(db: Db, userId: int, accommodationId: int): (r: (Db, bool))
    ensures r.1 <==> HasBookmark(db, userId, accommodationId)
    ensures r.0.bookmarks == db.bookmarks - {(userId, accommodationId)}
    ensures r.0.users == db.users && r.0.accommodations == db.accommodations
  {
    (db.(bookmarks := db.bookmarks - {(userId, accommodationId)}), (userId, accommodationId) in db.bookmarks)
  }

  /** Adding then removing a new pair gives the relation back. */
  lemma AddThenRemoveBookmark(db: Db, userId: int, accommodationId: int)
    requires !HasBookmark(db, userId, accommodationId)
    ensures RemoveBookmark(AddBookmark(db, userId, accommodationId).0, userId, accommodationId).0 == db
  {
  }
}

=== FILE: tables.dfy ===
/**
  * Rows of a table keyed by an integer id, as the repositories see them: lookup of
  * the first row with an id, replacement, removal and filtering.
  */
module Tables {
  import opened Wrappers

  /** No two rows share a key. */
  predicate UniqueKeys<T>(rows: seq<T>, key: T -> int) {
    forall i, j :: 0 <= i < j < |rows| ==> key(rows[i]) != key(rows[j])
  }

  /** The position of the first row whose key is `id`. */
  function Locate<T>(rows: seq<T>, key: T -> int, id: int): (r: Option<nat>)
    ensures r.Some? ==> r.value < |rows| && key(rows[r.value]) == id
    ensures r.Some? ==> forall k :: 0 <= k < r.value ==> key(rows[k]) != id
    ensures r.None? <==> forall k :: 0 <= k < |rows| ==> key(rows[k]) != id
  {
    if rows == [] then None
    else if key(rows[0]) == id then Some(0)
    else match Locate(rows[1..], key, id)
      case None => None
      case Some(k) => Some(k + 1)
  }

  /** `SELECT * ... WHERE id = :id`: the row with that key, if any. */
  function Lookup<T>(rows: seq<T>, key: T -> int, id: int): (r: Option<T>)
    ensures r.None? <==> forall k :: 0 <= k < |rows| ==> key(rows[k]) != id
    ensures r.Some? ==> r.value in rows && key(r.value) == id
  {
    match Locate(rows, key, id)
    case None => None
    case Some(k) => Some(rows[k])
  }

  /** With unique keys, the row found at a position is the one looked up by its key. */
  lemma LookupAt<T>(rows: seq<T>, key: T -> int, k: nat)
    requires UniqueKeys(rows, key) && k < |rows|
    ensures Lookup(rows, key, key(rows[k])) == Some(rows[k])
  {
  }

  /** The rows without the one at position `k`, the others in their order. */
  function RemoveAt<T>(rows: seq<T>, k: nat): (r: seq<T>)
    requires k < |rows|
    ensures |r| == |rows| - 1
    ensures forall i :: 0 <= i < k ==> r[i] == rows[i]
    ensures forall i :: k <= i < |r| ==> r[i] == rows[i + 1]
  {
    rows[..k] + rows[k + 1..]
  }

  /** Replacing a row by one with the same key keeps the keys unique and moves no other key. */
  lemma ReplaceKeepsKeys<T>(rows: seq<T>, key: T -> int, k: nat, x: T, id: int)
    requires UniqueKeys(rows, key) && k < |rows| && key(x) == key(rows[k])
    ensures UniqueKeys(rows[k := x], key)
    ensures Lookup(rows[k := x], key, key(x)) == Some(x)
    ensures id != key(x) ==> Lookup(rows[k := x], key, id) == Lookup(rows, key, id)
  {
    var rows' := rows[k := x];
    assert Lookup(rows', key, key(x)) == Some(x) by { LookupAt(rows', key, k); }
    if id != key(x) {
      match Locate(rows, key, id)
      case None =>
      case Some(j) =>
        assert rows'[j] == rows[j];
        LookupAt(rows', key, j);
        LookupAt(rows, key, j);
    }
  }

  /** Appending a row with a fresh key keeps the keys unique and moves no other key. */
  lemma AppendKeepsKeys<T>(rows: seq<T>, key: T -> int, x: T, id: int)
    requires UniqueKeys(rows, key) && forall k :: 0 <= k < |rows| ==> key(rows[k]) != key(x)
    ensures UniqueKeys(rows + [x], key)
    ensures Lookup(rows + [x], key, key(x)) == Some(x)
    ensures id != key(x) ==> Lookup(rows + [x], key, id) == Lookup(rows, key, id)
  {
    var rows' := rows + [x];
    assert Lookup(rows', key, key(x)) == Some(x) by { LookupAt(rows', key, |rows|); }
    if id != key(x) {
      match Locate(rows, key, id)
      case None =>
        assert forall k :: 0 <= k < |rows'| ==> key(rows'[k]) != id by {
          forall k | 0 <= k < |rows'| ensures key(rows'[k]) != id {
            if k < |rows| { assert rows'[k] == rows[k]; }
          }
        }
      case Some(j) =>
        assert rows'[j] == rows[j];
        LookupAt(rows', key, j);
        LookupAt(rows, key, j);
    }
  }

  /** Removing the row with a key leaves the keys unique, that key absent, the others in place. */
  lemma RemoveKeepsKeys<T>(rows: seq<T>, key: T -> int, k: nat, id: int)
    requires UniqueKeys(rows, key) && k < |rows|
    ensures UniqueKeys(RemoveAt(rows, k), key)
    ensures Lookup(RemoveAt(rows, k), key, key(rows[k])).None?
    ensures id != key(rows[k]) ==> Lookup(RemoveAt(rows, k), key, id) == Lookup(rows, key, id)
  {
    var rows' := RemoveAt(rows, k);
    forall i, j | 0 <= i < j < |rows'| ensures key(rows'[i]) != key(rows'[j]) {
      var i0 := if i < k then i else i + 1;
      var j0 := if j < k then j else j + 1;
      assert rows'[i] == rows[i0] && rows'[j] == rows[j0];
    }
    forall i | 0 <= i < |rows'| ensures key(rows'[i]) != key(rows[k]) {
      if i < k { assert rows'[i] == rows[i]; } else { assert rows'[i] == rows[i + 1]; }
    }
    if id != key(rows[k]) {
      match Locate(rows, key, id)
      case None =>
        forall i | 0 <= i < |rows'| ensures key(rows'[i]) != id {
          if i < k { assert rows'[i] == rows[i]; } else { assert rows'[i] == rows[i + 1]; }
        }
      case Some(j) =>
        var j' := if j < k then j else j - 1;
        assert rows'[j'] == rows[j];
        LookupAt(rows', key, j');
        LookupAt(rows, key, j);
    }
  }

  /** The rows a `WHERE` clause keeps, in table order. */
  function Where<T>(rows: seq<T>, keep: T -> bool): (r: seq<T>)
    ensures |r| <= |rows|
    ensures forall i :: 0 <= i < |r| ==> r[i] in rows && keep(r[i])
    ensures forall i :: 0 <= i < |rows| && keep(rows[i]) ==> rows[i] in r
  {
    if rows == [] then []
    else (if keep(rows[0]) then [rows[0]] else []) + Where(rows[1..], keep)
  }

  /** `LIMIT :limit OFFSET :offset`. */
  function Page<T>(rows: seq<T>, limit: nat, offset: nat): (r: seq<T>)
    ensures |r| <= limit
    ensures forall i :: 0 <= i < |r| ==> offset + i < |rows| && r[i] == rows[offset + i]
    ensures offset + limit <= |rows| ==> |r| == limit
    ensures offset >= |rows| ==> r == []
    ensures |r| == if offset >= |rows| then 0 else if offset + limit <= |rows| then limit else |rows| - offset
  {
    var start := if offset < |rows| then offset else |rows|;
    var stop := if offset + limit < |rows| then offset + limit else |rows|;
    rows[start..stop]
  }
}

=== FILE: user.dfy ===
/** The `User` entity: its validators, its constructors and its mutators. */
module Users {
  import opened Wrappers
  import opened PhpText
  import opened PhpValues
  import opened UserRoles

  /** A user record. Timestamps are ticks of an abstract clock. */
  datatype User = User(
    id: int,
    username: string,
    email: string,
    passwordHash: string,
    role: Role,
    createdAt: int,
    updatedAt: int)

  // ---------------------------------------------------------------- validators

  /** A byte of `[a-zA-Z0-9_-]`. */
  predicate UsernameChar(c: char) {
    IsAlnum(c) || c == '_' || c == '-'
  }

  /**
    * `preg_match('/^[a-zA-Z0-9_-]+$/', $u)`. Without the `D` modifier PCRE's `$` also
    * matches just before a final line feed, so one trailing "\n" is let through.
    */
  predicate UsernameCharset(u: string) {
    || (u != [] && forall i :: 0 <= i < |u| ==> UsernameChar(u[i]))
    || (|u| >= 2 && u[|u| - 1] == '\n' && forall i :: 0 <= i < |u| - 1 ==> UsernameChar(u[i]))
  }

  /** What a username must be: 3 to 50 bytes that the charset pattern matches. */
  predicate GoodUsername(u: string) {
    3 <= |u| <= 50 && UsernameCharset(u)
  }

  /** A good username starts with a byte `trim` keeps and keeps at least two bytes, so it is never blank. */
  lemma GoodUsernameNotBlank(u: string)
    ensures GoodUsername(u) ==> !Blank(u)
  {
    if GoodUsername(u) {
      assert UsernameChar(u[0]) && UsernameChar(u[|u| - 2]);
      if u[|u| - 1] == '\n' {
        var v := u[..|u| - 1];
        assert TrailingTrim(v) == 0;
        assert TrailingTrim(u) == 1;
        assert LeadingTrim(u) == 0;
        assert Trim(u) == v;
      } else {
        assert UsernameChar(u[|u| - 1]);
        UntrimmableNotBlank(u);
      }
    }
  }

  /** The pattern's `$` lets a username with one final line feed through: "abc\n" is accepted. */
  lemma TrailingLineFeedAccepted()
    ensures GoodUsername("abc\n")
    ensures !GoodUsername("abc\n\n") && !GoodUsername("ab\nc")
  {
    assert "abc\n"[3] == '\n';
    assert !UsernameChar("abc\n\n"[3]);
    assert !UsernameChar("ab\nc"[2]);
  }

  /** On a trimmed text the line-feed allowance never applies: a good trimmed username is all charset bytes. */
  lemma TrimmedGoodUsername(u: string)
    requires GoodUsername(u) && Trim(u) == u
    ensures forall i :: 0 <= i < |u| ==> UsernameChar(u[i])
  {
    assert LeadingTrim(u) == 0;
    assert TrailingTrim(u) == 0;
    assert !IsTrimChar(u[|u| - 1]);
  }

  /**
    * `validateUsername`: the rules in source order, the first failure thrown. Its
    * blank test is subsumed by the others: it accepts exactly the good usernames.
    */
  function ValidateUsername(u: string): (r: Outcome<string>)
    ensures r.Pass? <==> GoodUsername(u)
    ensures Blank(u) ==> r == Fail("Username cannot be empty")
    ensures !Blank(u) && |u| < 3 ==> r == Fail("Username must be at least 3 characters long")
    ensures !Blank(u) && |u| > 50 ==> r == Fail("Username cannot exceed 50 characters")
  {
    GoodUsernameNotBlank(u);
    if Blank(u) then Fail("Username cannot be empty")
    else if |u| < 3 then Fail("Username must be at least 3 characters long")
    else if |u| > 50 then Fail("Username cannot exceed 50 characters")
    else if !UsernameCharset(u) then Fail("Username can only contain letters, numbers, underscores, and hyphens")
    else Pass
  }

  /** `validateEmail`: non-blank, accepted by `filter_var`, at most 100 bytes, checked in that order. */
  function ValidateEmail(e: string, b: Builtins): (r: Outcome<string>)
    ensures r.Pass? <==> !Blank(e) && b.isEmail(e) && |e| <= 100
    ensures Blank(e) ==> r == Fail("Email cannot be empty")
    ensures !Blank(e) && !b.isEmail(e) ==> r == Fail("Invalid email format")
    ensures !Blank(e) && b.isEmail(e) && |e| > 100 ==> r == Fail("Email cannot exceed 100 characters")
  {
    if Blank(e) then Fail("Email cannot be empty")
    else if !b.isEmail(e) then Fail("Invalid email format")
    else if |e| > 100 then Fail("Email cannot exceed 100 characters")
    else Pass
  }

  /** `validatePasswordHash`: non-blank and at least 60 bytes, as a bcrypt digest is. */
  function ValidatePasswordHash(h: string): (r: Outcome<string>)
    ensures r.Pass? <==> !Blank(h) && |h| >= 60
    ensures Blank(h) ==> r == Fail("Password hash cannot be empty")
    ensures !Blank(h) && |h| < 60 ==> r == Fail("Password hash appears to be invalid (too short)")
  {
    if Blank(h) then Fail("Password hash cannot be empty")
    else if |h| < 60 then Fail("Password hash appears to be invalid (too short)")
    else Pass
  }

  /** A hash of 60 bytes with no blank byte passes, whatever its content. */
  lemma LongHashAccepted(h: string)
    requires |h| >= 60 && forall i :: 0 <= i < |h| ==> !IsTrimChar(h[i])
    ensures ValidatePasswordHash(h).Pass?
  {
    UntrimmableNotBlank(h);
  }

  /** The entity invariant the constructor establishes. */
  predicate Valid(u: User, b: Builtins) {
    && ValidateUsername(u.username).Pass?
    && ValidateEmail(u.email, b).Pass?
    && ValidatePasswordHash(u.passwordHash).Pass?
  }

  // ---------------------------------------------------------------- construction

  /** `new User(...)`: the three validators run in order; the first failure is thrown. */
  function New(id: int, username: string, email: string, hash: string, role: Role,
               createdAt: int, updatedAt: int, b: Builtins): (r: Result<User, string>)
    ensures r.Ok? <==> GoodUsername(username) && ValidateEmail(email, b).Pass? && ValidatePasswordHash(hash).Pass?
    ensures r.Ok? ==> r.value == User(id, username, email, hash, role, createdAt, updatedAt) && Valid(r.value, b)
    ensures ValidateUsername(username).Fail? ==> r == Err(ValidateUsername(username).error)
    ensures ValidateUsername(username).Pass? && ValidateEmail(email, b).Fail? ==> r == Err(ValidateEmail(email, b).error)
  {
    match ValidateUsername(username)
    case Fail(m) => Err(m)
    case Pass =>
      match ValidateEmail(email, b)
      case Fail(m) => Err(m)
      case Pass =>
        match ValidatePasswordHash(hash)
        case Fail(m) => Err(m)
        case Pass => Ok(User(id, username, email, hash, role, createdAt, updatedAt))
  }

  /** `User::create`: an unsaved user (id 0), default role USER, both timestamps `now`. */
  function Create(username: string, email: string, hash: string, role: Option<Role>, now: int, b: Builtins)
    : (r: Result<User, string>)
    ensures r.Ok? ==> r.value.id == 0 && r.value.createdAt == r.value.updatedAt == now
    ensures r.Ok? ==> r.value.role == (if role.Some? then role.value else RoleUser)
    ensures r.Ok? ==> r.value.username == username && r.value.email == email && r.value.passwordHash == hash
    ensures r.Ok? <==> GoodUsername(username) && ValidateEmail(email, b).Pass? && ValidatePasswordHash(hash).Pass?
  {
    New(0, username, email, hash, role.GetOr(Default()), now, now, b)
  }

  // ---------------------------------------------------------------- mutators

  /**
    * `updateInfo($username, $email)`: a null argument leaves its field alone; a given
    * one is validated then assigned, username first; `updatedAt` is refreshed last.
    */
  function UpdateInfo(u: User, username: Option<string>, email: Option<string>, now: int, b: Builtins)
    : (r: Mutation<User>)
    ensures r.Done? ==> r.value == u.(username := username.GetOr(u.username),
                                      email := email.GetOr(u.email), updatedAt := now)
    ensures r.Done? <==> (username.None? || GoodUsername(username.value))
                         && (email.None? || ValidateEmail(email.value, b).Pass?)
    ensures r.Threw? && username.Some? && !GoodUsername(username.value) ==> r.state == u
  {
    var afterName :=
      if username.None? then Done(u)
      else match ValidateUsername(username.value)
        case Fail(m) => Threw(u, m)
        case Pass => Done(u.(username := username.value));
    match afterName
    case Threw(s, m) => Threw(s, m)
    case Done(u1) =>
      var afterEmail :=
        if email.None? then Done(u1)
        else match ValidateEmail(email.value, b)
          case Fail(m) => Threw(u1, m)
          case Pass => Done(u1.(email := email.value));
      match afterEmail
      case Threw(s, m) => Threw(s, m)
      case Done(u2) => Done(u2.(updatedAt := now))
  }

  /** `updatePassword($hash)`: validates the digest, then replaces it and refreshes `updatedAt`. */
  function UpdatePassword(u: User, hash: string, now: int): (r: Result<User, string>)
    ensures r.Ok? <==> ValidatePasswordHash(hash).Pass?
    ensures r.Ok? ==> r.value == u.(passwordHash := hash, updatedAt := now)
    ensures r.Err? ==> r.error == ValidatePasswordHash(hash).error
  {
    match ValidatePasswordHash(hash)
    case Fail(m) => Err(m)
    case Pass => Ok(u.(passwordHash := hash, updatedAt := now))
  }

  /** `changeRole($role)`. */
  function ChangeRole(u: User, role: Role, now: int): (r: User)
    ensures r.role == role && r.updatedAt == now
    ensures r.(role := u.role, updatedAt := u.updatedAt) == u
  {
    u.(role := role, updatedAt := now)
  }

  /** The mutators keep the entity invariant the constructor established. */
  lemma MutatorsPreserveValid(u: User, username: Option<string>, email: Option<string>,
                              hash: string, role: Role, now: int, b: Builtins)
    requires Valid(u, b)
    ensures UpdateInfo(u, username, email, now, b).Done? ==> Valid(UpdateInfo(u, username, email, now, b).value, b)
    ensures UpdatePassword(u, hash, now).Ok? ==> Valid(UpdatePassword(u, hash, now).value, b)
    ensures Valid(ChangeRole(u, role, now), b)
  {
  }

  /** The fields `toArray` always exposes, in the order it writes them. */
  function PublicFields(u: User): seq<(string, Value)> {
    [("id", Int(u.id)), ("username", Str(u.username)), ("email", Str(u.email)),
     ("role", Str(RoleValue(u.role))), ("created_at", Int(u.createdAt)),
     ("updated_at", Int(u.updatedAt))]
  }

  /** `toArray($includePasswordHash)`: the public fields, plus the digest only on request. */
  function ToArray(u: User, includeHash: bool): (r: Value)
    ensures Field(r, "password_hash").Some? <==> includeHash
  {
    var all := PublicFields(u) + if includeHash then [("password_hash", Str(u.passwordHash))] else [];
    FieldPresence(all, "password_hash");
    assert includeHash ==> all[6].0 == "password_hash";
    Obj(all)
  }

  /** Whatever the flag, the array carries the user's identity, name, address and role. */
  lemma ToArrayPublic(u: User, includeHash: bool)
    ensures Field(ToArray(u, includeHash), "id") == Some(Int(u.id))
    ensures Field(ToArray(u, includeHash), "username") == Some(Str(u.username))
    ensures Field(ToArray(u, includeHash), "email") == Some(Str(u.email))
    ensures Field(ToArray(u, includeHash), "role") == Some(Str(RoleValue(u.role)))
  {
    var tail := if includeHash then [("password_hash", Str(u.passwordHash))] else [];
    PublicFieldsFirst(u, tail);
  }

  lemma PublicFieldsFirst(u: User, tail: seq<(string, Value)>)
    ensures Field(Obj(PublicFields(u) + tail), "id") == Some(Int(u.id))
    ensures Field(Obj(PublicFields(u) + tail), "username") == Some(Str(u.username))
    ensures Field(Obj(PublicFields(u) + tail), "email") == Some(Str(u.email))
    ensures Field(Obj(PublicFields(u) + tail), "role") == Some(Str(RoleValue(u.role)))
  {
    var all := PublicFields(u) + tail;
    assert Field(Obj(all), "id") == Some(Int(u.id)) by { FieldOfObj(all, "id", 0); }
    assert Field(Obj(all), "username") == Some(Str(u.username)) by { FieldOfObj(all, "username", 1); }
    assert Field(Obj(all), "email") == Some(Str(u.email)) by { FieldOfObj(all, "email", 2); }
    assert Field(Obj(all), "role") == Some(Str(RoleValue(u.role))) by { FieldOfObj(all, "role", 3); }
  }
}

=== FILE: user_controller.dfy ===
/**
  * `UserController`: the bookmark endpoints under `/api/users/accommodations`. Each
  * first asks for the identity the authentication middleware published, then reads
  * its input and calls the user service, mapping its `InvalidArgumentException`s to
  * 400 replies. The file runs in PHP's coercive typing mode.
  */
module UserControllers {
  import opened Wrappers
  import opened PhpValues
  import opened Store
  import opened Http
  import Accommodations
  import UserServices
  import AuthMiddleware

  /** The reply to a request without a published identity. */
  const Anonymous := Failure(401, "AUTHENTICATION_REQUIRED", "Authentication required")

  /** `validateAddAccommodationInput`: required (PHP's `empty`), then numeric and positive once cast. */
  function AddInputError(data: Value, b: Builtins): (r: Option<string>)
    ensures r.None? <==> !EmptyField(data, "accommodation_id") && IsNumeric(At(data, "accommodation_id"), b)
                         && CastInt(At(data, "accommodation_id"), b) > 0
    ensures EmptyField(data, "accommodation_id") ==> r == Some("Accommodation ID is required")
    ensures !EmptyField(data, "accommodation_id") && r.Some? ==> r == Some("Accommodation ID must be a positive integer")
  {
    var id := At(data, "accommodation_id");
    if EmptyField(data, "accommodation_id") then Some("Accommodation ID is required")
    else if !IsNumeric(id, b) || CastInt(id, b) <= 0 then Some("Accommodation ID must be a positive integer")
    else None
  }

  /** `['user_id' => $userId, 'accommodation_id' => $accommodationId]`. */
  function Pair(userId: int, accommodationId: int): (v: Value)
    ensures Field(v, "user_id") == Some(Int(userId))
    ensures Field(v, "accommodation_id") == Some(Int(accommodationId))
  {
    var fields := [("user_id", Int(userId)), ("accommodation_id", Int(accommodationId))];
    FieldOfObj(fields, "user_id", 0);
    FieldOfObj(fields, "accommodation_id", 1);
    Obj(fields)
  }

  /** `['success' => true, 'message' => $message, 'data' => $data]`. */
  function Success(status: int, message: string, data: Value): (r: Reply)
    ensures r.status == status && Field(r.data, "data") == Some(data)
  {
    var fields := [("success", Bool(true)), ("message", Str(message)), ("data", data)];
    FieldOfObj(fields, "data", 2);
    Reply(status, Obj(fields))
  }

  // ---------------------------------------------------------------------------
  // Adding a bookmark
  // ---------------------------------------------------------------------------

  /**
    * `addAccommodation()` once the identity and the body are known: the input check, then
    * the service for the identity's user id and the id cast to an integer.
    */
  function AddFor(db: Db, user: AuthMiddleware.Identity, data: Value, b: Builtins): (r: (Db, Reply))
    ensures r.1.status == 201 || r.1.status == 400
    ensures AddInputError(data, b).Some? ==>
      r == (db, Failure(400, "VALIDATION_ERROR", ValidationMessage([("accommodation_id", AddInputError(data, b).value)])))
    ensures r.1.status == 201 <==>
      (AddInputError(data, b).None? && UserServices.AddBookmarkFor(db, user.id, CastInt(At(data, "accommodation_id"), b)).Ok?)
    ensures r.1.status == 201 ==>
      (r.0 == UserServices.AddBookmarkFor(db, user.id, CastInt(At(data, "accommodation_id"), b)).value
       && HasBookmark(r.0, user.id, CastInt(At(data, "accommodation_id"), b))
       && Field(r.1.data, "data") == Some(Pair(user.id, CastInt(At(data, "accommodation_id"), b))))
    ensures r.1.status != 201 ==> r.0 == db
    ensures AddInputError(data, b).None? && UserServices.AddBookmarkFor(db, user.id, CastInt(At(data, "accommodation_id"), b)).Err? ==>
      r == (db, Failure(400, "VALIDATION_ERROR", UserServices.AddBookmarkFor(db, user.id, CastInt(At(data, "accommodation_id"), b)).error))
  {
    match AddInputError(data, b)
    case Some(m) => (db, Failure(400, "VALIDATION_ERROR", ValidationMessage([("accommodation_id", m)])))
    case None =>
      var id := CastInt(At(data, "accommodation_id"), b);
      match UserServices.AddBookmarkFor(db, user.id, id)
      case Err(m) => (db, Failure(400, "VALIDATION_ERROR", m))
      case Ok(db') => (db', Success(201, "Accommodation added to user account successfully", Pair(user.id, id)))
  }

  /** `addAccommodation()`: no identity is a 401 before the body is read. */
  function AddAccommodation(db: Db, user: Option<AuthMiddleware.Identity>, req: Request, b: Builtins)
    : (r: Result<(Db, Reply), Thrown>)
    ensures user.None? ==> r == Ok((db, Anonymous))
    ensures user.Some? && RequestBody(req).Err? ==> r.Err? && r.error.PhpError?
    ensures user.Some? && RequestBody(req).Ok? ==> r == Ok(AddFor(db, user.value, RequestBody(req).value, b))
  {
    match user
    case None => Ok((db, Anonymous))
    case Some(u) =>
      match RequestBody(req)
      case Err(e) => Err(e)
      case Ok(data) => Ok(AddFor(db, u, data, b))
  }

  // ---------------------------------------------------------------------------
  // Removing a bookmark
  // ---------------------------------------------------------------------------

  /** `removeAccommodation($params)`: identity, a non-zero path id, then the service. */
  function RemoveAccommodation(db: Db, user: Option<AuthMiddleware.Identity>, params: Value, b: Builtins): (r: (Db, Reply))
    ensures user.None? ==> r == (db, Anonymous)
    ensures user.Some? && PathId(params, "accommodation_id", b) == 0 ==>
      r == (db, Failure(400, "VALIDATION_ERROR", "Accommodation ID is required"))
    ensures r.1.status == 200 <==>
      (user.Some? && PathId(params, "accommodation_id", b) != 0 && UserServices.RemoveBookmarkFor(db, user.value.id, PathId(params, "accommodation_id", b)).Ok?)
    ensures r.1.status == 200 ==>
      (r.0 == UserServices.RemoveBookmarkFor(db, user.value.id, PathId(params, "accommodation_id", b)).value
       && !HasBookmark(r.0, user.value.id, PathId(params, "accommodation_id", b)))
    ensures r.1.status != 200 ==> r.0 == db
  {
    match user
    case None => (db, Anonymous)
    case Some(u) =>
      var id := PathId(params, "accommodation_id", b);
      if id == 0 then (db, Failure(400, "VALIDATION_ERROR", "Accommodation ID is required"))
      else match UserServices.RemoveBookmarkFor(db, u.id, id)
        case Err(m) => (db, Failure(400, "VALIDATION_ERROR", m))
        case Ok(db') => (db', Success(200, "Accommodation removed from user account successfully", Pair(u.id, id)))
  }

  // ---------------------------------------------------------------------------
  // Listing bookmarks
  // ---------------------------------------------------------------------------

  /** `['user_id' => $userId, 'accommodations' => $accommodations]`. */
  function Listing(userId: int, rows: seq<Value>): (v: Value)
    ensures Field(v, "accommodations") == Some(List(rows))
  {
    var fields := [("user_id", Int(userId)), ("accommodations", List(rows))];
    FieldOfObj(fields, "accommodations", 1);
    Obj(fields)
  }

  /** `getUserAccommodations()`: the identity's bookmarked accommodations. */
  function GetUserAccommodations(db: Db, user: Option<AuthMiddleware.Identity>): (r: Reply)
    ensures user.None? ==> r == Anonymous
    ensures r.data.Arr?
    ensures r.status == 200 <==> user.Some? && UserExists(db, user.value.id)
    ensures user.Some? && !UserExists(db, user.value.id) ==> r == Failure(400, "VALIDATION_ERROR", "User not found")
    ensures r.status == 200 ==>
      Field(r.data, "data") == Some(Listing(user.value.id, Accommodations.ToArrays(UserServices.BookmarksOf(db, user.value.id).value)))
  {
    match user
    case None => Anonymous
    case Some(u) =>
      match UserServices.BookmarksOf(db, u.id)
      case Err(m) => Failure(400, "VALIDATION_ERROR", m)
      case Ok(list) => Success(200, "User accommodations retrieved successfully", Listing(u.id, Accommodations.ToArrays(list)))
  }

  // ---------------------------------------------------------------------------
  // The three endpoints together
  // ---------------------------------------------------------------------------

  /** An added bookmark is listed, and removing it by the same id restores the relation. */
  lemma AddListRemove(db: Db, user: AuthMiddleware.Identity, data: Value, params: Value, b: Builtins)
    requires AddFor(db, user, data, b).1.status == 201
    requires PathId(params, "accommodation_id", b) == CastInt(At(data, "accommodation_id"), b)
    ensures var db1 := AddFor(db, user, data, b).0;
      var id := PathId(params, "accommodation_id", b);
      && GetUserAccommodations(db1, Some(user)).status == 200
      && FindAccommodation(db, id).value in UserServices.BookmarksOf(db1, user.id).value
      && RemoveAccommodation(db1, Some(user), params, b).1.status == 200
      && RemoveAccommodation(db1, Some(user), params, b).0 == db
  {
    var id := PathId(params, "accommodation_id", b);
    var db1 := AddFor(db, user, data, b).0;
    assert db1 == UserServices.AddBookmarkFor(db, user.id, id).value;
    UserServices.BookmarkRoundTrip(db, user.id, id);
    assert FindAccommodation(db1, id) == FindAccommodation(db, id);
    assert id != 0 by {
      assert AddInputError(data, b).None?;
    }
  }

  /** Without an identity all three endpoints answer 401 and change nothing, whatever the input. */
  lemma AnonymousRefused(db: Db, req: Request, params: Value, b: Builtins)
    ensures AddAccommodation(db, None, req, b) == Ok((db, Anonymous))
    ensures RemoveAccommodation(db, None, params, b) == (db, Anonymous)
    ensures GetUserAccommodations(db, None) == Anonymous
    ensures Anonymous.status == 401
  {
  }
}

=== FILE: user_factory.dfy ===
/**
  * `UserFactory`: role-specific constructors that check the plain password before it is
  * hashed, and the reading of a database row into a user.
  */
module UserFactories {
  import opened Wrappers
  import opened PhpText
  import opened PhpValues
  import opened UserRoles
  import opened Users
  import opened Platform
  import opened Passwords
  import UserServices

  // ---------------------------------------------------------------- plain passwords

  /**
    * The bytes the special-character class `[!@#$%^&*()_+\-=\[\]{};':"\\|,.<>\/?]` matches,
    * written as ASCII ranges: all of `!` to `/` and `:` to `@`, then `[`, `]` to `_` and
    * `{` to `}`. Backslash, backtick and tilde are the printable symbols left out.
    */
  predicate IsSpecial(c: char) {
    ('!' <= c <= '/') || (':' <= c <= '@') || c == '[' || (']' <= c <= '_') || ('{' <= c <= '}')
  }

  predicate HasSpecial(s: string) {
    exists i :: 0 <= i < |s| && IsSpecial(s[i])
  }

  /** What `validatePlainPassword` accepts. */
  predicate PlainAcceptable(p: string) {
    !Blank(p) && 8 <= |p| <= 255 && HasUpper(p) && HasLower(p) && HasDigit(p) && HasSpecial(p)
  }

  /** `validatePlainPassword`: seven rules, the first broken one reported. */
  function ValidatePlainPassword(p: string): (r: Outcome<string>)
    ensures r.Pass? <==> PlainAcceptable(p)
    ensures Blank(p) ==> r == Fail("Password cannot be empty")
    ensures !Blank(p) && |p| < 8 ==> r == Fail("Password must be at least 8 characters long")
    ensures !Blank(p) && 8 <= |p| && |p| > 255 ==> r == Fail("Password cannot exceed 255 characters")
    ensures !Blank(p) && 8 <= |p| <= 255 && !HasUpper(p) ==> r == Fail("Password must contain at least one uppercase letter")
    ensures (!Blank(p) && 8 <= |p| <= 255 && HasUpper(p) && !HasLower(p)) ==>
      r == Fail("Password must contain at least one lowercase letter")
    ensures (!Blank(p) && 8 <= |p| <= 255 && HasUpper(p) && HasLower(p) && !HasDigit(p)) ==>
      r == Fail("Password must contain at least one digit")
    ensures (!Blank(p) && 8 <= |p| <= 255 && HasUpper(p) && HasLower(p) && HasDigit(p) && !HasSpecial(p)) ==>
      r == Fail("Password must contain at least one special character")
  {
    if Blank(p) then Fail("Password cannot be empty")
    else if |p| < 8 then Fail("Password must be at least 8 characters long")
    else if |p| > 255 then Fail("Password cannot exceed 255 characters")
    else if !HasUpper(p) then Fail("Password must contain at least one uppercase letter")
    else if !HasLower(p) then Fail("Password must contain at least one lowercase letter")
    else if !HasDigit(p) then Fail("Password must contain at least one digit")
    else if !HasSpecial(p) then Fail("Password must contain at least one special character")
    else Pass
  }

  /**
    * The factory's rules are stricter than both other password checks: what it accepts,
    * the user service accepts and the hasher's strength check finds no fault with.
    */
  lemma PlainAcceptedEverywhere(p: string)
    requires ValidatePlainPassword(p).Pass?
    ensures UserServices.ValidatePassword(p).Pass?
    ensures StrengthValid(p)
  {
    var i :| 0 <= i < |p| && IsSpecial(p[i]);
    assert !IsAlnum(p[i]);
    StrengthValidIff(p);
  }

  /** Letters, digits and backslashes alone never satisfy the special-character rule. */
  lemma BackslashesNotSpecial(p: string)
    requires forall i :: 0 <= i < |p| ==> IsAlnum(p[i]) || p[i] == '\\'
    ensures !HasSpecial(p)
  {
    forall i | 0 <= i < |p| ensures !IsSpecial(p[i]) {
    }
  }

  /**
    * A password whose only symbols are backslashes satisfies the hasher's strength check
    * but is refused here, at the last rule.
    */
  lemma BackslashOnlyRefused(p: string)
    requires !Blank(p) && 8 <= |p| <= 255 && HasUpper(p) && HasLower(p) && HasDigit(p)
    requires forall i :: 0 <= i < |p| ==> IsAlnum(p[i]) || p[i] == '\\'
    requires !IsAlnum(p[|p| - 1])
    ensures StrengthValid(p)
    ensures ValidatePlainPassword(p) == Fail("Password must contain at least one special character")
  {
    StrengthValidIff(p);
    BackslashesNotSpecial(p);
  }

  /** A witness: `Abcdefg1\` passes the strength check and fails the factory's. */
  lemma BackslashIsNotSpecial()
    ensures StrengthValid("Abcdefg1\\")
    ensures ValidatePlainPassword("Abcdefg1\\") == Fail("Password must contain at least one special character")
  {
    var p := "Abcdefg1\\";
    assert IsUpper(p[0]) && IsLower(p[1]) && IsDigit(p[7]);
    UntrimmableNotBlank(p);
    assert forall i :: 0 <= i < |p| ==> IsAlnum(p[i]) || p[i] == '\\' by {
      forall i | 0 <= i < |p| ensures IsAlnum(p[i]) || p[i] == '\\' {
        if i == 0 { assert IsUpper(p[i]); }
        else if i < 7 { assert p[i] == "bcdefg"[i - 1]; assert IsLower(p[i]); }
        else if i == 7 { assert IsDigit(p[i]); }
      }
    }
    BackslashOnlyRefused(p);
  }

  // ---------------------------------------------------------------- constructors

  /**
    * `createUserWithRole`: the plain password is checked, then hashed, then the user created.
    * The checks raise `InvalidArgumentException`s; hashing at a cost bcrypt refuses raises a
    * `ValueError`.
    */
  function CreateUserWithRole(h: Hasher, bc: Bcrypt, username: string, email: string, password: string,
                              role: Role, now: int, b: Builtins): (r: Result<User, Thrown>)
    ensures ValidatePlainPassword(password).Fail? ==> r == Err(InvalidArgument(ValidatePlainPassword(password).error))
    ensures PlainAcceptable(password) && !BcryptCost(h.cost) ==> r.Err? && r.error.PhpError?
    ensures r.Ok? <==> PlainAcceptable(password) && BcryptCost(h.cost) && GoodUsername(username)
                       && ValidateEmail(email, b).Pass? && ValidatePasswordHash(Hash(h, bc, password).value).Pass?
    ensures r.Ok? ==> r.value.role == role && r.value.id == 0 && r.value.username == username && r.value.email == email
    ensures r.Ok? ==> r.value.passwordHash == Hash(h, bc, password).value
  {
    match ValidatePlainPassword(password)
    case Fail(m) => Err(InvalidArgument(m))
    case Pass =>
      match Hash(h, bc, password)
      case Err(e) => Err(e)
      case Ok(digest) =>
        match Users.Create(username, email, digest, Some(role), now, b)
        case Err(m) => Err(InvalidArgument(m))
        case Ok(u) => Ok(u)
  }

  /** `createUser`: the user role. */
  function CreateUser(h: Hasher, bc: Bcrypt, username: string, email: string, password: string, now: int, b: Builtins)
    : (r: Result<User, Thrown>)
    ensures r.Ok? ==> r.value.role == RoleUser && IsUser(r.value.role)
    ensures r.Ok? <==> CreateUserWithRole(h, bc, username, email, password, RoleAdmin, now, b).Ok?
  {
    CreateUserWithRole(h, bc, username, email, password, RoleUser, now, b)
  }

  /** `createAdmin`: the admin role. */
  function CreateAdmin(h: Hasher, bc: Bcrypt, username: string, email: string, password: string, now: int, b: Builtins)
    : (r: Result<User, Thrown>)
    ensures r.Ok? ==> r.value.role == RoleAdmin && IsAdmin(r.value.role)
    ensures r.Ok? <==> CreateUserWithRole(h, bc, username, email, password, RoleUser, now, b).Ok?
  {
    CreateUserWithRole(h, bc, username, email, password, RoleAdmin, now, b)
  }

  /**
    * A refused password is never hashed: the outcome is the same whatever the hash
    * function would have produced.
    */
  lemma RefusedNeverHashed(h: Hasher, bc1: Bcrypt, bc2: Bcrypt, username: string, email: string,
                           password: string, role: Role, now: int, b: Builtins)
    requires !PlainAcceptable(password)
    ensures CreateUserWithRole(h, bc1, username, email, password, role, now, b)
         == CreateUserWithRole(h, bc2, username, email, password, role, now, b)
  {
  }

  /** With sound bcrypt, a created user's password verifies against the stored digest. */
  lemma CreatedPasswordVerifies(h: Hasher, bc: Bcrypt, username: string, email: string,
                                password: string, role: Role, now: int, b: Builtins)
    requires BcryptSound(bc)
    requires CreateUserWithRole(h, bc, username, email, password, role, now, b).Ok?
    ensures Verify(bc, password, CreateUserWithRole(h, bc, username, email, password, role, now, b).value.passwordHash)
  {
  }

  // ---------------------------------------------------------------- database rows

  const RequiredFields: seq<string> := ["id", "username", "email", "password_hash", "role", "created_at", "updated_at"]

  /**
    * The role column passed to `UserRole::isValid(string $role)` without strict types:
    * scalars convert to text, while null and arrays raise a TypeError.
    */
  function RoleText(v: Value, b: Builtins): (r: Result<string, Thrown>)
    ensures r.Err? <==> v.Null? || v.Arr?
    ensures r.Ok? ==> r.value == CastText(v, b)
    ensures r.Err? ==> r.error.PhpError?
  {
    if v.Null? || v.Arr? then Err(PhpError("TypeError")) else Ok(CastText(v, b))
  }

  /** `validateDatabaseData`: required keys in order, the id, the role, then the two dates. */
  function ValidateRow(data: Value, b: Builtins): (r: Outcome<Thrown>)
    ensures FirstMissing(data, RequiredFields).Some? ==>
      r == Fail(InvalidArgument("Missing required field: " + RequiredFields[FirstMissing(data, RequiredFields).value]))
    ensures (FirstMissing(data, RequiredFields).None? && (!IsNumeric(At(data, "id"), b) || CastInt(At(data, "id"), b) <= 0))
            ==> r == Fail(InvalidArgument("Invalid user ID"))
    ensures (FirstMissing(data, RequiredFields).None? && IsNumeric(At(data, "id"), b) && CastInt(At(data, "id"), b) > 0
             && RoleText(At(data, "role"), b).Ok? && !IsValid(RoleText(At(data, "role"), b).value))
            ==> r == Fail(InvalidArgument("Invalid user role: " + RoleText(At(data, "role"), b).value))
    ensures (FirstMissing(data, RequiredFields).None? && IsNumeric(At(data, "id"), b) && CastInt(At(data, "id"), b) > 0
             && RoleText(At(data, "role"), b).Err?)
            ==> r == Fail(RoleText(At(data, "role"), b).error)
    ensures (FirstMissing(data, RequiredFields).None? && IsNumeric(At(data, "id"), b) && CastInt(At(data, "id"), b) > 0
             && RoleText(At(data, "role"), b).Ok? && IsValid(RoleText(At(data, "role"), b).value)
             && ReadDate(At(data, "created_at"), b).Err?)
            ==> r == Fail(ReadDate(At(data, "created_at"), b).error)
    ensures (FirstMissing(data, RequiredFields).None? && IsNumeric(At(data, "id"), b) && CastInt(At(data, "id"), b) > 0
             && RoleText(At(data, "role"), b).Ok? && IsValid(RoleText(At(data, "role"), b).value)
             && ReadDate(At(data, "created_at"), b).Ok? && ReadDate(At(data, "updated_at"), b).Err?)
            ==> r == Fail(ReadDate(At(data, "updated_at"), b).error)
    ensures r.Pass? <==>
      && FirstMissing(data, RequiredFields).None?
      && IsNumeric(At(data, "id"), b) && CastInt(At(data, "id"), b) > 0
      && RoleText(At(data, "role"), b).Ok? && IsValid(RoleText(At(data, "role"), b).value)
      && ReadDate(At(data, "created_at"), b).Ok? && ReadDate(At(data, "updated_at"), b).Ok?
  {
    match FirstMissing(data, RequiredFields)
    case Some(k) => Fail(InvalidArgument("Missing required field: " + RequiredFields[k]))
    case None =>
      var id := At(data, "id");
      if !IsNumeric(id, b) || CastInt(id, b) <= 0 then Fail(InvalidArgument("Invalid user ID"))
      else match RoleText(At(data, "role"), b)
        case Err(e) => Fail(e)
        case Ok(role) =>
          if !IsValid(role) then Fail(InvalidArgument("Invalid user role: " + role))
          else if ReadDate(At(data, "created_at"), b).Err? then Fail(ReadDate(At(data, "created_at"), b).error)
          else if ReadDate(At(data, "updated_at"), b).Err? then Fail(ReadDate(At(data, "updated_at"), b).error)
          else Pass
  }

  /** `createFromDatabaseData`: the row checked, the role parsed, the fields cast, the user constructed. */
  function CreateFromRow(data: Value, b: Builtins): (r: Result<User, Thrown>)
    ensures ValidateRow(data, b).Fail? ==> r == Err(ValidateRow(data, b).error)
    ensures r.Ok? ==> ValidateRow(data, b).Pass? && Valid(r.value, b)
    ensures r.Ok? ==> r.value.id == CastInt(At(data, "id"), b) && r.value.id > 0
    ensures r.Ok? ==> RoleValue(r.value.role) == CastText(At(data, "role"), b)
  {
    match ValidateRow(data, b)
    case Fail(e) => Err(e)
    case Pass =>
      var role := From(RoleText(At(data, "role"), b).value).value;
      match New(CastInt(At(data, "id"), b), CastText(At(data, "username"), b), CastText(At(data, "email"), b),
                CastText(At(data, "password_hash"), b), role,
                ReadDate(At(data, "created_at"), b).value, ReadDate(At(data, "updated_at"), b).value, b)
      case Err(m) => Err(InvalidArgument(m))
      case Ok(u) => Ok(u)
  }

  /** `createMultipleFromDatabaseData`: every row in order; the first failing row decides. */
  function CreateFromRows(rows: seq<Value>, b: Builtins): (r: Result<seq<User>, Thrown>)
    ensures r.Ok? <==> forall i :: 0 <= i < |rows| ==> CreateFromRow(rows[i], b).Ok?
    ensures r.Ok? ==> |r.value| == |rows| && forall i :: 0 <= i < |rows| ==> r.value[i] == CreateFromRow(rows[i], b).value
  {
    MapAll(rows, row => CreateFromRow(row, b))
  }

  /** A row whose columns hold the fields of `u`, the timestamps as text written by `format`. */
  predicate HoldsRow(data: Value, u: User, format: int -> string) {
    && Field(data, "id") == Some(Int(u.id))
    && Field(data, "username") == Some(Str(u.username))
    && Field(data, "email") == Some(Str(u.email))
    && Field(data, "password_hash") == Some(Str(u.passwordHash))
    && Field(data, "role") == Some(Str(RoleValue(u.role)))
    && Field(data, "created_at") == Some(Str(format(u.createdAt)))
    && Field(data, "updated_at") == Some(Str(format(u.updatedAt)))
  }

  /** Such a row has every required column. */
  lemma RowComplete(data: Value, u: User, format: int -> string)
    requires HoldsRow(data, u, format)
    ensures FirstMissing(data, RequiredFields).None?
  {
    forall j | 0 <= j < |RequiredFields| ensures Field(data, RequiredFields[j]).Some? {
      if j == 0 { assert RequiredFields[j] == "id"; }
      else if j == 1 { assert RequiredFields[j] == "username"; }
      else if j == 2 { assert RequiredFields[j] == "email"; }
      else if j == 3 { assert RequiredFields[j] == "password_hash"; }
      else if j == 4 { assert RequiredFields[j] == "role"; }
      else if j == 5 { assert RequiredFields[j] == "created_at"; }
      else { assert RequiredFields[j] == "updated_at"; }
    }
  }

  /** Such a row passes the row check when its id is positive and its dates read back. */
  lemma RowAccepted(data: Value, u: User, format: int -> string, b: Builtins)
    requires HoldsRow(data, u, format) && u.id > 0
    requires b.dateTime(format(u.createdAt)) == Some(u.createdAt)
    requires b.dateTime(format(u.updatedAt)) == Some(u.updatedAt)
    ensures ValidateRow(data, b).Pass?
  {
    RowComplete(data, u, format);
    assert RoleText(At(data, "role"), b) == Ok(RoleValue(u.role));
    assert ReadDate(At(data, "created_at"), b) == Ok(u.createdAt);
    assert ReadDate(At(data, "updated_at"), b) == Ok(u.updatedAt);
  }

  /**
    * A valid saved user read back from its row is the same user, provided the timestamp
    * text reads back as the instant it was written from.
    */
  lemma RowRoundTrip(data: Value, u: User, format: int -> string, b: Builtins)
    requires HoldsRow(data, u, format) && Valid(u, b) && u.id > 0
    requires b.dateTime(format(u.createdAt)) == Some(u.createdAt)
    requires b.dateTime(format(u.updatedAt)) == Some(u.updatedAt)
    ensures CreateFromRow(data, b) == Ok(u)
  {
    RowAccepted(data, u, format, b);
    RowColumns(data, u, format, b);
    FromValue(u.role);
  }

  /** The columns of such a row, read the way the factory reads them, are the fields of `u`. */
  lemma RowColumns(data: Value, u: User, format: int -> string, b: Builtins)
    requires HoldsRow(data, u, format)
    requires b.dateTime(format(u.createdAt)) == Some(u.createdAt)
    requires b.dateTime(format(u.updatedAt)) == Some(u.updatedAt)
    ensures CastInt(At(data, "id"), b) == u.id
    ensures CastText(At(data, "username"), b) == u.username && CastText(At(data, "email"), b) == u.email
    ensures CastText(At(data, "password_hash"), b) == u.passwordHash
    ensures RoleText(At(data, "role"), b) == Ok(RoleValue(u.role))
    ensures ReadDate(At(data, "created_at"), b) == Ok(u.createdAt)
    ensures ReadDate(At(data, "updated_at"), b) == Ok(u.updatedAt)
  {
  }
}

=== FILE: user_role.dfy ===
/** The `UserRole` enumeration: the two roles and their string values. */
module UserRoles {
  import opened Wrappers

  /** The enum's cases, in declaration order. */
  datatype Role = RoleUser | RoleAdmin

  /** The backing string value of a case (`$role->value`). */
  function RoleValue(r: Role): string {
    match r
    case RoleUser => "user"
    case RoleAdmin => "admin"
  }

  /** `self::cases()`: the cases in declaration order. */
  const Cases: seq<Role> := [RoleUser, RoleAdmin]

  /** `getAllRoles()`: the case values, in declaration order. */
  function AllRoles(): (r: seq<string>)
    ensures r == ["user", "admin"]
  {
    seq(|Cases|, i requires 0 <= i < |Cases| => RoleValue(Cases[i]))
  }

  /** `isValid($role)`: strict membership in `getAllRoles()`. */
  predicate IsValid(s: string) {
    s in AllRoles()
  }

  lemma IsValidExactly(s: string)
    ensures IsValid(s) <==> s == "user" || s == "admin"
  {
  }

  /** `UserRole::from($s)`; None stands for the ValueError it raises on an unknown value. */
  function From(s: string): (r: Option<Role>)
    ensures r.Some? <==> IsValid(s)
    ensures r.Some? ==> RoleValue(r.value) == s
  {
    if s == "user" then Some(RoleUser)
    else if s == "admin" then Some(RoleAdmin)
    else None
  }

  /** Every case is recovered from its own value. */
  lemma FromValue(r: Role)
    ensures From(RoleValue(r)) == Some(r)
  {
  }

  /** `getDefault()`: the role of a newly registered account. */
  function Default(): (r: Role)
    ensures RoleValue(r) == "user"
  {
    RoleUser
  }

  predicate IsAdmin(r: Role) { r == RoleAdmin }
  predicate IsUser(r: Role) { r == RoleUser }

  /** Every role is exactly one of admin and user. */
  lemma ExactlyOneKind(r: Role)
    ensures IsAdmin(r) != IsUser(r)
    ensures IsAdmin(r) <==> RoleValue(r) == "admin"
  {
  }
}

=== FILE: user_service.dfy ===
/**
  * `UserService`: registration, profile and password changes, and the bookmark
  * relation between users and accommodations, as transitions of the store. `Err`
  * carries the message of the `InvalidArgumentException` thrown; an error leaves the
  * store as it was.
  */
module UserServices {
  import opened Wrappers
  import opened PhpText
  import opened PhpValues
  import opened UserRoles
  import opened Users
  import Accommodations
  import opened Platform
  import opened Passwords
  import opened Store

  // ---------------------------------------------------------------- validation

  /** What the service's password check accepts: 8 to 255 bytes with an upper, a lower and a digit. */
  predicate PasswordAcceptable(p: string) {
    8 <= |p| <= 255 && HasUpper(p) && HasLower(p) && HasDigit(p)
  }

  /** `validatePassword`: fail-fast, in source order; there is no special-character rule. */
  function ValidatePassword(p: string): (r: Outcome<string>)
    ensures r.Pass? <==> PasswordAcceptable(p)
    ensures IsEmpty(p) ==> r == Fail("Password is required")
    ensures !IsEmpty(p) && |p| < 8 ==> r == Fail("Password must be at least 8 characters long")
    ensures 8 <= |p| && |p| > 255 ==> r == Fail("Password cannot exceed 255 characters")
    ensures 8 <= |p| <= 255 && !HasUpper(p) ==> r == Fail("Password must contain at least one uppercase letter")
    ensures 8 <= |p| <= 255 && HasUpper(p) && !HasLower(p) ==> r == Fail("Password must contain at least one lowercase letter")
    ensures 8 <= |p| <= 255 && HasUpper(p) && HasLower(p) && !HasDigit(p) ==> r == Fail("Password must contain at least one digit")
  {
    if IsEmpty(p) then Fail("Password is required")
    else if |p| < 8 then Fail("Password must be at least 8 characters long")
    else if |p| > 255 then Fail("Password cannot exceed 255 characters")
    else if !HasUpper(p) then Fail("Password must contain at least one uppercase letter")
    else if !HasLower(p) then Fail("Password must contain at least one lowercase letter")
    else if !HasDigit(p) then Fail("Password must contain at least one digit")
    else Pass
  }

  /** Every password the hasher's strength check accepts that fits in 255 bytes passes here too. */
  lemma StrongPasswordAccepted(p: string)
    requires Strong(p) && |p| <= 255
    ensures ValidatePassword(p).Pass?
  {
  }

  /** The converse fails: the service does not ask for a special character. */
  lemma NoSpecialCharacterNeeded()
    ensures ValidatePassword("Abcdefg1").Pass?
    ensures !Strong("Abcdefg1")
  {
    var p := "Abcdefg1";
    assert IsUpper(p[0]) && IsLower(p[1]) && IsDigit(p[7]);
    forall i | 0 <= i < |p| ensures IsAlnum(p[i]) {
      assert p[i] in "Abcdefg1";
    }
  }

  /** `validateRegistrationData`: username, email, email syntax, then the password. */
  function ValidateRegistration(username: string, email: string, password: string, b: Builtins)
    : (r: Outcome<string>)
    ensures r.Pass? <==> !Blank(username) && !Blank(email) && b.isEmail(email) && PasswordAcceptable(password)
    ensures Blank(username) ==> r == Fail("Username is required")
    ensures !Blank(username) && Blank(email) ==> r == Fail("Email is required")
    ensures !Blank(username) && !Blank(email) && !b.isEmail(email) ==> r == Fail("Invalid email format")
    ensures !Blank(username) && !Blank(email) && b.isEmail(email) ==> r == ValidatePassword(password)
  {
    if Blank(username) then Fail("Username is required")
    else if Blank(email) then Fail("Email is required")
    else if !b.isEmail(email) then Fail("Invalid email format")
    else ValidatePassword(password)
  }

  // ---------------------------------------------------------------- registration

  /**
    * `registerUser(...)`: input checks, then username uniqueness, then email uniqueness,
    * then the password is hashed and the entity created and inserted.
    */
  function RegisterUser(db: Db, h: Hasher, bc: Bcrypt, username: string, email: string, password: string,
                        role: Option<Role>, now: int, b: Builtins): (r: Result<(Db, User), Thrown>)
    ensures ValidateRegistration(username, email, password, b).Fail? ==>
      r == Err(InvalidArgument(ValidateRegistration(username, email, password, b).error))
    ensures ValidateRegistration(username, email, password, b).Pass? && UsernameTaken(db, username, None) ==>
      r == Err(InvalidArgument("Username already exists"))
    ensures (ValidateRegistration(username, email, password, b).Pass? && !UsernameTaken(db, username, None)
             && EmailTaken(db, email, None)) ==> r == Err(InvalidArgument("Email already exists"))
    ensures (ValidateRegistration(username, email, password, b).Pass? && !UsernameTaken(db, username, None)
             && !EmailTaken(db, email, None) && !BcryptCost(h.cost)) ==> r.Err? && r.error.PhpError?
    ensures r.Ok? ==> ValidateRegistration(username, email, password, b).Pass? && BcryptCost(h.cost)
                      && !UsernameTaken(db, username, None) && !EmailTaken(db, email, None)
    ensures r.Ok? ==> r.value.1.id == db.lastUserId + 1 && r.value.1.username == username
                      && r.value.1.email == email && r.value.1.role == role.GetOr(RoleUser)
                      && r.value.1.passwordHash == Hash(h, bc, password).value
  {
    match ValidateRegistration(username, email, password, b)
    case Fail(m) => Err(InvalidArgument(m))
    case Pass =>
      if UsernameTaken(db, username, None) then Err(InvalidArgument("Username already exists"))
      else if EmailTaken(db, email, None) then Err(InvalidArgument("Email already exists"))
      else
        match Hash(h, bc, password)
        case Err(e) => Err(e)
        case Ok(digest) =>
          match Users.Create(username, email, digest, role, now, b)
          case Err(m) => Err(InvalidArgument(m))
          case Ok(u) =>
            var saved := SaveUser(db, u);
            Ok((saved.0, saved.1.value))
  }

  /** A registered user can log in with the password they registered with. */
  lemma RegisteredPasswordVerifies(db: Db, h: Hasher, bc: Bcrypt, username: string, email: string,
                                   password: string, role: Option<Role>, now: int, b: Builtins)
    requires BcryptSound(bc)
    requires RegisterUser(db, h, bc, username, email, password, role, now, b).Ok?
    ensures Verify(bc, password, RegisterUser(db, h, bc, username, email, password, role, now, b).value.1.passwordHash)
  {
  }

  /**
    * Registration with sound bcrypt at an accepted cost fails past the service's checks only
    * on the entity's username and email rules.
    */
  lemma RegisterUserOk(db: Db, h: Hasher, bc: Bcrypt, username: string, email: string, password: string,
                       role: Option<Role>, now: int, b: Builtins, other: int)
    requires Good(db) && BcryptSound(bc) && BcryptCost(h.cost)
    requires ValidateRegistration(username, email, password, b).Pass?
    requires !UsernameTaken(db, username, None) && !EmailTaken(db, email, None)
    requires GoodUsername(username) && |email| <= 100
    ensures RegisterUser(db, h, bc, username, email, password, role, now, b).Ok?
    ensures var (db', u) := RegisterUser(db, h, bc, username, email, password, role, now, b).value;
      Good(db') && FindUser(db', u.id) == Some(u) && !UserExists(db, u.id)
      && (other != u.id ==> FindUser(db', other) == FindUser(db, other))
  {
    var u := Users.Create(username, email, Hash(h, bc, password).value, role, now, b).value;
    SaveUserEffect(db, u, other);
  }

  // ---------------------------------------------------------------- profile

  /**
    * `updateUser($id, $username, $email)`: the user must exist; a given username, then a
    * given email, must not belong to another user; then the entity's `updateInfo` runs.
    */
  function UpdateUser(db: Db, id: int, username: Option<string>, email: Option<string>, now: int, b: Builtins)
    : (r: Result<(Db, User), string>)
    ensures !UserExists(db, id) ==> r == Err("User not found")
    ensures UserExists(db, id) && username.Some? && UsernameTaken(db, username.value, Some(id)) ==>
      r == Err("Username already exists")
    ensures (UserExists(db, id) && (username.None? || !UsernameTaken(db, username.value, Some(id)))
             && email.Some? && EmailTaken(db, email.value, Some(id))) ==> r == Err("Email already exists")
    ensures r.Ok? <==> UserExists(db, id)
                       && (username.None? || !UsernameTaken(db, username.value, Some(id)))
                       && (email.None? || !EmailTaken(db, email.value, Some(id)))
                       && UpdateInfo(FindUser(db, id).value, username, email, now, b).Done?
    ensures r.Ok? ==> r.value.1.username == username.GetOr(FindUser(db, id).value.username)
                      && r.value.1.email == email.GetOr(FindUser(db, id).value.email)
                      && r.value.1.updatedAt == now
  {
    match FindUser(db, id)
    case None => Err("User not found")
    case Some(u) =>
      if username.Some? && UsernameTaken(db, username.value, Some(id)) then Err("Username already exists")
      else if email.Some? && EmailTaken(db, email.value, Some(id)) then Err("Email already exists")
      else match UpdateInfo(u, username, email, now, b)
        case Threw(_, m) => Err(m)
        case Done(x) =>
          var saved := SaveUser(db, x);
          Ok((saved.0, saved.1.value))
  }

  /** A successful profile update leaves the names unique: no other user holds the new ones. */
  lemma UpdateUserKeepsNamesUnique(db: Db, id: int, username: Option<string>, email: Option<string>,
                                   now: int, b: Builtins, other: int)
    requires Good(db) && UpdateUser(db, id, username, email, now, b).Ok?
    requires other != id && UserExists(db, other)
    ensures var (db', u) := UpdateUser(db, id, username, email, now, b).value;
      && FindUser(db', id) == Some(u)
      && FindUser(db', other) == FindUser(db, other)
      && (username.Some? ==> FindUser(db', other).value.username != u.username)
      && (email.Some? ==> FindUser(db', other).value.email != u.email)
  {
    var prev := FindUser(db, id).value;
    var x := UpdateInfo(prev, username, email, now, b).value;
    SaveUserEffect(db, x, other);
    var o := FindUser(db, other).value;
    var k :| 0 <= k < |db.users| && db.users[k] == o;
  }

  /**
    * `changePassword($id, $current, $new)`: the user must exist and the current password
    * verify before the new one is checked; the new digest then replaces the old.
    */
  function ChangePassword(db: Db, h: Hasher, bc: Bcrypt, id: int, current: string, next: string, now: int)
    : (r: Result<(Db, User), Thrown>)
    ensures !UserExists(db, id) ==> r == Err(InvalidArgument("User not found"))
    ensures UserExists(db, id) && !Verify(bc, current, FindUser(db, id).value.passwordHash) ==>
      r == Err(InvalidArgument("Current password is incorrect"))
    ensures (UserExists(db, id) && Verify(bc, current, FindUser(db, id).value.passwordHash)
             && ValidatePassword(next).Fail?) ==> r == Err(InvalidArgument(ValidatePassword(next).error))
    ensures (UserExists(db, id) && Verify(bc, current, FindUser(db, id).value.passwordHash)
             && ValidatePassword(next).Pass? && !BcryptCost(h.cost)) ==> r.Err? && r.error.PhpError?
    ensures r.Ok? ==> UserExists(db, id) && Verify(bc, current, FindUser(db, id).value.passwordHash)
                      && ValidatePassword(next).Pass? && BcryptCost(h.cost)
    ensures r.Ok? ==> r.value.1.passwordHash == Hash(h, bc, next).value && r.value.1.updatedAt == now
    ensures r.Ok? && BcryptSound(bc) ==> Verify(bc, next, r.value.1.passwordHash)
  {
    match FindUser(db, id)
    case None => Err(InvalidArgument("User not found"))
    case Some(u) =>
      if !Verify(bc, current, u.passwordHash) then Err(InvalidArgument("Current password is incorrect"))
      else match ValidatePassword(next)
        case Fail(m) => Err(InvalidArgument(m))
        case Pass =>
          match Hash(h, bc, next)
          case Err(e) => Err(e)
          case Ok(digest) =>
            match UpdatePassword(u, digest, now)
            case Err(m) => Err(InvalidArgument(m))
            case Ok(x) =>
              var saved := SaveUser(db, x);
              Ok((saved.0, saved.1.value))
  }

  /**
    * With sound bcrypt at an accepted cost a verified current password and an acceptable
    * new one always succeed.
    */
  lemma ChangePasswordSucceeds(db: Db, h: Hasher, bc: Bcrypt, id: int, current: string, next: string, now: int)
    requires BcryptSound(bc) && BcryptCost(h.cost) && UserExists(db, id)
    requires Verify(bc, current, FindUser(db, id).value.passwordHash) && PasswordAcceptable(next)
    ensures ChangePassword(db, h, bc, id, current, next, now).Ok?
  {
  }

  /** `deleteUser($id)`. */
  function DeleteUserById(db: Db, id: int): (r: Result<Db, string>)
    ensures r.Err? <==> !UserExists(db, id)
    ensures r.Err? ==> r.error == "User not found"
    ensures r.Ok? ==> r.value.accommodations == db.accommodations && r.value.bookmarks == db.bookmarks
  {
    if !UserExists(db, id) then Err("User not found") else Ok(DeleteUser(db, id).0)
  }

  /** After a successful delete the user is gone and every other user is untouched. */
  lemma DeleteUserThenAbsent(db: Db, id: int, other: int)
    requires Good(db) && DeleteUserById(db, id).Ok?
    ensures Good(DeleteUserById(db, id).value) && !UserExists(DeleteUserById(db, id).value, id)
    ensures other != id ==> FindUser(DeleteUserById(db, id).value, other) == FindUser(db, other)
  {
    DeleteUserEffect(db, id, other);
  }

  // ---------------------------------------------------------------- bookmarks

  /** `getUserAccommodations($id)`: the bookmarked accommodations of an existing user. */
  function BookmarksOf(db: Db, id: int): (r: Result<seq<Accommodations.Accommodation>, string>)
    ensures r.Err? <==> !UserExists(db, id)
    ensures r.Err? ==> r.error == "User not found"
    ensures r.Ok? ==> forall i :: 0 <= i < |r.value| ==> r.value[i] in db.accommodations && (id, r.value[i].id) in db.bookmarks
    ensures r.Ok? ==> forall a :: a in db.accommodations && (id, a.id) in db.bookmarks ==> a in r.value
  {
    if !UserExists(db, id) then Err("User not found") else Ok(UserAccommodations(db, id))
  }

  /** `addAccommodationToUser`: user, accommodation, then the pair must be new. */
  function AddBookmarkFor(db: Db, userId: int, accommodationId: int): (r: Result<Db, string>)
    ensures !UserExists(db, userId) ==> r == Err("User not found")
    ensures UserExists(db, userId) && !AccommodationExists(db, accommodationId) ==> r == Err("Accommodation not found")
    ensures UserExists(db, userId) && AccommodationExists(db, accommodationId) && HasBookmark(db, userId, accommodationId)
            ==> r == Err("User already has this accommodation")
    ensures r.Ok? <==> UserExists(db, userId) && AccommodationExists(db, accommodationId)
                       && !HasBookmark(db, userId, accommodationId)
    ensures r.Ok? ==> r.value.bookmarks == db.bookmarks + {(userId, accommodationId)}
                      && r.value.users == db.users && r.value.accommodations == db.accommodations
  {
    if !UserExists(db, userId) then Err("User not found")
    else if !AccommodationExists(db, accommodationId) then Err("Accommodation not found")
    else if HasBookmark(db, userId, accommodationId) then Err("User already has this accommodation")
    else Ok(AddBookmark(db, userId, accommodationId).0)
  }

  /** `removeAccommodationFromUser`: user, accommodation, then the pair must be present. */
  function RemoveBookmarkFor(db: Db, userId: int, accommodationId: int): (r: Result<Db, string>)
    ensures !UserExists(db, userId) ==> r == Err("User not found")
    ensures UserExists(db, userId) && !AccommodationExists(db, accommodationId) ==> r == Err("Accommodation not found")
    ensures UserExists(db, userId) && AccommodationExists(db, accommodationId) && !HasBookmark(db, userId, accommodationId)
            ==> r == Err("User does not have this accommodation")
    ensures r.Ok? <==> UserExists(db, userId) && AccommodationExists(db, accommodationId)
                       && HasBookmark(db, userId, accommodationId)
    ensures r.Ok? ==> r.value.bookmarks == db.bookmarks - {(userId, accommodationId)}
                      && r.value.users == db.users && r.value.accommodations == db.accommodations
  {
    if !UserExists(db, userId) then Err("User not found")
    else if !AccommodationExists(db, accommodationId) then Err("Accommodation not found")
    else if !HasBookmark(db, userId, accommodationId) then Err("User does not have this accommodation")
    else Ok(RemoveBookmark(db, userId, accommodationId).0)
  }

  /** `userHasAccommodation`: both ends must exist; then the pair's membership. */
  function HasBookmarkFor(db: Db, userId: int, accommodationId: int): (r: Result<bool, string>)
    ensures !UserExists(db, userId) ==> r == Err("User not found")
    ensures UserExists(db, userId) && !AccommodationExists(db, accommodationId) ==> r == Err("Accommodation not found")
    ensures r.Ok? <==> UserExists(db, userId) && AccommodationExists(db, accommodationId)
    ensures r.Ok? ==> (r.value <==> (userId, accommodationId) in db.bookmarks)
  {
    if !UserExists(db, userId) then Err("User not found")
    else if !AccommodationExists(db, accommodationId) then Err("Accommodation not found")
    else Ok(HasBookmark(db, userId, accommodationId))
  }

  /** After an add the pair is reported present; after a remove, absent; and the two undo each other. */
  lemma BookmarkRoundTrip(db: Db, userId: int, accommodationId: int)
    requires AddBookmarkFor(db, userId, accommodationId).Ok?
    ensures HasBookmarkFor(AddBookmarkFor(db, userId, accommodationId).value, userId, accommodationId) == Ok(true)
    ensures AddBookmarkFor(AddBookmarkFor(db, userId, accommodationId).value, userId, accommodationId)
            == Err("User already has this accommodation")
    ensures RemoveBookmarkFor(AddBookmarkFor(db, userId, accommodationId).value, userId, accommodationId) == Ok(db)
  {
  }

  /** After a remove the pair is reported absent, and removing again is refused. */
  lemma RemoveThenAbsent(db: Db, userId: int, accommodationId: int)
    requires RemoveBookmarkFor(db, userId, accommodationId).Ok?
    ensures HasBookmarkFor(RemoveBookmarkFor(db, userId, accommodationId).value, userId, accommodationId) == Ok(false)
    ensures RemoveBookmarkFor(RemoveBookmarkFor(db, userId, accommodationId).value, userId, accommodationId)
            == Err("User does not have this accommodation")
  {
  }
}

=== FILE: wrappers.dfy ===
/** Failure-carrying datatypes shared by every module of the model. */
module Wrappers {

  /** A value that may be absent: PHP's `null`, JavaScript's `undefined`. */
  datatype Option<+T> = None | Some(value: T) {
    function GetOr(default: T): T {
      match this
      case Some(v) => v
      case None => default
    }
  }

  /** The outcome of a computation that either yields a value or fails. */
  datatype Result<+T, +E> = Ok(value: T) | Err(error: E)

  /** The outcome of a check: passes, or fails with a reason. */
  datatype Outcome<+E> = Pass | Fail(error: E)

  /**
    * What a PHP method that mutates its object in place leaves behind: either it
    * returned normally with the new state, or it threw after having already applied
    * some of its assignments (`state` is the object as the exception found it).
    */
  datatype Mutation<+T> = Done(value: T) | Threw(state: T, error: string)

  /**
    * What a PHP call that throws ends in: an `InvalidArgumentException`, any other
    * `Exception`, or an `Error` such as a `ValueError`, which no `catch (Exception)`
    * intercepts.
    */
  datatype Thrown = InvalidArgument(message: string) | OtherException(message: string) | PhpError(message: string)

  /** `foreach ($xs as $x) { $out[] = f($x); }` where `f` may throw: the first failure wins. */
  function MapAll<A, B, E(==)>(xs: seq<A>, f: A -> Result<B, E>): (r: Result<seq<B>, E>)
    ensures r.Ok? <==> forall i :: 0 <= i < |xs| ==> f(xs[i]).Ok?
    ensures r.Ok? ==> |r.value| == |xs| && forall i :: 0 <= i < |xs| ==> r.value[i] == f(xs[i]).value
    ensures r.Err? ==> exists i :: 0 <= i < |xs| && f(xs[i]).Err? && f(xs[i]).error == r.error && forall j :: 0 <= j < i ==> f(xs[j]).Ok?
  {
    if xs == [] then Ok([])
    else match f(xs[0])
      case Err(e) => Err(e)
      case Ok(y) =>
        match MapAll(xs[1..], f)
        case Err(e) =>
          var k :| 0 <= k < |xs[1..]| && f(xs[1..][k]).Err? && f(xs[1..][k]).error == e && forall j :: 0 <= j < k ==> f(xs[1..][j]).Ok?;
          assert xs[k + 1] == xs[1..][k];
          assert forall j :: 1 <= j < k + 1 ==> xs[j] == xs[1..][j - 1];
          Err(e)
        case Ok(rest) =>
          assert forall i :: 1 <= i < |xs| ==> xs[i] == xs[1..][i - 1];
          Ok([y] + rest)
  }

  /** A non-empty sequence is its first element followed by the rest. */
  lemma Uncons<T>(xs: seq<T>)
    requires xs != []
    ensures [xs[0]] + xs[1..] == xs
  {
  }
}
